=== FILE: README.md ===
# piju-server core, modelled in Dafny

piju-server is a music server for a Raspberry Pi. It scans a directory of
MP3 and M4A files into an SQLite catalog of tracks, albums, genres,
artwork, playlists and radio stations, and serves that catalog over a JSON
HTTP API. The same API drives two players: a file player with a queue, and
a stream player for internet radio. This project models the core of the
server as pure Dafny functions over immutable values, and proves what the
code promises about them:

- the catalog and its relationships (`schema.dfy`, `table.dfy`);
- the database operations: get-or-create, lookups, paging, deletion and
  search (`database.dfy`, `search.dfy`);
- tidying the catalog (`tidy.dfy`);
- the scanners and the cross-referencing of a scanned file
  (`scancommon.dfy`, `mp3.dfy`, `m4a.dfy`, `directory.dfy`);
- the file player and the mpg123-driven music player (`fileplayer.dfy`,
  `musicplayer.dfy`);
- the download history (`downloadhistory.dfy`);
- the JSON request readers and response writers (`json.dfy`,
  `deserialize.dfy`, `serialize.dfy`, `trackorder.dfy`);
- the player control logic and the request handlers that use it
  (`playerctrl.dfy`, `routes.dfy`).

Each source file has one Dafny module. `common.dfy` holds what they share:
`Option` and `Result`, Python's string operations (`split`, `strip`,
`lower`, `int()`, slicing), and the error values. A Python exception, or an
HTTP `abort`, becomes an `Err` carrying the exception class or the status.
A request handler returns an `Outcome`: the application state it reached
and the failure, if any. State changed before an exception is therefore
kept, as it is in the running server. The older single-file server in
`pijuv2/backend/__main__.py` repeats `extract_id`, `extract_ids`,
`parse_bool`, `normalize_punctuation` and the checks of the play and
reorder handlers. Those copies agree with the ones modelled here.

The file system, the clock, audio decoding and URL building are outside
the model. They appear as function parameters: `isFile` for
`os.path.isfile`, `starts` for whether mpg123 starts a file, `url` for
Flask's `url_for`, `hash` for the artwork blob hash, `normalize` for
`normalize_filepath`, `parseDate` for `dateutil`.

## Model

| member | source | states |
|---|---|---|
| Common.NatStrRoundTrip | pijuv2/backend/routes.py:602-606 | Reading back the decimal digits of a natural number gives the number. The query-string and id readers rely on this. |
| Common.SplitJoin | pijuv2/scan/common.py:24-34 | Joining the pieces of `str.split(sep)` with `sep` restores the string. |
| Common.JoinSplit | pijuv2/scan/common.py:24-34 | Splitting a join of separator-free pieces gives back the pieces. |
| Common.WordsOccur | pijuv2/backend/routes.py:580 | Every word of `str.split()` occurs in the string it came from. |
| Common.PyIndex | pijuv2/player/fileplayer.py:144-153 | Python indexing: a negative index counts from the end, and IndexError exactly outside `-len..len-1`. |
| Table.NextId | pijuv2/database/database.py:82-97 | A row inserted without a key gets one more than the largest key in use (1 in an empty table). The new key is fresh. |
| Table.Select | pijuv2/database/database.py:297-301 | A query returns exactly the keys of the rows matching the predicate, in increasing key order. |
| Table.SelectRangeSplit | pijuv2/database/database.py:340-364 | Adjacent key windows compose: the query over `[lo, hi)` is the query over `[lo, mid)` followed by `[mid, hi)`. |
| Schema.AlbumTracks | pijuv2/database/schema.py:56 | Album.Tracks is exactly the set of tracks whose Album column holds the album's id, in the rowid order the model assumes for the unordered load. It is empty exactly when no track refers to the album. |
| Schema.ArtworkTracks | pijuv2/database/schema.py:118 | Artwork.Tracks is exactly the set of tracks whose Artwork column holds the artwork's id. |
| Schema.GenreAlbums | pijuv2/database/schema.py:37-39 | Genre.Albums is exactly the albums whose genre list holds the genre. |
| Schema.GenrePlaylists | pijuv2/database/schema.py:40-42 | Genre.Playlists is exactly the playlists whose genre list holds the genre. |
| Schema.AlbumGenreSymmetric | pijuv2/database/schema.py:57-59 | `back_populates`: a genre is in an album's Genres exactly when the album is in the genre's Albums. It holds by construction, since the genre side is derived from the album rows. |
| Schema.PlaylistGenreSymmetric | pijuv2/database/schema.py:69-71 | The same two-sided view for playlists and genres, also by construction. |
| Schema.AlbumTracksDisjoint | pijuv2/database/schema.py:104 | A track belongs to at most one album, because it has a single Album column. |
| Schema.OrderedEntries | pijuv2/database/schema.py:67-68 | Playlist.Entries are sorted by PlaylistIndex and are a permutation of the stored entries. |
| Schema.DeleteTrackRow | pijuv2/database/schema.py:123-128 | Deleting a track removes exactly that track. Its artwork goes too exactly when the deleted track showed it and no remaining track does. No other row changes. |
| Schema.DeleteAlbumRow | pijuv2/database/schema.py:56 | Deleting an album keeps every track but sets Album to NULL on the album's tracks. Nothing else changes. |
| Schema.DeleteArtworkRow | pijuv2/database/schema.py:118 | The "all, delete" cascade: deleting an artwork deletes exactly the tracks showing it. |
| Schema.DeleteGenreRow | pijuv2/database/schema.py:12-19 | Deleting a genre removes it from every album's and playlist's association. Tracks keep their Genre column. |
| Schema.DeleteOnlyTrackDeletesArtwork | pijuv2/database/schema.py:123-128 | With one artwork and the one track showing it, deleting the track leaves no artwork. |
| Database.GetById | pijuv2/database/database.py:395-406 | The row for a stored id, and NotFound for any other id. |
| Database.AlbumRefKey | pijuv2/database/database.py:148-149 | A compilation is looked up and stored without an artist. Any other reference is used as given. |
| Database.LargerOf | pijuv2/database/database.py:162-169 | The stored VolumeCount or ReleaseYear is replaced when it is missing or the incoming value is larger, so the result bounds both. |
| Database.MergeAlbum | pijuv2/database/database.py:161-172 | A matched album changes only its VolumeCount and ReleaseYear, each to the larger value. |
| Database.EnsureAlbum | pijuv2/database/database.py:143-172 | With no match the reference is inserted. With one match that row is merged and returned. With two matches the result is MultipleResults. No other table changes. |
| Database.EnsureAlbumKeepsKeysUnique | pijuv2/database/database.py:150-159 | When album keys are unique, ensuring an album keeps them unique. It adds a row exactly when nothing matched. |
| Database.EnsureAlbumIdempotent | pijuv2/database/database.py:154-172 | Ensuring the same reference twice returns the same id and adds no row the second time. |
| Database.CompilationsShareOneAlbum | pijuv2/database/database.py:148-159 | Two compilations with one title share one row, whatever artist each names. A single-artist album of that title gets its own row. Repeating either adds nothing. |
| Database.EnsureGenre | pijuv2/database/database.py:215-227 | Get-or-create by name. An unknown name is inserted, one stored genre with the name is returned unchanged, and two are MultipleResults. |
| Database.EnsureGenreGetOrCreate | pijuv2/database/database.py:219-227 | When names are unique, exactly one genre has the name afterwards, and a second call returns the same catalog and id. |
| Database.FirstSameBlob | pijuv2/database/database.py:188-196 | The first candidate whose image bytes equal the reference's, or none when no candidate's do. |
| Database.Resize | pijuv2/database/database.py:199-207 | An artwork hit takes only the reference's width and height. |
| Database.EnsureArtwork | pijuv2/database/database.py:174-213 | The lookup is by path when a path is given and by blob hash and bytes otherwise. A hit is resized and a miss inserted. It fails exactly when there is neither a path nor a blob, or two rows share the path. |
| Database.EnsureArtworkKeepsInvariants | pijuv2/database/database.py:182-213 | Every stored artwork keeps a path or an image, and paths stay unique. |
| Database.ResolveGenre | pijuv2/database/database.py:234-235 | A genre name on a track becomes the id of the ensured genre. Nothing else on the track changes. |
| Database.EnsureTrackCommitted | pijuv2/database/database.py:233-260 | On success, EnsureTrack's catalog. On failure, only the genres may differ: the genre created for a genre name is kept, and no stored genre changes. |
| Database.EnsureTrack | pijuv2/database/database.py:229-281 | An edit overwrites the stored row under its own id. An unsaved reference reuses the row with the same nine key columns, or is inserted when none has them. Two such rows is an error. |
| Database.SameKeyCollapses | pijuv2/database/database.py:236-279 | Two files whose tracks agree on the key columns collapse into one row, which keeps the later file's path. |
| Database.GetTrackByFilepath | pijuv2/database/database.py:432-440 | The track whose path equals the given one ignoring case, None when there is none, and MultipleResults only when paths are not unique. |
| Database.Window | pijuv2/database/database.py:355 | Exactly the track ids in `[start, start+limit)`, in increasing order. |
| Database.GetAllTracksPaged | pijuv2/database/database.py:340-364 | The page holds the tracks of the window in id order. It is None exactly when every track id lies below `start`. |
| Database.PagedAsWrittenDiffersOnlyWhenEmpty | pijuv2/database/database.py:355-364 | The code as written agrees with the documented pager on every non-empty table, and raises on the empty one. |
| Database.PagedEmptyLibraryRaises | pijuv2/database/database.py:355-364 | The first page of an empty library: TypeError as written, None as documented. |
| Database.GetAlbumsWithoutTracks | pijuv2/database/database.py:297-301 | Exactly the albums no track refers to, in id order. |
| Database.DeleteTrack | pijuv2/database/database.py:138-141 | An unknown id is NotFound. Otherwise the track is deleted with the artwork clean-up. |
| Database.DeleteAlbum | pijuv2/database/database.py:123-126 | An unknown id is NotFound. Otherwise the album is deleted and its tracks lose their album. |
| Database.DeletePlaylist | pijuv2/database/database.py:128-131 | An unknown id is NotFound. Otherwise only that playlist row goes. |
| Database.DeleteRadioStation | pijuv2/database/database.py:133-136 | An unknown id is NotFound. Otherwise only that station goes. |
| Database.DeleteArtwork | pijuv2/database/tidy.py:36 | An unknown id is NotFound. Otherwise the artwork is deleted with its cascade. |
| Database.DeleteGenre | pijuv2/database/tidy.py:43 | An unknown id is NotFound. Otherwise the genre is deleted with its associations. |
| TrackSearch.Candidates | pijuv2/database/database.py:483-490 | Every candidate is a stored track matching every word, where a '%' or '_' in a word is a LIKE wildcard. Without a query limit, every matching track is a candidate. Candidates are in id order. |
| TrackSearch.LikeContains | pijuv2/database/database.py:485-488 | For a word without '%' or '_', the pattern `%word%` matches exactly the texts that contain the word. |
| TrackSearch.ILikeLiteral | pijuv2/database/database.py:485-488 | A word without wildcards matches a column exactly when the lower-cased column contains the lower-cased word. NULL never matches. |
| TrackSearch.ILikeWildcards | pijuv2/database/database.py:485-488 | The word 'a_c' matches the title "abc", which does not contain it, and the word '%' matches every title. |
| TrackSearch.WordScoreSpec | pijuv2/database/database.py:498-508 | Per word: 4 for a whole word of the title, 3 for a substring of it, 1 for a substring of the artist. It fails only when the artist test is reached on a track without an artist. |
| TrackSearch.ScoreWordsSpec | pijuv2/database/database.py:494-509 | A title scores between one and four points per word. It fails exactly when a word misses the title on a track without an artist. It scores the maximum exactly when every word is a whole word of the title. |
| TrackSearch.ScoreTrack | pijuv2/database/database.py:494-497 | A track without a title raises AttributeError. Otherwise it scores its title and artist. |
| TrackSearch.InsertAllRanked | pijuv2/database/database.py:510-511 | Inserting tracks that arrive in id order keeps the list ordered by score descending, then id. |
| TrackSearch.RankAllRanked | pijuv2/database/database.py:510-511 | The stable descending sort of tracks listed in id order: ranked by score, ties by id, and a permutation of its input. |
| TrackSearch.ScoreAllFails | pijuv2/database/database.py:510 | Scoring the candidates fails exactly when one of them fails. |
| TrackSearch.RankingSpec | pijuv2/database/database.py:510-512 | The ranking holds every candidate once with its own score, ordered by score descending and then by id. |
| TrackSearch.SearchForTracks | pijuv2/database/database.py:478-512 | The result lists only matching stored tracks. It fails exactly when a candidate has no title, or misses the title and has no artist. A result is the ranked candidates cut to `return_limit`. |
| TrackSearch.SearchBestFirst | pijuv2/database/database.py:510-512 | The result holds `return_limit` candidates, or all of them when there are fewer. They come best score first, ties by id, and no candidate left out scores above one that was kept. |
| Tidy.CollectMissing | pijuv2/database/tidy.py:7-17 | The walk over pages of 100 ids finds exactly the tracks whose file is missing, in id order. A track without a path makes it fail. |
| Tidy.ScanPage | pijuv2/database/tidy.py:13-16 | One page extends the walk's result to the end of the window. |
| Tidy.WindowGaps | pijuv2/database/tidy.py:11-17 | No track lies between the ids a window returns, so the walk skips none. |
| Tidy.NextStartBelowBound | pijuv2/database/tidy.py:11 | While the pager still returns a page, `start` is below the table's bound, so the walk ends. |
| Tidy.DeleteTracks | pijuv2/database/tidy.py:18-20 | Deleting the listed tracks one by one removes exactly them and keeps every artwork a remaining track shows. |
| Tidy.DeleteMissingTracks | pijuv2/database/tidy.py:7-20 | Exactly the tracks whose file is missing are deleted. The rest keep their ids and rows, and an artwork goes only when no remaining track shows it. |
| Tidy.DeleteAlbumsWithoutTracks | pijuv2/database/tidy.py:23-29 | Exactly the albums without tracks are deleted. Every other row is unchanged. |
| Tidy.DeleteEmptyAlbum | pijuv2/database/tidy.py:27-29 | Deleting an album no track refers to removes its row and nothing else. |
| Tidy.DeleteSelectedArtwork | pijuv2/database/tidy.py:32-36 | Exactly the selected artwork is deleted, with the tracks showing it. |
| Tidy.UnusedArtworkKeepsTracks | pijuv2/database/tidy.py:32-36 | When the selection holds only artwork without tracks, no track is deleted. |
| Tidy.DeleteSelectedGenres | pijuv2/database/tidy.py:39-43 | Exactly the selected genres are deleted and removed from every album and every playlist. Other genre links stay. Apart from their genre lists, the remaining album, playlist and genre rows are unchanged, and so are tracks, artwork and stations. |
| Tidy.DeleteGenresInTurn | pijuv2/database/tidy.py:41-43 | Deleting distinct present genres one by one succeeds. The result has exactly those genres removed from the table, from every album and from every playlist, with every other field of the remaining rows unchanged. |
| Directory.LinkArtwork | pijuv2/scan/directory.py:18-19 | No reference gives no artwork. A reference gives a stored artwork, or fails exactly when `ensure_artwork_exists` does. |
| Directory.LinkTrack | pijuv2/scan/directory.py:15-20 | The track is stored under its own id (when edited) and points at the ensured album and artwork. Every other track is unchanged. The album it had before is recorded. |
| Directory.LookupGenres | pijuv2/scan/directory.py:31-32 | The distinct truthy genre ids. An id that is not a stored genre is NotFound. |
| Directory.RecomputeAlbumGenres | pijuv2/scan/directory.py:30-33 | For an edit, the album's Genres becomes exactly the distinct truthy genre ids of its tracks. |
| Directory.AlbumGenreRefs | pijuv2/scan/directory.py:31 | A genre id is collected exactly when some track of the album has it. |
| Directory.AddTrackGenre | pijuv2/scan/directory.py:38-41 | For a new track, its genre is appended to the album's Genres unless already there. A list without duplicates keeps none. |
| Directory.SetCrossRefs | pijuv2/scan/directory.py:11-41 | The corrected `set_cross_refs` (the previous album is read before the update; see the second Findings row). The track points at an album matching the album reference, and at an artwork exactly when one was given. An edit keeps the set of track ids. |
| Directory.FinishKeepsTrack | pijuv2/scan/directory.py:30-41 | The genre and clean-up half leaves the track, its album and the set of tracks unchanged. |
| Directory.LinkMovesOnlyTrack | pijuv2/scan/directory.py:15-22 | Editing the only track of album p so that it matches another album moves it there, and records p as the album before. |
| Directory.AsWrittenNeverDeletesAlbums | pijuv2/scan/directory.py:34-37 | As written, the empty-album clean-up never deletes an album. |
| Directory.AsWrittenLeavesEmptyAlbum | pijuv2/scan/directory.py:34-37 | As written, moving an album's only track leaves that album behind with no tracks. |
| Directory.CorrectedDeletesEmptyAlbum | pijuv2/scan/directory.py:34-37 | With the previous album read before the update, the emptied album is deleted. |
| Directory.ScanFile | pijuv2/scan/directory.py:51-57 | One file, filed with the corrected SetCrossRefs. The existing row is looked up by normalised path first. A file the scanner does not recognise leaves the catalog alone, and a re-scan edits in place. |
| Directory.RescanKeepsTracks | pijuv2/scan/directory.py:51-57 | Scanning a file whose path is already stored keeps the set of track ids. |
| Directory.ScanAllStops | pijuv2/scan/directory.py:57 | A failure ends the scan: later files do not change the outcome. |
| Directory.Processed | pijuv2/scan/directory.py:58-60 | All files without a limit. With one, the scan stops once the count reaches it, checked after each file, so at least one file is visited. |
| Directory.Jobs | pijuv2/scan/directory.py:48-50 | The mp3 files come first, then the m4a files, each with its own scanner. |
| Directory.ScanDirectory | pijuv2/scan/directory.py:44-60 | The result is that of scanning exactly the first `Processed` files in order, and `count` of them are visited. A failure ends the scan: the files before the failing one all scanned cleanly. |
| Directory.ScanDirectoryCommitted | pijuv2/scan/directory.py:44-60 | What the scan leaves committed. On success it is the scanned catalog with no error. On failure it carries the same error as the scan, and its catalog is the catalog of the files before the failing one plus whatever that file's `set_cross_refs` stored before raising. |
| Directory.FinishCommitted | pijuv2/scan/directory.py:30-41 | The second half succeeds exactly when Finish does and then gives Finish's catalog. When it raises, the linked catalog stays, already holding the edited track, with at most the album's genres recomputed. |
| Directory.LinkCommitted | pijuv2/scan/directory.py:15-20 | The first half's catalog on success. When a later call raises, the ensured album and artwork stay, and so does a genre ensure_track_exists created. No stored track, artwork or genre is lost. |
| Directory.SetCrossRefsCommitted | pijuv2/scan/directory.py:11-41 | Fails exactly when SetCrossRefs does, with its error, and otherwise gives its catalog. Even on failure, an ensured album matching the reference and a genre named by the track remain, and no stored track, artwork or genre is lost. |
| Directory.ScanFileCommitted | pijuv2/scan/directory.py:51-57 | Agrees with ScanFile on success and on the error. A failing lookup or scanner leaves the catalog as it was, and a failing `set_cross_refs` keeps what it stored. |
| Directory.ScanPrefix | pijuv2/scan/directory.py:50-60 | The loop applies the step to the first n files, stopping at the first failure, whose predecessors all succeeded. |
| ScanCommon.DateAndTime | pijuv2/scan/common.py:17-22 | The date and the time are split at the first 'T', else the first space, else there is no time. |
| ScanCommon.FieldValues | pijuv2/scan/common.py:24-34 | Up to three fields, missing or empty ones taking the default. More than three fields, or a field that is not digits, is ValueError. |
| ScanCommon.MakeDateTime | pijuv2/scan/common.py:56-57 | `datetime(...)` accepts exactly the valid calendar dates and clock times. |
| ScanCommon.ParseDateTime | pijuv2/scan/common.py:13-57 | Every result is a valid date and time. Too many fields, a non-digit field, or a time without digits is ValueError. |
| ScanCommon.ParseWritten | pijuv2/scan/common.py:13-57 | Writing a valid date and time as `Y-M-DTh:m:s` and parsing it gives it back. |
| ScanCommon.ParseYear | pijuv2/scan/common.py:28-34 | A year alone is the first of January at midnight. |
| ScanCommon.ParseYearMonth | pijuv2/scan/common.py:24-34 | A year and a month are the first of that month at midnight. |
| ScanCommon.ZoneIgnored | pijuv2/scan/common.py:38-43 | A zone offset or trailing letters do not change the parsed time. |
| ScanCommon.TooManyDateFields | pijuv2/scan/common.py:30-31 | More than three dash-separated date fields is ValueError. |
| ScanCommon.TrimNonDigits | pijuv2/scan/common.py:42-43 | The longest prefix ending in a digit; everything cut is a non-digit. |
| ScanCommon.FindCoverartFile | pijuv2/scan/common.py:60-66 | cover.jpg beside the music file if it is a file, else cover.png, else nothing. A result is always an existing file. |
| ScanCommon.FirstTruthy | pijuv2/scan/mp3.py:18-24 | The value of the first key, in list order, whose value is truthy, or None when there is none. |
| ScanCommon.FirstOfTwo | pijuv2/scan/mp3.py:18-24 | With two keys, the first truthy one wins. |
| Mp3Scan.TagValue | pijuv2/scan/mp3.py:18-24 | The frame of the first key present, or None when no key is present. |
| Mp3Scan.FirstText | pijuv2/scan/mp3.py:30-32 | The first string of that frame, and None when the frame is absent or has no strings. |
| Mp3Scan.MOfN | pijuv2/scan/mp3.py:38-49 | 'm/n' gives both numbers and 'm' the first only. Only the first '/' splits, and any part `int()` rejects gives neither. A count never comes without a number. |
| Mp3Scan.MOfNTag | pijuv2/scan/mp3.py:34-49 | An absent frame gives neither number. A frame without strings raises IndexError. |
| Mp3Scan.MOfNWritten | pijuv2/scan/mp3.py:40-44 | Two numbers written around a '/' read back as both. |
| Mp3Scan.MOfNAlone | pijuv2/scan/mp3.py:45-47 | A number alone is the number with no count. |
| Mp3Scan.MOfNSecondSlash | pijuv2/scan/mp3.py:41-43 | A second '/' stays in the count, which `int()` rejects, so neither number is read. |
| Mp3Scan.FirstParsed | pijuv2/scan/mp3.py:54-59 | The first time stamp that parses, trying each in order. |
| Mp3Scan.DateTag | pijuv2/scan/mp3.py:51-60 | No frame gives no date. Otherwise the first of its time stamps that parses is the date. |
| Mp3Scan.OrElse | pijuv2/scan/mp3.py:80-81 | Python's `a or b` on two optional strings. |
| Mp3Scan.ArtworkSource | pijuv2/scan/mp3.py:66-67 | The cover file beside the music file wins. The embedded image is used only without one. |
| Mp3Scan.ScanMp3 | pijuv2/scan/mp3.py:15-93 | The track and album fields come from the ID3 frames named in the source. A file without a tag raises AttributeError. A TPOS or TRCK frame without strings raises IndexError. |
| Mp3Scan.ScanMp3AsWritten | pijuv2/scan/mp3.py:69-85 | As written, every tagged file that reads cleanly raises TypeError in the Track constructor. |
| Mp3Scan.ScanMp3AsWrittenRejectsTaggedFile | pijuv2/scan/mp3.py:69-85 | A tagged file with no frames: the corrected scanner yields an untitled track, and the scanner as written raises. |
| Mp3Scan.ArtistPriority | pijuv2/scan/mp3.py:74-89 | The track artist prefers TPE1 over TPE2, and the album artist prefers TPE2 over TPE1. |
| Mp3Scan.TrackIdSource | pijuv2/scan/mp3.py:80-81 | The MusicBrainz track id comes from the UFID frame when it holds text, else from the TXXX frame. |
| M4aScan.TextTag | pijuv2/scan/m4a.py:20-30 | The first value of the first atom, in key order, that has any. |
| M4aScan.PairTag | pijuv2/scan/m4a.py:32-36 | The first pair of the atom, or neither number when the atom is absent or empty. |
| M4aScan.ImageTag | pijuv2/scan/m4a.py:43-45 | The first image of the atom, if any. |
| M4aScan.DateTag | pijuv2/scan/m4a.py:38-41 | An absent or empty '©day' gives no date. A malformed one raises ValueError. |
| M4aScan.ScanM4a | pijuv2/scan/m4a.py:13-78 | A file without tags, or with an empty tag, yields nothing. A tagged file yields a track, and fails exactly when its date is malformed. |
| M4aScan.OtherAtomsOnlyScanned | pijuv2/scan/m4a.py:16-18 | A tag holding only atoms the scanner does not read is still truthy, so the file becomes a track without title, artist or album title. |
| M4aScan.ScanM4aFields | pijuv2/scan/m4a.py:51-74 | The track and album fields come from the atoms. The album is no compilation, and its release year is the track date's year. |
| M4aScan.CoverFileFirst | pijuv2/scan/m4a.py:47-49 | The embedded 'covr' image is used only when there is no cover file. |
| M4aScan.AlbumArtistPriority | pijuv2/scan/m4a.py:68 | The album artist is 'aART' when that atom has a value, else '©ART'. |
| FilePlayback.CurrentTrack | pijuv2/player/fileplayer.py:32-34 | None when idle, else the playing entry. It never fails while the index is inside the queue. |
| FilePlayback.VisibleQueue | pijuv2/player/fileplayer.py:40-42 | Nothing when idle. Otherwise the entries from the playing one on, headed by the current track. |
| FilePlayback.MaximumTrackIndex | pijuv2/player/fileplayer.py:36-38 | The queue length, None for an empty queue, and always above the playing index. |
| FilePlayback.Stop | pijuv2/player/fileplayer.py:198-203 | Idle and stopped with the identifier cleared. The queue stays. |
| FilePlayback.ClearQueue | pijuv2/player/fileplayer.py:84-86 | Stopped, with an empty queue. |
| FilePlayback.FirstStarting | pijuv2/player/fileplayer.py:154-159 | The first position from `i` on whose file starts, or none when no file from there on starts. |
| FilePlayback.Start | pijuv2/player/fileplayer.py:154-162 | Plays the first entry from `i` on that starts and reports True, or stops and reports False. |
| FilePlayback.Locate | pijuv2/player/fileplayer.py:144-153 | The track id at `index`, else at `index - 1`, else at `index + 1`. The result is None when it is at none of them. |
| FilePlayback.PlayFromRealIndex | pijuv2/player/fileplayer.py:134-162 | A track id not found beside the index gives False and no change. Otherwise playback starts from the located position, and the queue never changes. |
| FilePlayback.PlayFromApparentIndex | pijuv2/player/fileplayer.py:124-132 | The index counts from the playing entry. |
| FilePlayback.SetQueue | pijuv2/player/fileplayer.py:88-94 | The tracks in order, the index at 0 and the identifier recorded. Playback is not started. |
| FilePlayback.EmptySetQueueBreaksCurrentTrack | pijuv2/player/fileplayer.py:88-94 | After an empty `set_queue`, reading the current track raises IndexError. |
| FilePlayback.NewPlayer | pijuv2/player/fileplayer.py:23-30 | A new player is idle, stopped, at full volume, with its index inside the queue. |
| FilePlayback.AddToQueue | pijuv2/player/fileplayer.py:96-101 | Appends one entry and names the queue. An idle player starts from the head. |
| FilePlayback.RemoveFromQueue | pijuv2/player/fileplayer.py:103-122 | The entry at the relative index is removed, and True returned, exactly when it carries the track id. Removing the playing entry plays on from the same position. |
| FilePlayback.RemoveKeepsValid | pijuv2/player/fileplayer.py:111-121 | Removing an entry at or after the playing one keeps the index inside the queue. |
| FilePlayback.Next | pijuv2/player/fileplayer.py:164-173 | Idle stays idle. Otherwise the next entry that starts plays, and past the last entry the queue is cleared. |
| FilePlayback.OnMusicEnd | pijuv2/player/fileplayer.py:206-209 | The end of a song moves on as `next` does. |
| FilePlayback.Prev | pijuv2/player/fileplayer.py:175-178 | Plays from the entry before the playing one, or from the first. An idle player raises TypeError. |
| FilePlayback.StartPlaysAStartingFile | pijuv2/player/fileplayer.py:154-159 | A player that reports playing plays an entry whose file started. |
| FilePlayback.SanityCheckFails | pijuv2/player/fileplayer.py:146-153 | When the track id is at none of the three positions, nothing changes and False is returned. |
| FilePlayback.SanityCheckPrefersEarlier | pijuv2/player/fileplayer.py:147-150 | A track id one step back wins over one a step forward. |
| FilePlayback.OperationsKeepValid | pijuv2/player/fileplayer.py:93 | Every operation except `set_queue` keeps the index inside the queue. |
| MusicPlayback.EntryOf | pijuv2/player/player.py:13-19 | A track contributes its path and a string itself. Anything else is rejected. |
| MusicPlayback.SetQueue | pijuv2/player/player.py:11-20 | The queue holds each item's entry in order, with the index at 0. Any other item fails the assertion. |
| MusicPlayback.PlayFromQueueIndex | pijuv2/player/player.py:22-25 | An index outside the queue fails the assertion. Otherwise the song is loaded and playing, and the index moves to it. |
| MusicPlayback.Stop | pijuv2/player/mpyg321.py:297-303 | The STOP command is sent, and the status waits for mpg123 to confirm. |
| MusicPlayback.Next | pijuv2/player/player.py:27-32 | The following song, or a stop after the last one. |
| MusicPlayback.Prev | pijuv2/player/player.py:34-36 | The song before the current one, or the first one again. An empty queue fails the assertion. |
| MusicPlayback.Pause | pijuv2/player/mpyg321.py:285-289 | Only a playing player pauses, and it is sent the toggle. |
| MusicPlayback.Resume | pijuv2/player/mpyg321.py:291-295 | Only a paused player is sent the toggle. Its status changes when mpg123 reports it. |
| MusicPlayback.PlayPause | pijuv2/player/player.py:43-47 | Pauses a playing player and otherwise resumes. A command is sent exactly when it was playing or paused. |
| MusicPlayback.OnMusicEnd | pijuv2/player/player.py:50-52 | The end of a song moves on as `next` does. |
| MusicPlayback.MovesKeepValid | pijuv2/player/player.py:20 | The index stays that of a queued song across every move. |
| MusicPlayback.NextThenPrev | pijuv2/player/player.py:27-36 | On a queue of paths, `next` then `prev` returns to the same song, playing. |
| Downloads.NewHistory | pijuv2/backend/downloadhistory.py:2-5 | A new history has no entries and no file information. |
| Downloads.RemoveFirstIsWithout | pijuv2/backend/downloadhistory.py:8-10 | Without repeats, removing the first occurrence removes every occurrence. |
| Downloads.Add | pijuv2/backend/downloadhistory.py:7-12 | The URL is at the front, the list is within the cap, and the file information is untouched. |
| Downloads.AddSpec | pijuv2/backend/downloadhistory.py:7-12 | Afterwards the list is the URL, then the previous entries other than the URL in order, cut to the cap. |
| Downloads.AddKeepsValid | pijuv2/backend/downloadhistory.py:8-12 | The entries stay distinct and within the cap. |
| Downloads.SetInfo | pijuv2/backend/downloadhistory.py:14-15 | Records the files of one URL. Other URLs and the entries are unchanged. |
| Downloads.GetInfo | pijuv2/backend/downloadhistory.py:17-18 | The recorded files, or None when there are none. |
| Downloads.InfoRoundTrip | pijuv2/backend/downloadhistory.py:14-18 | `get_info` returns what `set_info` stored, through any `add`, and other URLs are unaffected. |
| Deserialize.ExtractId | pijuv2/backend/deserialize.py:78-97 | An int, or a bool, is kept. A string is read from the text after its last '/' when that is all digits. Anything else is None. |
| Deserialize.ExtractIdOfDigits | pijuv2/backend/deserialize.py:95-96 | An id written as digits reads as the number. |
| Deserialize.ExtractIdDigits | pijuv2/backend/deserialize.py:92-96 | Digits at the end of a URI read as the number. |
| Deserialize.ExtractIdRoundTrip | pijuv2/backend/deserialize.py:92-97 | `str(n)`, alone or at the end of a URI, reads back as `n`. |
| Deserialize.ExtractIdRejects | pijuv2/backend/deserialize.py:92-97 | A last segment that is not all digits, or the empty string, is no id. |
| Deserialize.ExtractIds | pijuv2/backend/deserialize.py:100-105 | `extract_id` of each element, in order. |
| Deserialize.ExtractIdsMixed | pijuv2/backend/deserialize.py:100-105 | URIs, digit strings and ints in one list are read in order. |
| Deserialize.ParseBoolCases | pijuv2/backend/__main__.py:173-190 | `parse_bool` ignores case: 'y', 'yes' and 'true' are true, and everything else is false. |
| Deserialize.ResolveWithSpec | pijuv2/backend/deserialize.py:31-38 | A path that is not a string, or whose lookup fails, fails the request. Each missing path was given and names no track. |
| Deserialize.ResolveWithAppend | pijuv2/backend/deserialize.py:31-38 | Paths resolve in input order. |
| Deserialize.ResolveFiles | pijuv2/backend/deserialize.py:31-38 | Each path is either a stored track or a missing file. |
| Deserialize.ResolveIds | pijuv2/backend/deserialize.py:41-46 | Every id must name a stored track, else 404. The tracks keep the given order. |
| Deserialize.TrackGenreIds | pijuv2/backend/deserialize.py:52-54 | The distinct genre ids of the tracks. |
| Deserialize.PlaylistGenres | pijuv2/backend/deserialize.py:52-54 | Every genre must be stored, else NotFound. |
| Deserialize.Entries | pijuv2/backend/deserialize.py:49-51 | Entries are numbered 0, 1, … in track order. |
| Deserialize.ResolveRequest | pijuv2/backend/deserialize.py:28-46 | Files are resolved when given, a list item by item or a string character by character, and ids otherwise. A value that cannot be iterated is TypeError, and a missing id is a 400. |
| Deserialize.BuildPlaylist | pijuv2/backend/deserialize.py:14-55 | A titled playlist from exactly one of ids and files. Entries are numbered in order with stored tracks, and its genres are stored and distinct. Each listed bad request is a 400. |
| Deserialize.TracksAsString | pijuv2/backend/deserialize.py:19 | A track list given as the string "12" is iterated by character and names the tracks 1 and 2. |
| Deserialize.PlaylistByIds | pijuv2/backend/deserialize.py:39-51 | A playlist by ids has one entry per id, in order, and no missing files. |
| Deserialize.BuildRadioStation | pijuv2/backend/deserialize.py:58-75 | A name and a url are required (400 otherwise). The optional URLs are copied as given. |
| Serialize.FromString | pijuv2/backend/serialize.py:21-32 | The level named in any case, else the default. |
| Serialize.FromStringRoundTrip | pijuv2/backend/serialize.py:21-32 | Each level's name reads back as that level, in any case and whatever the default. |
| Serialize.Extension | pijuv2/backend/serialize.py:136 | `os.path.splitext(...)[1]`: empty, or a dot-led suffix of the last path component. |
| Serialize.ExtensionOfFile | pijuv2/backend/serialize.py:136 | `dir/name.ext` has the extension `.ext`. |
| Serialize.ExtensionOfComponent | pijuv2/backend/serialize.py:136 | The extension depends only on the last path component. |
| Serialize.TrackObject | pijuv2/backend/serialize.py:128-142 | The JSON object has one key per field and `filepath` only when present; the last five fields and the file path hold their values. |
| Serialize.TrackObjectHead | pijuv2/backend/serialize.py:128-135 | The link, artist, title, genre, disk number and track number keys hold their fields. |
| Serialize.TrackRecordOf | pijuv2/backend/serialize.py:124-143 | The links, tags and file format of a stored track, with artwork links exactly when it has artwork. A track without a path is TypeError. |
| Serialize.JsonTrack | pijuv2/backend/serialize.py:124-143 | No track gives `{}`. A stored track gives its record. |
| Serialize.MapAll | pijuv2/backend/serialize.py:62 | A list comprehension fails exactly when an element fails, and otherwise maps each element in order. |
| Serialize.JsonTracks | pijuv2/backend/serialize.py:62 | The records of the tracks in order. One track without a path fails them all. |
| Serialize.TrackLinks | pijuv2/backend/serialize.py:59 | The link of each track, in order. |
| Serialize.GenreLinks | pijuv2/backend/serialize.py:56 | The link of each genre, in order. |
| Serialize.AlbumObject | pijuv2/backend/serialize.py:46-57 | One key per field, with `tracks` only when requested. |
| Serialize.JsonAlbum | pijuv2/backend/serialize.py:36-63 | The album's fields, genre links, the first artwork in playing order, and the tracks in playing order as links or records, as the level asks. |
| Serialize.AllPathsOrNot | pijuv2/backend/serialize.py:60-62 | The playing order has a track without a path exactly when the album does. |
| Serialize.JsonAlbumFails | pijuv2/backend/serialize.py:60-62 | The full album fails exactly when one of its tracks has no path. Links and the bare album always succeed. |
| Serialize.FileRecord | pijuv2/backend/serialize.py:154-168 | A queued file outside the catalog shows what the queue knows of it and nothing more. |
| Serialize.JsonTrackOrFile | pijuv2/backend/serialize.py:147-169 | A real id shows the stored track (NotFound if gone). A negative id shows the file record. |
| Serialize.QueueEntriesAgree | pijuv2/backend/serialize.py:147-169 | A queued catalog track shows as the catalog shows it. A file outside the catalog with the same path, artist and title shows the same keys and agrees on what the queue knows. |
| Serialize.StationObject | pijuv2/backend/serialize.py:108-120 | One key per field, with the five URLs only when included. |
| Serialize.JsonRadioStation | pijuv2/backend/serialize.py:108-120 | Link, name and artwork, plus the five URLs exactly when requested. |
| TrackOrder.SortTracks | pijuv2/backend/serialize.py:38 | The sort is a permutation of its input. |
| TrackOrder.InsertSorted | pijuv2/backend/serialize.py:38 | Inserting a row whose id exceeds all others keeps the order by key, then id. |
| TrackOrder.SortSorted | pijuv2/backend/serialize.py:38 | Sorting rows listed in id order gives the order by (disk, track), then id. |
| TrackOrder.SortTracksSpec | pijuv2/backend/serialize.py:38 | The sort is stable: ordered by key, a permutation, and equal keys keep id order. |
| TrackOrder.AlbumRows | pijuv2/backend/playerctrl.py:79 | Exactly the album's tracks, each with its own row, in the rowid order the model assumes for the unordered load of Album.Tracks. |
| TrackOrder.PlayingOrderMembers | pijuv2/backend/playerctrl.py:79 | The playing order holds exactly the album's tracks, each with its own record. |
| TrackOrder.AlbumTracksInPlayingOrder | pijuv2/backend/playerctrl.py:76-79 | An album's tracks play by (disk, track) number, ties in id order, each once. |
| TrackOrder.FirstArtwork | pijuv2/backend/serialize.py:39-44 | The artwork of the first track that has any, or none when no track does. |
| PlayerControl.SelectPlayer | pijuv2/backend/playerctrl.py:50-53 | The desired player becomes current. The other one is stopped only when it was current. |
| PlayerControl.SelectPlayerIdempotent | pijuv2/backend/playerctrl.py:50-53 | Selecting the same player twice stops nothing the second time. |
| PlayerControl.StartIndex | pijuv2/backend/playerctrl.py:57-64 | 0 without a start id, else the first position holding it. A start id that is not listed is a 400. |
| PlayerControl.PlayTrackList | pijuv2/backend/playerctrl.py:56-67 | The queue is set to the tracks with the identifier, and playback starts from the first startable entry at or after the start position. |
| PlayerControl.PlayTrackListStartsAtTrack | pijuv2/backend/playerctrl.py:60-67 | With a start id whose file starts, that track plays. |
| PlayerControl.PlayAlbum | pijuv2/backend/playerctrl.py:70-80 | An unknown album is a 404. Otherwise its tracks play in playing order under the album's link. |
| PlayerControl.AlbumStartIndex | pijuv2/backend/playerctrl.py:60-64 | A start id is found in the album exactly when it is one of the album's tracks. |
| PlayerControl.AlbumStartTrack | pijuv2/backend/playerctrl.py:60-80 | Playing an album fails only for a start track outside the album, with a 400 that changes nothing. |
| PlayerControl.AlbumQueueMatchesListing | pijuv2/backend/playerctrl.py:76-80 | The album is queued in the order its listing shows. |
| PlayerControl.AlbumQueued | pijuv2/backend/playerctrl.py:79-80 | When playing an album succeeds, the queue holds one entry per album track, with the track ids in playing order. |
| PlayerControl.AlbumQueueInPlayingOrder | pijuv2/backend/playerctrl.py:76-79 | The album is queued by (disk, track) number, ties in id order. |
| PlayerControl.PlaylistTracks | pijuv2/backend/playerctrl.py:148-149 | The playlist's tracks in PlaylistIndex order, with None for an entry without a stored track. |
| PlayerControl.PlayPlaylist | pijuv2/backend/playerctrl.py:144-151 | An unknown playlist is a 404. Otherwise its tracks play under the playlist's link. |
| PlayerControl.PlayFromQueue | pijuv2/backend/playerctrl.py:102-105 | Plays from a relative queue position and answers 409 when nothing plays. The queue never changes. |
| PlayerControl.QueueMismatchChangesNothing | pijuv2/backend/playerctrl.py:104-105 | A failed track-id check leaves everything as it was and answers 409. |
| PlayerControl.AddTrackToQueueAsWritten | pijuv2/backend/playerctrl.py:16-23 | As written, queueing a stored track raises AttributeError. |
| PlayerControl.QueueEntryOf | pijuv2/backend/playerctrl.py:16-23 | The queue entry has the track's path, id, artist and title, and an artwork link exactly when the track has artwork. |
| PlayerControl.AddTrackToQueue | pijuv2/backend/playerctrl.py:16-23 | The track's entry is appended to the queue. Nothing outside the file player changes. |
| PlayerControl.QueuedArtworkMatchesRecord | pijuv2/backend/playerctrl.py:21-22 | A queued track shows the same artwork link as its record. |
| PlayerControl.PlayTrackAsWritten | pijuv2/backend/playerctrl.py:154-161 | An unknown track is a 404. |
| PlayerControl.PlayTrackAsWrittenLosesQueue | pijuv2/backend/playerctrl.py:154-161 | As written, playing a stored track empties the queue and then fails, so nothing plays. |
| PlayerControl.PlayTrack | pijuv2/backend/playerctrl.py:154-161 | An unknown track is a 404. Otherwise the queue holds just that track, which plays if its file starts. |
| PlayerControl.PlayFromLocal | pijuv2/backend/playerctrl.py:83-99 | The file player is selected, and the first given of album, playlist, queue position and track decides what plays. |
| PlayerControl.FirstMatch | pijuv2/backend/playerctrl.py:110-113 | The position of the first station accepted, or none. |
| PlayerControl.PlayFromRadio | pijuv2/backend/playerctrl.py:108-118 | The station with the id plays on the stream player, told its position and the station count. An unknown id is a 404 that changes nothing. |
| PlayerControl.StreamingPrevNext | pijuv2/backend/playerctrl.py:129-141 | Moves `delta` stations from the one playing. Nothing changes when the move leaves the list. |
| PlayerControl.NextThenPrevReturns | pijuv2/backend/playerctrl.py:133-141 | With distinct URLs, "next" then "previous" returns to the station playing, and "next" on the last station does nothing. |
| PlayerControl.PlayFromUrl | pijuv2/backend/playerctrl.py:121-126 | The URL joins the download history and is handed to the worker. The players are unchanged. |
| PlayerControl.QueueAll | pijuv2/backend/playerctrl.py:46-47 | The downloads are appended to the queue in order, behind the existing entries. |
| PlayerControl.QueueDownloadedFiles | pijuv2/backend/playerctrl.py:36-47 | The file player is selected, the downloads are recorded against the URL and appended to the queue. |
| PlayerControl.PlayDownloadedFiles | pijuv2/backend/playerctrl.py:26-33 | The queue holds exactly the downloads, recorded against the URL. |
| PlayerControl.PlayDownloadsStartsFirstPlayable | pijuv2/backend/playerctrl.py:26-33 | When the first download starts, it plays. |
| PlayerControl.QueueAllKeepsPlaying | pijuv2/backend/playerctrl.py:43-47 | Appending to a queue that is playing keeps the playing entry. |
| Routes.ReadPlayRequest | pijuv2/backend/routes.py:258-267 | A falsy body is a 400, and a truthy non-object fails. Otherwise each selector is `extract_id` of its key. |
| Routes.CheckPlayRequest | pijuv2/backend/routes.py:277-287 | Accepted requests name something, name at most one of album, playlist and queue position, and do not mix radio or URL with anything else. |
| Routes.ListedShapesAccepted | pijuv2/backend/routes.py:269-287 | Every request shape listed in the handler's comment is accepted. |
| Routes.AcceptedHasListedShape | pijuv2/backend/routes.py:269-287 | An accepted request with non-zero ids has a listed shape. |
| Routes.ZeroIdIsNoSelection | pijuv2/backend/routes.py:277-278 | A queue position of 0 on its own is refused, because 0 is falsy. |
| Routes.Play | pijuv2/backend/routes.py:256-314 | Plays the URL, else the radio station, else the local selection. A refused request changes nothing. |
| Routes.AcceptedLocalHasSelector | pijuv2/backend/routes.py:295-312 | An accepted local request names an album, a playlist, a queue position or a track. |
| Routes.PlayNeverReachesAssertion | pijuv2/backend/routes.py:295-312 | So the local dispatch never reaches its internal-error assertion. |
| Routes.RefusedPlayChangesNothing | pijuv2/backend/routes.py:259-287 | A refused request leaves the application unchanged and reports the failure. |
| Routes.ValueSetSize | pijuv2/backend/routes.py:520 | `len(set(xs)) == len(xs)` exactly when `xs` has no repeats. |
| Routes.DesiredOrder | pijuv2/backend/routes.py:512-517 | The body must be a list of ids, else 400. It is read in order. |
| Routes.Placed | pijuv2/backend/routes.py:523-524 | A station's SortOrder becomes its id's position in the list. |
| Routes.PlaceAll | pijuv2/backend/routes.py:523-524 | As written, each station takes its position in turn. The first missing station raises ValueError, leaving the ones before it changed. |
| Routes.ReorderAsWritten | pijuv2/backend/routes.py:510-525 | The route as written: size checks, then the placing loop. |
| Routes.ReorderAsWrittenCorrupts | pijuv2/backend/routes.py:518-524 | Stations 1 and 2 with the list [3, 1]: ValueError, with both stations left at SortOrder 1. |
| Routes.ReorderStations | pijuv2/backend/routes.py:512-524 | A list naming every station once places each at its position. Anything else is a 400 that changes nothing. |
| Routes.ReorderIsPermutation | pijuv2/backend/routes.py:512-524 | An accepted reorder gives the station at request position k SortOrder k, and no two stations share one. |
| Routes.NormalizePunctuation | pijuv2/backend/routes.py:46-50 | The four typographic quotes become ' and ", and nothing else changes. |
| Routes.NormalizeIdempotent | pijuv2/backend/routes.py:46-50 | Normalising twice is normalising once, and text without typographic quotes is kept. |
| Routes.SearchWords | pijuv2/backend/routes.py:580 | The search words are whitespace-free and non-empty. That they are all the words of the request, in order, is stated by Routes.SearchWordsOfJoin. |
| Routes.SearchWordsOfJoin | pijuv2/backend/routes.py:580 | Plain words joined by spaces are searched for exactly as given, each once and in order. |
| Common.WordsJoin | pijuv2/backend/routes.py:580 | `str.split()` loses no word: words joined by single spaces split back into the same words, in order. |
| Routes.SearchWordsPlain | pijuv2/backend/routes.py:580 | The search words carry no typographic quote. |
| Routes.StationRoundTrip | pijuv2/backend/deserialize.py:64-75 | A station built from a request and listed with its URLs shows the name, url, artwork and now-playing fields the request gave. |
| Routes.TracksLimit | pijuv2/backend/routes.py:602-606 | A number exactly when the argument is all digits, else no limit. |
| Routes.TracksLimitRoundTrip | pijuv2/backend/routes.py:602-606 | A limit written as a number reads back as that number. |
| Routes.PyIntOf | pijuv2/backend/routes.py:416-417 | Python's `int()` of a JSON value: None, lists and objects are TypeError, and a bad string is ValueError. |
| Routes.ReadInt | pijuv2/backend/routes.py:415-422 | A missing key and a bad string are 400s. |
| Routes.DeleteFromQueue | pijuv2/backend/routes.py:408-426 | Only on the file player (409 otherwise). A failure changes nothing, and success removes the entry. |
| Routes.DeleteRemovesNamedEntry | pijuv2/backend/routes.py:412-426 | A delete succeeds exactly when the named track is at the relative index, and then removes exactly it. |

## Left out

- Real I/O is out of the model: the file system, mutagen's tag decoding, mpg123 and the other player processes, the worker thread, yt-dlp, gzip, HTTP, Flask, the SQLAlchemy session and the lru_cache. What the core reads from them is a parameter or a plain value.
- `os.path.isfile`, `normalize_filepath`, `make_artwork_ref`, `get_artwork_size`, `url_for`, the blob hash and `dateutil.parser.parse` are uninterpreted function parameters. Their own behaviour is not modelled.
- Duration: `int(1000 * info.length)` takes a float from the decoder, so the model takes the resulting integer as given.
- `get_artwork_without_tracks`, `get_empty_genres`, `delete_artwork` and `delete_genre` are called by `tidy.py:33-42` but are not defined in `database.py`, so as written those two tidy passes raise AttributeError. The model's tidy passes take the two selections as parameters. Database.DeleteArtwork and Database.DeleteGenre give `delete_artwork` and `delete_genre` the semantics of `delete_album` (`database.py:123-126`), with the schema's cascades.
- Search for albums and artists (`database.py:454-476`), and the album, genre, artist and playlist listing handlers of `routes.py`, are not modelled.
- `json_genre` and `json_playlist` are not modelled.
- The reorder and radio handlers take the station list in SortOrder as a parameter instead of querying it.
- Playlist genres: the source collects them with `list(set(...))`, whose order is arbitrary. The model keeps the order of first appearance.
- MusicPlayer's status is set asynchronously by the mpg123 process. The model records a Stopping status and the commands sent.
- Routes.Play: a truthy `url` that is not a string is modelled as TypeError. The source hands it on to the download history.
- Common.Lower: lower-cases ASCII letters only, where Python's `str.lower` covers Unicode.
- Common.PyInt: accepts ASCII digits only, without `_` separators or other Unicode digits.
- Deserialize.ParseBool: its own contract says only that a true result has length 1, 3 or 4. The full case analysis is stated by Deserialize.ParseBoolCases.
- PlayerControl.PlayTrackAsWritten: its contract covers only the 404 path. The rest of what it does is stated by PlayerControl.PlayTrackAsWrittenLosesQueue.
- `url_for('one_playlist')` at `playerctrl.py:150` names an endpoint without its blueprint prefix. The model leaves the URL function uninterpreted, so this is not checked.
- Mp3Scan.ScanMp3: truthiness of an ID3 frame is taken as presence.
- Schema.AlbumTracks: the `Tracks` relationship at `schema.py:56` has no `order_by`, so the lazy load has no ORDER BY and returns rows in whatever order SQLite scans. The model takes SQLite's rowid order. That order breaks ties between tracks with equal (VolumeNumber, TrackNumber) keys in the album listing (`serialize.py:37-38`) and in the album's play queue (`playerctrl.py:76-79`). It also decides which track's artwork the album shows (`serialize.py:39-42`). An album whose files carry no disk or track numbers is listed and queued entirely in this order.
- TrackOrder.AlbumRows: inherits the same assumption. Its id order is SQLite's unrequested load order of Album.Tracks. TrackOrder.AlbumTracksInPlayingOrder, TrackOrder.FirstArtwork, Serialize.JsonAlbum and the album members of PlayerControl depend on it only for tracks whose (disk, track) keys are equal, and for the choice of artwork.
- TrackSearch.Candidates: the query has no ORDER BY. The model takes the rowid order SQLite scans in, which also decides which rows survive `.limit(query_limit)` and the tie order of the ranking.
- Directory.ScanFile: files the track with the corrected SetCrossRefs, which reads the previous album before the update. `scan_directory` (`directory.py:57`) calls `set_cross_refs` as written. So a rescan that moves an album's only track elsewhere deletes the emptied album here, and the source keeps it (see the second Findings row).
- Directory.ScanDirectory: inherits ScanFile's corrected clean-up. An album emptied by a rescan is deleted here and kept by the source. Directory.ScanDirectoryCommitted, Directory.ScanFileCommitted and Directory.SetCrossRefsCommitted inherit it too.
- Database.EnsureTrack: its error carries no catalog. A genre that ensure_genre_exists committed before the failure is described by Database.EnsureTrackCommitted, and the scan's committed state by Directory.ScanDirectoryCommitted.
- Tidy.CollectMissing: walks the documented pager `GetAllTracksPaged`, not the as-written one. An empty Tracks table therefore gives an empty result, where `delete_missing_tracks` raises TypeError (see the first Findings row).
- Tidy.DeleteMissingTracks: inherits the same difference: an empty Tracks table succeeds with nothing deleted.
- JsonValue.Elements: a JSON object is refused with TypeError, where Python iterates its keys in the order the request gave them. The map that holds an object keeps no order, so a `tracks` or `files` object is outside the model.
- Deserialize.BuildRadioStation: a name, url or optional field that is a number, bool, list or object is refused with TypeError. The source stores it in the String column as given.
- Deserialize.BuildPlaylist: a title that is not a string, such as 5, is refused with TypeError. The source stores it as given.
- Routes.PyIntOf: JSON numbers are integers only, so a float such as 1.0, which `int()` turns into 1, is outside the model. Routes.ReadInt inherits this.
- Common.IsDigits: ASCII digits only. Python's `str.isdigit` accepts every Unicode digit, including superscripts such as '²' that `int()` then rejects. The members below inherit this.
- Deserialize.ExtractId: "/tracks/٣" is the id 3 in the source and None here. "/tracks/²" raises ValueError in the source and is None here.
- Deserialize.ExtractIdRejects: "not all digits" means not all ASCII digits, so it states None for "٣", which the source reads as 3.
- Routes.TracksLimit: "٣" is the limit 3 and "²" raises ValueError in the source. Both mean no limit here.
- ScanCommon.FieldValues: a field of Unicode digits such as "٢٠٢٠" is the year 2020 in the source and ValueError here.
- ScanCommon.TrimNonDigits: trims with the ASCII digit test, so a trailing '²' is cut here and kept by the source.
- ScanCommon.ParseDateTime: "2020-01-01T12:00²" raises ValueError in the source and parses here. Unicode decimal digits are read by the source and rejected here.

## Findings

| source | as written | input that shows it | evidently intended | confidence | as-written member | corrected member |
|---|---|---|---|---|---|---|
| pijuv2/database/database.py:355-364 | `max(Id)` on an empty table is None, and `start_id > None` raises TypeError | an empty Tracks table, `start_id = 0` | return None: there are no more tracks | high; not executed | Database.PagedEmptyLibraryRaises | Database.GetAllTracksPaged |
| pijuv2/scan/directory.py:20-22 | `previous_album_id` is read after `ensure_track_exists` has already set the track's new album, so the empty-album clean-up never runs | the only track of album p is edited so that it belongs to another album | read the album before the update, and delete p once it has no tracks | high; not executed | Directory.AsWrittenLeavesEmptyAlbum | Directory.CorrectedDeletesEmptyAlbum |
| pijuv2/backend/playerctrl.py:16-23 | reads `track.ArtworkPath` and `track.ArtworkBlob`, which the Track table does not have, so it raises AttributeError. `play_track` has cleared the queue by then | any stored track played by id | queue the track with the artwork link of its Artwork column | high; not executed | PlayerControl.PlayTrackAsWrittenLosesQueue | PlayerControl.QueuedArtworkMatchesRecord |
| pijuv2/backend/routes.py:518-524 | only the sizes are checked, so a station missing from the list raises ValueError inside the loop. The stations placed so far are committed on the way out | stations 1, 2 with SortOrder 0, 1; body `[3, 1]` | a 400 that changes nothing | high; not executed | Routes.ReorderAsWrittenCorrupts | Routes.ReorderIsPermutation |
| pijuv2/scan/mp3.py:69-85 | passes `ArtworkPath` and `ArtworkBlob` keywords to the Track constructor, which rejects unknown columns with TypeError | any MP3 file with an ID3 tag | build the track from the frames and the artwork reference separately, as `scan_m4a` does | medium; not executed | Mp3Scan.ScanMp3AsWritten | Mp3Scan.ScanMp3 |

=== FILE: common.dfy ===
/**
 * Shared vocabulary: optional values, results carrying the exception or
 * HTTP abort the source raises, and the handful of Python string and list
 * operations whose exact semantics the rest of the model depends on.
 */
module Common {

  datatype Option<T> = None | Some(value: T)
  {
    function GetOr(default: T): T
    {
      if Some? then value else default
    }
  }

  /** Why an operation did not produce a value. */
  datatype Error =
    | NotFound                // the library's NotFoundException
    | MultipleResults         // SQLAlchemy one_or_none() seeing more than one row
    | AssertionFailed         // an `assert` in the source
    | ValueError
    | TypeError
    | IndexError
    | AttributeError
    | Abort(status: int)      // flask abort() with an HTTP status

  datatype Result<T> = Ok(value: T) | Err(error: Error)

  /** The HTTP statuses the web layer aborts with. */
  const BadRequest: int := 400
  const NotFoundStatus: int := 404
  const Conflict: int := 409

  /** Python truthiness of an optional string: None and "" are false. */
  predicate NonEmpty(s: Option<string>)
  {
    s.Some? && s.value != ""
  }

  // ---------------------------------------------------------------------
  // Characters and digits
  // ---------------------------------------------------------------------

  predicate IsDigit(c: char)
  {
    '0' <= c <= '9'
  }

  /** `str.isdigit()` restricted to ASCII: false for the empty string. */
  predicate IsDigits(s: string)
  {
    |s| > 0 && forall i :: 0 <= i < |s| ==> IsDigit(s[i])
  }

  predicate HasDigit(s: string)
  {
    exists i :: 0 <= i < |s| && IsDigit(s[i])
  }

  function DigitValue(c: char): nat
    requires IsDigit(c)
  {
    (c as int - '0' as int) as nat
  }

  function DigitChar(d: nat): (c: char)
    requires d < 10
    ensures IsDigit(c) && DigitValue(c) == d
  {
    ('0' as int + d) as char
  }

  /** Decimal value of a string of digits, as Python's int() reads it. */
  function DigitsValue(s: string): nat
    requires forall i :: 0 <= i < |s| ==> IsDigit(s[i])
  {
    if |s| == 0 then 0 else DigitsValue(s[..|s| - 1]) * 10 + DigitValue(s[|s| - 1])
  }

  /** str(n) for a natural number. */
  function NatStr(n: nat): (s: string)
    ensures IsDigits(s)
    decreases n
  {
    if n < 10 then [DigitChar(n)] else NatStr(n / 10) + [DigitChar(n % 10)]
  }

  /** Reading back what NatStr writes gives the number again. */
  lemma {:induction false} NatStrRoundTrip(n: nat)
    ensures DigitsValue(NatStr(n)) == n
    decreases n
  {
    if n >= 10 {
      var s := NatStr(n);
      assert s[..|s| - 1] == NatStr(n / 10);
      NatStrRoundTrip(n / 10);
    }
  }

  // ---------------------------------------------------------------------
  // Case folding
  // ---------------------------------------------------------------------

  /** Lower-case one character; only A-Z are folded. */
  function LowerChar(c: char): char
  {
    if 'A' <= c <= 'Z' then (c as int + 32) as char else c
  }

  function Lower(s: string): (r: string)
    ensures |r| == |s|
    ensures forall i :: 0 <= i < |s| ==> r[i] == LowerChar(s[i])
  {
    seq(|s|, i requires 0 <= i < |s| => LowerChar(s[i]))
  }

  lemma LowerIdempotent(s: string)
    ensures Lower(Lower(s)) == Lower(s)
  {
  }

  // ---------------------------------------------------------------------
  // Searching and splitting
  // ---------------------------------------------------------------------

  /** Position of the first occurrence of `c` (str.index). */
  function IndexOf(s: string, c: char): (i: nat)
    requires c in s
    ensures i < |s| && s[i] == c && c !in s[..i]
  {
    if s[0] == c then 0 else 1 + IndexOf(s[1..], c)
  }

  lemma {:induction false} IndexOfAfterPrefix(a: string, c: char, b: string)
    requires c !in a
    ensures c in a + [c] + b && IndexOf(a + [c] + b, c) == |a|
    decreases |a|
  {
    var s := a + [c] + b;
    assert s[|a|] == c;
    if |a| > 0 {
      assert a[0] in a;
      assert s[1..] == a[1..] + [c] + b;
      IndexOfAfterPrefix(a[1..], c, b);
    }
  }

  /** `str.split(sep)`: always at least one piece, none containing `sep`. */
  function Split(s: string, sep: char): (r: seq<string>)
    ensures |r| >= 1
    ensures forall k :: 0 <= k < |r| ==> sep !in r[k]
    decreases |s|
  {
    if sep !in s then [s]
    else
      var i := IndexOf(s, sep);
      [s[..i]] + Split(s[i + 1..], sep)
  }

  /** `sep.join(parts)`. */
  function Join(parts: seq<string>, sep: char): string
  {
    if |parts| == 0 then ""
    else if |parts| == 1 then parts[0]
    else parts[0] + [sep] + Join(parts[1..], sep)
  }

  /** Joining the pieces of a split restores the original string. */
  lemma {:induction false} SplitJoin(s: string, sep: char)
    ensures Join(Split(s, sep), sep) == s
    decreases |s|
  {
    if sep in s {
      var i := IndexOf(s, sep);
      var rest := s[i + 1..];
      SplitJoin(rest, sep);
      var parts := Split(rest, sep);
      assert Split(s, sep) == [s[..i]] + parts;
      assert ([s[..i]] + parts)[1..] == parts;
      assert Join([s[..i]] + parts, sep) == s[..i] + [sep] + Join(parts, sep);
      assert s == s[..i] + [sep] + rest;
    }
  }

  /** Splitting a join of separator-free pieces gives the pieces back. */
  lemma {:induction false} JoinSplit(parts: seq<string>, sep: char)
    requires |parts| >= 1
    requires forall k :: 0 <= k < |parts| ==> sep !in parts[k]
    ensures Split(Join(parts, sep), sep) == parts
    decreases |parts|
  {
    if |parts| > 1 {
      var rest := Join(parts[1..], sep);
      IndexOfAfterPrefix(parts[0], sep, rest);
      var s := parts[0] + [sep] + rest;
      assert s[..|parts[0]|] == parts[0];
      assert s[|parts[0]| + 1..] == rest;
      JoinSplit(parts[1..], sep);
    }
  }

  lemma SplitNoSep(s: string, sep: char)
    requires sep !in s
    ensures Split(s, sep) == [s]
  {
  }

  /** Everything after the last occurrence of `sep` (`s.split(sep)[-1]`). */
  function AfterLast(s: string, sep: char): (r: string)
    ensures sep !in r
    ensures |r| <= |s| && r == s[|s| - |r|..]
    ensures sep in s ==> |r| < |s| && s[|s| - |r| - 1] == sep
    ensures sep !in s ==> r == s
  {
    if |s| == 0 || s[|s| - 1] == sep then []
    else
      var init := s[..|s| - 1];
      var r := AfterLast(init, sep) + [s[|s| - 1]];
      assert s == init + [s[|s| - 1]];
      r
  }

  /** The text after the last separator of `p + [sep] + d` is `d` when `d` has no separator. */
  lemma {:induction false} AfterLastOfJoin(p: string, d: string, sep: char)
    requires sep !in d
    ensures AfterLast(p + [sep] + d, sep) == d
    decreases |d|
  {
    var s := p + [sep] + d;
    if |d| > 0 {
      var init := d[..|d| - 1];
      assert d[|d| - 1] in d;
      assert s[..|s| - 1] == p + [sep] + init;
      AfterLastOfJoin(p, init, sep);
      assert d == init + [d[|d| - 1]];
    }
  }

  // ---------------------------------------------------------------------
  // Whitespace and Python's int()
  // ---------------------------------------------------------------------

  /** The characters Python's `str.split()` and `str.strip()` treat as whitespace. */
  predicate IsSpace(c: char)
  {
    c == ' ' || '\t' <= c <= '\r' || '\U{1C}' <= c <= '\U{1F}'
    || c == '\U{85}' || c == '\U{A0}' || c == '\U{1680}'
    || '\U{2000}' <= c <= '\U{200A}' || c == '\U{2028}' || c == '\U{2029}'
    || c == '\U{202F}' || c == '\U{205F}' || c == '\U{3000}'
  }

  function StripLeft(s: string): (r: string)
    ensures |r| <= |s| && r == s[|s| - |r|..]
    ensures |r| > 0 ==> !IsSpace(r[0])
    ensures forall i :: 0 <= i < |s| - |r| ==> IsSpace(s[i])
  {
    if |s| > 0 && IsSpace(s[0]) then StripLeft(s[1..]) else s
  }

  function StripRight(s: string): (r: string)
    ensures |r| <= |s| && r == s[..|r|]
    ensures |r| > 0 ==> !IsSpace(r[|r| - 1])
    ensures forall i :: |r| <= i < |s| ==> IsSpace(s[i])
  {
    if |s| > 0 && IsSpace(s[|s| - 1]) then StripRight(s[..|s| - 1]) else s
  }

  /** `str.strip()`. */
  /** `lstrip()` keeps a non-space character, shifted by what it drops. */
  lemma StripLeftKeeps(s: string, i: nat) returns (k: nat)
    requires i < |s| && !IsSpace(s[i])
    ensures k == i - (|s| - |StripLeft(s)|) && k < |StripLeft(s)| && StripLeft(s)[k] == s[i]
  {
    var left := StripLeft(s);
    k := i - (|s| - |left|);
    assert left == s[|s| - |left|..];
  }

  /** `rstrip()` keeps a non-space character where it was. */
  lemma StripRightKeeps(s: string, i: nat)
    requires i < |s| && !IsSpace(s[i])
    ensures i < |StripRight(s)| && StripRight(s)[i] == s[i]
  {
  }

  function Strip(s: string): string
  {
    StripRight(StripLeft(s))
  }

  predicate OccursAt(s: string, w: string, i: int)
  {
    0 <= i <= |s| - |w| && s[i..i + |w|] == w
  }

  /** Python's `w in s` on two strings: `w` occurs at some position of `s`. */
  predicate Contains(s: string, w: string)
  {
    exists i :: 0 <= i <= |s| && OccursAt(s, w, i)
  }

  /** An occurrence in a suffix is an occurrence in the whole string. */
  lemma ContainsInSuffix(s: string, k: nat, w: string)
    requires k <= |s| && Contains(s[k..], w)
    ensures Contains(s, w)
  {
    var i :| 0 <= i <= |s[k..]| && OccursAt(s[k..], w, i);
    var suffix := s[k..];
    assert 0 <= i <= |suffix| - |w| && suffix[i..i + |w|] == w;
    assert k + i + |w| <= |s|;
    assert s[k + i..k + i + |w|] == suffix[i..i + |w|];
    assert OccursAt(s, w, k + i);
  }

  /** `str.split()` with no argument: maximal runs of non-whitespace. */
  function Words(s: string): (r: seq<string>)
    ensures forall k :: 0 <= k < |r| ==> IsWord(r[k])
    decreases |s|
  {
    var t := StripLeft(s);
    if |t| == 0 then []
    else
      var w := WordPrefix(t);
      assert 0 < |w| <= |t| <= |s|;
      var ws := Words(t[|w|..]);
      ConsWords(w, ws);
      [w] + ws
  }

  lemma ConsWords(w: string, ws: seq<string>)
    requires IsWord(w) && forall k :: 0 <= k < |ws| ==> IsWord(ws[k])
    ensures forall k :: 0 <= k < |[w] + ws| ==> IsWord(([w] + ws)[k])
  {
    forall k | 0 <= k < |[w] + ws| ensures IsWord(([w] + ws)[k]) {
      if k > 0 {
        assert ([w] + ws)[k] == ws[k - 1];
      }
    }
  }

  /** Each word of `str.split()` occurs in the string it came from. */
  lemma {:induction false} WordsOccur(s: string, w: string)
    requires w in Words(s)
    ensures Contains(s, w)
    decreases |s|
  {
    var t := StripLeft(s);
    assert |t| > 0;
    WordsStep(s);
    var v := WordPrefix(t);
    if w == v {
      PrefixOccurs(s, t, v);
    } else {
      WordsOccur(t[|v|..], w);
      SuffixOccurs(s, t, |v|, w);
    }
  }

  /** A prefix of a suffix of `s` occurs in `s`. */
  lemma PrefixOccurs(s: string, t: string, v: string)
    requires |t| <= |s| && t == s[|s| - |t|..] && |v| <= |t| && v == t[..|v|]
    ensures Contains(s, v)
  {
    assert OccursAt(t, v, 0);
    ContainsInSuffix(s, |s| - |t|, v);
  }

  /** What occurs in a suffix of a suffix of `s` occurs in `s`. */
  lemma SuffixOccurs(s: string, t: string, k: nat, w: string)
    requires |t| <= |s| && t == s[|s| - |t|..] && k <= |t| && Contains(t[k..], w)
    ensures Contains(s, w)
  {
    ContainsInSuffix(t, k, w);
    ContainsInSuffix(s, |s| - |t|, w);
  }

  /** A string with a word after its leading whitespace splits into that word and the words after it. */
  lemma WordsStep(s: string)
    requires |StripLeft(s)| > 0
    ensures var t := StripLeft(s); var v := WordPrefix(t);
      Words(s) == [v] + Words(t[|v|..])
  {
  }

  /** A whitespace character in front changes nothing about the words. */
  lemma WordsSkipSpace(c: char, s: string)
    requires IsSpace(c)
    ensures Words([c] + s) == Words(s)
  {
    assert ([c] + s)[1..] == s;
    assert StripLeft([c] + s) == StripLeft(s);
  }

  /** The longest space-free prefix of a word followed by whitespace (or nothing) is the word. */
  lemma {:induction false} WordPrefixOfWord(w: string, rest: string)
    requires NoSpace(w) && (|rest| > 0 ==> IsSpace(rest[0]))
    ensures WordPrefix(w + rest) == w
    decreases |w|
  {
    if |w| > 0 {
      assert (w + rest)[1..] == w[1..] + rest;
      WordPrefixOfWord(w[1..], rest);
      assert w == [w[0]] + w[1..];
    }
  }

  /** A word, then whitespace and more text, splits into that word and the words of the text. */
  lemma WordsOfWordThen(w: string, c: char, rest: string)
    requires IsWord(w) && IsSpace(c)
    ensures Words(w + [c] + rest) == [w] + Words(rest)
  {
    var s := w + [c] + rest;
    assert s == w + ([c] + rest);
    assert StripLeft(s) == s;
    WordPrefixOfWord(w, [c] + rest);
    assert s[|w|..] == [c] + rest;
    WordsSkipSpace(c, rest);
  }

  /** A single word splits into itself. */
  lemma WordsOfWord(w: string)
    requires IsWord(w)
    ensures Words(w) == [w]
  {
    assert StripLeft(w) == w;
    WordPrefixOfWord(w, "");
    assert w + "" == w;
    assert w[|w|..] == "";
  }

  /** Every element is a word. */
  predicate AllWords(ws: seq<string>)
  {
    forall k :: 0 <= k < |ws| ==> IsWord(ws[k])
  }

  lemma AllWordsTail(ws: seq<string>)
    requires AllWords(ws) && |ws| > 0
    ensures IsWord(ws[0]) && AllWords(ws[1..])
  {
    var rest := ws[1..];
    forall k | 0 <= k < |rest| ensures IsWord(rest[k]) {
      assert rest[k] == ws[k + 1];
    }
  }

  lemma JoinCons(ws: seq<string>, sep: char)
    requires |ws| > 1
    ensures Join(ws, sep) == ws[0] + [sep] + Join(ws[1..], sep)
  {
  }

  /**
   * `str.split()` returns every word it is given: words joined by single
   * spaces split back into the same words, in order.
   */
  lemma {:induction false} WordsJoin(ws: seq<string>)
    requires AllWords(ws)
    ensures Words(Join(ws, ' ')) == ws
  {
    if |ws| == 0 {
      assert StripLeft("") == "";
    } else if |ws| == 1 {
      assert IsWord(ws[0]);
      WordsOfWord(ws[0]);
    } else {
      var rest := ws[1..];
      AllWordsTail(ws);
      WordsJoin(rest);
      JoinCons(ws, ' ');
      WordsOfWordThen(ws[0], ' ', Join(rest, ' '));
      assert [ws[0]] + rest == ws;
    }
  }

  /** Words joined by spaces begin and end with a character of a word. */
  lemma {:induction false} JoinEnds(ws: seq<string>)
    requires |ws| > 0 && AllWords(ws)
    ensures var s := Join(ws, ' '); |s| > 0 && !IsSpace(s[0]) && !IsSpace(s[|s| - 1])
  {
    var s := Join(ws, ' ');
    assert IsWord(ws[0]);
    if |ws| > 1 {
      var rest := ws[1..];
      AllWordsTail(ws);
      JoinEnds(rest);
      var t := Join(rest, ' ');
      JoinCons(ws, ' ');
      assert s[0] == ws[0][0];
      assert s[|s| - 1] == t[|t| - 1];
    } else {
      assert s == ws[0];
    }
  }

  /** Stripping leaves words joined by spaces as they are. */
  lemma StripJoin(ws: seq<string>)
    requires AllWords(ws)
    ensures Strip(Join(ws, ' ')) == Join(ws, ' ')
  {
    if |ws| > 0 {
      JoinEnds(ws);
    }
  }

  predicate NoSpace(w: string)
  {
    forall i :: 0 <= i < |w| ==> !IsSpace(w[i])
  }

  /** A non-empty run of non-whitespace characters. */
  predicate IsWord(w: string)
  {
    |w| > 0 && NoSpace(w)
  }

  /** The longest prefix of `s` without whitespace. */
  function WordPrefix(s: string): (w: string)
    ensures |w| <= |s| && w == s[..|w|]
    ensures NoSpace(w)
    ensures |w| < |s| ==> IsSpace(s[|w|])
    ensures |s| > 0 && !IsSpace(s[0]) ==> |w| > 0
  {
    if |s| == 0 || IsSpace(s[0]) then [] else [s[0]] + WordPrefix(s[1..])
  }

  /**
   * Python's `int()` applied to a str: surrounding whitespace, an optional
   * sign and at least one ASCII digit.
   */
  function PyInt(s: string): (r: Option<int>)
    ensures IsDigits(s) ==> r == Some(DigitsValue(s))
  {
    var t := Strip(s);
    if |t| > 0 && (t[0] == '+' || t[0] == '-') then
      var d := t[1..];
      if IsDigits(d) then Some(if t[0] == '-' then -(DigitsValue(d) as int) else DigitsValue(d)) else None
    else if IsDigits(t) then Some(DigitsValue(t))
    else None
  }

  // ---------------------------------------------------------------------
  // Python list semantics
  // ---------------------------------------------------------------------

  /** `xs[i]` with Python's negative indices; IndexError when out of range. */
  function PyIndex<T>(xs: seq<T>, i: int): (r: Result<T>)
    ensures 0 <= i < |xs| ==> r == Ok(xs[i])
    ensures -|xs| <= i < 0 ==> r == Ok(xs[|xs| + i])
    ensures r.Err? <==> i < -|xs| || i >= |xs|
  {
    if 0 <= i < |xs| then Ok(xs[i])
    else if -|xs| <= i < 0 then Ok(xs[|xs| + i])
    else Err(IndexError)
  }

  /** `xs[:n]`: a negative `n` counts from the end. */
  function PyTake<T>(xs: seq<T>, n: int): (r: seq<T>)
    ensures 0 <= n ==> r == xs[..if n < |xs| then n else |xs|]
    ensures n < 0 ==> r == xs[..if -n < |xs| then |xs| + n else 0]
  {
    if n >= 0 then (if n < |xs| then xs[..n] else xs)
    else if -n < |xs| then xs[..|xs| + n] else []
  }

  /** SQL `LIMIT n`: a negative limit means no limit. */
  function SqlLimit<T>(xs: seq<T>, n: int): (r: seq<T>)
    ensures n < 0 ==> r == xs
    ensures 0 <= n ==> |r| == if n < |xs| then n else |xs|
    ensures r == xs[..|r|]
  {
    if 0 <= n < |xs| then xs[..n] else xs
  }

  /** Membership in a sequence gives an index, the first one. */
  function FirstIndex<T(==)>(xs: seq<T>, x: T): (i: nat)
    requires x in xs
    ensures i < |xs| && xs[i] == x && x !in xs[..i]
  {
    if xs[0] == x then 0 else 1 + FirstIndex(xs[1..], x)
  }

  predicate NoDuplicates<T(==)>(xs: seq<T>)
  {
    forall i, j :: 0 <= i < j < |xs| ==> xs[i] != xs[j]
  }

  /** Drops the first occurrence of `x` (`list.remove`). */
  function RemoveFirst<T(==)>(xs: seq<T>, x: T): (r: seq<T>)
    requires x in xs
    ensures var i := FirstIndex(xs, x); r == xs[..i] + xs[i + 1..]
    ensures |r| == |xs| - 1
  {
    if xs[0] == x then xs[1..] else [xs[0]] + RemoveFirst(xs[1..], x)
  }

  /** Order-preserving removal of duplicates, keeping first appearances. */
  function Dedupe<T(==,!new)>(xs: seq<T>): (r: seq<T>)
    ensures NoDuplicates(r)
    ensures forall x :: x in r <==> x in xs
  {
    if |xs| == 0 then []
    else
      var rest := Dedupe(xs[..|xs| - 1]);
      if xs[|xs| - 1] in rest then rest else rest + [xs[|xs| - 1]]
  }
}

=== FILE: database.dfy ===
/**
 * The catalog operations of the Database class: lookups, the get-or-create
 * ("ensure") operations the scanner relies on, paging, and deletion.
 */
module Database {
  import opened Common
  import opened Table
  import opened Schema

  /** A catalog after an ensure operation, and the id of the row it found or created. */
  datatype Stored = Stored(catalog: Catalog, id: nat)

  // ---------------------------------------------------------------------
  // Lookup by id
  // ---------------------------------------------------------------------

  predicate HasId<T>(t: Table<T>, id: int)
  {
    id >= 0 && id as nat in t.rows
  }

  /** get_x_by_id: the row, or NotFound. */
  function GetById<T>(t: Table<T>, id: int): (r: Result<T>)
    ensures HasId(t, id) ==> r == Ok(t.rows[id as nat])
    ensures !HasId(t, id) ==> r == Err(NotFound)
  {
    if HasId(t, id) then Ok(t.rows[id as nat]) else Err(NotFound)
  }

  // ---------------------------------------------------------------------
  // ensure_album_exists
  // ---------------------------------------------------------------------

  /** The reference as it is looked up and stored: a compilation has no artist. */
  function AlbumRefKey(ref: Album): (k: Album)
    ensures ref.isCompilation == Some(true) ==> k.artist.None?
    ensures k == ref.(artist := k.artist)
    ensures ref.isCompilation != Some(true) ==> k == ref
  {
    if ref.isCompilation == Some(true) then ref.(artist := None) else ref
  }

  /** Album.Title == ref.Title and Album.Artist == ref.Artist, NULL matching NULL. */
  predicate AlbumMatches(a: Album, key: Album)
  {
    a.title == key.title && a.artist == key.artist
  }

  /**
   * The stored value of VolumeCount or ReleaseYear after a match: replaced
   * when nothing is stored or the incoming value is larger.
   */
  function LargerOf(stored: Option<int>, incoming: Option<int>): (r: Option<int>)
    ensures r == stored || r == incoming
    ensures stored.None? ==> r == incoming
    ensures stored.Some? ==> r.Some? && r.value >= stored.value
    ensures incoming.Some? ==> r.Some? && r.value >= incoming.value
  {
    if stored.None? || (incoming.Some? && stored.value < incoming.value) then incoming else stored
  }

  function MergeAlbum(stored: Album, key: Album): (a: Album)
    ensures a == stored.(volumeCount := a.volumeCount, releaseYear := a.releaseYear)
    ensures a.volumeCount == LargerOf(stored.volumeCount, key.volumeCount)
    ensures a.releaseYear == LargerOf(stored.releaseYear, key.releaseYear)
  {
    stored.(volumeCount := LargerOf(stored.volumeCount, key.volumeCount),
            releaseYear := LargerOf(stored.releaseYear, key.releaseYear))
  }

  /** The stored albums `ensure_album_exists` would find for `key`. */
  predicate NoAlbumMatch(c: Catalog, key: Album)
  {
    forall i :: i in c.albums.rows ==> !AlbumMatches(c.albums.rows[i], key)
  }

  predicate OnlyAlbumMatch(c: Catalog, key: Album, i: nat)
  {
    i in c.albums.rows && AlbumMatches(c.albums.rows[i], key)
    && forall j :: j in c.albums.rows && j != i ==> !AlbumMatches(c.albums.rows[j], key)
  }

  predicate TwoAlbumMatches(c: Catalog, key: Album)
  {
    exists i, j :: i in c.albums.rows && j in c.albums.rows && i != j && AlbumMatches(c.albums.rows[i], key) && AlbumMatches(c.albums.rows[j], key)
  }

  function EnsureAlbum(c: Catalog, ref: Album): (r: Result<Stored>)
    ensures r.Ok? ==> r.value.catalog == c.(albums := r.value.catalog.albums)
    ensures r.Ok? ==> r.value.id in r.value.catalog.albums.rows && AlbumMatches(r.value.catalog.albums.rows[r.value.id], AlbumRefKey(ref))
    // no match: the reference is inserted
    ensures NoAlbumMatch(c, AlbumRefKey(ref)) ==> r.Ok? && r.value.id !in c.albums.rows && r.value.catalog.albums.rows == c.albums.rows[r.value.id := AlbumRefKey(ref)]
    // exactly one match: it is returned with the larger counts
    ensures forall i :: OnlyAlbumMatch(c, AlbumRefKey(ref), i) ==>
      r.Ok? && r.value.id == i && r.value.catalog.albums.rows == c.albums.rows[i := MergeAlbum(c.albums.rows[i], AlbumRefKey(ref))]
    // several matches: one_or_none() raises
    ensures TwoAlbumMatches(c, AlbumRefKey(ref)) ==> r == Err(MultipleResults)
  {
    var key := AlbumRefKey(ref);
    var found := Select(c.albums, (id: nat, a: Album) => AlbumMatches(a, key));
    if |found| == 0 then
      var (albums, id) := Insert(c.albums, key);
      Ok(Stored(c.(albums := albums), id))
    else if |found| > 1 then
      assert found[0] in found && found[1] in found;
      Err(MultipleResults)
    else
      var id := found[0];
      assert id in found;
      assert forall j :: j in c.albums.rows && AlbumMatches(c.albums.rows[j], key) ==> j == id by {
        forall j | j in c.albums.rows && AlbumMatches(c.albums.rows[j], key)
          ensures j == id
        {
          assert j in found;
        }
      }
      Ok(Stored(c.(albums := Update(c.albums, id, MergeAlbum(c.albums.rows[id], key))), id))
  }

  /** Album count, as get_nr_albums reports it. */
  function AlbumCount(c: Catalog): nat
  {
    |c.albums.rows|
  }

  /** Only a reference with no stored match adds a row; the album keys stay unique. */
  lemma EnsureAlbumKeepsKeysUnique(c: Catalog, ref: Album)
    requires UniqueAlbumKeys(c)
    ensures EnsureAlbum(c, ref).Ok?
    ensures UniqueAlbumKeys(EnsureAlbum(c, ref).value.catalog)
    ensures AlbumCount(EnsureAlbum(c, ref).value.catalog) ==
      if exists i :: i in c.albums.rows && AlbumMatches(c.albums.rows[i], AlbumRefKey(ref)) then AlbumCount(c) else AlbumCount(c) + 1
  {
    var key := AlbumRefKey(ref);
    var r := EnsureAlbum(c, ref);
    if i :| i in c.albums.rows && AlbumMatches(c.albums.rows[i], key) {
      assert OnlyAlbumMatch(c, key, i);
      var merged := MergeAlbum(c.albums.rows[i], key);
      assert r.value.catalog.albums.rows == c.albums.rows[i := merged];
      UniqueAfterStore(c.albums.rows, i, merged);
    } else {
      assert NoAlbumMatch(c, key);
      var id := r.value.id;
      assert r.value.catalog.albums.rows == c.albums.rows[id := key];
      UniqueAfterStore(c.albums.rows, id, key);
    }
  }

  /**
   * Storing an album under `id` keeps (title, artist) unique when no other
   * row has its key.
   */
  lemma UniqueAfterStore(rows: map<nat, Album>, id: nat, a: Album)
    requires DistinctAlbumKeys(rows)
    requires forall j :: j in rows && j != id ==> !AlbumMatches(rows[j], a)
    ensures DistinctAlbumKeys(rows[id := a])
  {
  }

  /** Ensuring the same reference twice returns the same album and adds nothing. */
  lemma EnsureAlbumIdempotent(c: Catalog, ref: Album)
    requires UniqueAlbumKeys(c)
    ensures EnsureAlbum(c, ref).Ok?
    ensures var s := EnsureAlbum(c, ref).value;
      EnsureAlbum(s.catalog, ref).Ok?
      && EnsureAlbum(s.catalog, ref).value.id == s.id
      && AlbumCount(EnsureAlbum(s.catalog, ref).value.catalog) == AlbumCount(s.catalog)
  {
    EnsureAlbumKeepsKeysUnique(c, ref);
    var s := EnsureAlbum(c, ref).value;
    EnsureAlbumKeepsKeysUnique(s.catalog, ref);
    assert s.id in s.catalog.albums.rows && AlbumMatches(s.catalog.albums.rows[s.id], AlbumRefKey(ref));
  }

  /** An album reference as the scanner builds one. */
  function AlbumRef(title: string, artist: string, compilation: bool): Album
  {
    Album(Some(artist), Some(title), None, None, None, None, Some(compilation), [])
  }

  /** Two albums with one title: a compilation (no artist) and one by `artist`. */
  predicate CompilationAndSingle(c: Catalog, i1: nat, i2: nat, title: string, artist: string)
  {
    i1 != i2 && c.albums.rows.Keys == {i1, i2}
    && AlbumMatches(c.albums.rows[i1], Album(None, Some(title), None, None, None, None, None, []))
    && AlbumMatches(c.albums.rows[i2], Album(Some(artist), Some(title), None, None, None, None, None, []))
  }

  /** The first two calls of the compilation test. */
  lemma CompilationStepsFirst(title: string, artist1: string, artist3: string) returns (s1: Stored, s2: Stored)
    ensures EnsureAlbum(EmptyCatalog(), AlbumRef(title, artist1, true)) == Ok(s1) && AlbumCount(s1.catalog) == 1
    ensures EnsureAlbum(s1.catalog, AlbumRef(title, artist3, false)) == Ok(s2) && AlbumCount(s2.catalog) == 2
    ensures CompilationAndSingle(s2.catalog, s1.id, s2.id, title, artist3)
  {
    var comp1 := AlbumRef(title, artist1, true);
    var single := AlbumRef(title, artist3, false);
    var c0 := EmptyCatalog();
    assert NoAlbumMatch(c0, AlbumRefKey(comp1));
    s1 := EnsureAlbum(c0, comp1).value;
    assert s1.catalog.albums.rows.Keys == {s1.id} && s1.catalog.albums.rows[s1.id] == AlbumRefKey(comp1);
    assert NoAlbumMatch(s1.catalog, AlbumRefKey(single));
    s2 := EnsureAlbum(s1.catalog, single).value;
    assert s2.catalog.albums.rows.Keys == {s1.id, s2.id};
  }

  /** The last two calls of the compilation test: both find their album. */
  lemma CompilationStepsRepeat(c: Catalog, i1: nat, i2: nat, title: string, artist2: string, artist3: string)
    returns (s3: Stored, s4: Stored)
    requires CompilationAndSingle(c, i1, i2, title, artist3)
    ensures EnsureAlbum(c, AlbumRef(title, artist2, true)) == Ok(s3) && AlbumCount(s3.catalog) == 2 && s3.id == i1
    ensures EnsureAlbum(s3.catalog, AlbumRef(title, artist3, false)) == Ok(s4) && AlbumCount(s4.catalog) == 2 && s4.id == i2
  {
    var comp2 := AlbumRef(title, artist2, true);
    var single := AlbumRef(title, artist3, false);
    assert AlbumCount(c) == 2 by {
      assert |c.albums.rows.Keys| == |{i1, i2}| == 2;
    }
    assert OnlyAlbumMatch(c, AlbumRefKey(comp2), i1);
    MatchedAlbumKept(c, comp2, i1);
    s3 := EnsureAlbum(c, comp2).value;
    var rows := s3.catalog.albums.rows;
    assert AlbumMatches(rows[i1], c.albums.rows[i1]) && AlbumMatches(rows[i2], c.albums.rows[i2]);
    assert OnlyAlbumMatch(s3.catalog, AlbumRefKey(single), i2) by {
      forall j | j in rows && j != i2 ensures !AlbumMatches(rows[j], AlbumRefKey(single)) {
        assert j == i1;
      }
    }
    MatchedAlbumKept(s3.catalog, single, i2);
    s4 := EnsureAlbum(s3.catalog, single).value;
  }

  /** A reference with exactly one stored match returns it and keeps the album rows' ids and keys. */
  lemma MatchedAlbumKept(c: Catalog, ref: Album, i: nat)
    requires OnlyAlbumMatch(c, AlbumRefKey(ref), i)
    ensures var r := EnsureAlbum(c, ref);
      r.Ok? && r.value.id == i && r.value.catalog.albums.rows.Keys == c.albums.rows.Keys
      && AlbumCount(r.value.catalog) == AlbumCount(c)
      && forall j :: j in c.albums.rows ==> AlbumMatches(r.value.catalog.albums.rows[j], c.albums.rows[j])
  {
    var r := EnsureAlbum(c, ref);
    assert r.value.catalog.albums.rows == c.albums.rows[i := MergeAlbum(c.albums.rows[i], AlbumRefKey(ref))];
    assert |r.value.catalog.albums.rows.Keys| == |c.albums.rows.Keys|;
  }

  /**
   * Two compilations with one title share a row, whatever artist they name;
   * a single-artist album with that title gets a row of its own; repeating
   * either adds nothing.
   */
  lemma CompilationsShareOneAlbum(title: string, artist1: string, artist2: string, artist3: string)
    returns (s1: Stored, s2: Stored, s3: Stored, s4: Stored)
    ensures EnsureAlbum(EmptyCatalog(), AlbumRef(title, artist1, true)) == Ok(s1) && AlbumCount(s1.catalog) == 1
    ensures EnsureAlbum(s1.catalog, AlbumRef(title, artist3, false)) == Ok(s2) && AlbumCount(s2.catalog) == 2
    ensures EnsureAlbum(s2.catalog, AlbumRef(title, artist2, true)) == Ok(s3) && AlbumCount(s3.catalog) == 2
    ensures EnsureAlbum(s3.catalog, AlbumRef(title, artist3, false)) == Ok(s4) && AlbumCount(s4.catalog) == 2
    ensures s3.id == s1.id && s4.id == s2.id
  {
    s1, s2 := CompilationStepsFirst(title, artist1, artist3);
    s3, s4 := CompilationStepsRepeat(s2.catalog, s1.id, s2.id, title, artist2, artist3);
  }

  // ---------------------------------------------------------------------
  // ensure_genre_exists
  // ---------------------------------------------------------------------

  predicate OnlyGenreNamed(c: Catalog, name: string, i: nat)
  {
    i in c.genres.rows && c.genres.rows[i].name == name
    && forall j :: j in c.genres.rows && j != i ==> c.genres.rows[j].name != name
  }

  predicate TwoGenresNamed(c: Catalog, name: string)
  {
    exists i, j :: i in c.genres.rows && j in c.genres.rows && i != j && c.genres.rows[i].name == name && c.genres.rows[j].name == name
  }

  function EnsureGenre(c: Catalog, name: string): (r: Result<Stored>)
    ensures r.Ok? ==> r.value.catalog == c.(genres := r.value.catalog.genres)
    ensures r.Ok? ==> r.value.id in r.value.catalog.genres.rows && r.value.catalog.genres.rows[r.value.id].name == name
    ensures (forall i :: i in c.genres.rows ==> c.genres.rows[i].name != name) ==>
      r.Ok? && r.value.id !in c.genres.rows && r.value.catalog.genres.rows == c.genres.rows[r.value.id := Genre(name)]
    ensures forall i :: OnlyGenreNamed(c, name, i) ==> r == Ok(Stored(c, i))
    ensures TwoGenresNamed(c, name) ==> r == Err(MultipleResults)
  {
    var found := Select(c.genres, (id: nat, g: Genre) => g.name == name);
    if |found| == 0 then
      var (genres, id) := Insert(c.genres, Genre(name));
      Ok(Stored(c.(genres := genres), id))
    else if |found| > 1 then
      assert found[0] in found && found[1] in found;
      Err(MultipleResults)
    else
      assert found[0] in found;
      assert forall j :: j in c.genres.rows && c.genres.rows[j].name == name ==> j == found[0] by {
        forall j | j in c.genres.rows && c.genres.rows[j].name == name
          ensures j == found[0]
        {
          assert j in found;
        }
      }
      Ok(Stored(c, found[0]))
  }

  /** Get-or-create: afterwards exactly one genre has the name, and a second call changes nothing. */
  lemma EnsureGenreGetOrCreate(c: Catalog, name: string)
    requires UniqueGenreNames(c)
    ensures EnsureGenre(c, name).Ok?
    ensures var s := EnsureGenre(c, name).value;
      UniqueGenreNames(s.catalog)
      && (forall g :: g in s.catalog.genres.rows && s.catalog.genres.rows[g].name == name ==> g == s.id)
      && EnsureGenre(s.catalog, name) == Ok(s)
  {
    var r := EnsureGenre(c, name);
    if i :| i in c.genres.rows && c.genres.rows[i].name == name {
      assert OnlyGenreNamed(c, name, i);
    }
    var s := r.value;
    assert forall g :: g in s.catalog.genres.rows && g != s.id ==> s.catalog.genres.rows[g].name != name;
  }

  // ---------------------------------------------------------------------
  // ensure_artwork_exists
  // ---------------------------------------------------------------------

  predicate HasBlob(a: Artwork)
  {
    a.blob.Some? && a.blob.value != []
  }

  /** The first candidate (in id order) whose image bytes equal `blob`. */
  function FirstSameBlob(t: Table<Artwork>, candidates: seq<nat>, blob: Option<Bytes>): (r: Option<nat>)
    requires forall k :: k in candidates ==> k in t.rows
    ensures r.Some? ==> r.value in candidates && t.rows[r.value].blob == blob
    ensures r.None? <==> forall k :: k in candidates ==> t.rows[k].blob != blob
  {
    if |candidates| == 0 then None
    else if t.rows[candidates[0]].blob == blob then Some(candidates[0])
    else FirstSameBlob(t, candidates[1..], blob)
  }

  /** A hit only takes the reference's size. */
  function Resize(c: Catalog, id: nat, ref: Artwork): (r: Stored)
    requires id in c.artworks.rows
    ensures r.id == id && r.catalog == c.(artworks := r.catalog.artworks)
    ensures r.catalog.artworks.rows == c.artworks.rows[id := c.artworks.rows[id].(width := ref.width, height := ref.height)]
  {
    Stored(c.(artworks := Update(c.artworks, id, c.artworks.rows[id].(width := ref.width, height := ref.height))), id)
  }

  /**
   * ensure_artwork_exists: deduplicates by path when the reference has one,
   * otherwise by the hash of the image bytes (`hash` stands for the SHA-1
   * digest) followed by a byte comparison.
   */
  predicate TwoArtworksAt(c: Catalog, path: Option<string>)
  {
    exists i, j :: i in c.artworks.rows && j in c.artworks.rows && i != j && c.artworks.rows[i].path == path && c.artworks.rows[j].path == path
  }

  predicate SomeArtworkAt(c: Catalog, path: Option<string>)
  {
    exists i :: i in c.artworks.rows && c.artworks.rows[i].path == path
  }

  predicate SomeArtworkWithBlob(c: Catalog, h: string, blob: Option<Bytes>)
  {
    exists i :: i in c.artworks.rows && c.artworks.rows[i].blobHash == Some(h) && c.artworks.rows[i].blob == blob
  }

  function EnsureArtwork(c: Catalog, ref: Artwork, hash: Bytes -> string): (r: Result<Stored>)
    ensures r.Ok? ==> r.value.catalog == c.(artworks := r.value.catalog.artworks) && r.value.id in r.value.catalog.artworks.rows
    ensures r.Err? <==> (!NonEmpty(ref.path) && !HasBlob(ref)) || (NonEmpty(ref.path) && TwoArtworksAt(c, ref.path))
    // a hit changes only Width and Height; a miss inserts
    ensures r.Ok? && r.value.id in c.artworks.rows ==>
      r.value.catalog.artworks.rows == c.artworks.rows[r.value.id := c.artworks.rows[r.value.id].(width := ref.width, height := ref.height)]
    ensures r.Ok? && r.value.id !in c.artworks.rows ==>
      r.value.catalog.artworks.rows == c.artworks.rows[r.value.id := if NonEmpty(ref.path) then ref else ref.(blobHash := Some(hash(ref.blob.value)))]
    // what the hit or the new row has in common with the reference
    ensures r.Ok? && NonEmpty(ref.path) ==> r.value.catalog.artworks.rows[r.value.id].path == ref.path
    ensures r.Ok? && NonEmpty(ref.path) ==> (r.value.id in c.artworks.rows <==> SomeArtworkAt(c, ref.path))
    ensures r.Ok? && !NonEmpty(ref.path) ==> r.value.catalog.artworks.rows[r.value.id].blob == ref.blob
    ensures r.Ok? && !NonEmpty(ref.path) ==> r.value.catalog.artworks.rows[r.value.id].blobHash == Some(hash(ref.blob.value))
    ensures r.Ok? && !NonEmpty(ref.path) ==> (r.value.id in c.artworks.rows <==> SomeArtworkWithBlob(c, hash(ref.blob.value), ref.blob))
  {
    if NonEmpty(ref.path) then
      var found := Select(c.artworks, (id: nat, a: Artwork) => a.path == ref.path);
      if |found| > 1 then
        assert found[0] in found && found[1] in found;
        Err(MultipleResults)
      else if |found| == 1 then
        assert found[0] in found;
        assert forall j :: j in c.artworks.rows && c.artworks.rows[j].path == ref.path ==> j == found[0] by {
          forall j | j in c.artworks.rows && c.artworks.rows[j].path == ref.path
            ensures j == found[0]
          {
            assert j in found;
          }
        }
        Ok(Resize(c, found[0], ref))
      else
        var (artworks, id) := Insert(c.artworks, ref);
        Ok(Stored(c.(artworks := artworks), id))
    else if HasBlob(ref) then
      var h := hash(ref.blob.value);
      var candidates := Select(c.artworks, (id: nat, a: Artwork) => a.blobHash == Some(h));
      match FirstSameBlob(c.artworks, candidates, ref.blob)
      case Some(id) => Ok(Resize(c, id, ref))
      case None =>
        var (artworks, id) := Insert(c.artworks, ref.(blobHash := Some(h)));
        Ok(Stored(c.(artworks := artworks), id))
    else
      Err(AssertionFailed)
  }

  /** Every stored artwork keeps a path or an image, and paths stay unique. */
  lemma EnsureArtworkKeepsInvariants(c: Catalog, ref: Artwork, hash: Bytes -> string)
    requires ArtworkHasImage(c) && UniqueArtworkPaths(c)
    ensures EnsureArtwork(c, ref, hash).Ok? <==> NonEmpty(ref.path) || HasBlob(ref)
    ensures EnsureArtwork(c, ref, hash).Ok? ==>
      ArtworkHasImage(EnsureArtwork(c, ref, hash).value.catalog)
      && UniqueArtworkPaths(EnsureArtwork(c, ref, hash).value.catalog)
  {
    var r := EnsureArtwork(c, ref, hash);
    if r.Ok? {
      var rows := c.artworks.rows;
      var id := r.value.id;
      var a := r.value.catalog.artworks.rows[id];
      if id in rows {
        assert a == rows[id].(width := ref.width, height := ref.height);
        assert HasImage(rows[id]);
      } else if NonEmpty(ref.path) {
        assert a == ref;
        assert !SomeArtworkAt(c, ref.path);
      } else {
        assert HasBlob(ref);
        assert a == ref.(blobHash := Some(hash(ref.blob.value)));
      }
      assert r.value.catalog.artworks.rows == rows[id := a];
      StoreArtworkKeeps(rows, id, a);
    }
  }

  /**
   * Storing an artwork with an image under `id` keeps every row imaged and
   * the paths distinct when no other row has its path.
   */
  lemma StoreArtworkKeeps(rows: map<nat, Artwork>, id: nat, a: Artwork)
    requires AllHaveImages(rows) && DistinctArtworkPaths(rows) && HasImage(a)
    requires NonEmpty(a.path) ==> forall j :: j in rows && j != id ==> rows[j].path != a.path
    ensures AllHaveImages(rows[id := a]) && DistinctArtworkPaths(rows[id := a])
  {
  }

  // ---------------------------------------------------------------------
  // ensure_track_exists
  // ---------------------------------------------------------------------

  /** The nine columns ensure_track_exists identifies an unsaved track by. */
  predicate SameTrackKey(a: Track, b: Track)
  {
    a.album == b.album && a.title == b.title && a.duration == b.duration && a.artist == b.artist
    && a.volumeNumber == b.volumeNumber && a.trackNumber == b.trackNumber && a.releaseDate == b.releaseDate
    && a.musicBrainzTrackId == b.musicBrainzTrackId && a.musicBrainzArtistId == b.musicBrainzArtistId
  }

  predicate TwoTracksWithKey(c: Catalog, row: Track)
  {
    exists i, j :: i in c.tracks.rows && j in c.tracks.rows && i != j && SameTrackKey(c.tracks.rows[i], row) && SameTrackKey(c.tracks.rows[j], row)
  }

  /** Replaces a genre name by the id of the ensured genre. */
  function ResolveGenre(c: Catalog, row: Track): (r: Result<(Catalog, Track)>)
    ensures r.Ok? ==> r.value.0 == c.(genres := r.value.0.genres)
    ensures r.Ok? ==> r.value.1 == row.(genre := r.value.1.genre)
    ensures !row.genre.GenreName? ==> r == Ok((c, row))
    ensures r.Ok? && row.genre.GenreName? ==>
      r.value.1.genre.GenreId? && r.value.1.genre.id in r.value.0.genres.rows && r.value.0.genres.rows[r.value.1.genre.id].name == row.genre.name
    ensures row.genre.GenreName? ==> (r.Ok? <==> EnsureGenre(c, row.genre.name).Ok?)
  {
    match row.genre
    case GenreName(name) =>
      (match EnsureGenre(c, name)
       case Ok(s) => Ok((s.catalog, row.(genre := GenreId(s.id))))
       case Err(e) => Err(e))
    case _ => Ok((c, row))
  }

  /**
   * ensure_track_exists: afterwards the row `id` holds the reference on all
   * fourteen columns, the genre name replaced by its id.
   */
  function EnsureTrack(c: Catalog, ref: TrackRef): (r: Result<Stored>)
    ensures r.Ok? ==> ResolveGenre(c, ref.row).Ok?
    ensures r.Ok? ==> var (c1, row) := ResolveGenre(c, ref.row).value;
      r.value.catalog == c1.(tracks := r.value.catalog.tracks)
      && r.value.catalog.tracks.rows == c.tracks.rows[r.value.id := row]
    // an edit keeps the id and the number of tracks
    ensures ref.id.Some? && r.Ok? ==> r.value.id == ref.id.value && r.value.id in c.tracks.rows
    ensures ref.id.Some? && ref.id.value !in c.tracks.rows ==> r.Err?
    // an unsaved reference is inserted exactly when no row has its key
    ensures ref.id.None? && r.Ok? ==> var row := ResolveGenre(c, ref.row).value.1;
      (r.value.id in c.tracks.rows <==> exists i :: i in c.tracks.rows && SameTrackKey(c.tracks.rows[i], row))
    ensures ref.id.None? && ResolveGenre(c, ref.row).Ok? ==> (r.Err? <==> TwoTracksWithKey(c, ResolveGenre(c, ref.row).value.1))
  {
    match ResolveGenre(c, ref.row)
    case Err(e) => Err(e)
    case Ok((c1, row)) =>
      if ref.id.None? then
        var found := Select(c1.tracks, (id: nat, t: Track) => SameTrackKey(t, row));
        if |found| == 0 then
          var (tracks, id) := Insert(c1.tracks, row);
          Ok(Stored(c1.(tracks := tracks), id))
        else if |found| > 1 then
          assert found[0] in found && found[1] in found;
          Err(AssertionFailed)
        else
          assert found[0] in found;
          assert forall j :: j in c1.tracks.rows && SameTrackKey(c1.tracks.rows[j], row) ==> j == found[0] by {
            forall j | j in c1.tracks.rows && SameTrackKey(c1.tracks.rows[j], row)
              ensures j == found[0]
            {
              assert j in found;
            }
          }
          Ok(Stored(c1.(tracks := Update(c1.tracks, found[0], row)), found[0]))
      else if ref.id.value in c1.tracks.rows then
        Ok(Stored(c1.(tracks := Update(c1.tracks, ref.id.value, row)), ref.id.value))
      else
        Err(NotFound)
  }

  /**
   * The catalog ensure_track_exists leaves behind whether or not it raises.
   * A genre it creates is committed before the track lookup, so the genre
   * stays when the lookup then fails.
   */
  function EnsureTrackCommitted(c: Catalog, ref: TrackRef): (r: Catalog)
    ensures EnsureTrack(c, ref).Ok? ==> r == EnsureTrack(c, ref).value.catalog
    ensures EnsureTrack(c, ref).Err? ==> r == c.(genres := r.genres)
    ensures forall g :: g in c.genres.rows ==> g in r.genres.rows && r.genres.rows[g] == c.genres.rows[g]
    ensures ref.row.genre.GenreName? ==> exists g :: g in r.genres.rows && r.genres.rows[g].name == ref.row.genre.name
  {
    match ResolveGenre(c, ref.row)
    case Err(_) =>
      GenreNamedOnFailure(c, ref.row.genre.name);
      c
    case Ok((c1, _)) =>
      ResolveGenreKeepsRows(c, ref.row);
      match EnsureTrack(c, ref)
      case Ok(s) => s.catalog
      case Err(_) => c1
  }

  /** Resolving a genre name keeps every stored genre as it was. */
  lemma ResolveGenreKeepsRows(c: Catalog, row: Track)
    requires ResolveGenre(c, row).Ok?
    ensures forall g :: g in c.genres.rows ==>
      g in ResolveGenre(c, row).value.0.genres.rows && ResolveGenre(c, row).value.0.genres.rows[g] == c.genres.rows[g]
  {
    if row.genre.GenreName? {
      var name := row.genre.name;
      if i :| OnlyGenreNamed(c, name, i) {
        assert EnsureGenre(c, name) == Ok(Stored(c, i));
      }
    }
  }

  /** ensure_genre_exists fails only when some genre already has the name. */
  lemma GenreNamedOnFailure(c: Catalog, name: string)
    requires EnsureGenre(c, name).Err?
    ensures exists g :: g in c.genres.rows && c.genres.rows[g].name == name
  {
  }

  /** Track count, as get_nr_tracks reports it. */
  function TrackCount(c: Catalog): nat
  {
    |c.tracks.rows|
  }

  /**
   * Two files whose tracks agree on the nine key columns collapse into one
   * row, which ends up with the later file's path.
   */
  lemma SameKeyCollapses(c: Catalog, first: Track, second: Track)
    requires !first.genre.GenreName? && !second.genre.GenreName?
    requires SameTrackKey(first, second)
    requires forall i :: i in c.tracks.rows ==> !SameTrackKey(c.tracks.rows[i], first)
    ensures EnsureTrack(c, TrackRef(None, first)).Ok?
    ensures var s1 := EnsureTrack(c, TrackRef(None, first)).value;
      var r2 := EnsureTrack(s1.catalog, TrackRef(None, second));
      r2.Ok? && r2.value.id == s1.id
      && TrackCount(r2.value.catalog) == TrackCount(c) + 1
      && r2.value.catalog.tracks.rows[s1.id].filepath == second.filepath
  {
    var s1 := EnsureTrack(c, TrackRef(None, first)).value;
    assert s1.id !in c.tracks.rows;
    var rows := s1.catalog.tracks.rows;
    assert SameTrackKey(rows[s1.id], second);
    assert forall j :: j in rows && j != s1.id ==> !SameTrackKey(rows[j], second);
    var r2 := EnsureTrack(s1.catalog, TrackRef(None, second));
    assert r2.Ok?;
    assert r2.value.id == s1.id;
  }

  // ---------------------------------------------------------------------
  // Lookup by file path
  // ---------------------------------------------------------------------

  /** get_track_by_filepath: lower(Filepath) = lower(path), at most one row. */
  function GetTrackByFilepath(c: Catalog, path: string): (r: Result<Option<nat>>)
    ensures r == Ok(None) <==> forall t :: t in c.tracks.rows ==> !SamePath(c.tracks.rows[t].filepath, path)
    ensures r.Ok? && r.value.Some? ==> r.value.value in c.tracks.rows && SamePath(c.tracks.rows[r.value.value].filepath, path)
    ensures r.Err? ==> r.error == MultipleResults
    ensures UniqueTrackPaths(c) ==> r.Ok?
  {
    var found := Select(c.tracks, (id: nat, t: Track) => SamePath(t.filepath, path));
    if |found| == 0 then Ok(None)
    else if |found| == 1 then
      assert found[0] in found;
      Ok(Some(found[0]))
    else
      assert found[0] in found && found[1] in found;
      Err(MultipleResults)
  }

  // ---------------------------------------------------------------------
  // Paging
  // ---------------------------------------------------------------------

  type Page = seq<(nat, Track)>

  function Rows(t: Table<Track>, ids: seq<nat>): (r: Page)
    requires forall k :: k in ids ==> k in t.rows
    ensures |r| == |ids|
    ensures forall i :: 0 <= i < |r| ==> r[i] == (ids[i], t.rows[ids[i]])
  {
    if |ids| == 0 then [] else [(ids[0], t.rows[ids[0]])] + Rows(t, ids[1..])
  }

  predicate InWindow(id: nat, start: int, limit: int)
  {
    start <= id < start + limit
  }

  function Window(c: Catalog, start: int, limit: int): (ids: seq<nat>)
    ensures forall k :: k in ids <==> k in c.tracks.rows && InWindow(k, start, limit)
    ensures ids == [] <==> forall k :: k in c.tracks.rows ==> !InWindow(k, start, limit)
    ensures Increasing(ids)
  {
    Select(c.tracks, (id: nat, t: Track) => InWindow(id, start, limit))
  }

  /**
   * get_all_tracks_paged as written: when the window is empty it compares
   * `start` with max(Id), which is NULL for an empty table, and Python
   * raises TypeError on that comparison.
   */
  function GetAllTracksPagedAsWritten(c: Catalog, start: int, limit: int): (r: Result<Option<Page>>)
  {
    var ids := Window(c, start, limit);
    if ids != [] then Ok(Some(Rows(c.tracks, ids)))
    else
      match MaxKey(c.tracks)
      case None => Err(TypeError)
      case Some(m) => if start > m then Ok(None) else Ok(Some([]))
  }

  /** get_all_tracks_paged as documented: None once `start` is past every id. */
  function GetAllTracksPaged(c: Catalog, start: int, limit: int): (r: Option<Page>)
    ensures r.Some? ==> |r.value| == |Window(c, start, limit)|
    ensures r.Some? ==> forall i :: 0 <= i < |r.value| ==> r.value[i] == (Window(c, start, limit)[i], c.tracks.rows[Window(c, start, limit)[i]])
    ensures r.None? <==> (forall k :: k in c.tracks.rows ==> !InWindow(k, start, limit) && k < start)
  {
    var ids := Window(c, start, limit);
    if ids != [] then Some(Rows(c.tracks, ids))
    else
      match MaxKey(c.tracks)
      case None => None
      case Some(m) => if start > m then None else Some([])
  }

  /** The code as written agrees with the documented pager except on an empty table, where it raises. */
  lemma PagedAsWrittenDiffersOnlyWhenEmpty(c: Catalog, start: int, limit: int)
    ensures GetAllTracksPagedAsWritten(c, start, limit).Err? <==> c.tracks.rows == map[]
    ensures c.tracks.rows != map[] ==> GetAllTracksPagedAsWritten(c, start, limit) == Ok(GetAllTracksPaged(c, start, limit))
  {
    if c.tracks.rows == map[] {
      assert Window(c, start, limit) == [];
    }
  }

  /** The first page of an empty library: the code raises where None is intended. */
  lemma PagedEmptyLibraryRaises()
    ensures GetAllTracksPagedAsWritten(EmptyCatalog(), 0, 100) == Err(TypeError)
    ensures GetAllTracksPaged(EmptyCatalog(), 0, 100) == None
  {
    PagedAsWrittenDiffersOnlyWhenEmpty(EmptyCatalog(), 0, 100);
  }

  // ---------------------------------------------------------------------
  // Albums without tracks, and deletion
  // ---------------------------------------------------------------------

  predicate AlbumIsEmpty(c: Catalog, albumId: nat)
  {
    forall t :: t in c.tracks.rows ==> c.tracks.rows[t].album != Some(albumId)
  }

  /** get_albums_without_tracks. */
  function GetAlbumsWithoutTracks(c: Catalog): (r: seq<nat>)
    ensures forall a :: a in r <==> a in c.albums.rows && AlbumTracks(c, a) == []
    ensures Increasing(r)
  {
    Select(c.albums, (id: nat, a: Album) => AlbumIsEmpty(c, id))
  }

  function DeleteTrack(c: Catalog, id: int): (r: Result<Catalog>)
    ensures HasId(c.tracks, id) <==> r.Ok?
    ensures r.Ok? ==> r.value == DeleteTrackRow(c, id as nat)
  {
    if HasId(c.tracks, id) then Ok(DeleteTrackRow(c, id as nat)) else Err(NotFound)
  }

  function DeleteAlbum(c: Catalog, id: int): (r: Result<Catalog>)
    ensures HasId(c.albums, id) <==> r.Ok?
    ensures r.Ok? ==> r.value == DeleteAlbumRow(c, id as nat)
  {
    if HasId(c.albums, id) then Ok(DeleteAlbumRow(c, id as nat)) else Err(NotFound)
  }

  /**
   * Deleting a playlist removes its row and its genre associations. The
   * entries have no delete cascade: their PlaylistId is set to NULL, so
   * they stay behind unreachable, and the model, which keeps entries
   * inside the playlist, simply drops them.
   */
  function DeletePlaylist(c: Catalog, id: int): (r: Result<Catalog>)
    ensures HasId(c.playlists, id) <==> r.Ok?
    ensures r.Ok? ==> r.value == c.(playlists := r.value.playlists) && r.value.playlists.rows == c.playlists.rows - {id as nat}
  {
    if HasId(c.playlists, id) then Ok(c.(playlists := Remove(c.playlists, id as nat))) else Err(NotFound)
  }

  function DeleteRadioStation(c: Catalog, id: int): (r: Result<Catalog>)
    ensures HasId(c.stations, id) <==> r.Ok?
    ensures r.Ok? ==> r.value == c.(stations := r.value.stations) && r.value.stations.rows == c.stations.rows - {id as nat}
  {
    if HasId(c.stations, id) then Ok(c.(stations := Remove(c.stations, id as nat))) else Err(NotFound)
  }

  /** delete_artwork, with the Artwork.Tracks cascade. */
  function DeleteArtwork(c: Catalog, id: int): (r: Result<Catalog>)
    ensures HasId(c.artworks, id) <==> r.Ok?
    ensures r.Ok? ==> r.value == DeleteArtworkRow(c, id as nat)
  {
    if HasId(c.artworks, id) then Ok(DeleteArtworkRow(c, id as nat)) else Err(NotFound)
  }

  /** delete_genre, removing the genre's association rows. */
  function DeleteGenre(c: Catalog, id: int): (r: Result<Catalog>)
    ensures HasId(c.genres, id) <==> r.Ok?
    ensures r.Ok? ==> r.value == DeleteGenreRow(c, id as nat)
  {
    if HasId(c.genres, id) then Ok(DeleteGenreRow(c, id as nat)) else Err(NotFound)
  }
}

=== FILE: deserialize.dfy ===
/**
 * Reading request bodies: track and album ids given as numbers, digit
 * strings or URIs, boolean query flags, and the playlist and radio station
 * records built from a request. A Flask `abort` is the error `Abort(status)`.
 */
module Deserialize {
  import opened Common
  import opened Table
  import opened Schema
  import opened Database
  import opened JsonValue

  // ---------------------------------------------------------------------
  // Ids
  // ---------------------------------------------------------------------

  /**
   * `extract_id`: an int (a bool is one in Python) is kept; a string is cut
   * to the text after its last '/' and read when that is all digits;
   * anything else is None.
   */
  function ExtractId(v: Json): (r: Option<int>)
    ensures v.JInt? ==> r == Some(v.i)
    ensures v.JBool? ==> r == Some(if v.b then 1 else 0)
    ensures v.JStr? && r.Some? ==> r.value >= 0
    ensures !(v.JInt? || v.JBool? || v.JStr?) ==> r.None?
  {
    match v
    case JInt(i) => Some(i)
    case JBool(b) => Some(if b then 1 else 0)
    case JStr(s) =>
      var t := if s != "" && '/' in s then AfterLast(s, '/') else s;
      if t != "" && IsDigits(t) then Some(DigitsValue(t)) else None
    case _ => None
  }

  lemma DigitsHaveNoSlash(d: string)
    requires IsDigits(d)
    ensures '/' !in d
  {
    forall k | 0 <= k < |d| ensures d[k] != '/' {
      assert IsDigit(d[k]);
    }
  }

  /** An id written as digits is read as a number. */
  lemma ExtractIdOfDigits(d: string)
    requires IsDigits(d)
    ensures ExtractId(JStr(d)) == Some(DigitsValue(d))
  {
    DigitsHaveNoSlash(d);
  }

  /** An id written as digits at the end of a URI is read as a number. */
  lemma ExtractIdDigits(prefix: string, d: string)
    requires IsDigits(d)
    ensures ExtractId(JStr(prefix + "/" + d)) == Some(DigitsValue(d))
  {
    DigitsHaveNoSlash(d);
    var s := prefix + "/" + d;
    assert s == prefix + ['/'] + d;
    AfterLastOfJoin(prefix, d, '/');
    assert s[|prefix|] == '/';
    var t := AfterLast(s, '/');
    assert t == d;
    assert s != "" && '/' in s;
  }

  /** What `str(n)` writes, alone or at the end of a URI, reads back as `n`. */
  lemma ExtractIdRoundTrip(prefix: string, n: nat)
    ensures ExtractId(JStr(NatStr(n))) == Some(n)
    ensures ExtractId(JStr(prefix + "/" + NatStr(n))) == Some(n)
  {
    NatStrRoundTrip(n);
    ExtractIdOfDigits(NatStr(n));
    ExtractIdDigits(prefix, NatStr(n));
  }

  /** `extract_ids`: `extract_id` of each element, in order. */
  function ExtractIds(vs: seq<Json>): (r: seq<Option<int>>)
    ensures |r| == |vs| && forall i :: 0 <= i < |vs| ==> r[i] == ExtractId(vs[i])
  {
    seq(|vs|, i requires 0 <= i < |vs| => ExtractId(vs[i]))
  }

  /** A last segment, or a whole string, that is not all digits is no id; neither is the empty string. */
  lemma ExtractIdRejects(prefix: string, d: string)
    requires '/' !in d && !IsDigits(d)
    ensures ExtractId(JStr(d)) == None
    ensures ExtractId(JStr(prefix + "/" + d)) == None
  {
    var s := prefix + "/" + d;
    assert s == prefix + ['/'] + d;
    AfterLastOfJoin(prefix, d, '/');
    assert s[|prefix|] == '/';
  }

  /** The documented list example, for any URI prefix and digits: ids in any of the three forms are read in order. */
  lemma ExtractIdsMixed(prefix: string, a: string, b: string, c: int)
    requires IsDigits(a) && IsDigits(b)
    ensures ExtractIds([JStr(prefix + "/" + a), JStr(b), JInt(c)]) == [Some(DigitsValue(a)), Some(DigitsValue(b)), Some(c)]
  {
    ExtractIdDigits(prefix, a);
    ExtractIdOfDigits(b);
    ExtractIdsOfThree(JStr(prefix + "/" + a), JStr(b), JInt(c));
  }

  lemma ExtractIdsOfThree(x: Json, y: Json, z: Json)
    ensures ExtractIds([x, y, z]) == [ExtractId(x), ExtractId(y), ExtractId(z)]
  {
  }

  // ---------------------------------------------------------------------
  // Booleans
  // ---------------------------------------------------------------------

  /** `parse_bool`: 'y', 'yes' and 'true' in any case are true, everything else false. */
  function ParseBool(s: string): (r: bool)
    ensures r ==> |s| in {1, 3, 4}
  {
    Lower(s) in ["y", "yes", "true"]
  }

  /** `parse_bool` ignores case, and the documented examples. */
  lemma ParseBoolCases(s: string)
    ensures ParseBool(Lower(s)) == ParseBool(s)
    ensures ParseBool("yes") && ParseBool("y") && ParseBool("Y") && ParseBool("True")
    ensures !ParseBool("False") && !ParseBool("XYZ") && !ParseBool("")
  {
    LowerIdempotent(s);
    assert Lower("Y")[0] == 'y' && Lower("Y") == "y";
    assert Lower("y")[0] == 'y' && Lower("y") == "y";
    assert Lower("True")[0] == 't' && Lower("True")[1] == 'r' && Lower("True")[2] == 'u' && Lower("True")[3] == 'e';
    assert Lower("True") == "true";
    assert Lower("yes")[0] == 'y' && Lower("yes")[1] == 'e' && Lower("yes")[2] == 's';
    assert Lower("yes") == "yes";
    assert |Lower("False")| == 5;
    assert Lower("XYZ")[0] == 'x';
    assert Lower("") == "";
  }

  // ---------------------------------------------------------------------
  // Playlists
  // ---------------------------------------------------------------------

  /** Tracks found and file names not found, in the order the files were given. */
  datatype Resolved = Resolved(tracks: seq<nat>, missing: seq<string>)

  /**
   * The files loop: each path is looked up with `find`; found tracks and
   * missing paths are collected in order. A path that is not a string
   * cannot be joined to the music directory.
   */
  function ResolveWith(files: seq<Json>, find: string -> Result<Option<nat>>): (r: Result<Resolved>)
    ensures r.Ok? ==> |r.value.tracks| + |r.value.missing| == |files|
    ensures r.Ok? ==> forall t :: t in r.value.tracks ==> exists p :: find(p) == Ok(Some(t))
  {
    if files == [] then Ok(Resolved([], []))
    else
      var f := files[0];
      if !f.JStr? then Err(TypeError)
      else
        match find(f.s)
        case Err(e) => Err(e)
        case Ok(found) =>
          match ResolveWith(files[1..], find)
          case Err(e) => Err(e)
          case Ok(rest) =>
            if found.Some? then Ok(Resolved([found.value] + rest.tracks, rest.missing))
            else Ok(Resolved(rest.tracks, [f.s] + rest.missing))
  }

  /** A path that is not a string, or whose lookup fails, fails the request; a missing path was given and names no track. */
  lemma {:induction false} ResolveWithSpec(files: seq<Json>, find: string -> Result<Option<nat>>)
    ensures var r := ResolveWith(files, find);
      (r.Err? <==> exists i :: 0 <= i < |files| && (!files[i].JStr? || find(files[i].s).Err?))
      && (r.Ok? ==> forall m :: m in r.value.missing ==> JStr(m) in files && find(m) == Ok(None))
  {
    if files != [] {
      ResolveWithSpec(files[1..], find);
      var r := ResolveWith(files, find);
      if r.Err? && files[0].JStr? && find(files[0].s).Ok? {
        var i :| 0 <= i < |files[1..]| && (!files[1..][i].JStr? || find(files[1..][i].s).Err?);
        assert files[i + 1] == files[1..][i];
      }
      if exists i :: 0 <= i < |files| && (!files[i].JStr? || find(files[i].s).Err?) {
        var i :| 0 <= i < |files| && (!files[i].JStr? || find(files[i].s).Err?);
        if i > 0 {
          assert files[1..][i - 1] == files[i];
        }
      }
    }
  }

  /** The outcome of one path looked up after the others have been. */
  function Extend(before: Resolved, found: Option<nat>, f: string): Resolved
  {
    if found.Some? then Resolved(before.tracks + [found.value], before.missing)
    else Resolved(before.tracks, before.missing + [f])
  }

  /** One more path resolves after the others: the input order is the output order. */
  lemma {:induction false} ResolveWithAppend(files: seq<Json>, f: string, find: string -> Result<Option<nat>>)
    requires ResolveWith(files, find).Ok?
    requires find(f).Ok?
    ensures ResolveWith(files + [JStr(f)], find) == Ok(Extend(ResolveWith(files, find).value, find(f).value, f))
  {
    var all := files + [JStr(f)];
    if files == [] {
      assert all[1..] == [];
      assert ResolveWith(all[1..], find) == Ok(Resolved([], []));
      if find(f).value.Some? {
        assert [find(f).value.value] + [] == [] + [find(f).value.value];
      } else {
        assert [f] + [] == [] + [f];
      }
    } else {
      assert all[0] == files[0];
      assert all[1..] == files[1..] + [JStr(f)];
      ResolveWithAppend(files[1..], f, find);
      var found := find(f).value;
      var rest := ResolveWith(files[1..], find).value;
      if files[0].JStr? && find(files[0].s).Ok? && find(files[0].s).value.Some? {
        var h := find(files[0].s).value.value;
        assert [h] + (rest.tracks + if found.Some? then [found.value] else [])
          == ([h] + rest.tracks) + if found.Some? then [found.value] else [];
      } else if files[0].JStr? && find(files[0].s).Ok? {
        assert [files[0].s] + (rest.missing + if found.Some? then [] else [f])
          == ([files[0].s] + rest.missing) + if found.Some? then [] else [f];
      }
    }
  }

  lemma FoundAreStored(c: Catalog, resolve: string -> string, r: Result<Resolved>)
    requires r.Ok? ==> forall t :: t in r.value.tracks ==> exists p :: GetTrackByFilepath(c, resolve(p)) == Ok(Some(t))
    ensures r.Ok? ==> forall t :: t in r.value.tracks ==> t in c.tracks.rows
  {
    if r.Ok? {
      forall t | t in r.value.tracks ensures t in c.tracks.rows {
        var p :| GetTrackByFilepath(c, resolve(p)) == Ok(Some(t));
      }
    }
  }

  /** The files form: each path, under the music directory (`resolve`), looked up in the catalog. */
  function ResolveFiles(c: Catalog, files: seq<Json>, resolve: string -> string): (r: Result<Resolved>)
    ensures r.Ok? ==> |r.value.tracks| + |r.value.missing| == |files|
    ensures r.Ok? ==> forall t :: t in r.value.tracks ==> t in c.tracks.rows
  {
    var find := (p: string) => GetTrackByFilepath(c, resolve(p));
    var r := ResolveWith(files, find);
    FoundAreStored(c, resolve, r);
    r
  }

  /** The ids form: each id must name a stored track (404 otherwise). */
  function ResolveIds(c: Catalog, ids: seq<int>): (r: Result<seq<nat>>)
    ensures r.Ok? <==> forall i :: 0 <= i < |ids| ==> HasId(c.tracks, ids[i])
    ensures r.Err? ==> r.error == Abort(NotFoundStatus)
    ensures r.Ok? ==> |r.value| == |ids| && forall i :: 0 <= i < |ids| ==> r.value[i] == ids[i] && r.value[i] in c.tracks.rows
  {
    if forall i :: 0 <= i < |ids| ==> HasId(c.tracks, ids[i]) then
      Ok(seq(|ids|, i requires 0 <= i < |ids| && HasId(c.tracks, ids[i]) => ids[i] as nat))
    else Err(Abort(NotFoundStatus))
  }

  /** The genre ids of the tracks, each once, in order of first appearance. */
  function TrackGenreIds(c: Catalog, tracks: seq<nat>): (r: seq<nat>)
    requires forall t :: t in tracks ==> t in c.tracks.rows
    ensures NoDuplicates(r)
    ensures forall g :: g in r <==> exists i :: 0 <= i < |tracks| && c.tracks.rows[tracks[i]].genre == GenreId(g)
  {
    var all := seq(|tracks|, i requires 0 <= i < |tracks| => c.tracks.rows[tracks[i]].genre);
    GenresOfTracks(c, tracks, all);
    Dedupe(IdsOf(all))
  }

  lemma GenresOfTracks(c: Catalog, tracks: seq<nat>, all: seq<GenreRef>)
    requires forall t :: t in tracks ==> t in c.tracks.rows
    requires |all| == |tracks| && forall i :: 0 <= i < |tracks| ==> all[i] == c.tracks.rows[tracks[i]].genre
    ensures forall g :: GenreId(g) in all <==> exists i :: 0 <= i < |tracks| && c.tracks.rows[tracks[i]].genre == GenreId(g)
  {
    forall g ensures GenreId(g) in all ==> exists i :: 0 <= i < |tracks| && c.tracks.rows[tracks[i]].genre == GenreId(g) {
      if GenreId(g) in all {
        var i :| 0 <= i < |all| && all[i] == GenreId(g);
        assert c.tracks.rows[tracks[i]].genre == GenreId(g);
      }
    }
  }

  function IdsOf(refs: seq<GenreRef>): (r: seq<nat>)
    ensures forall g :: g in r <==> GenreId(g) in refs
  {
    if refs == [] then []
    else (if refs[0].GenreId? then [refs[0].id] else []) + IdsOf(refs[1..])
  }

  /** The playlist's genres must all be stored; `get_genre_by_id` raises otherwise. */
  function PlaylistGenres(c: Catalog, tracks: seq<nat>): (r: Result<seq<nat>>)
    requires forall t :: t in tracks ==> t in c.tracks.rows
    ensures r.Ok? <==> forall g :: g in TrackGenreIds(c, tracks) ==> g in c.genres.rows
    ensures r.Ok? ==> r.value == TrackGenreIds(c, tracks)
    ensures r.Err? ==> r.error == NotFound
  {
    var ids := TrackGenreIds(c, tracks);
    if forall g :: g in ids ==> g in c.genres.rows then Ok(ids) else Err(NotFound)
  }

  /** Playlist entries numbered 0, 1, … in the order of the tracks. */
  function Entries(tracks: seq<nat>): (r: seq<PlaylistEntry>)
    ensures |r| == |tracks| && forall i :: 0 <= i < |r| ==> r[i] == PlaylistEntry(Some(tracks[i]), i)
  {
    seq(|tracks|, i requires 0 <= i < |tracks| => PlaylistEntry(Some(tracks[i]), i))
  }

  /** The checks `build_playlist_from_api_data` makes before it looks anything up. */
  predicate TitleMissing(title: Json)
  {
    title == JNull || title == JStr("")
  }

  /** The tracks the request names, found in the catalog, and the missing files. */
  function ResolveRequest(c: Catalog, trackids: seq<Option<int>>, files: Json, resolve: string -> string): (r: Result<Resolved>)
    ensures Truthy(files) && Elements(files).Err? ==> r == Err(TypeError)
    ensures Truthy(files) && Elements(files).Ok? ==> r == ResolveFiles(c, Elements(files).value, resolve)
    ensures !Truthy(files) && None in trackids ==> r == Err(Abort(BadRequest))
    ensures r.Ok? ==> forall t :: t in r.value.tracks ==> t in c.tracks.rows
    ensures !Truthy(files) && r.Ok? ==> (r.value.missing == [] && |r.value.tracks| == |trackids|
      && forall i :: 0 <= i < |trackids| ==> trackids[i] == Some(r.value.tracks[i] as int))
  {
    if Truthy(files) then
      match Elements(files)
      case Err(e) => Err(e)
      case Ok(items) => ResolveFiles(c, items, resolve)
    else if None in trackids then Err(Abort(BadRequest))
    else
      assert forall i :: 0 <= i < |trackids| ==> trackids[i].Some?;
      var ids := seq(|trackids|, i requires 0 <= i < |trackids| && None !in trackids => trackids[i].value);
      assert forall i :: 0 <= i < |trackids| ==> trackids[i] == Some(ids[i]);
      match ResolveIds(c, ids)
      case Err(e) => Err(e)
      case Ok(ts) => Ok(Resolved(ts, []))
  }

  /**
   * `build_playlist_from_api_data`: a titled playlist from exactly one of a
   * list of track ids and a list of files, with entries numbered in order
   * and the tracks' genres; the paths that named no track are returned.
   */
  function BuildPlaylist(c: Catalog, data: Json, resolve: string -> string): (r: Result<(Playlist, seq<string>)>)
    ensures !Truthy(data) ==> r == Err(Abort(BadRequest))
    ensures r.Ok? ==> data.JObj?
    ensures data.JObj? && Truthy(data) && Elements(Get(data.fields, "tracks", JList([]))).Ok? ==>
      var trackids := ExtractIds(Elements(Get(data.fields, "tracks", JList([]))).value);
      var files := Get(data.fields, "files", JList([]));
      (TitleMissing(Get(data.fields, "title", JNull)) ==> r == Err(Abort(BadRequest)))
      && (trackids == [] && !Truthy(files) ==> r == Err(Abort(BadRequest)))
      && (trackids != [] && Truthy(files) ==> r == Err(Abort(BadRequest)))
      && (!Truthy(files) && None in trackids ==> r == Err(Abort(BadRequest)))
    ensures r.Ok? ==> var p := r.value.0;
      p.title.Some? && p.title.value != ""
      && |p.entries| > 0
      && (forall i :: 0 <= i < |p.entries| ==> p.entries[i].index == i && p.entries[i].trackId.Some? && p.entries[i].trackId.value in c.tracks.rows)
      && NoDuplicates(p.genres)
      && (forall g :: g in p.genres ==> g in c.genres.rows)
  {
    if !Truthy(data) then Err(Abort(BadRequest))
    else if !data.JObj? then Err(AttributeError)
    else
      var title := Get(data.fields, "title", JNull);
      match Elements(Get(data.fields, "tracks", JList([])))
      case Err(e) => Err(e)
      case Ok(trackVals) =>
        PlaylistFrom(c, title, ExtractIds(trackVals), Get(data.fields, "files", JList([])), resolve)
  }

  /** The request checks and the building of the playlist, once the track list is read. */
  function PlaylistFrom(c: Catalog, title: Json, trackids: seq<Option<int>>, files: Json, resolve: string -> string): (r: Result<(Playlist, seq<string>)>)
    ensures TitleMissing(title) ==> r == Err(Abort(BadRequest))
    ensures trackids == [] && !Truthy(files) ==> r == Err(Abort(BadRequest))
    ensures trackids != [] && Truthy(files) ==> r == Err(Abort(BadRequest))
    ensures !Truthy(files) && None in trackids ==> r == Err(Abort(BadRequest))
    ensures r.Ok? ==> var p := r.value.0;
      p.title.Some? && p.title.value != ""
      && |p.entries| > 0
      && (forall i :: 0 <= i < |p.entries| ==> p.entries[i].index == i && p.entries[i].trackId.Some? && p.entries[i].trackId.value in c.tracks.rows)
      && NoDuplicates(p.genres)
      && (forall g :: g in p.genres ==> g in c.genres.rows)
  {
    if TitleMissing(title) then Err(Abort(BadRequest))
    else if trackids == [] && !Truthy(files) then Err(Abort(BadRequest))
    else if trackids != [] && Truthy(files) then Err(Abort(BadRequest))
    else
      match ResolveRequest(c, trackids, files, resolve)
      case Err(e) => Err(e)
      case Ok(resolved) =>
        if resolved.tracks == [] then Err(Abort(BadRequest))
        else
          match PlaylistGenres(c, resolved.tracks)
          case Err(e) => Err(e)
          case Ok(genres) =>
            match OptText(title)
            case Err(e) => Err(e)
            case Ok(name) => Ok((Playlist(name, Entries(resolved.tracks), genres), resolved.missing))
  }

  /** A playlist by ids has one entry per id, in the order given, and no missing files. */
  lemma PlaylistByIds(c: Catalog, data: Json, resolve: string -> string)
    requires BuildPlaylist(c, data, resolve).Ok?
    requires !Truthy(Get(data.fields, "files", JList([])))
    ensures var ids := ExtractIds(Elements(Get(data.fields, "tracks", JList([]))).value);
      var (p, missing) := BuildPlaylist(c, data, resolve).value;
      missing == [] && |p.entries| == |ids|
      && forall i :: 0 <= i < |ids| ==> ids[i] == Some(p.entries[i].trackId.value as int)
  {
  }

  /** A track list given as a string is iterated by character, so "12" names the tracks 1 and 2. */
  lemma TracksAsString()
    ensures ExtractIds(Elements(JStr("12")).value) == [Some(1), Some(2)]
  {
    var e := Elements(JStr("12")).value;
    assert e == [JStr("1"), JStr("2")];
    assert IsDigits("1") && DigitsValue("1") == 1;
    assert IsDigits("2") && DigitsValue("2") == 2;
    ExtractIdOfDigits("1");
    ExtractIdOfDigits("2");
  }

  // ---------------------------------------------------------------------
  // Radio stations
  // ---------------------------------------------------------------------

  /**
   * `build_radio_station_from_api_data`: a name and a url are required;
   * the artwork and now-playing fields are copied when present.
   */
  function BuildRadioStation(data: Json): (r: Result<RadioStation>)
    ensures data == JNull ==> r == Err(Abort(BadRequest))
    ensures data.JObj? && !Truthy(Get(data.fields, "name", JNull)) ==> r == Err(Abort(BadRequest))
    ensures data.JObj? && !Truthy(Get(data.fields, "url", JNull)) ==> r == Err(Abort(BadRequest))
    ensures r.Ok? ==> data.JObj? && var s := r.value; var f := data.fields;
      s.name.Some? && s.name.value != "" && s.url.Some? && s.url.value != ""
      && Ok(s.name) == OptText(Get(f, "name", JNull)) && Ok(s.url) == OptText(Get(f, "url", JNull))
      && Ok(s.artworkUrl) == OptText(Get(f, "artwork", JNull))
      && Ok(s.nowPlayingUrl) == OptText(Get(f, "now_playing_url", JNull))
      && Ok(s.nowPlayingJq) == OptText(Get(f, "now_playing_jq", JNull))
      && Ok(s.nowPlayingArtworkUrl) == OptText(Get(f, "now_playing_artwork_url", JNull))
      && Ok(s.nowPlayingArtworkJq) == OptText(Get(f, "now_playing_artwork_jq", JNull))
      && s.sortOrder.None?
  {
    if data == JNull then Err(Abort(BadRequest))
    else if !data.JObj? then Err(AttributeError)
    else
      var f := data.fields;
      if !Truthy(Get(f, "name", JNull)) then Err(Abort(BadRequest))
      else if !Truthy(Get(f, "url", JNull)) then Err(Abort(BadRequest))
      else
        var name := OptText(Get(f, "name", JNull));
        var url := OptText(Get(f, "url", JNull));
        var artwork := OptText(Get(f, "artwork", JNull));
        var npUrl := OptText(Get(f, "now_playing_url", JNull));
        var npJq := OptText(Get(f, "now_playing_jq", JNull));
        var npArtUrl := OptText(Get(f, "now_playing_artwork_url", JNull));
        var npArtJq := OptText(Get(f, "now_playing_artwork_jq", JNull));
        if name.Err? || url.Err? || artwork.Err? || npUrl.Err? || npJq.Err? || npArtUrl.Err? || npArtJq.Err? then Err(TypeError)
        else Ok(RadioStation(name.value, url.value, artwork.value, npUrl.value, npJq.value, npArtUrl.value, npArtJq.value, None))
  }
}

=== FILE: directory.dfy ===
/**
 * The scan driver: `set_cross_refs`, which files a scanned track under its
 * album and artwork, and `scan_directory`, which runs the scanners over the
 * library's files.
 */
module Directory {
  import opened Common
  import opened Table
  import opened Schema
  import opened Database

  /** What a file scanner yields for a file it recognises. */
  datatype Scanned = Scanned(track: Track, album: Album, artwork: Option<Artwork>)

  /**
   * The catalog once the album, artwork and track are stored; `before` is
   * the album the edited track's row held before the update.
   */
  datatype Linked = Linked(catalog: Catalog, trackId: nat, albumId: nat, before: Option<nat>)

  /** `ensure_artwork_exists(artworkref) if artworkref else None`. */
  function LinkArtwork(c: Catalog, ref: Option<Artwork>, hash: Bytes -> string): (r: Result<(Catalog, Option<nat>)>)
    ensures ref.None? ==> r == Ok((c, None))
    ensures r.Ok? ==> r.value.0 == c.(artworks := r.value.0.artworks) && c.artworks.rows.Keys <= r.value.0.artworks.rows.Keys
    ensures r.Ok? && ref.Some? ==> r.value.1.Some? && r.value.1.value in r.value.0.artworks.rows
    ensures ref.Some? ==> (r.Ok? <==> EnsureArtwork(c, ref.value, hash).Ok?)
  {
    match ref
    case None => Ok((c, None))
    case Some(a) =>
      match EnsureArtwork(c, a, hash)
      case Err(e) => Err(e)
      case Ok(s) => Ok((s.catalog, Some(s.id)))
  }

  /** The first half of `set_cross_refs`, up to and including `ensure_track_exists`. */
  function LinkTrack(c: Catalog, ref: TrackRef, albumref: Album, artworkref: Option<Artwork>, hash: Bytes -> string): (r: Result<Linked>)
    ensures r.Ok? ==> EnsureAlbum(c, albumref).Ok? && r.value.albumId == EnsureAlbum(c, albumref).value.id
    ensures r.Ok? ==> var l := r.value;
      l.trackId in l.catalog.tracks.rows && l.catalog.tracks.rows[l.trackId].album == Some(l.albumId)
      && l.albumId in l.catalog.albums.rows && AlbumMatches(l.catalog.albums.rows[l.albumId], AlbumRefKey(albumref))
    ensures r.Ok? ==> (artworkref.None? <==> r.value.catalog.tracks.rows[r.value.trackId].artwork.None?)
    ensures r.Ok? && artworkref.Some? ==> r.value.catalog.tracks.rows[r.value.trackId].artwork.value in r.value.catalog.artworks.rows
    ensures r.Ok? && ref.id.Some? ==> r.value.trackId == ref.id.value && r.value.catalog.tracks.rows.Keys == c.tracks.rows.Keys
    ensures r.Ok? ==> r.value.before == if ref.id.Some? then c.tracks.rows[ref.id.value].album else None
    ensures r.Ok? ==> r.value.catalog.albums == EnsureAlbum(c, albumref).value.catalog.albums
    ensures r.Ok? ==> r.value.catalog.playlists == c.playlists && r.value.catalog.stations == c.stations
    ensures r.Ok? ==> forall t :: t in c.tracks.rows && t != r.value.trackId ==> t in r.value.catalog.tracks.rows && r.value.catalog.tracks.rows[t] == c.tracks.rows[t]
  {
    match EnsureAlbum(c, albumref)
    case Err(e) => Err(e)
    case Ok(sa) =>
      match LinkArtwork(sa.catalog, artworkref, hash)
      case Err(e) => Err(e)
      case Ok((c2, artwork)) => AttachTrack(c2, ref, sa.id, artwork)
  }

  /** `ensure_track_exists` for the row pointing at the ensured album and artwork. */
  function AttachTrack(c: Catalog, ref: TrackRef, albumId: nat, artwork: Option<nat>): (r: Result<Linked>)
    ensures r.Ok? ==> var l := r.value;
      l.albumId == albumId && l.trackId in l.catalog.tracks.rows
      && l.catalog.tracks.rows[l.trackId].album == Some(albumId) && l.catalog.tracks.rows[l.trackId].artwork == artwork
      && l.catalog.albums == c.albums && l.catalog.artworks == c.artworks
      && l.catalog.playlists == c.playlists && l.catalog.stations == c.stations
    ensures r.Ok? && ref.id.Some? ==> r.value.trackId == ref.id.value && r.value.catalog.tracks.rows.Keys == c.tracks.rows.Keys
    ensures r.Ok? ==> r.value.before == if ref.id.Some? then c.tracks.rows[ref.id.value].album else None
    ensures r.Ok? ==> forall t :: t in c.tracks.rows && t != r.value.trackId ==> t in r.value.catalog.tracks.rows && r.value.catalog.tracks.rows[t] == c.tracks.rows[t]
  {
    var row := ref.row.(album := Some(albumId), artwork := artwork);
    var before := if ref.id.Some? && ref.id.value in c.tracks.rows then c.tracks.rows[ref.id.value].album else None;
    match EnsureTrack(c, TrackRef(ref.id, row))
    case Err(e) => Err(e)
    case Ok(st) => Ok(Linked(st.catalog, st.id, albumId, before))
  }

  // ---------------------------------------------------------------------
  // Album genres
  // ---------------------------------------------------------------------

  /** Python truthiness of a Genre column value: NULL, 0 and '' are false. */
  predicate GenreTruthy(g: GenreRef)
  {
    (g.GenreId? && g.id != 0) || (g.GenreName? && g.name != "")
  }

  function TrackGenres(c: Catalog, ids: seq<nat>): (r: seq<GenreRef>)
    requires forall t :: t in ids ==> t in c.tracks.rows
    ensures |r| == |ids| && forall k :: 0 <= k < |ids| ==> r[k] == c.tracks.rows[ids[k]].genre
  {
    seq(|ids|, k requires 0 <= k < |ids| => c.tracks.rows[ids[k]].genre)
  }

  /**
   * `[db.get_genre_by_id(g) for g in set(refs) if g]`: every truthy value
   * must be a stored genre id, else NotFound (a name left in the column
   * matches no integer id).
   */
  function LookupGenres(c: Catalog, refs: seq<GenreRef>): (r: Result<seq<nat>>)
    ensures r.Ok? ==> NoDuplicates(r.value)
    ensures r.Ok? ==> forall g :: g in r.value <==> GenreId(g) in refs && g != 0
    ensures r.Ok? ==> forall g :: g in r.value ==> g in c.genres.rows
    ensures r.Err? <==> exists k :: 0 <= k < |refs| && GenreTruthy(refs[k]) && !(refs[k].GenreId? && refs[k].id in c.genres.rows)
  {
    if exists k :: 0 <= k < |refs| && GenreTruthy(refs[k]) && !(refs[k].GenreId? && refs[k].id in c.genres.rows) then
      Err(NotFound)
    else
      var ids := TruthyIds(refs);
      assert forall g :: g in ids ==> GenreId(g) in refs;
      Ok(Dedupe(ids))
  }

  function TruthyIds(refs: seq<GenreRef>): (r: seq<nat>)
    ensures forall g :: g in r <==> GenreId(g) in refs && g != 0
  {
    if |refs| == 0 then []
    else
      var rest := TruthyIds(refs[1..]);
      assert forall g :: GenreId(g) in refs <==> GenreId(g) == refs[0] || GenreId(g) in refs[1..];
      if refs[0].GenreId? && refs[0].id != 0 then [refs[0].id] + rest else rest
  }

  /**
   * For an edited track, `album.Genres` becomes exactly the distinct truthy
   * genre ids of the album's tracks; every other row stays as it was.
   */
  function RecomputeAlbumGenres(c: Catalog, albumId: nat): (r: Result<Catalog>)
    requires albumId in c.albums.rows
    ensures r.Ok? ==> r.value == c.(albums := r.value.albums) && r.value.albums.rows.Keys == c.albums.rows.Keys
    ensures r.Ok? ==> r.value.albums.rows == c.albums.rows[albumId := c.albums.rows[albumId].(genres := r.value.albums.rows[albumId].genres)]
    ensures r.Ok? ==> var genres := r.value.albums.rows[albumId].genres;
      NoDuplicates(genres)
      && forall g :: g in genres <==> g != 0 && exists t :: t in c.tracks.rows && c.tracks.rows[t].album == Some(albumId) && c.tracks.rows[t].genre == GenreId(g)
    ensures r.Err? <==> exists t :: t in c.tracks.rows && c.tracks.rows[t].album == Some(albumId) && UnknownGenre(c, c.tracks.rows[t].genre)
  {
    var tracks := AlbumTracks(c, albumId);
    var refs := TrackGenres(c, tracks);
    AlbumGenreRefs(c, albumId);
    match LookupGenres(c, refs)
    case Err(e) =>
      var k :| 0 <= k < |refs| && GenreTruthy(refs[k]) && !(refs[k].GenreId? && refs[k].id in c.genres.rows);
      assert refs[k] in refs;
      Err(e)
    case Ok(genres) =>
      assert forall g :: GenreId(g) in refs <==> exists t :: t in c.tracks.rows && c.tracks.rows[t].album == Some(albumId) && c.tracks.rows[t].genre == GenreId(g);
      KnownGenres(c, albumId);
      var r := c.(albums := Update(c.albums, albumId, c.albums.rows[albumId].(genres := genres)));
      assert r.albums.rows[albumId].genres == genres;
      Ok(r)
  }

  /** When every genre value read for an album is found, no track of the album has an unknown genre. */
  lemma KnownGenres(c: Catalog, albumId: nat)
    requires LookupGenres(c, TrackGenres(c, AlbumTracks(c, albumId))).Ok?
    ensures !exists t :: t in c.tracks.rows && c.tracks.rows[t].album == Some(albumId) && UnknownGenre(c, c.tracks.rows[t].genre)
  {
    var refs := TrackGenres(c, AlbumTracks(c, albumId));
    AlbumGenreRefs(c, albumId);
    forall t | t in c.tracks.rows && c.tracks.rows[t].album == Some(albumId)
      ensures !UnknownGenre(c, c.tracks.rows[t].genre)
    {
      var x := c.tracks.rows[t].genre;
      assert x in refs;
      var k :| 0 <= k < |refs| && refs[k] == x;
    }
  }

  /** The genre values read for an album are exactly those of its tracks. */
  lemma AlbumGenreRefs(c: Catalog, albumId: nat)
    ensures var refs := TrackGenres(c, AlbumTracks(c, albumId));
      forall x :: x in refs <==> exists t :: t in c.tracks.rows && c.tracks.rows[t].album == Some(albumId) && c.tracks.rows[t].genre == x
  {
    var tracks := AlbumTracks(c, albumId);
    var refs := TrackGenres(c, tracks);
    forall x ensures x in refs <==> exists t :: t in c.tracks.rows && c.tracks.rows[t].album == Some(albumId) && c.tracks.rows[t].genre == x {
      if x in refs {
        var k :| 0 <= k < |refs| && refs[k] == x;
        assert tracks[k] in tracks;
      }
      if t :| t in c.tracks.rows && c.tracks.rows[t].album == Some(albumId) && c.tracks.rows[t].genre == x {
        var k :| 0 <= k < |tracks| && tracks[k] == t;
        assert refs[k] == x;
      }
    }
  }

  /** A truthy Genre value that `get_genre_by_id` does not find. */
  predicate UnknownGenre(c: Catalog, g: GenreRef)
  {
    GenreTruthy(g) && !(g.GenreId? && g.id in c.genres.rows)
  }

  /**
   * For a new track, its genre is appended to `album.Genres` unless it is
   * already there; a list without duplicates keeps none.
   */
  function AddTrackGenre(c: Catalog, albumId: nat, g: GenreRef): (r: Result<Catalog>)
    requires albumId in c.albums.rows
    ensures r.Err? <==> UnknownGenre(c, g)
    ensures r.Ok? ==> r.value == c.(albums := r.value.albums) && r.value.albums.rows.Keys == c.albums.rows.Keys
    ensures r.Ok? ==> var was := c.albums.rows[albumId].genres;
      var now := r.value.albums.rows[albumId].genres;
      r.value.albums.rows == c.albums.rows[albumId := c.albums.rows[albumId].(genres := now)]
      && (GenreTruthy(g) ==> g.id in now && (g.id in was ==> now == was) && (g.id !in was ==> now == was + [g.id]))
      && (!GenreTruthy(g) ==> now == was)
      && (NoDuplicates(was) ==> NoDuplicates(now))
  {
    if !GenreTruthy(g) then Ok(c)
    else if !(g.GenreId? && g.id in c.genres.rows) then Err(NotFound)
    else
      var album := c.albums.rows[albumId];
      if g.id in album.genres then Ok(c)
      else Ok(c.(albums := Update(c.albums, albumId, album.(genres := album.genres + [g.id]))))
  }

  // ---------------------------------------------------------------------
  // set_cross_refs
  // ---------------------------------------------------------------------

  /**
   * The second half of `set_cross_refs`. For an edited track the album's
   * genres are recomputed, and `previous` is deleted when it is another
   * album that has no tracks left; for a new track its genre joins the
   * album's.
   */
  function Finish(l: Linked, editing: bool, previous: Option<nat>): (r: Result<Catalog>)
    requires l.albumId in l.catalog.albums.rows && l.trackId in l.catalog.tracks.rows
  {
    if editing then
      match RecomputeAlbumGenres(l.catalog, l.albumId)
      case Err(e) => Err(e)
      case Ok(c1) =>
        if previous.Some? && previous.value != l.albumId then
          match GetById(c1.albums, previous.value)
          case Err(e) => Err(e)
          case Ok(_) => if AlbumTracks(c1, previous.value) == [] then DeleteAlbum(c1, previous.value) else Ok(c1)
        else Ok(c1)
    else AddTrackGenre(l.catalog, l.albumId, l.catalog.tracks.rows[l.trackId].genre)
  }

  /**
   * `set_cross_refs` as written: `previous_album_id` is read from the row
   * `ensure_track_exists` has just updated, so it is always the new album.
   */
  function SetCrossRefsAsWritten(c: Catalog, ref: TrackRef, albumref: Album, artworkref: Option<Artwork>, hash: Bytes -> string): (r: Result<Catalog>)
  {
    match LinkTrack(c, ref, albumref, artworkref, hash)
    case Err(e) => Err(e)
    case Ok(l) => Finish(l, ref.id.Some?, l.catalog.tracks.rows[l.trackId].album)
  }

  /** As written, the empty-album clean-up never runs: no album the linking left is deleted. */
  lemma AsWrittenNeverDeletesAlbums(c: Catalog, ref: TrackRef, albumref: Album, artworkref: Option<Artwork>, hash: Bytes -> string)
    requires SetCrossRefsAsWritten(c, ref, albumref, artworkref, hash).Ok?
    ensures var l := LinkTrack(c, ref, albumref, artworkref, hash).value;
      SetCrossRefsAsWritten(c, ref, albumref, artworkref, hash).value.albums.rows.Keys == l.catalog.albums.rows.Keys
  {
  }

  /**
   * `set_cross_refs` with the previous album read before the update, as
   * the clean-up intends. It returns the final catalog with the track's
   * and the album's ids.
   */
  function SetCrossRefs(c: Catalog, ref: TrackRef, albumref: Album, artworkref: Option<Artwork>, hash: Bytes -> string): (r: Result<Linked>)
    ensures r.Ok? ==> var l := r.value;
      l.trackId in l.catalog.tracks.rows && l.catalog.tracks.rows[l.trackId].album == Some(l.albumId)
      && l.albumId in l.catalog.albums.rows && AlbumMatches(l.catalog.albums.rows[l.albumId], AlbumRefKey(albumref))
    ensures r.Ok? ==> (artworkref.None? <==> r.value.catalog.tracks.rows[r.value.trackId].artwork.None?)
    ensures r.Ok? && ref.id.Some? ==> r.value.trackId == ref.id.value && r.value.catalog.tracks.rows.Keys == c.tracks.rows.Keys
  {
    var linked := LinkTrack(c, ref, albumref, artworkref, hash);
    if linked.Err? then Err(linked.error)
    else Complete(linked.value, ref.id.Some?)
  }

  /** `Finish` with the album read before the update, keeping the linked ids. */
  function Complete(l: Linked, editing: bool): (r: Result<Linked>)
    requires l.albumId in l.catalog.albums.rows && l.trackId in l.catalog.tracks.rows
    requires l.catalog.tracks.rows[l.trackId].album == Some(l.albumId)
    ensures r.Ok? ==> r.value == l.(catalog := r.value.catalog)
    ensures r.Ok? ==> (r.value.catalog.tracks.rows.Keys == l.catalog.tracks.rows.Keys
      && r.value.catalog.tracks.rows[l.trackId] == l.catalog.tracks.rows[l.trackId]
      && l.albumId in r.value.catalog.albums.rows
      && r.value.catalog.albums.rows[l.albumId].(genres := []) == l.catalog.albums.rows[l.albumId].(genres := []))
  {
    match Finish(l, editing, l.before)
    case Err(e) => Err(e)
    case Ok(c1) =>
      FinishKeepsTrack(l, editing, l.before);
      Ok(l.(catalog := c1))
  }

  /** The second half leaves the track, its links and the set of track ids alone. */
  lemma FinishKeepsTrack(l: Linked, editing: bool, previous: Option<nat>)
    requires l.albumId in l.catalog.albums.rows && l.trackId in l.catalog.tracks.rows
    requires l.catalog.tracks.rows[l.trackId].album == Some(l.albumId)
    requires Finish(l, editing, previous).Ok?
    ensures var c1 := Finish(l, editing, previous).value;
      c1.tracks.rows.Keys == l.catalog.tracks.rows.Keys
      && c1.tracks.rows[l.trackId] == l.catalog.tracks.rows[l.trackId]
      && l.albumId in c1.albums.rows && c1.albums.rows[l.albumId].(genres := []) == l.catalog.albums.rows[l.albumId].(genres := [])
  {
    var c := l.catalog;
    if editing {
      var c1 := RecomputeAlbumGenres(c, l.albumId).value;
      assert c1.tracks == c.tracks;
      assert c1.albums.rows[l.albumId].(genres := []) == c.albums.rows[l.albumId].(genres := []);
      if previous.Some? && previous.value != l.albumId && AlbumTracks(c1, previous.value) == [] {
        var c2 := DeleteAlbum(c1, previous.value).value;
        assert c2 == DeleteAlbumRow(c1, previous.value);
        assert c2.tracks.rows[l.trackId] == c1.tracks.rows[l.trackId];
        assert c2.albums.rows[l.albumId] == c1.albums.rows[l.albumId];
      }
    } else {
      var c1 := AddTrackGenre(c, l.albumId, c.tracks.rows[l.trackId].genre).value;
      assert c1.tracks == c.tracks;
    }
  }

  // ---------------------------------------------------------------------
  // What a failing step leaves committed
  // ---------------------------------------------------------------------

  /**
   * What a step leaves in the database. The ensure_* calls commit as they
   * go, and `DatabaseAccess.__exit__` commits the rest even when an
   * exception ends the scan. So a failure keeps the catalog reached so
   * far, alongside the error.
   */
  datatype Committed = Committed(catalog: Catalog, error: Option<Error>)

  /** Nothing `c` stored is lost in `d`: tracks and artwork stay, genres keep their rows. */
  predicate KeepsStored(c: Catalog, d: Catalog)
  {
    c.tracks.rows.Keys <= d.tracks.rows.Keys && c.artworks.rows.Keys <= d.artworks.rows.Keys
    && (forall g :: g in c.genres.rows ==> g in d.genres.rows && d.genres.rows[g] == c.genres.rows[g])
    && d.playlists == c.playlists && d.stations == c.stations
  }

  lemma KeepsStoredTrans(c: Catalog, d: Catalog, e: Catalog)
    requires KeepsStored(c, d) && KeepsStored(d, e)
    ensures KeepsStored(c, e)
  {
  }

  /** The second half of `set_cross_refs`, keeping what it reached when it raises. */
  function FinishCommitted(l: Linked, editing: bool, previous: Option<nat>): (r: Committed)
    requires l.albumId in l.catalog.albums.rows && l.trackId in l.catalog.tracks.rows
    ensures r.error.None? <==> Finish(l, editing, previous).Ok?
    ensures r.error.None? ==> r.catalog == Finish(l, editing, previous).value
    ensures r.error.Some? ==> Finish(l, editing, previous) == Err(r.error.value)
    // a failure keeps the linked catalog, with at most the album's genres recomputed
    ensures r.error.Some? ==>
      (r.catalog == l.catalog.(albums := r.catalog.albums)
       && r.catalog.albums.rows.Keys == l.catalog.albums.rows.Keys
       && forall a :: a in r.catalog.albums.rows ==> r.catalog.albums.rows[a].(genres := []) == l.catalog.albums.rows[a].(genres := []))
    ensures r.catalog.tracks.rows.Keys == l.catalog.tracks.rows.Keys
    ensures r.catalog.genres == l.catalog.genres && r.catalog.artworks == l.catalog.artworks
    ensures r.catalog.playlists == l.catalog.playlists && r.catalog.stations == l.catalog.stations
    ensures KeepsStored(l.catalog, r.catalog)
  {
    if editing then EditCommitted(l, previous)
    else
      match AddTrackGenre(l.catalog, l.albumId, l.catalog.tracks.rows[l.trackId].genre)
      case Err(e) => Committed(l.catalog, Some(e))
      case Ok(c1) => Committed(c1, None)
  }

  /** The edit branch of FinishCommitted: the album's genres are recomputed, then the previous album checked. */
  function EditCommitted(l: Linked, previous: Option<nat>): (r: Committed)
    requires l.albumId in l.catalog.albums.rows && l.trackId in l.catalog.tracks.rows
    ensures r.error.None? <==> Finish(l, true, previous).Ok?
    ensures r.error.None? ==> r.catalog == Finish(l, true, previous).value
    ensures r.error.Some? ==> Finish(l, true, previous) == Err(r.error.value)
    // a failure keeps the linked catalog, with at most the album's genres recomputed
    ensures r.error.Some? ==>
      (r.catalog == l.catalog.(albums := r.catalog.albums)
       && r.catalog.albums.rows.Keys == l.catalog.albums.rows.Keys
       && forall a :: a in r.catalog.albums.rows ==> r.catalog.albums.rows[a].(genres := []) == l.catalog.albums.rows[a].(genres := []))
    ensures r.catalog.tracks.rows.Keys == l.catalog.tracks.rows.Keys
    ensures r.catalog.genres == l.catalog.genres && r.catalog.artworks == l.catalog.artworks
    ensures r.catalog.playlists == l.catalog.playlists && r.catalog.stations == l.catalog.stations
    ensures KeepsStored(l.catalog, r.catalog)
  {
    match RecomputeAlbumGenres(l.catalog, l.albumId)
    case Err(e) => Committed(l.catalog, Some(e))
    case Ok(c1) =>
      if previous.Some? && previous.value != l.albumId then
        match GetById(c1.albums, previous.value)
        case Err(e) => Committed(c1, Some(e))
        case Ok(_) =>
          if AlbumTracks(c1, previous.value) == [] then Committed(DeleteAlbum(c1, previous.value).value, None)
          else Committed(c1, None)
      else Committed(c1, None)
  }

  /**
   * The catalog the first half of `set_cross_refs` leaves behind, whether
   * or not it raises. The album and the artwork are committed before the
   * next call can fail, and so is a genre that ensure_track_exists creates.
   */
  function LinkCommitted(c: Catalog, ref: TrackRef, albumref: Album, artworkref: Option<Artwork>, hash: Bytes -> string): (r: Catalog)
    ensures EnsureAlbum(c, albumref).Err? ==> r == c
    ensures EnsureAlbum(c, albumref).Ok? ==> r.albums == EnsureAlbum(c, albumref).value.catalog.albums
    ensures KeepsStored(c, r)
    // once the album and the artwork are ensured, a genre named by the track is stored
    ensures (EnsureAlbum(c, albumref).Ok? && LinkArtwork(EnsureAlbum(c, albumref).value.catalog, artworkref, hash).Ok?
             && ref.row.genre.GenreName?) ==>
        exists g :: g in r.genres.rows && r.genres.rows[g].name == ref.row.genre.name
  {
    match EnsureAlbum(c, albumref)
    case Err(_) => c
    case Ok(sa) =>
      assert KeepsStored(c, sa.catalog);
      var r := ArtworkThenTrack(sa.catalog, ref, sa.id, artworkref, hash);
      KeepsStoredTrans(c, sa.catalog, r);
      r
  }

  /** What the artwork and track steps leave committed once the album is stored under `albumId`. */
  function ArtworkThenTrack(c: Catalog, ref: TrackRef, albumId: nat, artworkref: Option<Artwork>, hash: Bytes -> string): (r: Catalog)
    ensures KeepsStored(c, r) && r.albums == c.albums
    ensures (LinkArtwork(c, artworkref, hash).Ok? && ref.row.genre.GenreName?) ==>
        exists g :: g in r.genres.rows && r.genres.rows[g].name == ref.row.genre.name
  {
    match LinkArtwork(c, artworkref, hash)
    case Err(_) => c
    case Ok((c2, artwork)) =>
      assert KeepsStored(c, c2);
      var r := EnsureTrackCommitted(c2, TrackRef(ref.id, ref.row.(album := Some(albumId), artwork := artwork)));
      assert KeepsStored(c2, r);
      KeepsStoredTrans(c, c2, r);
      r
  }

  /** When the first half succeeds, what it leaves committed is the catalog it returns. */
  lemma LinkCommittedOnSuccess(c: Catalog, ref: TrackRef, albumref: Album, artworkref: Option<Artwork>, hash: Bytes -> string)
    requires LinkTrack(c, ref, albumref, artworkref, hash).Ok?
    ensures LinkCommitted(c, ref, albumref, artworkref, hash) == LinkTrack(c, ref, albumref, artworkref, hash).value.catalog
  {
  }

  /**
   * `set_cross_refs` (with the clean-up corrected, as SetCrossRefs) and what
   * it leaves committed: on success the catalog SetCrossRefs gives, on
   * failure its error and the rows stored before the failing call.
   */
  function SetCrossRefsCommitted(c: Catalog, ref: TrackRef, albumref: Album, artworkref: Option<Artwork>, hash: Bytes -> string): (r: Committed)
    ensures r.error.None? <==> SetCrossRefs(c, ref, albumref, artworkref, hash).Ok?
    ensures r.error.None? ==> r.catalog == SetCrossRefs(c, ref, albumref, artworkref, hash).value.catalog
    ensures r.error.Some? ==> SetCrossRefs(c, ref, albumref, artworkref, hash) == Err(r.error.value)
    // no stored track, artwork or genre is lost, even on failure
    ensures KeepsStored(c, r.catalog)
    // an album ensured before a failure stays
    ensures EnsureAlbum(c, albumref).Ok? ==>
        exists a :: a in r.catalog.albums.rows && AlbumMatches(r.catalog.albums.rows[a], AlbumRefKey(albumref))
    // so does a genre created before a failure
    ensures (EnsureAlbum(c, albumref).Ok? && LinkArtwork(EnsureAlbum(c, albumref).value.catalog, artworkref, hash).Ok?
             && ref.row.genre.GenreName?) ==>
        exists g :: g in r.catalog.genres.rows && r.catalog.genres.rows[g].name == ref.row.genre.name
  {
    match LinkTrack(c, ref, albumref, artworkref, hash)
    case Err(e) =>
      var r := LinkCommitted(c, ref, albumref, artworkref, hash);
      assert EnsureAlbum(c, albumref).Ok? ==> (var sa := EnsureAlbum(c, albumref).value;
        sa.id in r.albums.rows && AlbumMatches(r.albums.rows[sa.id], AlbumRefKey(albumref)));
      Committed(r, Some(e))
    case Ok(l) =>
      var r := FinishCommitted(l, ref.id.Some?, l.before);
      LinkCommittedOnSuccess(c, ref, albumref, artworkref, hash);
      KeepsStoredTrans(c, LinkCommitted(c, ref, albumref, artworkref, hash), r.catalog);
      assert r.error.Some? ==> (l.albumId in r.catalog.albums.rows
        && r.catalog.albums.rows[l.albumId].(genres := []) == l.catalog.albums.rows[l.albumId].(genres := [])
        && AlbumMatches(r.catalog.albums.rows[l.albumId], AlbumRefKey(albumref)));
      r
  }

  /**
   * One iteration of `scan_directory` and what it leaves committed: a
   * failing lookup or scanner stores nothing, and a failing
   * `set_cross_refs` keeps what it stored before raising.
   */
  function ScanFileCommitted(c: Catalog, job: Job, normalize: string -> string, hash: Bytes -> string): (r: Committed)
    ensures r.error.None? <==> ScanFile(c, job, normalize, hash).Ok?
    ensures r.error.None? ==> r.catalog == ScanFile(c, job, normalize, hash).value
    ensures r.error.Some? ==> ScanFile(c, job, normalize, hash) == Err(r.error.value)
    ensures GetTrackByFilepath(c, normalize(job.path)).Err? || job.scanned.Err? ==> r.catalog == c
    ensures KeepsStored(c, r.catalog)
  {
    match GetTrackByFilepath(c, normalize(job.path))
    case Err(e) => Committed(c, Some(e))
    case Ok(existing) =>
      match job.scanned
      case Err(e) => Committed(c, Some(e))
      case Ok(None) => Committed(c, None)
      case Ok(Some(s)) => SetCrossRefsCommitted(c, TrackRef(existing, s.track), s.album, s.artwork, hash)
  }

  // ---------------------------------------------------------------------
  // Moving a library's only track to a new album
  // ---------------------------------------------------------------------

  /**
   * The situation of the rescan in which a file's tags change album: the
   * catalog holds one album `p` with its one track `t`, and `t` is saved
   * again under an album key that `p` does not match.
   */
  predicate MovesOnlyTrack(c: Catalog, t: nat, p: nat, row: Track, albumref: Album)
  {
    c.tracks.rows.Keys == {t} && c.albums.rows.Keys == {p}
    && c.tracks.rows[t].album == Some(p)
    && !AlbumMatches(c.albums.rows[p], AlbumRefKey(albumref))
    && row.genre == NoGenre
  }

  lemma LinkMovesOnlyTrack(c: Catalog, t: nat, p: nat, row: Track, albumref: Album, hash: Bytes -> string)
    requires MovesOnlyTrack(c, t, p, row, albumref)
    ensures var r := LinkTrack(c, TrackRef(Some(t), row), albumref, None, hash);
      r.Ok? && r.value.trackId == t && r.value.albumId != p && r.value.before == Some(p)
      && r.value.catalog.albums.rows.Keys == {p, r.value.albumId}
      && r.value.catalog.tracks.rows.Keys == {t}
      && r.value.catalog.tracks.rows[t].genre == NoGenre
  {
    NewAlbumBeside(c, p, albumref);
    var sa := EnsureAlbum(c, albumref).value;
    var row' := row.(album := Some(sa.id), artwork := None);
    assert LinkArtwork(sa.catalog, None, hash) == Ok((sa.catalog, None));
    SaveOnlyTrack(sa.catalog, t, row');
    var st := EnsureTrack(sa.catalog, TrackRef(Some(t), row')).value;
    assert LinkTrack(c, TrackRef(Some(t), row), albumref, None, hash) == Ok(Linked(st.catalog, t, sa.id, Some(p)));
  }

  /** An album key no stored album matches is inserted as a new album beside `p`. */
  lemma NewAlbumBeside(c: Catalog, p: nat, albumref: Album)
    requires c.albums.rows.Keys == {p} && !AlbumMatches(c.albums.rows[p], AlbumRefKey(albumref))
    ensures var r := EnsureAlbum(c, albumref);
      r.Ok? && r.value.id != p && r.value.catalog.albums.rows.Keys == {p, r.value.id} && r.value.catalog.tracks == c.tracks
  {
    var key := AlbumRefKey(albumref);
    assert NoAlbumMatch(c, key) by {
      forall i | i in c.albums.rows ensures !AlbumMatches(c.albums.rows[i], key) {
        assert i == p;
      }
    }
    var r := EnsureAlbum(c, albumref);
    assert r.Ok? && r.value.id !in c.albums.rows && r.value.catalog.albums.rows == c.albums.rows[r.value.id := key];
    assert r.value.catalog.albums.rows.Keys == c.albums.rows.Keys + {r.value.id};
  }

  /** Saving the only track again under its id, with no genre, replaces its row. */
  lemma SaveOnlyTrack(c: Catalog, t: nat, row: Track)
    requires c.tracks.rows.Keys == {t} && row.genre == NoGenre
    ensures var r := EnsureTrack(c, TrackRef(Some(t), row));
      r.Ok? && r.value.id == t && r.value.catalog.tracks.rows == map[t := row] && r.value.catalog.albums == c.albums
  {
    assert ResolveGenre(c, row) == Ok((c, row));
    assert EnsureTrack(c, TrackRef(Some(t), row)).value.catalog.tracks.rows == c.tracks.rows[t := row];
  }


  /** After the link: the moved track is the only one, on its new album, beside the old album `p`. */
  predicate MovedOnly(l: Linked, p: nat)
  {
    l.catalog.tracks.rows.Keys == {l.trackId} && l.catalog.tracks.rows[l.trackId].album == Some(l.albumId)
    && l.catalog.tracks.rows[l.trackId].genre == NoGenre
    && l.catalog.albums.rows.Keys == {p, l.albumId} && p != l.albumId
  }

  /** Linking the moved track leaves the situation `MovedOnly` describes, with `p` as the album before. */
  lemma LinkedMovedOnly(c: Catalog, t: nat, p: nat, row: Track, albumref: Album, hash: Bytes -> string)
    requires MovesOnlyTrack(c, t, p, row, albumref)
    ensures var r := LinkTrack(c, TrackRef(Some(t), row), albumref, None, hash);
      r.Ok? && MovedOnly(r.value, p) && r.value.before == Some(p) && r.value.trackId == t
  {
    LinkMovesOnlyTrack(c, t, p, row, albumref, hash);
  }

  /** Recomputing the new album's genres succeeds, changes no track and leaves `p` without tracks. */
  lemma RecomputeAfterMove(l: Linked, p: nat)
    requires MovedOnly(l, p)
    ensures var c1 := RecomputeAlbumGenres(l.catalog, l.albumId);
      c1.Ok? && c1.value.tracks == l.catalog.tracks && c1.value.albums.rows.Keys == {p, l.albumId}
      && AlbumTracks(c1.value, p) == []
  {
    assert !UnknownGenre(l.catalog, l.catalog.tracks.rows[l.trackId].genre);
  }

  /** As written, the edit leaves the old album behind with no tracks. */
  lemma AsWrittenLeavesEmptyAlbum(c: Catalog, t: nat, p: nat, row: Track, albumref: Album, hash: Bytes -> string)
    requires MovesOnlyTrack(c, t, p, row, albumref)
    ensures var r := SetCrossRefsAsWritten(c, TrackRef(Some(t), row), albumref, None, hash);
      r.Ok? && |r.value.albums.rows| == 2 && p in r.value.albums.rows && AlbumTracks(r.value, p) == []
  {
    LinkedMovedOnly(c, t, p, row, albumref, hash);
    var l := LinkTrack(c, TrackRef(Some(t), row), albumref, None, hash).value;
    RecomputeAfterMove(l, p);
    var c1 := RecomputeAlbumGenres(l.catalog, l.albumId).value;
    assert Finish(l, true, Some(l.albumId)) == Ok(c1);
    assert SetCrossRefsAsWritten(c, TrackRef(Some(t), row), albumref, None, hash) == Ok(c1);
    assert |c1.albums.rows.Keys| == 2;
  }

  /** With the previous album read before the update, the emptied album is deleted. */
  lemma CorrectedDeletesEmptyAlbum(c: Catalog, t: nat, p: nat, row: Track, albumref: Album, hash: Bytes -> string)
    requires MovesOnlyTrack(c, t, p, row, albumref)
    ensures var r := SetCrossRefs(c, TrackRef(Some(t), row), albumref, None, hash);
      r.Ok? && r.value.catalog.albums.rows.Keys == {r.value.albumId} && p !in r.value.catalog.albums.rows
  {
    LinkedMovedOnly(c, t, p, row, albumref, hash);
    var l := LinkTrack(c, TrackRef(Some(t), row), albumref, None, hash).value;
    CompleteAfterMove(l, p);
    assert SetCrossRefs(c, TrackRef(Some(t), row), albumref, None, hash) == Complete(l, true);
  }

  /** The corrected second half deletes `p` and keeps only the new album. */
  lemma CompleteAfterMove(l: Linked, p: nat)
    requires MovedOnly(l, p) && l.before == Some(p)
    ensures var r := Complete(l, true);
      r.Ok? && r.value.albumId == l.albumId && r.value.catalog.albums.rows.Keys == {l.albumId}
  {
    RecomputeAfterMove(l, p);
    var c1 := RecomputeAlbumGenres(l.catalog, l.albumId).value;
    var c2 := DeleteAlbumRow(c1, p);
    assert Finish(l, true, Some(p)) == Ok(c2) by {
      assert GetById(c1.albums, p).Ok?;
    }
    assert c2.albums.rows.Keys == {l.albumId};
  }

  // ---------------------------------------------------------------------
  // scan_directory
  // ---------------------------------------------------------------------

  /** A file found under the music directory, with what its scanner made of it or raised. */
  datatype Job = Job(path: string, scanned: Result<Option<Scanned>>)

  /**
   * One iteration of `scan_directory`: the file's existing row is looked up
   * by its normalised path before the scanner's result is stored; a file
   * the scanner does not recognise leaves the catalog alone.
   */
  function ScanFile(c: Catalog, job: Job, normalize: string -> string, hash: Bytes -> string): (r: Result<Catalog>)
    ensures GetTrackByFilepath(c, normalize(job.path)).Err? ==> r.Err?
    ensures GetTrackByFilepath(c, normalize(job.path)).Ok? && job.scanned.Err? ==> r == Err(job.scanned.error)
    ensures GetTrackByFilepath(c, normalize(job.path)).Ok? && job.scanned == Ok(None) ==> r == Ok(c)
    ensures r.Ok? && GetTrackByFilepath(c, normalize(job.path)).value.Some? ==> r.value.tracks.rows.Keys == c.tracks.rows.Keys
  {
    match GetTrackByFilepath(c, normalize(job.path))
    case Err(e) => Err(e)
    case Ok(existing) =>
      match job.scanned
      case Err(e) => Err(e)
      case Ok(None) => Ok(c)
      case Ok(Some(s)) =>
        match SetCrossRefs(c, TrackRef(existing, s.track), s.album, s.artwork, hash)
        case Err(e) => Err(e)
        case Ok(l) => Ok(l.catalog)
  }

  /** One scan step with the normaliser and the image hash fixed. */
  function Scanner(normalize: string -> string, hash: Bytes -> string): (Catalog, Job) -> Result<Catalog>
  {
    (c: Catalog, job: Job) => ScanFile(c, job, normalize, hash)
  }

  /** The catalog after applying `step` to `jobs` in order, or the first failure. */
  function ScanAll(c: Catalog, jobs: seq<Job>, step: (Catalog, Job) -> Result<Catalog>): Result<Catalog>
  {
    if |jobs| == 0 then Ok(c)
    else
      match ScanAll(c, jobs[..|jobs| - 1], step)
      case Err(e) => Err(e)
      case Ok(c1) => step(c1, jobs[|jobs| - 1])
  }

  /** Scanning one more file continues from the catalog the shorter scan produced. */
  lemma ScanAllExtend(c: Catalog, jobs: seq<Job>, k: nat, catalog: Catalog, step: (Catalog, Job) -> Result<Catalog>)
    requires k < |jobs| && ScanAll(c, jobs[..k], step) == Ok(catalog)
    ensures ScanAll(c, jobs[..k + 1], step) == step(catalog, jobs[k])
  {
    assert jobs[..k + 1][..k] == jobs[..k];
  }

  /** A failure ends the scan: scanning more files reports the same error. */
  lemma {:induction false} ScanAllStops(c: Catalog, jobs: seq<Job>, k: nat, step: (Catalog, Job) -> Result<Catalog>)
    requires k <= |jobs| && ScanAll(c, jobs[..k], step).Err?
    ensures ScanAll(c, jobs, step) == ScanAll(c, jobs[..k], step)
    decreases |jobs|
  {
    if k < |jobs| {
      var init := jobs[..|jobs| - 1];
      assert init[..k] == jobs[..k];
      ScanAllStops(c, init, k, step);
    } else {
      assert jobs[..k] == jobs;
    }
  }

  /**
   * How many files `scan_directory` visits out of `n`: all of them without
   * a limit; otherwise it stops once the count reaches the limit, which it
   * checks only after a file, so a limit below one still visits one file.
   */
  function Processed(n: nat, limit: Option<int>): (k: nat)
    ensures k <= n
    ensures limit.None? ==> k == n
    ensures limit.Some? && n > 0 ==> k >= 1 && (k == n || k >= limit.value)
    ensures limit.Some? && 0 < limit.value <= n ==> k == limit.value
  {
    match limit
    case None => n
    case Some(m) => if n == 0 then 0 else if m <= 1 then 1 else if m < n then m else n
  }

  /** The mp3 files first, then the m4a files, each with its own scanner's result. */
  function Jobs(mp3s: seq<string>, m4as: seq<string>, scanMp3: string -> Result<Option<Scanned>>, scanM4a: string -> Result<Option<Scanned>>): (r: seq<Job>)
    ensures |r| == |mp3s| + |m4as|
    ensures forall i :: 0 <= i < |mp3s| ==> r[i] == Job(mp3s[i], scanMp3(mp3s[i]))
    ensures forall i :: 0 <= i < |m4as| ==> r[|mp3s| + i] == Job(m4as[i], scanM4a(m4as[i]))
  {
    seq(|mp3s|, i requires 0 <= i < |mp3s| => Job(mp3s[i], scanMp3(mp3s[i])))
    + seq(|m4as|, i requires 0 <= i < |m4as| => Job(m4as[i], scanM4a(m4as[i])))
  }

  /**
   * `scan_directory`: visits the files one by one until the limit is
   * reached; `count` is how many it visited. The result is that of
   * scanning exactly the first `Processed` files, and a failure ends the
   * scan early.
   */
  method ScanDirectory(c: Catalog, mp3s: seq<string>, m4as: seq<string>,
                       scanMp3: string -> Result<Option<Scanned>>, scanM4a: string -> Result<Option<Scanned>>,
                       normalize: string -> string, hash: Bytes -> string, limit: Option<int>)
    returns (r: Result<Catalog>, count: nat)
    ensures r == ScanAll(c, Jobs(mp3s, m4as, scanMp3, scanM4a)[..Processed(|mp3s| + |m4as|, limit)], Scanner(normalize, hash))
    ensures count <= Processed(|mp3s| + |m4as|, limit)
    ensures r.Ok? ==> count == Processed(|mp3s| + |m4as|, limit)
    ensures r.Err? ==> count > 0 && ScanAll(c, Jobs(mp3s, m4as, scanMp3, scanM4a)[..count - 1], Scanner(normalize, hash)).Ok?
  {
    var last;
    r, count, last := ScanPrefix(c, Jobs(mp3s, m4as, scanMp3, scanM4a), Processed(|mp3s| + |m4as|, limit), Scanner(normalize, hash));
  }

  /**
   * What a `scan_directory` run leaves once the worker's `DatabaseAccess`
   * commits on the way out: the scanned catalog, or, when file `count`
   * raises, the catalog the files before it built plus what that file's
   * partial `set_cross_refs` stored, together with the error.
   */
  method ScanDirectoryCommitted(c: Catalog, mp3s: seq<string>, m4as: seq<string>,
                                scanMp3: string -> Result<Option<Scanned>>, scanM4a: string -> Result<Option<Scanned>>,
                                normalize: string -> string, hash: Bytes -> string, limit: Option<int>)
    returns (o: Committed, count: nat)
    ensures var r := ScanAll(c, Jobs(mp3s, m4as, scanMp3, scanM4a)[..Processed(|mp3s| + |m4as|, limit)], Scanner(normalize, hash));
      (o.error.None? <==> r.Ok?) && (r.Ok? ==> o.catalog == r.value) && (r.Err? ==> o.error == Some(r.error))
    ensures count <= Processed(|mp3s| + |m4as|, limit)
    ensures o.error.Some? ==> var jobs := Jobs(mp3s, m4as, scanMp3, scanM4a);
      count > 0 && ScanAll(c, jobs[..count - 1], Scanner(normalize, hash)).Ok?
      && o == ScanFileCommitted(ScanAll(c, jobs[..count - 1], Scanner(normalize, hash)).value, jobs[count - 1], normalize, hash)
  {
    var jobs := Jobs(mp3s, m4as, scanMp3, scanM4a);
    var r, last;
    r, count, last := ScanPrefix(c, jobs, Processed(|mp3s| + |m4as|, limit), Scanner(normalize, hash));
    if r.Ok? {
      o := Committed(r.value, None);
    } else {
      o := ScanFileCommitted(last, jobs[count - 1], normalize, hash);
    }
  }

  /**
   * Applies `step` to the first `n` jobs, stopping at the first failure;
   * `last` is the catalog the failing job started from.
   */
  method ScanPrefix(c: Catalog, jobs: seq<Job>, n: nat, step: (Catalog, Job) -> Result<Catalog>)
    returns (r: Result<Catalog>, count: nat, last: Catalog)
    requires n <= |jobs|
    ensures r == ScanAll(c, jobs[..n], step)
    ensures count <= n && (r.Ok? ==> count == n && r.value == last)
    ensures r.Err? ==> count > 0 && ScanAll(c, jobs[..count - 1], step) == Ok(last) && r == step(last, jobs[count - 1])
  {
    var catalog := c;
    count := 0;
    while count < n
      invariant count <= n
      invariant ScanAll(c, jobs[..count], step) == Ok(catalog)
    {
      var next := step(catalog, jobs[count]);
      ScanAllExtend(c, jobs, count, catalog, step);
      if next.Err? {
        count := count + 1;
        r := next;
        last := catalog;
        assert jobs[..n][..count] == jobs[..count];
        ScanAllStops(c, jobs[..n], count, step);
        return;
      }
      catalog := next.value;
      count := count + 1;
    }
    assert jobs[..n] == jobs[..count];
    r := Ok(catalog);
    last := catalog;
  }

  /** Scanning a file whose path is already stored edits its row: the set of tracks is unchanged. */
  lemma RescanKeepsTracks(c: Catalog, job: Job, normalize: string -> string, hash: Bytes -> string)
    requires ScanFile(c, job, normalize, hash).Ok?
    requires exists t :: t in c.tracks.rows && SamePath(c.tracks.rows[t].filepath, normalize(job.path))
    ensures ScanFile(c, job, normalize, hash).value.tracks.rows.Keys == c.tracks.rows.Keys
  {
  }
}

=== FILE: downloadhistory.dfy ===
/**
 * `DownloadHistory`: the most recently downloaded URLs, newest first and
 * without repeats, capped at `max_length`, and the files each download
 * produced.
 */
module Downloads {
  import opened Common

  datatype History<V> = History(entries: seq<string>, files: map<string, V>, maxLength: int)

  /** A new history: no entries and no file information. */
  function NewHistory<V>(maxLength: int): (r: History<V>)
    ensures r.entries == [] && r.files == map[] && r.maxLength == maxLength
    ensures Valid(r)
  {
    History([], map[], maxLength)
  }

  /** The entries are distinct and, for a non-negative cap, no more than it. */
  predicate Valid<V>(h: History<V>)
  {
    NoDuplicates(h.entries) && (h.maxLength >= 0 ==> |h.entries| <= h.maxLength)
  }

  /** Every element of `xs` except those equal to `x`, in order. */
  function Without(xs: seq<string>, x: string): (r: seq<string>)
    ensures x !in r
    ensures forall y :: y in r <==> y in xs && y != x
  {
    if xs == [] then []
    else if xs[0] == x then Without(xs[1..], x)
    else [xs[0]] + Without(xs[1..], x)
  }

  /** Without repeats, removing the first occurrence removes every occurrence. */
  lemma {:induction false} RemoveFirstIsWithout(xs: seq<string>, x: string)
    requires NoDuplicates(xs) && x in xs
    ensures RemoveFirst(xs, x) == Without(xs, x)
  {
    if xs[0] == x {
      assert x !in xs[1..] by {
        forall k | 0 <= k < |xs[1..]| ensures xs[1..][k] != x {
          assert xs[1..][k] == xs[k + 1];
        }
      }
      WithoutAbsent(xs[1..], x);
    } else {
      assert x in xs[1..];
      assert NoDuplicates(xs[1..]) by {
        forall i, j | 0 <= i < j < |xs[1..]| ensures xs[1..][i] != xs[1..][j] {
          assert xs[1..][i] == xs[i + 1] && xs[1..][j] == xs[j + 1];
        }
      }
      RemoveFirstIsWithout(xs[1..], x);
    }
  }

  lemma {:induction false} WithoutAbsent(xs: seq<string>, x: string)
    requires x !in xs
    ensures Without(xs, x) == xs
  {
    if xs != [] {
      assert x !in xs[1..];
      WithoutAbsent(xs[1..], x);
    }
  }

  /** Removing elements keeps the survivors distinct. */
  lemma {:induction false} WithoutKeepsDistinct(xs: seq<string>, x: string)
    requires NoDuplicates(xs)
    ensures NoDuplicates(Without(xs, x))
  {
    if xs != [] {
      assert NoDuplicates(xs[1..]) by {
        forall i, j | 0 <= i < j < |xs[1..]| ensures xs[1..][i] != xs[1..][j] {
          assert xs[1..][i] == xs[i + 1] && xs[1..][j] == xs[j + 1];
        }
      }
      WithoutKeepsDistinct(xs[1..], x);
      assert xs[0] !in xs[1..];
    }
  }

  /** Prefixes of a sequence without repeats are without repeats. */
  lemma PrefixDistinct(xs: seq<string>, n: int)
    requires NoDuplicates(xs)
    ensures NoDuplicates(PyTake(xs, n))
  {
  }

  /**
   * `add`: the URL moves, or is put, at the front; the other entries keep
   * their order, and the list is cut to `max_length`.
   */
  function Add<V>(h: History<V>, url: string): (r: History<V>)
    ensures r.files == h.files && r.maxLength == h.maxLength
    ensures h.maxLength > 0 ==> |r.entries| > 0 && r.entries[0] == url
    ensures h.maxLength >= 0 ==> |r.entries| <= h.maxLength
  {
    var rest := if url in h.entries then RemoveFirst(h.entries, url) else h.entries;
    h.(entries := PyTake([url] + rest, h.maxLength))
  }

  /**
   * What `add` leaves, stated without the removal: the URL, then the
   * previous entries other than the URL, as many as the cap allows.
   */
  lemma AddSpec<V>(h: History<V>, url: string)
    requires Valid(h) && h.maxLength > 0
    ensures var r := Add(h, url).entries; var others := Without(h.entries, url);
      r[0] == url
      && |r| == (if 1 + |others| < h.maxLength then 1 + |others| else h.maxLength)
      && r[1..] == others[..|r| - 1]
  {
    var others := Without(h.entries, url);
    if url in h.entries {
      RemoveFirstIsWithout(h.entries, url);
    } else {
      WithoutAbsent(h.entries, url);
    }
    var r := Add(h, url).entries;
    var s := [url] + others;
    assert r == PyTake(s, h.maxLength);
    assert s[1..] == others;
    assert r[1..] == s[1..|r|];
  }

  /** `add` keeps the entries distinct and within the cap. */
  lemma AddKeepsValid<V>(h: History<V>, url: string)
    requires Valid(h)
    ensures Valid(Add(h, url))
  {
    var others := Without(h.entries, url);
    if url in h.entries {
      RemoveFirstIsWithout(h.entries, url);
    } else {
      WithoutAbsent(h.entries, url);
    }
    WithoutKeepsDistinct(h.entries, url);
    assert NoDuplicates([url] + others) by {
      var s := [url] + others;
      forall i, j | 0 <= i < j < |s| ensures s[i] != s[j] {
        if i == 0 {
          assert s[j] == others[j - 1];
        } else {
          assert s[i] == others[i - 1] && s[j] == others[j - 1];
        }
      }
    }
    PrefixDistinct([url] + others, h.maxLength);
  }

  /** `set_info`: records the files of one URL; the entries are untouched. */
  function SetInfo<V>(h: History<V>, url: string, files: V): (r: History<V>)
    ensures r.entries == h.entries && r.maxLength == h.maxLength
    ensures url in r.files && r.files[url] == files
    ensures forall u :: u != url ==> (u in r.files <==> u in h.files) && (u in h.files ==> r.files[u] == h.files[u])
  {
    h.(files := h.files[url := files])
  }

  /** `get_info`: the files recorded for the URL, None when there are none. */
  function GetInfo<V>(h: History<V>, url: string): (r: Option<V>)
    ensures r.None? <==> url !in h.files
    ensures r.Some? ==> r.value == h.files[url]
  {
    if url in h.files then Some(h.files[url]) else None
  }

  /** `get_info` returns the last value `set_info` stored, whatever `add`s came between. */
  lemma InfoRoundTrip<V>(h: History<V>, url: string, other: string, files: V, added: string)
    ensures GetInfo(SetInfo(h, url, files), url) == Some(files)
    ensures GetInfo(Add(SetInfo(h, url, files), added), url) == Some(files)
    ensures other != url ==> GetInfo(SetInfo(h, url, files), other) == GetInfo(h, other)
    ensures GetInfo(NewHistory<V>(h.maxLength), url).None?
  {
  }
}

=== FILE: fileplayer.dfy ===
/**
 * `FilePlayer`: the queue of local files, the index of the playing entry
 * and the status strings. Whether a file starts playing (it exists and a
 * player process launches) is the predicate `starts`.
 */
module FilePlayback {
  import opened Common
  import opened Schema

  datatype Status = Stopped | Playing | Paused

  /** One queue entry: file path, track id, artist, title and artwork link. */
  datatype QueuedTrack = QueuedTrack(filepath: Option<string>, trackId: int, artist: Option<string>, title: Option<string>, artwork: Option<string>)

  /**
   * The player's state: `index` is the position of the entry being played,
   * None when idle; `identifier` names the track list the queue came from.
   */
  datatype Player = Player(queue: seq<QueuedTrack>, index: Option<int>, status: Status, identifier: string, volume: int)

  const QueueIdentifier: string := "/queue/"

  /** The index is absent or points into the queue. */
  predicate Valid(p: Player)
  {
    p.index.None? || 0 <= p.index.value < |p.queue|
  }

  /** `queue[i:]` with Python's reading of a negative or too large `i`. */
  function PyDrop<T>(xs: seq<T>, i: int): (r: seq<T>)
    ensures 0 <= i <= |xs| ==> r == xs[i..]
    ensures i > |xs| ==> r == []
    ensures i < 0 ==> r == xs[if -i < |xs| then |xs| + i else 0..]
  {
    if i >= 0 then (if i < |xs| then xs[i..] else [])
    else if -i < |xs| then xs[|xs| + i..] else xs
  }

  // ---------------------------------------------------------------------
  // Properties
  // ---------------------------------------------------------------------

  /** `current_track`: None when idle, else the entry at the index (IndexError outside the queue). */
  function CurrentTrack(p: Player): (r: Result<Option<QueuedTrack>>)
    ensures p.index.None? <==> r == Ok(None)
    ensures Valid(p) ==> r.Ok?
    ensures Valid(p) && p.index.Some? ==> r == Ok(Some(p.queue[p.index.value]))
  {
    match p.index
    case None => Ok(None)
    case Some(i) =>
      match PyIndex(p.queue, i)
      case Err(e) => Err(e)
      case Ok(t) => Ok(Some(t))
  }

  /** `visible_queue`: the entries from the playing one on, nothing when idle. */
  function VisibleQueue(p: Player): (r: seq<QueuedTrack>)
    ensures p.index.None? ==> r == []
    ensures Valid(p) && p.index.Some? ==> r == p.queue[p.index.value..] && |r| > 0 && Ok(Some(r[0])) == CurrentTrack(p)
  {
    if p.index.None? then [] else PyDrop(p.queue, p.index.value)
  }

  /** `maximum_track_index`: the queue length, None for an empty queue. */
  function MaximumTrackIndex(p: Player): (r: Option<nat>)
    ensures r.None? <==> p.queue == []
    ensures r.Some? ==> r.value == |p.queue| && (Valid(p) && p.index.Some? ==> p.index.value < r.value)
  {
    if |p.queue| > 0 then Some(|p.queue|) else None
  }

  // ---------------------------------------------------------------------
  // Starting and stopping
  // ---------------------------------------------------------------------

  /** `stop`: idle and stopped, with the identifier cleared; the queue stays. */
  function Stop(p: Player): (r: Player)
    ensures r.queue == p.queue && r.volume == p.volume
    ensures r.index.None? && r.status == Stopped && r.identifier == ""
    ensures Valid(r)
  {
    p.(index := None, status := Stopped, identifier := "")
  }

  /** `clear_queue`: stops and empties the queue. */
  function ClearQueue(p: Player): (r: Player)
    ensures r.queue == [] && r.index.None? && r.status == Stopped && r.identifier == "" && r.volume == p.volume
  {
    Stop(p).(queue := [])
  }

  /** The first position from `i` on whose file starts, trying each in turn. */
  function FirstStarting(queue: seq<QueuedTrack>, i: int, starts: Option<string> -> bool): (r: Option<nat>)
    ensures r.Some? ==> (0 <= i <= r.value < |queue| && starts(queue[r.value].filepath)
      && forall j :: i <= j < r.value ==> !starts(queue[j].filepath))
    ensures r.None? ==> i < 0 || forall j :: i <= j < |queue| ==> !starts(queue[j].filepath)
    decreases |queue| - i
  {
    if i < 0 || i >= |queue| then None
    else if starts(queue[i].filepath) then Some(i)
    else FirstStarting(queue, i + 1, starts)
  }

  /**
   * The playing loop of `play_from_real_queue_index`: plays the first entry
   * from `i` on that starts, or stops when none does.
   */
  function Start(p: Player, i: int, starts: Option<string> -> bool): (r: (Player, bool))
    ensures r.0.queue == p.queue && r.0.volume == p.volume && Valid(r.0)
    ensures r.1 <==> FirstStarting(p.queue, i, starts).Some?
    ensures r.1 ==> r.0 == p.(index := Some(FirstStarting(p.queue, i, starts).value as int), status := Playing)
    ensures !r.1 ==> r.0 == Stop(p)
  {
    match FirstStarting(p.queue, i, starts)
    case Some(k) => (p.(index := Some(k as int), status := Playing), true)
    case None => (Stop(p), false)
  }

  /** The entry at `i` exists (Python indexing) and carries `trackid`. */
  predicate IdAt(queue: seq<QueuedTrack>, i: int, trackid: int)
  {
    PyIndex(queue, i).Ok? && PyIndex(queue, i).value.trackId == trackid
  }

  /**
   * The sanity check of `play_from_real_queue_index`: the position of
   * `trackid` at `index`, else at `index - 1`, else at `index + 1`; None
   * when it is at none of them. A neighbour outside the queue that Python
   * cannot index raises IndexError.
   */
  function Locate(queue: seq<QueuedTrack>, index: int, trackid: int): (r: Result<Option<int>>)
    ensures 0 <= index < |queue| && queue[index].trackId == trackid ==> r == Ok(Some(index))
    ensures r.Ok? && r.value.Some? ==> r.value.value in {index, index - 1, index + 1} && IdAt(queue, r.value.value, trackid)
    ensures r.Ok? && r.value.Some? && r.value.value == index + 1 ==> !IdAt(queue, index - 1, trackid) || index <= 0
    ensures 0 < index <= |queue| && 0 <= index + 1 < |queue| ==> r.Ok?
    ensures r == Ok(None) ==> (!(0 <= index < |queue| && queue[index].trackId == trackid)
      && !(index > 0 && IdAt(queue, index - 1, trackid))
      && !(index < |queue| - 1 && IdAt(queue, index + 1, trackid)))
  {
    if 0 <= index < |queue| && queue[index].trackId == trackid then Ok(Some(index))
    else if index > 0 && PyIndex(queue, index - 1).Err? then Err(IndexError)
    else if index > 0 && IdAt(queue, index - 1, trackid) then Ok(Some(index - 1))
    else if index < |queue| - 1 && PyIndex(queue, index + 1).Err? then Err(IndexError)
    else if index < |queue| - 1 && IdAt(queue, index + 1, trackid) then Ok(Some(index + 1))
    else Ok(None)
  }

  /**
   * `play_from_real_queue_index`: with a track id, first finds it at or
   * beside `index` (False and no change when it is not there); then plays
   * from that position on.
   */
  function PlayFromRealIndex(p: Player, index: int, trackid: Option<int>, starts: Option<string> -> bool): (r: Result<(Player, bool)>)
    ensures trackid.None? ==> r == Ok(Start(p, index, starts))
    ensures trackid.Some? && Locate(p.queue, index, trackid.value) == Ok(None) ==> r == Ok((p, false))
    ensures trackid.Some? && Locate(p.queue, index, trackid.value).Ok? && Locate(p.queue, index, trackid.value).value.Some? ==>
      r == Ok(Start(p, Locate(p.queue, index, trackid.value).value.value, starts))
    ensures r.Err? <==> trackid.Some? && Locate(p.queue, index, trackid.value).Err?
    ensures r.Ok? ==> r.value.0.queue == p.queue && (Valid(p) ==> Valid(r.value.0))
  {
    match trackid
    case None => Ok(Start(p, index, starts))
    case Some(id) =>
      match Locate(p.queue, index, id)
      case Err(e) => Err(e)
      case Ok(None) => Ok((p, false))
      case Ok(Some(k)) => Ok(Start(p, k, starts))
  }

  /** `play_from_apparent_queue_index`: the index counts from the playing entry. */
  function PlayFromApparentIndex(p: Player, index: int, trackid: Option<int>, starts: Option<string> -> bool): (r: Result<(Player, bool)>)
    ensures p.index.None? ==> r == PlayFromRealIndex(p, index, trackid, starts)
    ensures p.index.Some? ==> r == PlayFromRealIndex(p, index + p.index.value, trackid, starts)
  {
    PlayFromRealIndex(p, if p.index.Some? then index + p.index.value else index, trackid, starts)
  }

  // ---------------------------------------------------------------------
  // Queue operations
  // ---------------------------------------------------------------------

  function QueuedFrom(row: (nat, Track)): QueuedTrack
  {
    QueuedTrack(row.1.filepath, row.0, row.1.artist, row.1.title, None)
  }

  /**
   * `set_queue`: the tracks in order, the index at 0 and the identifier
   * recorded; playback is not started and the status is left as it was.
   */
  function SetQueue(p: Player, tracks: Option<seq<(nat, Track)>>, identifier: string): (r: Player)
    ensures tracks.Some? ==> |r.queue| == |tracks.value| && forall i :: 0 <= i < |r.queue| ==> r.queue[i] == QueuedFrom(tracks.value[i])
    ensures tracks.None? ==> r.queue == []
    ensures r.index == Some(0) && r.identifier == identifier && r.status == p.status && r.volume == p.volume
    ensures Valid(r) <==> r.queue != []
  {
    var queue := if tracks.Some? then seq(|tracks.value|, i requires 0 <= i < |tracks.value| => QueuedFrom(tracks.value[i])) else [];
    p.(queue := queue, index := Some(0), identifier := identifier)
  }

  /** After an empty `set_queue`, reading the current track raises IndexError. */
  lemma EmptySetQueueBreaksCurrentTrack(p: Player, identifier: string)
    ensures CurrentTrack(SetQueue(p, Some([]), identifier)) == Err(IndexError)
    ensures CurrentTrack(SetQueue(p, None, identifier)) == Err(IndexError)
  {
  }

  /** The state `__init__` leaves: `set_queue`, then the index reset to None. */
  function NewPlayer(tracks: Option<seq<(nat, Track)>>, identifier: string): (r: Player)
    ensures r.index.None? && r.status == Stopped && r.volume == 100 && r.identifier == identifier && Valid(r)
  {
    SetQueue(Player([], None, Stopped, identifier, 100), tracks, identifier).(index := None)
  }

  /**
   * `add_to_queue`: appends one entry and names the queue as the track
   * list; an idle player starts playing from the head of the queue.
   */
  function AddToQueue(p: Player, item: QueuedTrack, starts: Option<string> -> bool): (r: Player)
    ensures r.queue == p.queue + [item]
    ensures p.index.Some? ==> r == p.(queue := p.queue + [item], identifier := QueueIdentifier)
    ensures p.index.None? ==> r == Start(p.(queue := p.queue + [item], identifier := QueueIdentifier), 0, starts).0
    ensures Valid(p) ==> Valid(r)
  {
    var p1 := p.(queue := p.queue + [item], identifier := QueueIdentifier);
    if p.index.None? then Start(p1, 0, starts).0 else p1
  }

  /**
   * `remove_from_queue`: `index` counts from the playing entry; the entry
   * is removed, and True returned, exactly when it exists and carries
   * `trackid`. Removing the playing entry plays on from the same position.
   */
  function RemoveFromQueue(p: Player, index: int, trackid: int, starts: Option<string> -> bool): (r: (Player, bool))
    ensures var k := if p.index.Some? then index + p.index.value else index;
      (r.1 <==> 0 <= k < |p.queue| && p.queue[k].trackId == trackid)
      && (r.1 ==> r.0.queue == p.queue[..k] + p.queue[k + 1..] && |r.0.queue| == |p.queue| - 1)
      && (r.1 && p.index != Some(k) ==> r.0 == p.(queue := r.0.queue))
      && (r.1 && p.index == Some(k) ==> r.0 == Start(p.(queue := r.0.queue), k, starts).0)
    ensures !r.1 ==> r.0 == p
  {
    var k := if p.index.Some? then index + p.index.value else index;
    if 0 <= k < |p.queue| && p.queue[k].trackId == trackid then
      var p1 := p.(queue := p.queue[..k] + p.queue[k + 1..]);
      if p.index == Some(k) then (Start(p1, k, starts).0, true) else (p1, true)
    else (p, false)
  }

  /** Removing an entry keeps the index inside the queue when it was not the removed entry or before it. */
  lemma RemoveKeepsValid(p: Player, index: int, trackid: int, starts: Option<string> -> bool)
    requires Valid(p)
    requires var k := if p.index.Some? then index + p.index.value else index; p.index.None? || p.index.value <= k
    ensures Valid(RemoveFromQueue(p, index, trackid, starts).0)
  {
  }

  /**
   * `next`: idle stays idle; otherwise the next entry that starts plays,
   * and past the last entry the player stops and empties its queue.
   */
  function Next(p: Player, starts: Option<string> -> bool): (r: Player)
    ensures p.index.None? ==> r == p
    ensures p.index.Some? && p.index.value + 1 >= |p.queue| ==> r == ClearQueue(p)
    ensures p.index.Some? && p.index.value + 1 < |p.queue| ==> r == Start(p, p.index.value + 1, starts).0
    ensures Valid(p) ==> Valid(r)
  {
    if p.index.None? then p
    else if p.index.value + 1 < |p.queue| then Start(p, p.index.value + 1, starts).0
    else ClearQueue(Stop(p))
  }

  /** `on_music_end`: the same as `next`. */
  function OnMusicEnd(p: Player, starts: Option<string> -> bool): (r: Player)
    ensures r == Next(p, starts)
  {
    Next(p, starts)
  }

  /** `prev`: plays from the entry before the playing one, or the first; idle raises TypeError. */
  function Prev(p: Player, starts: Option<string> -> bool): (r: Result<Player>)
    ensures p.index.None? <==> r == Err(TypeError)
    ensures p.index.Some? ==> r == Ok(Start(p, if p.index.value - 1 > 0 then p.index.value - 1 else 0, starts).0)
  {
    match p.index
    case None => Err(TypeError)
    case Some(i) => Ok(Start(p, if i - 1 > 0 then i - 1 else 0, starts).0)
  }

  function Pause(p: Player): (r: Player)
    ensures r == p.(status := Paused)
  {
    p.(status := Paused)
  }

  function Resume(p: Player): (r: Player)
    ensures r == p.(status := Playing)
  {
    p.(status := Playing)
  }

  function SetVolume(p: Player, volume: int): (r: Player)
    ensures r == p.(volume := volume)
  {
    p.(volume := volume)
  }

  // ---------------------------------------------------------------------
  // Consequences
  // ---------------------------------------------------------------------

  /** A player that is playing plays an entry whose file started. */
  lemma StartPlaysAStartingFile(p: Player, i: int, starts: Option<string> -> bool)
    requires Start(p, i, starts).1
    ensures var q := Start(p, i, starts).0;
      q.index.Some? && i <= q.index.value < |q.queue| && starts(q.queue[q.index.value].filepath) && q.status == Playing
  {
  }

  /** When the track id is at none of the three positions, nothing changes and False is returned. */
  lemma SanityCheckFails(p: Player, index: int, trackid: int, starts: Option<string> -> bool)
    requires 0 < index < |p.queue| - 1
    requires p.queue[index - 1].trackId != trackid && p.queue[index].trackId != trackid && p.queue[index + 1].trackId != trackid
    ensures PlayFromRealIndex(p, index, Some(trackid), starts) == Ok((p, false))
  {
  }

  /** A track id found one step back wins over one found one step forward. */
  lemma SanityCheckPrefersEarlier(p: Player, index: int, trackid: int, starts: Option<string> -> bool)
    requires 0 < index < |p.queue| - 1
    requires p.queue[index].trackId != trackid && p.queue[index - 1].trackId == trackid
    ensures PlayFromRealIndex(p, index, Some(trackid), starts) == Ok(Start(p, index - 1, starts))
  {
  }

  /** Every operation except `set_queue` keeps the index inside the queue. */
  lemma OperationsKeepValid(p: Player, item: QueuedTrack, index: int, trackid: Option<int>, starts: Option<string> -> bool)
    requires Valid(p)
    ensures Valid(Next(p, starts)) && Valid(AddToQueue(p, item, starts)) && Valid(Stop(p)) && Valid(ClearQueue(p))
    ensures Prev(p, starts).Ok? ==> Valid(Prev(p, starts).value)
    ensures PlayFromRealIndex(p, index, trackid, starts).Ok? ==> Valid(PlayFromRealIndex(p, index, trackid, starts).value.0)
    ensures Valid(Pause(p)) && Valid(Resume(p))
  {
  }
}

=== FILE: json.dfy ===
/**
 * JSON values as the web layer reads them from requests and builds for
 * responses, with Python's truthiness. Numbers are integers only.
 */
module JsonValue {
  import opened Common

  datatype Json = JNull | JBool(b: bool) | JInt(i: int) | JStr(s: string) | JList(items: seq<Json>) | JObj(fields: map<string, Json>)

  /** Python truthiness of the decoded value. */
  predicate Truthy(j: Json)
  {
    match j
    case JNull => false
    case JBool(b) => b
    case JInt(i) => i != 0
    case JStr(s) => s != ""
    case JList(items) => items != []
    case JObj(fields) => fields != map[]
  }

  /** `d.get(key, default)` on an object. */
  function Get(fields: map<string, Json>, key: string, default: Json): (r: Json)
    ensures key in fields ==> r == fields[key]
    ensures key !in fields ==> r == default
  {
    if key in fields then fields[key] else default
  }

  /** A string-valued field read into a column: absent or null gives None; a value of another type is refused. */
  function OptText(j: Json): (r: Result<Option<string>>)
    ensures j.JNull? <==> r == Ok(None)
    ensures j.JStr? <==> r.Ok? && r.value.Some?
    ensures j.JStr? ==> r == Ok(Some(j.s))
    ensures r.Err? ==> r.error == TypeError
  {
    match j
    case JNull => Ok(None)
    case JStr(s) => Ok(Some(s))
    case _ => Err(TypeError)
  }

  /**
   * The elements a `for` loop over the value visits: a list's items, or a
   * string's characters as one-character strings. A null, a bool or a
   * number is not iterable.
   */
  function Elements(j: Json): (r: Result<seq<Json>>)
    ensures r.Ok? <==> j.JList? || j.JStr?
    ensures j.JList? ==> r.value == j.items
    ensures j.JStr? ==> |r.value| == |j.s| && forall i :: 0 <= i < |j.s| ==> r.value[i] == JStr([j.s[i]])
    ensures r.Err? ==> r.error == TypeError
  {
    match j
    case JList(items) => Ok(items)
    case JStr(s) => Ok(seq(|s|, i requires 0 <= i < |s| => JStr([s[i]])))
    case _ => Err(TypeError)
  }

  function OptInt(n: Option<int>): Json
  {
    if n.Some? then JInt(n.value) else JNull
  }

  function OptStr(s: Option<string>): Json
  {
    if s.Some? then JStr(s.value) else JNull
  }

  /** Writing back a field read with `OptText` gives the value that was read. */
  lemma OptTextInverse(j: Json, v: Option<string>)
    requires OptText(j) == Ok(v)
    ensures OptStr(v) == j
  {
  }
}

=== FILE: m4a.dfy ===
/**
 * `scan_m4a`: the mapping from an M4A file's MP4 atoms to a track, an
 * album reference and an artwork reference.
 */
module M4aScan {
  import opened Common
  import opened Schema
  import opened ScanCommon
  import opened Directory

  /**
   * The MP4 tag as the scanner reads it, one map per kind of value: text
   * atoms, number pairs ('trkn', 'disk') and cover images ('covr'). Each
   * atom holds a list of values. `others` names the atoms of any other
   * kind ('tmpo', 'cpil', freeform atoms), which the scanner never reads
   * but which make the tag non-empty.
   */
  datatype Mp4Tags = Mp4Tags(text: map<string, seq<string>>, pairs: map<string, seq<(int, int)>>, images: map<string, seq<Bytes>>, others: set<string>)

  /** A decoded M4A file; `tags` is None when it has no tag at all. */
  datatype M4aFile = M4aFile(path: string, lengthMs: int, tags: Option<Mp4Tags>)

  /** A list of atom values is true when it is not empty. */
  predicate NonEmptyList<T>(xs: seq<T>)
  {
    |xs| > 0
  }

  /** Python truthiness of the tag: false when absent or holding no atom. */
  predicate HasTags(tags: Option<Mp4Tags>)
  {
    tags.Some? && (tags.value.text != map[] || tags.value.pairs != map[] || tags.value.images != map[] || tags.value.others != {})
  }

  /** `get_tag_value` on text atoms: the first value of the first key with any. */
  function TextTag(tags: Mp4Tags, keys: seq<string>): (r: Option<string>)
    ensures r.None? <==> forall i :: 0 <= i < |keys| ==> !TruthyAt(tags.text, NonEmptyList, keys[i])
    ensures r.Some? ==> exists i :: (0 <= i < |keys| && TruthyAt(tags.text, NonEmptyList, keys[i]) && r.value == tags.text[keys[i]][0]
      && forall j :: 0 <= j < i ==> !TruthyAt(tags.text, NonEmptyList, keys[j]))
  {
    match FirstTruthy(tags.text, keys, NonEmptyList)
    case None => None
    case Some(values) => Some(values[0])
  }

  /**
   * `get_m_of_n`: the first pair of the atom unchanged, or (None, None)
   * when the atom is absent or empty.
   */
  function PairTag(tags: Mp4Tags, key: string): (r: (Option<int>, Option<int>))
    ensures TruthyAt(tags.pairs, NonEmptyList, key) ==> r == (Some(tags.pairs[key][0].0), Some(tags.pairs[key][0].1))
    ensures !TruthyAt(tags.pairs, NonEmptyList, key) ==> r == (None, None)
  {
    match FirstTruthy(tags.pairs, [key], NonEmptyList)
    case None => (None, None)
    case Some(values) => (Some(values[0].0), Some(values[0].1))
  }

  /** `get_tag_image_value`: the first image of the atom. */
  function ImageTag(tags: Mp4Tags, key: string): (r: Option<Bytes>)
    ensures TruthyAt(tags.images, NonEmptyList, key) ==> r == Some(tags.images[key][0])
    ensures !TruthyAt(tags.images, NonEmptyList, key) ==> r.None?
  {
    match FirstTruthy(tags.images, [key], NonEmptyList)
    case None => None
    case Some(values) => Some(values[0])
  }

  /**
   * `get_tag_datetime_value`: the '©day' text parsed as a date; an empty
   * or absent value gives None, and a malformed one raises ValueError.
   */
  function DateTag(tags: Mp4Tags): (r: Result<Option<DateTime>>)
    ensures !NonEmpty(TextTag(tags, ["©day"])) ==> r == Ok(None)
    ensures NonEmpty(TextTag(tags, ["©day"])) ==> var p := ParseDateTime(TextTag(tags, ["©day"]).value);
      (r.Err? <==> p.Err?) && (r.Ok? ==> r.value == Some(p.value))
  {
    var day := TextTag(tags, ["©day"]);
    if !NonEmpty(day) then Ok(None)
    else
      match ParseDateTime(day.value)
      case Err(e) => Err(e)
      case Ok(d) => Ok(Some(d))
  }

  /**
   * `scan_m4a`. A file without tags yields nothing; otherwise the track and
   * album come from the atoms, and the artwork reference is what
   * `make_artwork_ref` builds from the cover file, or the embedded 'covr'
   * image when there is no cover file, and the image size `sizeOf` reads.
   */
  function ScanM4a(f: M4aFile, isFile: string -> bool, normalize: string -> string,
                   sizeOf: (Option<string>, Option<Bytes>) -> Option<(int, int)>,
                   makeArtworkRef: (Option<string>, Option<Bytes>, Option<(int, int)>) -> Option<Artwork>): (r: Result<Option<Scanned>>)
    ensures !HasTags(f.tags) ==> r == Ok(None)
    ensures HasTags(f.tags) ==> (r.Err? <==> DateTag(f.tags.value).Err?)
    ensures r.Ok? && HasTags(f.tags) ==> r.value.Some?
  {
    if !HasTags(f.tags) then Ok(None)
    else
      var tags := f.tags.value;
      match DateTag(tags)
      case Err(e) => Err(e)
      case Ok(date) =>
        var artworkPath := FindCoverartFile(f.path, isFile);
        var artworkBlob := if artworkPath.Some? then None else ImageTag(tags, "covr");
        var disk := PairTag(tags, "disk");
        var trkn := PairTag(tags, "trkn");
        var track := Track(
          filepath := Some(normalize(f.path)),
          title := TextTag(tags, ["©nam"]),
          duration := Some(f.lengthMs),
          composer := TextTag(tags, ["©wrt"]),
          artist := TextTag(tags, ["©ART"]),
          genre := if TextTag(tags, ["©gen"]).Some? then GenreName(TextTag(tags, ["©gen"]).value) else NoGenre,
          volumeNumber := disk.0,
          trackCount := trkn.1,
          trackNumber := trkn.0,
          releaseDate := date,
          musicBrainzTrackId := None,
          musicBrainzArtistId := None,
          album := None,
          artwork := None);
        var album := Album(
          artist := TextTag(tags, ["aART", "©ART"]),
          title := TextTag(tags, ["©alb"]),
          volumeCount := disk.1,
          musicBrainzAlbumId := None,
          musicBrainzAlbumArtistId := None,
          releaseYear := if date.Some? then Some(date.value.year) else None,
          isCompilation := Some(false),
          genres := []);
        Ok(Some(Scanned(track, album, makeArtworkRef(artworkPath, artworkBlob, sizeOf(artworkPath, artworkBlob)))))
  }

  /** What a scanned M4A file's track and album hold, atom by atom. */
  lemma ScanM4aFields(f: M4aFile, isFile: string -> bool, normalize: string -> string,
                      sizeOf: (Option<string>, Option<Bytes>) -> Option<(int, int)>,
                      makeArtworkRef: (Option<string>, Option<Bytes>, Option<(int, int)>) -> Option<Artwork>)
    requires ScanM4a(f, isFile, normalize, sizeOf, makeArtworkRef).Ok?
    requires HasTags(f.tags)
    ensures var s := ScanM4a(f, isFile, normalize, sizeOf, makeArtworkRef).value.value;
      var tags := f.tags.value;
      s.track.filepath == Some(normalize(f.path))
      && s.track.title == TextTag(tags, ["©nam"])
      && s.track.artist == TextTag(tags, ["©ART"])
      && s.album.artist == TextTag(tags, ["aART", "©ART"])
      && s.album.isCompilation == Some(false)
      && s.album.musicBrainzAlbumId.None? && s.album.musicBrainzAlbumArtistId.None?
      && s.track.musicBrainzTrackId.None? && s.track.musicBrainzArtistId.None?
      && (s.album.releaseYear.Some? <==> s.track.releaseDate.Some?)
      && (s.track.releaseDate.Some? ==> s.album.releaseYear == Some(s.track.releaseDate.value.year))
      && s.track.releaseDate == DateTag(tags).value
      && (s.track.trackNumber, s.track.trackCount) == PairTag(tags, "trkn")
      && (s.track.volumeNumber, s.album.volumeCount) == PairTag(tags, "disk")
  {
  }

  /** The embedded image is only read when there is no cover file. */
  lemma CoverFileFirst(f: M4aFile, isFile: string -> bool, normalize: string -> string,
                       sizeOf: (Option<string>, Option<Bytes>) -> Option<(int, int)>,
                       makeArtworkRef: (Option<string>, Option<Bytes>, Option<(int, int)>) -> Option<Artwork>)
    requires ScanM4a(f, isFile, normalize, sizeOf, makeArtworkRef).Ok?
    requires HasTags(f.tags)
    ensures var path := FindCoverartFile(f.path, isFile);
      var s := ScanM4a(f, isFile, normalize, sizeOf, makeArtworkRef).value.value;
      (path.Some? ==> s.artwork == makeArtworkRef(path, None, sizeOf(path, None)))
      && (path.None? ==> var blob := ImageTag(f.tags.value, "covr"); s.artwork == makeArtworkRef(None, blob, sizeOf(None, blob)))
  {
  }

  /**
   * A tag that holds only atoms the scanner does not read is still a tag:
   * the file becomes a track with no title, artist or album title.
   */
  lemma OtherAtomsOnlyScanned(f: M4aFile, isFile: string -> bool, normalize: string -> string,
                              sizeOf: (Option<string>, Option<Bytes>) -> Option<(int, int)>,
                              makeArtworkRef: (Option<string>, Option<Bytes>, Option<(int, int)>) -> Option<Artwork>)
    requires f.tags.Some? && f.tags.value.text == map[] && f.tags.value.pairs == map[] && f.tags.value.images == map[]
    requires f.tags.value.others != {}
    ensures var r := ScanM4a(f, isFile, normalize, sizeOf, makeArtworkRef);
      r.Ok? && r.value.Some?
      && r.value.value.track.title.None? && r.value.value.track.artist.None? && r.value.value.album.title.None?
      && r.value.value.track.filepath == Some(normalize(f.path))
  {
    var tags := f.tags.value;
    assert TextTag(tags, ["©day"]).None?;
    assert DateTag(tags) == Ok(None);
  }

  /** The album artist is 'aART' when that atom has a value, else '©ART'. */
  lemma AlbumArtistPriority(tags: Mp4Tags)
    ensures TruthyAt(tags.text, NonEmptyList, "aART") ==> TextTag(tags, ["aART", "©ART"]) == Some(tags.text["aART"][0])
    ensures !TruthyAt(tags.text, NonEmptyList, "aART") ==> TextTag(tags, ["aART", "©ART"]) == TextTag(tags, ["©ART"])
  {
    FirstOfTwo(tags.text, "aART", "©ART", NonEmptyList);
    assert ["©ART"][1..] == [];
  }
}

=== FILE: mp3.dfy ===
/**
 * `scan_mp3`: the mapping from an MP3 file's ID3 frames to a track and an
 * album reference.
 */
module Mp3Scan {
  import opened Common
  import opened Schema
  import opened ScanCommon
  import opened Directory

  /**
   * The ID3 tag as the scanner reads it: the text list of each text frame
   * by frame key, the decoded data of the MusicBrainz UFID frame and the
   * data of the 'APIC:' frame.
   */
  datatype Id3Tags = Id3Tags(text: map<string, seq<string>>, ufid: Option<string>, apic: Option<Bytes>)

  /** A decoded MP3 file; `tags` is None when it has no ID3 tag. */
  datatype Mp3File = Mp3File(path: string, lengthMs: int, tags: Option<Id3Tags>)

  /** An ID3 frame object is true whenever it is present. */
  predicate FramePresent(text: seq<string>)
  {
    true
  }

  /** `get_tag_value`: the text list of the first key present. */
  function TagValue(tags: Id3Tags, keys: seq<string>): (r: Option<seq<string>>)
    ensures r.None? <==> forall i :: 0 <= i < |keys| ==> keys[i] !in tags.text
    ensures r.Some? ==> exists i :: (0 <= i < |keys| && keys[i] in tags.text && r.value == tags.text[keys[i]]
      && forall j :: 0 <= j < i ==> keys[j] !in tags.text)
  {
    FirstTruthy(tags.text, keys, FramePresent)
  }

  /** `get_first_tag_text_value`: the first string of that frame, None when it has none. */
  function FirstText(tags: Id3Tags, keys: seq<string>): (r: Option<string>)
    ensures r.Some? <==> TagValue(tags, keys).Some? && |TagValue(tags, keys).value| > 0
    ensures r.Some? ==> r.value == TagValue(tags, keys).value[0]
  {
    match TagValue(tags, keys)
    case None => None
    case Some(text) => if |text| > 0 then Some(text[0]) else None
  }

  // ---------------------------------------------------------------------
  // m of n
  // ---------------------------------------------------------------------

  /**
   * The text of a TRCK or TPOS frame: 'm/n' gives both numbers, 'm' the
   * first only; only the first '/' splits, and a part that `int()`
   * rejects gives neither.
   */
  function MOfN(text: string): (r: (Option<int>, Option<int>))
    ensures '/' !in text ==> r == (if PyInt(text).Some? then (PyInt(text), None) else (None, None))
    ensures '/' in text ==> var (m, n) := SplitOnce(text, '/');
      r == if PyInt(m).Some? && PyInt(n).Some? then (PyInt(m), PyInt(n)) else (None, None)
    ensures r.1.Some? ==> r.0.Some?
  {
    if '/' in text then
      var (m, n) := SplitOnce(text, '/');
      if PyInt(m).Some? && PyInt(n).Some? then (PyInt(m), PyInt(n)) else (None, None)
    else if PyInt(text).Some? then (PyInt(text), None)
    else (None, None)
  }

  /**
   * `get_m_of_n`: the numbers in the first string of the frame; an absent
   * frame gives neither, and a frame with no strings raises IndexError.
   */
  function MOfNTag(tags: Id3Tags, keys: seq<string>): (r: Result<(Option<int>, Option<int>)>)
    ensures TagValue(tags, keys).None? ==> r == Ok((None, None))
    ensures r.Err? <==> TagValue(tags, keys).Some? && |TagValue(tags, keys).value| == 0
    ensures r.Err? ==> r.error == IndexError
    ensures r.Ok? && TagValue(tags, keys).Some? ==> r.value == MOfN(TagValue(tags, keys).value[0])
  {
    match TagValue(tags, keys)
    case None => Ok((None, None))
    case Some(text) => if |text| == 0 then Err(IndexError) else Ok(MOfN(text[0]))
  }

  /** Two numbers written in decimal around one '/' read back as both. */
  lemma MOfNWritten(m: nat, n: nat)
    ensures MOfN(NatStr(m) + "/" + NatStr(n)) == (Some(m as int), Some(n as int))
  {
    NoSepInDigits(NatStr(m), '/');
    MOfNDigits(NatStr(m), NatStr(n));
    NatStrRoundTrip(m);
    NatStrRoundTrip(n);
  }

  lemma MOfNDigits(x: string, y: string)
    requires IsDigits(x) && IsDigits(y) && '/' !in x
    ensures MOfN(x + "/" + y) == (Some(DigitsValue(x) as int), Some(DigitsValue(y) as int))
  {
    var s := x + "/" + y;
    IndexOfAfterPrefix(x, '/', y);
    assert s == x + ['/'] + y;
    assert s[..|x|] == x && s[|x| + 1..] == y;
    assert SplitOnce(s, '/') == (x, y);
  }

  /** A number alone is the first number, with no count. */
  lemma MOfNAlone(m: nat)
    ensures MOfN(NatStr(m)) == (Some(m as int), None)
  {
    NoSepInDigits(NatStr(m), '/');
    NatStrRoundTrip(m);
  }

  /** A second '/' stays in the count, which `int()` then rejects. */
  lemma MOfNSecondSlash(a: string, b: string, c: string)
    requires '/' !in a
    ensures MOfN(a + "/" + b + "/" + c) == (None, None)
  {
    var s := a + "/" + b + "/" + c;
    IndexOfAfterPrefix(a, '/', b + "/" + c);
    assert s == a + ['/'] + (b + "/" + c);
    assert s[..|a|] == a && s[|a| + 1..] == b + "/" + c;
    PyIntRejectsSlash(b + "/" + c);
  }

  /** `int()` rejects any string holding a '/'. */
  lemma PyIntRejectsSlash(s: string)
    requires '/' in s
    ensures PyInt(s).None?
  {
    SlashSurvivesStrip(s);
    var t := Strip(s);
    assert !IsDigits(t);
    if |t| > 0 && (t[0] == '+' || t[0] == '-') {
      assert !IsDigits(t[1..]) by {
        var k :| 0 <= k < |t| && t[k] == '/';
        assert k > 0 && t[1..][k - 1] == '/';
      }
    }
  }

  /** A '/' is not whitespace, so `strip()` keeps it. */
  lemma SlashSurvivesStrip(s: string)
    requires '/' in s
    ensures '/' in Strip(s)
  {
    var i :| 0 <= i < |s| && s[i] == '/';
    var k := StripLeftKeeps(s, i);
    StripRightKeeps(StripLeft(s), k);
  }



  // ---------------------------------------------------------------------
  // Dates
  // ---------------------------------------------------------------------

  /** The first string that `parse` accepts, trying them in order. */
  function FirstParsed(texts: seq<string>, parse: string -> Option<DateTime>): (r: Option<DateTime>)
    ensures r.None? <==> forall i :: 0 <= i < |texts| ==> parse(texts[i]).None?
    ensures r.Some? ==> exists i :: (0 <= i < |texts| && parse(texts[i]) == r
      && forall j :: 0 <= j < i ==> parse(texts[j]).None?)
  {
    if |texts| == 0 then None
    else if parse(texts[0]).Some? then parse(texts[0])
    else
      var r := FirstParsed(texts[1..], parse);
      assert forall i :: 1 <= i < |texts| ==> texts[i] == texts[1..][i - 1];
      if r.Some? then
        var i :| (0 <= i < |texts[1..]| && parse(texts[1..][i]) == r
          && forall j :: 0 <= j < i ==> parse(texts[1..][j]).None?);
        assert parse(texts[i + 1]) == r && forall j :: 0 <= j < i + 1 ==> parse(texts[j]).None?;
        r
      else r
  }

  /** `get_tag_datetime_value`: the first time stamp of the frame that parses. */
  function DateTag(tags: Id3Tags, keys: seq<string>, parse: string -> Option<DateTime>): (r: Option<DateTime>)
    ensures TagValue(tags, keys).None? ==> r.None?
    ensures TagValue(tags, keys).Some? ==> r == FirstParsed(TagValue(tags, keys).value, parse)
  {
    match TagValue(tags, keys)
    case None => None
    case Some(texts) => FirstParsed(texts, parse)
  }

  // ---------------------------------------------------------------------
  // scan_mp3
  // ---------------------------------------------------------------------

  function GenreOf(name: Option<string>): (g: GenreRef)
    ensures name.None? <==> g == NoGenre
    ensures name.Some? ==> g == GenreName(name.value)
  {
    if name.Some? then GenreName(name.value) else NoGenre
  }

  /** `a or b` on two optional strings. */
  function OrElse(a: Option<string>, b: Option<string>): (r: Option<string>)
    ensures NonEmpty(a) ==> r == a
    ensures !NonEmpty(a) ==> r == b
  {
    if NonEmpty(a) then a else b
  }

  /** The cover image file beside the music file, else the embedded APIC data. */
  function ArtworkSource(f: Mp3File, tags: Id3Tags, isFile: string -> bool): (r: (Option<string>, Option<Bytes>))
    ensures r.0 == FindCoverartFile(f.path, isFile)
    ensures r.0.Some? ==> r.1.None?
    ensures r.0.None? ==> r.1 == tags.apic
  {
    var path := FindCoverartFile(f.path, isFile);
    (path, if path.Some? then None else tags.apic)
  }

  /**
   * `scan_mp3`, returning the track, the album reference and the artwork
   * reference that `make_artwork_ref` builds from the cover file or the
   * embedded image. A file without an ID3 tag raises AttributeError, and a
   * TPOS or TRCK frame without strings raises IndexError.
   */
  function ScanMp3(f: Mp3File, isFile: string -> bool, parseDate: string -> Option<DateTime>,
                   makeArtworkRef: (Option<string>, Option<Bytes>) -> Option<Artwork>): (r: Result<Option<Scanned>>)
    ensures r.Err? <==> f.tags.None? || MOfNTag(f.tags.value, ["TPOS"]).Err? || MOfNTag(f.tags.value, ["TRCK"]).Err?
    ensures f.tags.None? ==> r == Err(AttributeError)
    ensures r.Ok? ==> r.value.Some?
    ensures r.Ok? ==> var tags := f.tags.value;
      var s := r.value.value;
      s.track.filepath == Some(f.path)
      && s.track.duration == Some(f.lengthMs)
      && s.track.title == FirstText(tags, ["TIT2"])
      && s.track.artist == FirstText(tags, ["TPE1", "TPE2"])
      && s.album.artist == FirstText(tags, ["TPE2", "TPE1"])
      && s.album.title == FirstText(tags, ["TALB"])
      && s.track.trackNumber == MOfNTag(tags, ["TRCK"]).value.0
      && s.track.trackCount == MOfNTag(tags, ["TRCK"]).value.1
      && s.track.volumeNumber == MOfNTag(tags, ["TPOS"]).value.0
      && s.album.volumeCount == MOfNTag(tags, ["TPOS"]).value.1
      && s.track.album.None? && s.track.artwork.None? && s.album.genres == []
      && s.artwork == makeArtworkRef(ArtworkSource(f, tags, isFile).0, ArtworkSource(f, tags, isFile).1)
  {
    match f.tags
    case None => Err(AttributeError)
    case Some(tags) =>
      var (artworkPath, artworkBlob) := ArtworkSource(f, tags, isFile);
      match MOfNTag(tags, ["TPOS"])
      case Err(e) => Err(e)
      case Ok(disc) =>
        match MOfNTag(tags, ["TRCK"])
        case Err(e) => Err(e)
        case Ok(trck) =>
          var track := Track(
            filepath := Some(f.path),
            title := FirstText(tags, ["TIT2"]),
            duration := Some(f.lengthMs),
            composer := FirstText(tags, ["TCOM"]),
            artist := FirstText(tags, ["TPE1", "TPE2"]),
            genre := GenreOf(FirstText(tags, ["TCON"])),
            volumeNumber := disc.0,
            trackCount := trck.1,
            trackNumber := trck.0,
            releaseDate := DateTag(tags, ["TDRL", "TDOR", "TYER", "TDRC"], parseDate),
            musicBrainzTrackId := OrElse(tags.ufid, FirstText(tags, ["TXXX:MusicBrainz Release Track Id"])),
            musicBrainzArtistId := FirstText(tags, ["TXXX:MusicBrainz Artist Id"]),
            album := None,
            artwork := None);
          var album := Album(
            artist := FirstText(tags, ["TPE2", "TPE1"]),
            title := FirstText(tags, ["TALB"]),
            volumeCount := disc.1,
            musicBrainzAlbumId := FirstText(tags, ["TXXX:MusicBrainz Album Id"]),
            musicBrainzAlbumArtistId := FirstText(tags, ["TXXX:MusicBrainz Album Artist Id"]),
            releaseYear := None,
            isCompilation := None,
            genres := []);
          Ok(Some(Scanned(track, album, makeArtworkRef(artworkPath, artworkBlob))))
  }

  /**
   * The track artist is TPE1 when that frame is present, else TPE2; the
   * album artist prefers TPE2 the other way round.
   */
  lemma ArtistPriority(tags: Id3Tags)
    ensures "TPE1" in tags.text ==> TagValue(tags, ["TPE1", "TPE2"]) == Some(tags.text["TPE1"])
    ensures "TPE1" !in tags.text ==> TagValue(tags, ["TPE1", "TPE2"]) == (if "TPE2" in tags.text then Some(tags.text["TPE2"]) else None)
    ensures "TPE2" in tags.text ==> TagValue(tags, ["TPE2", "TPE1"]) == Some(tags.text["TPE2"])
    ensures "TPE2" !in tags.text ==> TagValue(tags, ["TPE2", "TPE1"]) == (if "TPE1" in tags.text then Some(tags.text["TPE1"]) else None)
  {
    FirstOfTwo(tags.text, "TPE1", "TPE2", FramePresent);
    FirstOfTwo(tags.text, "TPE2", "TPE1", FramePresent);
  }

  /** The MusicBrainz track id comes from the UFID frame when it holds text, else from TXXX. */
  lemma TrackIdSource(f: Mp3File, isFile: string -> bool, parseDate: string -> Option<DateTime>,
                      makeArtworkRef: (Option<string>, Option<Bytes>) -> Option<Artwork>)
    requires ScanMp3(f, isFile, parseDate, makeArtworkRef).Ok?
    ensures var id := ScanMp3(f, isFile, parseDate, makeArtworkRef).value.value.track.musicBrainzTrackId;
      (NonEmpty(f.tags.value.ufid) ==> id == f.tags.value.ufid)
      && (!NonEmpty(f.tags.value.ufid) ==> id == FirstText(f.tags.value, ["TXXX:MusicBrainz Release Track Id"]))
  {
  }

  /**
   * `scan_mp3` as the source writes it: the Track constructor is given
   * ArtworkPath and ArtworkBlob keywords, which are not columns of the
   * Track table, so once every frame has been read the constructor raises
   * TypeError. The errors raised while reading the frames come first.
   */
  function ScanMp3AsWritten(f: Mp3File, isFile: string -> bool, parseDate: string -> Option<DateTime>,
                            makeArtworkRef: (Option<string>, Option<Bytes>) -> Option<Artwork>): (r: Result<Option<Scanned>>)
    ensures r.Err?
    ensures f.tags.None? ==> r == Err(AttributeError)
    ensures f.tags.Some? && MOfNTag(f.tags.value, ["TPOS"]).Ok? && MOfNTag(f.tags.value, ["TRCK"]).Ok? ==> r == Err(TypeError)
  {
    match ScanMp3(f, isFile, parseDate, makeArtworkRef)
    case Err(e) => Err(e)
    case Ok(_) => Err(TypeError)
  }

  /**
   * A file whose ID3 tag has no frames at all: the corrected scanner yields
   * an untitled track, the scanner as written raises TypeError.
   */
  lemma ScanMp3AsWrittenRejectsTaggedFile(isFile: string -> bool, parseDate: string -> Option<DateTime>,
                                          makeArtworkRef: (Option<string>, Option<Bytes>) -> Option<Artwork>)
    ensures var f := Mp3File("a.mp3", 1000, Some(Id3Tags(map[], None, None)));
      ScanMp3(f, isFile, parseDate, makeArtworkRef).Ok?
      && ScanMp3(f, isFile, parseDate, makeArtworkRef).value.value.track.title.None?
      && ScanMp3AsWritten(f, isFile, parseDate, makeArtworkRef) == Err(TypeError)
  {
  }
}

=== FILE: musicplayer.dfy ===
/**
 * `MusicPlayer`: a queue of file paths played through an mpg123 process.
 * The process is reduced to the commands sent to it and the status the
 * player records; the status changes the process reports later through its
 * output thread are not modelled.
 */
module MusicPlayback {
  import opened Common
  import opened Schema

  datatype PlayerStatus = Instanciated | Playing | Paused | Stopping | Stopped

  /** A command sent down the pipe to the mpg123 process. */
  datatype Command = Load(path: string) | PauseToggle | StopCommand

  /**
   * The player's state: `index` is the position of the song being played,
   * and `sent` the commands written to the process so far.
   */
  datatype MusicPlayer = MusicPlayer(queue: seq<Option<string>>, index: int, status: PlayerStatus, sent: seq<Command>)

  /** What `set_queue` accepts: a track row, a path, or anything else. */
  datatype QueueItem = TrackItem(track: Track) | PathItem(path: string) | OtherItem

  /** The queue entry an item contributes; None for an item `set_queue` rejects. */
  function EntryOf(item: QueueItem): (r: Option<Option<string>>)
    ensures r.Some? <==> !item.OtherItem?
  {
    match item
    case TrackItem(t) => Some(t.filepath)
    case PathItem(s) => Some(Some(s))
    case OtherItem => None
  }

  predicate Accepted(item: QueueItem)
  {
    !item.OtherItem?
  }

  function Entries(items: seq<QueueItem>): (r: seq<Option<string>>)
    requires forall i :: 0 <= i < |items| ==> Accepted(items[i])
    ensures |r| == |items| && forall i :: 0 <= i < |items| ==> Some(r[i]) == EntryOf(items[i])
  {
    if items == [] then []
    else
      assert Accepted(items[0]);
      [EntryOf(items[0]).value] + Entries(items[1..])
  }

  /**
   * `set_queue`: each track contributes its file path and each string
   * itself, and the index returns to 0; any other item fails the assertion.
   */
  function SetQueue(p: MusicPlayer, items: seq<QueueItem>): (r: Result<MusicPlayer>)
    ensures r.Err? <==> exists i :: 0 <= i < |items| && !Accepted(items[i])
    ensures r.Err? ==> r.error == AssertionFailed
    ensures r.Ok? ==> (r.value.index == 0 && |r.value.queue| == |items|
      && r.value.status == p.status && r.value.sent == p.sent
      && forall i :: 0 <= i < |items| ==> Some(r.value.queue[i]) == EntryOf(items[i]))
  {
    if forall i :: 0 <= i < |items| ==> Accepted(items[i]) then
      Ok(p.(queue := Entries(items), index := 0))
    else Err(AssertionFailed)
  }

  /**
   * `play_from_queue_index`: the index must lie inside the queue; the song
   * is loaded and playing, and the index moves to it. A track without a
   * file path cannot be loaded and raises TypeError.
   */
  function PlayFromQueueIndex(p: MusicPlayer, index: int): (r: Result<MusicPlayer>)
    ensures !(0 <= index < |p.queue|) ==> r == Err(AssertionFailed)
    ensures 0 <= index < |p.queue| && p.queue[index].None? ==> r == Err(TypeError)
    ensures r.Ok? <==> 0 <= index < |p.queue| && p.queue[index].Some?
    ensures r.Ok? ==> (r.value.index == index && r.value.status == Playing && r.value.queue == p.queue
      && r.value.sent == p.sent + [Load(p.queue[index].value)])
  {
    if !(0 <= index < |p.queue|) then Err(AssertionFailed)
    else
      match p.queue[index]
      case None => Err(TypeError)
      case Some(path) => Ok(p.(index := index, status := Playing, sent := p.sent + [Load(path)]))
  }

  /** `stop` with mpg123: the STOP command, and the status waits for the process to confirm. */
  function Stop(p: MusicPlayer): (r: MusicPlayer)
    ensures r.status == Stopping && r.sent == p.sent + [StopCommand]
    ensures r.queue == p.queue && r.index == p.index
  {
    p.(status := Stopping, sent := p.sent + [StopCommand])
  }

  /** `next`: the following song, or a stop after the last one. */
  function Next(p: MusicPlayer): (r: Result<MusicPlayer>)
    ensures p.index + 1 >= |p.queue| ==> r == Ok(Stop(p))
    ensures p.index + 1 < |p.queue| ==> r == PlayFromQueueIndex(p, p.index + 1)
  {
    if p.index + 1 < |p.queue| then PlayFromQueueIndex(p, p.index + 1) else Ok(Stop(p))
  }

  /** `prev`: the song before the current one, or the first song again. */
  function Prev(p: MusicPlayer): (r: Result<MusicPlayer>)
    ensures r == PlayFromQueueIndex(p, if p.index - 1 > 0 then p.index - 1 else 0)
    ensures p.queue == [] ==> r == Err(AssertionFailed)
  {
    PlayFromQueueIndex(p, if 0 > p.index - 1 then 0 else p.index - 1)
  }

  /** `pause`: only a playing player pauses. */
  function Pause(p: MusicPlayer): (r: MusicPlayer)
    ensures p.status == Playing ==> r == p.(status := Paused, sent := p.sent + [PauseToggle])
    ensures p.status != Playing ==> r == p
  {
    if p.status == Playing then p.(status := Paused, sent := p.sent + [PauseToggle]) else p
  }

  /** `resume`: only a paused player is sent the toggle; the status is updated when the process reports it. */
  function Resume(p: MusicPlayer): (r: MusicPlayer)
    ensures p.status == Paused ==> r == p.(sent := p.sent + [PauseToggle])
    ensures p.status != Paused ==> r == p
  {
    if p.status == Paused then p.(sent := p.sent + [PauseToggle]) else p
  }

  /** `playpause`: pauses a playing player, and otherwise resumes. */
  function PlayPause(p: MusicPlayer): (r: MusicPlayer)
    ensures p.status == Playing ==> r.status == Paused
    ensures p.status != Playing ==> r.status == p.status
    ensures r.queue == p.queue && r.index == p.index
    ensures p.status in {Playing, Paused} <==> r.sent == p.sent + [PauseToggle]
    ensures p.status !in {Playing, Paused} <==> r.sent == p.sent
  {
    if p.status == Playing then Pause(p) else Resume(p)
  }

  /** `on_music_end`: the same as `next`. */
  function OnMusicEnd(p: MusicPlayer): (r: Result<MusicPlayer>)
    ensures r == Next(p)
  {
    Next(p)
  }

  /** The index stays inside the queue: `set_queue` with songs, then any sequence of moves. */
  predicate Valid(p: MusicPlayer)
  {
    0 <= p.index < |p.queue|
  }

  lemma MovesKeepValid(p: MusicPlayer, index: int)
    requires Valid(p)
    ensures Next(p).Ok? ==> Valid(Next(p).value)
    ensures Prev(p).Ok? ==> Valid(Prev(p).value)
    ensures PlayFromQueueIndex(p, index).Ok? ==> Valid(PlayFromQueueIndex(p, index).value)
    ensures Valid(PlayPause(p)) && Valid(Stop(p))
  {
  }

  /** On a queue of paths, moving forward then back returns to the same song. */
  lemma NextThenPrev(p: MusicPlayer)
    requires Valid(p) && p.index + 1 < |p.queue|
    requires forall i :: 0 <= i < |p.queue| ==> p.queue[i].Some?
    ensures Next(p).Ok? && Prev(Next(p).value).Ok?
    ensures Prev(Next(p).value).value.index == p.index
    ensures Prev(Next(p).value).value.status == Playing
  {
  }
}

=== FILE: playerctrl.dfy ===
/**
 * The web layer's control of the two players: which one is current, how a
 * list of tracks, an album, a playlist, a queue position, a single track
 * or a radio station is put on it, and the download callbacks. A failure
 * is returned next to the state reached before it, since the steps taken
 * before an abort or an exception stay done.
 */
module PlayerControl {
  import opened Common
  import opened Table
  import opened Schema
  import opened Database
  import opened TrackOrder
  import opened Downloads
  import opened Serialize
  import FilePlayback

  // ---------------------------------------------------------------------
  // The stream player and the application state
  // ---------------------------------------------------------------------

  /** What `StreamPlayer.play` records about the station it plays. */
  datatype Tuning = Tuning(
    name: Option<string>, url: Option<string>, artwork: Option<string>,
    index: int, count: int,
    infoUrl: Option<string>, infoJq: Option<string>, artworkUrl: Option<string>, artworkJq: Option<string>)

  /** The stream player: the station tuned in, None after `stop`, and the status. */
  datatype Stream = Stream(tuning: Option<Tuning>, status: FilePlayback.Status)

  /** `StreamPlayer.play`: records the station and plays it. */
  function StreamPlay(t: Tuning): (r: Stream)
    ensures r.tuning == Some(t) && r.status == FilePlayback.Playing
  {
    Stream(Some(t), FilePlayback.Playing)
  }

  /** `StreamPlayer.stop`: forgets the station. */
  function StreamStop(s: Stream): (r: Stream)
    ensures r.tuning.None? && r.status == FilePlayback.Stopped
  {
    Stream(None, FilePlayback.Stopped)
  }

  /** `currently_playing_url`: None when no station is tuned in. */
  function PlayingUrl(s: Stream): Option<string>
  {
    if s.tuning.Some? then s.tuning.value.url else None
  }

  datatype Side = FileSide | StreamSide

  /** One downloaded file: its path, its (negative) fake track id, artist, title and artwork link. */
  datatype Download = Download(filepath: string, fakeId: int, artist: Option<string>, title: Option<string>, artwork: Option<string>)

  /**
   * The application: which player is current (None before one is chosen),
   * both players, the download history and the URLs handed to the worker
   * thread for fetching.
   */
  datatype App = App(current: Option<Side>, file: FilePlayback.Player, stream: Stream, history: History<seq<Download>>, fetches: seq<string>)

  /** The state an operation reached, and the failure that ended it, if any. */
  datatype Outcome = Outcome(app: App, failure: Option<Error>)

  // ---------------------------------------------------------------------
  // Choosing the player
  // ---------------------------------------------------------------------

  /**
   * `select_player`: the current player is stopped when it is another
   * one; afterwards the desired player is current.
   */
  function SelectPlayer(app: App, desired: Side): (r: App)
    ensures r.current == Some(desired)
    ensures r.history == app.history && r.fetches == app.fetches
    ensures app.current.None? || app.current == Some(desired) ==> r == app.(current := Some(desired))
    ensures app.current == Some(FileSide) && desired == StreamSide ==> r.file == FilePlayback.Stop(app.file) && r.stream == app.stream
    ensures app.current == Some(StreamSide) && desired == FileSide ==> r.stream == StreamStop(app.stream) && r.file == app.file
  {
    var stopped :=
      if app.current.None? || app.current == Some(desired) then app
      else if app.current == Some(FileSide) then app.(file := FilePlayback.Stop(app.file))
      else app.(stream := StreamStop(app.stream));
    stopped.(current := Some(desired))
  }

  /** Selecting the same player twice stops nothing the second time. */
  lemma SelectPlayerIdempotent(app: App, desired: Side)
    ensures SelectPlayer(SelectPlayer(app, desired), desired) == SelectPlayer(app, desired)
    ensures SelectPlayer(app, desired).file.queue == app.file.queue
  {
  }

  // ---------------------------------------------------------------------
  // Track lists
  // ---------------------------------------------------------------------

  /** Every entry of the list is a track; a playlist entry whose track is gone is None. */
  predicate AllPresent(tracks: seq<Option<Row>>)
  {
    forall i :: 0 <= i < |tracks| ==> tracks[i].Some?
  }

  function Present(tracks: seq<Option<Row>>): (r: seq<Row>)
    requires AllPresent(tracks)
    ensures |r| == |tracks| && forall i :: 0 <= i < |r| ==> tracks[i] == Some(r[i])
  {
    seq(|tracks|, i requires 0 <= i < |tracks| => tracks[i].value)
  }

  function Wrap(rows: seq<Row>): (r: seq<Option<Row>>)
    ensures AllPresent(r) && Present(r) == rows
  {
    seq(|rows|, i requires 0 <= i < |rows| => Some(rows[i]))
  }

  /**
   * The position to play from: 0 without a start id, else the first
   * position holding that id (400 when there is none). Reading the ids of
   * a list holding None raises AttributeError.
   */
  function StartIndex(tracks: seq<Option<Row>>, start: Option<int>): (r: Result<nat>)
    ensures start.None? ==> r == Ok(0)
    ensures start.Some? && !AllPresent(tracks) ==> r == Err(AttributeError)
    ensures start.Some? && AllPresent(tracks) ==>
      (r.Ok? <==> exists i :: 0 <= i < |tracks| && tracks[i].value.0 == start.value)
    ensures start.Some? && r.Ok? ==> (r.value < |tracks| && tracks[r.value].value.0 == start.value
      && forall j :: 0 <= j < r.value ==> tracks[j].value.0 != start.value)
    ensures r.Err? && AllPresent(tracks) ==> r.error == Abort(BadRequest)
  {
    if start.None? then Ok(0)
    else if !AllPresent(tracks) then Err(AttributeError)
    else
      var ids := seq(|tracks|, i requires 0 <= i < |tracks| => tracks[i].value.0 as int);
      if start.value in ids then
        var k := FirstIndex(ids, start.value);
        assert forall j :: 0 <= j < k ==> ids[j] == ids[..k][j] && ids[j] == tracks[j].value.0;
        Ok(k)
      else
        assert forall i :: 0 <= i < |tracks| ==> ids[i] == tracks[i].value.0;
        Err(Abort(BadRequest))
  }

  /**
   * `update_player_play_track_list`: the start position is found, the file
   * player selected, its queue set to the tracks with the identifier, and
   * playback started from that position.
   */
  function PlayTrackList(app: App, tracks: seq<Option<Row>>, identifier: string, start: Option<int>, starts: Option<string> -> bool): (r: Outcome)
    ensures r.failure.None? <==> StartIndex(tracks, start).Ok? && AllPresent(tracks)
    ensures StartIndex(tracks, start).Err? ==> r == Outcome(app, Some(StartIndex(tracks, start).error))
    ensures r.app.history == app.history && r.app.fetches == app.fetches
    ensures StartIndex(tracks, start).Ok? ==> r.app.current == Some(FileSide)
    ensures r.failure.None? ==> (|r.app.file.queue| == |tracks|
      && forall i :: 0 <= i < |tracks| ==> r.app.file.queue[i] == FilePlayback.QueuedFrom(tracks[i].value))
    ensures r.failure.None? ==> var k := FilePlayback.FirstStarting(r.app.file.queue, StartIndex(tracks, start).value, starts);
      (k.Some? ==> r.app.file.index == Some(k.value as int) && r.app.file.status == FilePlayback.Playing && r.app.file.identifier == identifier)
      && (k.None? ==> r.app.file.index.None? && r.app.file.status == FilePlayback.Stopped && r.app.file.identifier == "")
  {
    match StartIndex(tracks, start)
    case Err(e) => Outcome(app, Some(e))
    case Ok(i) =>
      var a := SelectPlayer(app, FileSide);
      if !AllPresent(tracks) then Outcome(a, Some(AttributeError))
      else
        var f := FilePlayback.SetQueue(a.file, Some(Present(tracks)), identifier);
        Outcome(a.(file := FilePlayback.Start(f, i, starts).0), None)
  }

  /** With a start id, the entry playback starts from, or the first that starts after it, is that track when its file starts. */
  lemma PlayTrackListStartsAtTrack(app: App, tracks: seq<Option<Row>>, identifier: string, trackid: int, starts: Option<string> -> bool)
    requires AllPresent(tracks)
    requires exists i :: 0 <= i < |tracks| && tracks[i].value.0 == trackid
    ensures var r := PlayTrackList(app, tracks, identifier, Some(trackid), starts);
      r.failure.None?
      && var k := StartIndex(tracks, Some(trackid)).value;
      (starts(tracks[k].value.1.filepath) ==> r.app.file.index == Some(k) && r.app.file.queue[k].trackId == trackid)
  {
    var k := StartIndex(tracks, Some(trackid)).value;
    var r := PlayTrackList(app, tracks, identifier, Some(trackid), starts);
    if starts(tracks[k].value.1.filepath) {
      assert r.app.file.queue[k] == FilePlayback.QueuedFrom(tracks[k].value);
      assert FilePlayback.FirstStarting(r.app.file.queue, k, starts) == Some(k);
    }
  }

  // ---------------------------------------------------------------------
  // Albums, playlists, the queue and single tracks
  // ---------------------------------------------------------------------

  /**
   * `update_player_play_album`: an unknown album is a 404; otherwise its
   * tracks in playing order, named by the album's link.
   */
  function PlayAlbum(app: App, c: Catalog, albumId: int, trackid: Option<int>, starts: Option<string> -> bool, url: (Route, int) -> string): (r: Outcome)
    ensures !HasId(c.albums, albumId) ==> r == Outcome(app, Some(Abort(NotFoundStatus)))
    ensures HasId(c.albums, albumId) ==>
      r == PlayTrackList(app, Wrap(PlayingOrder(c, albumId as nat)), url(GetAlbum, albumId), trackid, starts)
  {
    if !HasId(c.albums, albumId) then Outcome(app, Some(Abort(NotFoundStatus)))
    else PlayTrackList(app, Wrap(PlayingOrder(c, albumId as nat)), url(GetAlbum, albumId), trackid, starts)
  }

  /** A start id is found in an album's playing order exactly when it is one of the album's tracks. */
  lemma AlbumStartIndex(c: Catalog, albumId: nat, trackid: int)
    ensures StartIndex(Wrap(PlayingOrder(c, albumId)), Some(trackid)).Ok?
      <==> exists t :: t in c.tracks.rows && c.tracks.rows[t].album == Some(albumId) && t == trackid
  {
    var ordered := PlayingOrder(c, albumId);
    var tracks := Wrap(ordered);
    assert Present(tracks) == ordered;
    PlayingOrderMembers(c, albumId);
    if exists t :: t in c.tracks.rows && c.tracks.rows[t].album == Some(albumId) && t == trackid {
      var t :| t in c.tracks.rows && c.tracks.rows[t].album == Some(albumId) && t == trackid;
      assert (t, c.tracks.rows[t]) in ordered;
      var i :| 0 <= i < |ordered| && ordered[i] == (t, c.tracks.rows[t]);
      assert tracks[i] == Some(ordered[i]);
    } else {
      forall i | 0 <= i < |tracks| ensures tracks[i].value.0 != trackid {
        assert tracks[i] == Some(ordered[i]);
        assert ordered[i] in ordered;
      }
    }
  }

  /**
   * Playing an album fails only for a start track outside the album: a
   * 400 that changes nothing.
   */
  lemma AlbumStartTrack(app: App, c: Catalog, albumId: nat, trackid: Option<int>, starts: Option<string> -> bool, url: (Route, int) -> string)
    requires albumId in c.albums.rows
    ensures var r := PlayAlbum(app, c, albumId, trackid, starts, url);
      (r.failure.None? <==> trackid.None? || exists t :: t in c.tracks.rows && c.tracks.rows[t].album == Some(albumId) && t == trackid.value)
      && (r.failure.Some? ==> r == Outcome(app, Some(Abort(BadRequest))))
  {
    if trackid.Some? {
      AlbumStartIndex(c, albumId, trackid.value);
    }
  }

  /** An album is queued in the order the album's listing shows its tracks. */
  lemma AlbumQueueMatchesListing(app: App, c: Catalog, albumId: nat, trackid: Option<int>, starts: Option<string> -> bool, url: (Route, int) -> string)
    requires albumId in c.albums.rows
    ensures var r := PlayAlbum(app, c, albumId, trackid, starts, url); var listing := JsonAlbum(c, albumId, Links, url);
      r.failure.None? ==> (listing.Ok? && listing.value.tracks.Some? && listing.value.tracks.value.JList?
        && var links := listing.value.tracks.value.items;
        |links| == |r.app.file.queue| && forall i :: 0 <= i < |links| ==> links[i] == JsonValue.JStr(url(GetTrack, r.app.file.queue[i].trackId)))
  {
    AlbumQueued(app, c, albumId, trackid, starts, url);
    AlbumTrackLinks(c, albumId, url);
  }

  /** Playing an album queues its rows in playing order. */
  lemma AlbumQueued(app: App, c: Catalog, albumId: nat, trackid: Option<int>, starts: Option<string> -> bool, url: (Route, int) -> string)
    requires albumId in c.albums.rows
    ensures var r := PlayAlbum(app, c, albumId, trackid, starts, url); var q := r.app.file.queue; var ordered := PlayingOrder(c, albumId);
      r.failure.None? ==> |q| == |ordered| && forall i :: 0 <= i < |q| ==> q[i].trackId == ordered[i].0
  {
    var ordered := PlayingOrder(c, albumId);
    var tracks := Wrap(ordered);
    assert Present(tracks) == ordered;
    var r := PlayTrackList(app, tracks, url(GetAlbum, albumId), trackid, starts);
    assert PlayAlbum(app, c, albumId, trackid, starts, url) == r;
    if r.failure.None? {
      forall i | 0 <= i < |tracks| ensures r.app.file.queue[i].trackId == ordered[i].0 {
        assert tracks[i] == Some(ordered[i]);
      }
    }
  }

  /** An album is queued by (disk, track) number, ties in id order. */
  lemma AlbumQueueInPlayingOrder(app: App, c: Catalog, albumId: nat, trackid: Option<int>, starts: Option<string> -> bool, url: (Route, int) -> string)
    requires albumId in c.albums.rows
    ensures var r := PlayAlbum(app, c, albumId, trackid, starts, url); var q := r.app.file.queue; var ordered := PlayingOrder(c, albumId);
      r.failure.None? ==> (|q| == |ordered|
        && (forall i :: 0 <= i < |q| ==> q[i].trackId == ordered[i].0)
        && (forall i, j :: 0 <= i < j < |q| ==> KeyLe(Key(ordered[i].1), Key(ordered[j].1)))
        && (forall i, j :: 0 <= i < j < |q| && Key(ordered[i].1) == Key(ordered[j].1) ==> q[i].trackId < q[j].trackId))
  {
    AlbumQueued(app, c, albumId, trackid, starts, url);
    AlbumTracksInPlayingOrder(c, albumId);
  }

  /** The tracks of a playlist's entries in PlaylistIndex order; None for an entry without a track. */
  function PlaylistTracks(c: Catalog, p: Playlist): (r: seq<Option<Row>>)
    ensures var es := OrderedEntries(p.entries);
      |r| == |es| && forall i :: 0 <= i < |es| ==>
        (r[i].Some? <==> es[i].trackId.Some? && es[i].trackId.value in c.tracks.rows)
        && (r[i].Some? ==> r[i].value == (es[i].trackId.value, c.tracks.rows[es[i].trackId.value]))
  {
    var es := OrderedEntries(p.entries);
    seq(|es|, i requires 0 <= i < |es| =>
      if es[i].trackId.Some? && es[i].trackId.value in c.tracks.rows then Some((es[i].trackId.value, c.tracks.rows[es[i].trackId.value])) else None)
  }

  /**
   * `update_player_play_playlist`: an unknown playlist is a 404; otherwise
   * its entries' tracks, named by the playlist's link.
   */
  function PlayPlaylist(app: App, c: Catalog, playlistId: int, trackid: Option<int>, starts: Option<string> -> bool, url: (Route, int) -> string): (r: Outcome)
    ensures !HasId(c.playlists, playlistId) ==> r == Outcome(app, Some(Abort(NotFoundStatus)))
    ensures HasId(c.playlists, playlistId) ==>
      r == PlayTrackList(app, PlaylistTracks(c, c.playlists.rows[playlistId as nat]), url(GetOnePlaylist, playlistId), trackid, starts)
  {
    if !HasId(c.playlists, playlistId) then Outcome(app, Some(Abort(NotFoundStatus)))
    else PlayTrackList(app, PlaylistTracks(c, c.playlists.rows[playlistId as nat]), url(GetOnePlaylist, playlistId), trackid, starts)
  }

  /**
   * `update_player_play_from_queue`: plays from a position counted from the
   * playing entry; when nothing plays the request is a 409.
   */
  function PlayFromQueue(app: App, queuePos: int, trackid: Option<int>, starts: Option<string> -> bool): (r: Outcome)
    ensures r.app.current == app.current && r.app.stream == app.stream && r.app.history == app.history && r.app.fetches == app.fetches
    ensures r.app.file.queue == app.file.queue
    ensures FilePlayback.PlayFromApparentIndex(app.file, queuePos, trackid, starts).Err? ==> r.app == app && r.failure.Some?
    ensures r.failure.None? <==> FilePlayback.PlayFromApparentIndex(app.file, queuePos, trackid, starts) == Ok((r.app.file, true))
    ensures r.failure == Some(Abort(Conflict)) ==> FilePlayback.PlayFromApparentIndex(app.file, queuePos, trackid, starts) == Ok((r.app.file, false))
  {
    match FilePlayback.PlayFromApparentIndex(app.file, queuePos, trackid, starts)
    case Err(e) => Outcome(app, Some(e))
    case Ok((f, played)) => Outcome(app.(file := f), if played then None else Some(Abort(Conflict)))
  }

  /**
   * A failed sanity check on the track id leaves the player as it was and
   * answers 409.
   */
  lemma QueueMismatchChangesNothing(app: App, queuePos: int, trackid: int, starts: Option<string> -> bool)
    requires FilePlayback.Locate(app.file.queue, if app.file.index.Some? then queuePos + app.file.index.value else queuePos, trackid) == Ok(None)
    ensures PlayFromQueue(app, queuePos, Some(trackid), starts) == Outcome(app, Some(Abort(Conflict)))
  {
  }

  /**
   * `add_track_to_queue` as written: it reads `ArtworkPath` and
   * `ArtworkBlob` from the track, columns the Tracks table no longer has,
   * so it raises AttributeError before anything is queued.
   */
  function AddTrackToQueueAsWritten(app: App, row: Row): (r: Result<App>)
    ensures r.Err? && r.error == AttributeError
  {
    Err(AttributeError)
  }

  /**
   * The queue entry of a stored track, with the artwork link that the
   * track's own record shows.
   */
  function QueueEntryOf(row: Row, url: (Route, int) -> string): (r: FilePlayback.QueuedTrack)
    ensures r.filepath == row.1.filepath && r.trackId == row.0 && r.artist == row.1.artist && r.title == row.1.title
    ensures r.artwork.Some? <==> HasArtwork(row.1)
  {
    FilePlayback.QueuedTrack(row.1.filepath, row.0, row.1.artist, row.1.title,
      if HasArtwork(row.1) then Some(url(GetArtwork, row.1.artwork.value)) else None)
  }

  /** `add_track_to_queue`, reading the artwork from the Artwork column. */
  function AddTrackToQueue(app: App, row: Row, starts: Option<string> -> bool, url: (Route, int) -> string): (r: App)
    ensures r.file.queue == app.file.queue + [QueueEntryOf(row, url)]
    ensures r.file.identifier == FilePlayback.QueueIdentifier || (app.file.index.None? && r.file.identifier == "")
    ensures r.current == app.current && r.stream == app.stream && r.history == app.history && r.fetches == app.fetches
  {
    app.(file := FilePlayback.AddToQueue(app.file, QueueEntryOf(row, url), starts))
  }

  /** A queued track shows the same artwork link as the track's record. */
  lemma QueuedArtworkMatchesRecord(row: Row, url: (Route, int) -> string)
    requires row.1.filepath.Some?
    ensures var rec := TrackRecordOf(row.0, row.1, false, url);
      rec.Ok? && rec.value.artwork == JsonValue.OptStr(QueueEntryOf(row, url).artwork)
  {
  }

  /** `update_player_play_track` as written: the queue is cleared, then queueing the track fails. */
  function PlayTrackAsWritten(app: App, c: Catalog, trackid: int): (r: Outcome)
    ensures !HasId(c.tracks, trackid) ==> r == Outcome(app, Some(Abort(NotFoundStatus)))
  {
    if !HasId(c.tracks, trackid) then Outcome(app, Some(Abort(NotFoundStatus)))
    else
      var a := app.(file := FilePlayback.ClearQueue(app.file));
      match AddTrackToQueueAsWritten(a, (trackid as nat, c.tracks.rows[trackid as nat]))
      case Err(e) => Outcome(a, Some(e))
      case Ok(a1) => Outcome(a1, None)
  }

  /** Playing a stored track as written empties the queue and then fails: nothing plays. */
  lemma PlayTrackAsWrittenLosesQueue(app: App, c: Catalog, trackid: nat)
    requires trackid in c.tracks.rows
    ensures var r := PlayTrackAsWritten(app, c, trackid);
      r.failure == Some(AttributeError) && r.app.file.queue == [] && r.app.file.index.None?
  {
  }

  /**
   * `update_player_play_track`: an unknown track is a 404; otherwise the
   * queue is cleared and holds just that track, which plays if its file
   * starts.
   */
  function PlayTrack(app: App, c: Catalog, trackid: int, starts: Option<string> -> bool, url: (Route, int) -> string): (r: Outcome)
    ensures !HasId(c.tracks, trackid) ==> r == Outcome(app, Some(Abort(NotFoundStatus)))
    ensures HasId(c.tracks, trackid) ==> (r.failure.None?
      && r.app.file.queue == [QueueEntryOf((trackid as nat, c.tracks.rows[trackid as nat]), url)]
      && r.app.current == app.current && r.app.stream == app.stream)
    ensures HasId(c.tracks, trackid) ==> var t := c.tracks.rows[trackid as nat];
      (starts(t.filepath) ==> r.app.file.index == Some(0) && r.app.file.status == FilePlayback.Playing && r.app.file.identifier == FilePlayback.QueueIdentifier)
      && (!starts(t.filepath) ==> r.app.file.index.None? && r.app.file.status == FilePlayback.Stopped)
  {
    if !HasId(c.tracks, trackid) then Outcome(app, Some(Abort(NotFoundStatus)))
    else
      var a := app.(file := FilePlayback.ClearQueue(app.file));
      var row := (trackid as nat, c.tracks.rows[trackid as nat]);
      var r := AddTrackToQueue(a, row, starts, url);
      assert r.file.queue == [QueueEntryOf(row, url)];
      assert FilePlayback.FirstStarting(r.file.queue, 0, starts) == (if starts(row.1.filepath) then Some(0) else None);
      Outcome(r, None)
  }

  // ---------------------------------------------------------------------
  // Local playback
  // ---------------------------------------------------------------------

  /** Python truthiness of an optional id: None and 0 are false. */
  predicate Given(id: Option<int>)
  {
    id.Some? && id.value != 0
  }

  /**
   * `update_player_play_from_local`: the file player is selected, then the
   * first of album, playlist, queue position and track that is given
   * decides what plays.
   */
  function PlayFromLocal(app: App, c: Catalog, albumId: Option<int>, playlistId: Option<int>, queuePos: Option<int>, trackid: Option<int>,
                         starts: Option<string> -> bool, url: (Route, int) -> string): (r: Outcome)
    ensures r.app.current == Some(FileSide)
    ensures r.app.history == app.history && r.app.fetches == app.fetches
    ensures var a := SelectPlayer(app, FileSide);
      (albumId.Some? ==> r == PlayAlbum(a, c, albumId.value, trackid, starts, url))
      && (albumId.None? && playlistId.Some? ==> r == PlayPlaylist(a, c, playlistId.value, trackid, starts, url))
      && (albumId.None? && playlistId.None? && queuePos.Some? ==> r == PlayFromQueue(a, queuePos.value, trackid, starts))
      && (albumId.None? && playlistId.None? && queuePos.None? && Given(trackid) ==> r == PlayTrack(a, c, trackid.value, starts, url))
    ensures albumId.None? && playlistId.None? && queuePos.None? && !Given(trackid) ==> r.failure == Some(AssertionFailed)
  {
    var a := SelectPlayer(app, FileSide);
    if albumId.Some? then PlayAlbum(a, c, albumId.value, trackid, starts, url)
    else if playlistId.Some? then PlayPlaylist(a, c, playlistId.value, trackid, starts, url)
    else if queuePos.Some? then PlayFromQueue(a, queuePos.value, trackid, starts)
    else if Given(trackid) then PlayTrack(a, c, trackid.value, starts, url)
    else Outcome(a, Some(AssertionFailed))
  }

  // ---------------------------------------------------------------------
  // Radio
  // ---------------------------------------------------------------------

  /** The position of the first station `m` accepts. */
  function FirstMatch(stations: seq<(nat, RadioStation)>, m: ((nat, RadioStation)) -> bool): (r: Option<nat>)
    ensures r.Some? ==> r.value < |stations| && m(stations[r.value]) && forall j :: 0 <= j < r.value ==> !m(stations[j])
    ensures r.None? ==> forall j :: 0 <= j < |stations| ==> !m(stations[j])
  {
    if stations == [] then None
    else if m(stations[0]) then Some(0)
    else
      var r := FirstMatch(stations[1..], m);
      assert forall j :: 1 <= j < |stations| ==> stations[j] == stations[1..][j - 1];
      if r.Some? then Some(r.value + 1) else None
  }

  /** What the stream player is told about the station at `index` of `count`. */
  function TuningOf(s: RadioStation, index: int, count: int): Tuning
  {
    Tuning(s.name, s.url, s.artworkUrl, index, count, s.nowPlayingUrl, s.nowPlayingJq, s.nowPlayingArtworkUrl, s.nowPlayingArtworkJq)
  }

  /**
   * `update_player_play_from_radio`: `stations` is the list in SortOrder;
   * the station with the id is played on the stream player, told its
   * position and the number of stations; an unknown id is a 404.
   */
  function PlayFromRadio(app: App, stations: seq<(nat, RadioStation)>, stationId: int): (r: Outcome)
    ensures r.failure.None? <==> exists i :: 0 <= i < |stations| && stations[i].0 == stationId
    ensures r.failure.Some? ==> r == Outcome(app, Some(Abort(NotFoundStatus)))
    ensures r.failure.None? ==> (r.app.current == Some(StreamSide) && r.app.stream.status == FilePlayback.Playing
      && r.app.stream.tuning.Some? && var t := r.app.stream.tuning.value;
      0 <= t.index < |stations| && t.count == |stations| && stations[t.index].0 == stationId
      && (forall j :: 0 <= j < t.index ==> stations[j].0 != stationId)
      && t == TuningOf(stations[t.index].1, t.index, |stations|))
    ensures r.failure.None? && app.current == Some(FileSide) ==> r.app.file == FilePlayback.Stop(app.file)
  {
    match FirstMatch(stations, (s: (nat, RadioStation)) => s.0 == stationId)
    case None => Outcome(app, Some(Abort(NotFoundStatus)))
    case Some(i) =>
      var a := SelectPlayer(app, StreamSide);
      Outcome(a.(stream := StreamPlay(TuningOf(stations[i].1, i, |stations|))), None)
  }

  /**
   * `update_player_streaming_prevnext`: moves `delta` stations from the
   * first one whose URL is the one playing; nothing changes when there is
   * none or the move leaves the list.
   */
  function StreamingPrevNext(app: App, stations: seq<(nat, RadioStation)>, delta: int): (r: App)
    ensures var k := FirstMatch(stations, (s: (nat, RadioStation)) => s.1.url == PlayingUrl(app.stream));
      (k.None? || !(0 <= k.value + delta < |stations|) ==> r == app)
      && (k.Some? && 0 <= k.value + delta < |stations| ==>
        r.stream.tuning.Some? && r.stream.tuning.value.index == k.value + delta
        && r.stream.tuning.value == TuningOf(stations[k.value + delta].1, k.value + delta, |stations|)
        && r == app.(stream := r.stream))
  {
    match FirstMatch(stations, (s: (nat, RadioStation)) => s.1.url == PlayingUrl(app.stream))
    case None => app
    case Some(k) =>
      var n := k + delta;
      if 0 <= n < |stations| then app.(stream := StreamPlay(TuningOf(stations[n].1, n, |stations|)))
      else app
  }

  /** The stations' URLs are distinct. */
  predicate DistinctUrls(stations: seq<(nat, RadioStation)>)
  {
    forall i, j :: 0 <= i < j < |stations| ==> stations[i].1.url != stations[j].1.url
  }

  /**
   * With distinct URLs, "next" then "previous" comes back to the station
   * that was playing, and "next" on the last station does nothing.
   */
  lemma {:induction false} NextThenPrevReturns(app: App, stations: seq<(nat, RadioStation)>, k: nat)
    requires DistinctUrls(stations) && k < |stations|
    requires app.stream == StreamPlay(TuningOf(stations[k].1, k, |stations|))
    ensures k + 1 < |stations| ==> StreamingPrevNext(StreamingPrevNext(app, stations, 1), stations, -1) == app
    ensures k + 1 == |stations| ==> StreamingPrevNext(app, stations, 1) == app
  {
    var m0 := FirstMatch(stations, (s: (nat, RadioStation)) => s.1.url == PlayingUrl(app.stream));
    assert m0.Some? && stations[m0.value].1.url == stations[k].1.url;
    if k + 1 < |stations| {
      var a1 := StreamingPrevNext(app, stations, 1);
      assert a1.stream == StreamPlay(TuningOf(stations[k + 1].1, k + 1, |stations|));
      var m1 := FirstMatch(stations, (s: (nat, RadioStation)) => s.1.url == PlayingUrl(a1.stream));
      assert m1.Some? && stations[m1.value].1.url == stations[k + 1].1.url;
    }
  }

  // ---------------------------------------------------------------------
  // Downloads
  // ---------------------------------------------------------------------

  /** `update_player_play_from_youtube`: the URL joins the history and is handed to the worker. */
  function PlayFromUrl(app: App, url: string): (r: App)
    ensures r.history == Add(app.history, url) && r.fetches == app.fetches + [url]
    ensures r.current == app.current && r.file == app.file && r.stream == app.stream
  {
    app.(history := Add(app.history, url), fetches := app.fetches + [url])
  }

  function DownloadEntry(d: Download): FilePlayback.QueuedTrack
  {
    FilePlayback.QueuedTrack(Some(d.filepath), d.fakeId, d.artist, d.title, d.artwork)
  }

  /** `add_to_queue` for each download in turn. */
  function QueueAll(p: FilePlayback.Player, ds: seq<Download>, starts: Option<string> -> bool): (r: FilePlayback.Player)
    ensures |r.queue| == |p.queue| + |ds|
    ensures r.queue[..|p.queue|] == p.queue
    ensures forall i :: 0 <= i < |ds| ==> r.queue[|p.queue| + i] == DownloadEntry(ds[i])
    ensures ds != [] ==> r.identifier == FilePlayback.QueueIdentifier || r.index.None?
    ensures ds == [] ==> r == p
    decreases |ds|
  {
    if ds == [] then p
    else
      var p1 := FilePlayback.AddToQueue(p, DownloadEntry(ds[0]), starts);
      var r := QueueAll(p1, ds[1..], starts);
      assert forall i :: 1 <= i < |ds| ==> ds[i] == ds[1..][i - 1];
      assert r.queue[..|p1.queue|] == p1.queue;
      assert r.queue[..|p.queue|] == p1.queue[..|p.queue|];
      r
  }

  /**
   * `queue_downloaded_files`: selects the file player, records the
   * downloads against the URL and appends each of them to the queue.
   */
  function QueueDownloadedFiles(app: App, url: string, ds: seq<Download>, starts: Option<string> -> bool): (r: App)
    ensures r.current == Some(FileSide)
    ensures GetInfo(r.history, url) == Some(ds) && r.history.entries == app.history.entries
    ensures var before := SelectPlayer(app, FileSide).file.queue;
      |r.file.queue| == |before| + |ds| && r.file.queue[..|before|] == before
      && forall i :: 0 <= i < |ds| ==> r.file.queue[|before| + i] == DownloadEntry(ds[i])
  {
    var a := SelectPlayer(app, FileSide);
    var a1 := a.(history := SetInfo(a.history, url, ds));
    a1.(file := QueueAll(a1.file, ds, starts))
  }

  /** `play_downloaded_files`: the queue is cleared first, so it holds exactly the downloads. */
  function PlayDownloadedFiles(app: App, url: string, ds: seq<Download>, starts: Option<string> -> bool): (r: App)
    ensures r.current == Some(FileSide)
    ensures GetInfo(r.history, url) == Some(ds)
    ensures |r.file.queue| == |ds| && forall i :: 0 <= i < |ds| ==> r.file.queue[i] == DownloadEntry(ds[i])
  {
    var a := SelectPlayer(app, FileSide);
    var a0 := a.(file := FilePlayback.ClearQueue(a.file));
    assert SelectPlayer(a0, FileSide).file.queue == [];
    QueueDownloadedFiles(a0, url, ds, starts)
  }

  /** After the downloads are played, the first of them that starts is playing. */
  lemma PlayDownloadsStartsFirstPlayable(app: App, url: string, ds: seq<Download>, starts: Option<string> -> bool)
    requires ds != [] && starts(Some(ds[0].filepath))
    ensures var r := PlayDownloadedFiles(app, url, ds, starts);
      r.file.index == Some(0) && r.file.status == FilePlayback.Playing && r.file.identifier == FilePlayback.QueueIdentifier
  {
    var a := SelectPlayer(app, FileSide);
    var a0 := a.(file := FilePlayback.ClearQueue(a.file));
    var a1 := SelectPlayer(a0, FileSide);
    var p1 := FilePlayback.AddToQueue(a1.file, DownloadEntry(ds[0]), starts);
    assert p1.queue == [DownloadEntry(ds[0])];
    assert FilePlayback.FirstStarting(p1.queue, 0, starts) == Some(0);
    QueueAllKeepsPlaying(p1, ds[1..], starts);
  }

  /** Appending to a queue that is playing keeps the playing entry and names the queue. */
  lemma {:induction false} QueueAllKeepsPlaying(p: FilePlayback.Player, ds: seq<Download>, starts: Option<string> -> bool)
    requires p.index.Some? && p.identifier == FilePlayback.QueueIdentifier
    ensures var r := QueueAll(p, ds, starts); r.index == p.index && r.status == p.status && r.identifier == FilePlayback.QueueIdentifier
    decreases |ds|
  {
    if ds != [] {
      QueueAllKeepsPlaying(FilePlayback.AddToQueue(p, DownloadEntry(ds[0]), starts), ds[1..], starts);
    }
  }
}

=== FILE: routes.dfy ===
/**
 * The pure rules of the HTTP routes: what a play request may combine and
 * where it is sent, reordering the radio stations, the punctuation a search
 * ignores, the tracks listing limit and removing an entry from the queue.
 * A Flask `abort` or a werkzeug `BadRequest` is the error `Abort(status)`.
 */
module Routes {
  import opened Common
  import opened Schema
  import opened JsonValue
  import opened Deserialize
  import opened PlayerControl
  import opened Serialize
  import FilePlayback

  // ---------------------------------------------------------------------
  // POST /player/play
  // ---------------------------------------------------------------------

  /** The selectors of a play request, each id as `extract_id` read it. */
  datatype PlayRequest = PlayRequest(album: Option<int>, playlist: Option<int>, queuePos: Option<int>, track: Option<int>, radio: Option<int>, url: Json)

  /**
   * Reads the request body: a falsy body is a 400, and a truthy one that is
   * not an object fails on `data.get`.
   */
  function ReadPlayRequest(data: Json): (r: Result<PlayRequest>)
    ensures !Truthy(data) <==> r == Err(Abort(BadRequest))
    ensures Truthy(data) && !data.JObj? <==> r == Err(AttributeError)
    ensures r.Ok? ==> data.JObj? && var f := data.fields;
      r.value.album == ExtractId(Get(f, "album", JNull))
      && r.value.playlist == ExtractId(Get(f, "playlist", JNull))
      && r.value.queuePos == ExtractId(Get(f, "queuepos", JNull))
      && r.value.track == ExtractId(Get(f, "track", JNull))
      && r.value.radio == ExtractId(Get(f, "radio", JNull))
      && r.value.url == Get(f, "url", JNull)
  {
    if !Truthy(data) then Err(Abort(BadRequest))
    else if !data.JObj? then Err(AttributeError)
    else
      var f := data.fields;
      Ok(PlayRequest(ExtractId(Get(f, "album", JNull)), ExtractId(Get(f, "playlist", JNull)), ExtractId(Get(f, "queuepos", JNull)),
                     ExtractId(Get(f, "track", JNull)), ExtractId(Get(f, "radio", JNull)), Get(f, "url", JNull)))
  }

  /** How many of album, playlist and queue position are not None. */
  function LocalCount(q: PlayRequest): nat
  {
    (if q.album.Some? then 1 else 0) + (if q.playlist.Some? then 1 else 0) + (if q.queuePos.Some? then 1 else 0)
  }

  /**
   * The checks of `update_player_play`, in order; None accepts. Ids are
   * tested for truthiness, so an id of 0 counts as not given, except in
   * the count of album, playlist and queue position, which tests for None.
   */
  function CheckPlayRequest(q: PlayRequest): (r: Option<Error>)
    ensures r.Some? ==> r.value == Abort(BadRequest)
    ensures r.None? ==> LocalCount(q) <= 1
    ensures r.None? ==> Given(q.album) || Given(q.playlist) || Given(q.queuePos) || Given(q.track) || Given(q.radio) || Truthy(q.url)
    ensures r.None? && Given(q.radio) ==> !(Given(q.album) || Given(q.playlist) || Given(q.queuePos) || Given(q.track) || Truthy(q.url))
    ensures r.None? && Truthy(q.url) ==> !(Given(q.album) || Given(q.playlist) || Given(q.queuePos) || Given(q.track) || Given(q.radio))
  {
    if !(Given(q.album) || Given(q.playlist) || Given(q.queuePos) || Given(q.track) || Given(q.radio) || Truthy(q.url)) then
      Some(Abort(BadRequest))
    else if LocalCount(q) > 1 then
      Some(Abort(BadRequest))
    else if Given(q.radio) && (Given(q.album) || Given(q.playlist) || Given(q.queuePos) || Given(q.track) || Truthy(q.url)) then
      Some(Abort(BadRequest))
    else if Truthy(q.url) && (Given(q.album) || Given(q.playlist) || Given(q.queuePos) || Given(q.track) || Given(q.radio)) then
      Some(Abort(BadRequest))
    else None
  }

  /**
   * The request shapes the route lists as valid: an album, a playlist or a
   * queue position, each with or without a track; a track on its own; a URL
   * on its own; a radio station on its own. An accepted request has one of
   * them, and a request of one of them, with every given id non-zero, is
   * accepted.
   */
  predicate ListedShape(q: PlayRequest)
  {
    var noneOther := !Given(q.radio) && !Truthy(q.url);
    (Given(q.album) && q.playlist.None? && q.queuePos.None? && noneOther)
    || (Given(q.playlist) && q.album.None? && q.queuePos.None? && noneOther)
    || (Given(q.queuePos) && q.album.None? && q.playlist.None? && noneOther)
    || (Given(q.track) && q.album.None? && q.playlist.None? && q.queuePos.None? && noneOther)
    || (Truthy(q.url) && q.album.None? && q.playlist.None? && q.queuePos.None? && q.track.None? && !Given(q.radio))
    || (Given(q.radio) && q.album.None? && q.playlist.None? && q.queuePos.None? && q.track.None? && !Truthy(q.url))
  }

  /** Every listed shape is accepted. */
  lemma ListedShapesAccepted(q: PlayRequest)
    requires ListedShape(q)
    ensures CheckPlayRequest(q).None?
  {
  }

  /**
   * An accepted request whose ids are all non-zero when present has a
   * listed shape; an id of 0 is the one way round them.
   */
  lemma AcceptedHasListedShape(q: PlayRequest)
    requires CheckPlayRequest(q).None?
    requires q.album != Some(0) && q.playlist != Some(0) && q.queuePos != Some(0) && q.track != Some(0)
    ensures ListedShape(q)
  {
  }

  /** An id of 0 on its own is no selection: "queuepos": 0 alone is refused. */
  lemma ZeroIdIsNoSelection(q: PlayRequest)
    requires q == PlayRequest(None, None, Some(0), None, None, JNull)
    ensures CheckPlayRequest(q) == Some(Abort(BadRequest))
  {
  }

  /**
   * `update_player_play`: checks the request, then plays the URL, else
   * the radio station, else the local selection on the file player.
   * `stations` is the list of stations in SortOrder.
   */
  function Play(app: App, c: Catalog, stations: seq<(nat, RadioStation)>, data: Json,
                starts: Option<string> -> bool, url: (Route, int) -> string): (r: Outcome)
    ensures ReadPlayRequest(data).Err? ==> r == Outcome(app, Some(ReadPlayRequest(data).error))
    ensures ReadPlayRequest(data).Ok? ==> var q := ReadPlayRequest(data).value;
      (CheckPlayRequest(q).Some? ==> r == Outcome(app, CheckPlayRequest(q)))
      && (CheckPlayRequest(q).None? ==>
        (Truthy(q.url) && q.url.JStr? ==> r == Outcome(PlayFromUrl(app, q.url.s), None))
        && (Truthy(q.url) && !q.url.JStr? ==> r == Outcome(app, Some(TypeError)))
        && (!Truthy(q.url) && Given(q.radio) ==> r == PlayFromRadio(app, stations, q.radio.value))
        && (!Truthy(q.url) && !Given(q.radio) ==> r == PlayFromLocal(app, c, q.album, q.playlist, q.queuePos, q.track, starts, url)))
  {
    match ReadPlayRequest(data)
    case Err(e) => Outcome(app, Some(e))
    case Ok(q) =>
      if CheckPlayRequest(q).Some? then Outcome(app, CheckPlayRequest(q))
      else if Truthy(q.url) then
        if q.url.JStr? then Outcome(PlayFromUrl(app, q.url.s), None) else Outcome(app, Some(TypeError))
      else if Given(q.radio) then PlayFromRadio(app, stations, q.radio.value)
      else PlayFromLocal(app, c, q.album, q.playlist, q.queuePos, q.track, starts, url)
  }

  /**
   * The internal-error branch of the local dispatch is unreachable: an
   * accepted request with no URL and no station names an album, a
   * playlist, a queue position or a track.
   */
  lemma AcceptedLocalHasSelector(q: PlayRequest)
    requires CheckPlayRequest(q).None? && !Truthy(q.url) && !Given(q.radio)
    ensures q.album.Some? || q.playlist.Some? || q.queuePos.Some? || Given(q.track)
  {
  }

  /** So the local dispatch of an accepted request never fails its assertion. */
  lemma PlayNeverReachesAssertion(app: App, c: Catalog, stations: seq<(nat, RadioStation)>, data: Json,
                                  starts: Option<string> -> bool, url: (Route, int) -> string)
    requires ReadPlayRequest(data).Ok?
    requires var q := ReadPlayRequest(data).value; CheckPlayRequest(q).None? && !Truthy(q.url) && !Given(q.radio)
    ensures var q := ReadPlayRequest(data).value;
      (q.album.Some? ==> Play(app, c, stations, data, starts, url) == PlayAlbum(SelectPlayer(app, FileSide), c, q.album.value, q.track, starts, url))
      && (q.album.None? && q.playlist.None? && q.queuePos.None? ==>
        Play(app, c, stations, data, starts, url) == PlayTrack(SelectPlayer(app, FileSide), c, q.track.value, starts, url))
  {
    AcceptedLocalHasSelector(ReadPlayRequest(data).value);
  }

  /** A refused request changes nothing. */
  lemma RefusedPlayChangesNothing(app: App, c: Catalog, stations: seq<(nat, RadioStation)>, data: Json,
                                  starts: Option<string> -> bool, url: (Route, int) -> string)
    requires ReadPlayRequest(data).Err? || CheckPlayRequest(ReadPlayRequest(data).value).Some?
    ensures Play(app, c, stations, data, starts, url).app == app
    ensures Play(app, c, stations, data, starts, url).failure.Some?
  {
  }

  // ---------------------------------------------------------------------
  // PUT /radio/
  // ---------------------------------------------------------------------

  /** The distinct values of a list, `set(xs)`. */
  function ValueSet(xs: seq<int>): set<int>
  {
    set x | x in xs
  }

  /** `len(set(xs)) == len(xs)` exactly when `xs` holds no value twice. */
  lemma {:induction false} ValueSetSize(xs: seq<int>)
    ensures |ValueSet(xs)| <= |xs|
    ensures |ValueSet(xs)| == |xs| <==> NoDuplicates(xs)
    decreases |xs|
  {
    if xs != [] {
      var t := xs[1..];
      ValueSetSize(t);
      assert ValueSet(xs) == {xs[0]} + ValueSet(t);
      assert NoDuplicates(xs) <==> xs[0] !in t && NoDuplicates(t) by {
        assert forall j :: 1 <= j < |xs| ==> xs[j] == t[j - 1];
        if NoDuplicates(xs) {
          forall i, j | 0 <= i < j < |t| ensures t[i] != t[j] {
            assert xs[i + 1] != xs[j + 1];
          }
        }
      }
      if xs[0] in t {
        assert ValueSet(xs) == ValueSet(t);
      } else {
        assert xs[0] !in ValueSet(t);
      }
    }
  }

  /**
   * The body read as station ids: it must be a list, and every element
   * must be an id.
   */
  function DesiredOrder(body: Json): (r: Result<seq<int>>)
    ensures r.Err? ==> r.error == Abort(BadRequest)
    ensures r.Ok? <==> body.JList? && forall i :: 0 <= i < |body.items| ==> ExtractId(body.items[i]).Some?
    ensures r.Ok? ==> |r.value| == |body.items| && forall i :: 0 <= i < |r.value| ==> ExtractId(body.items[i]) == Some(r.value[i])
  {
    if !body.JList? then Err(Abort(BadRequest))
    else
      var ids := ExtractIds(body.items);
      if None in ids then Err(Abort(BadRequest))
      else
        assert forall i :: 0 <= i < |ids| ==> ids[i].Some? by {
          forall i | 0 <= i < |ids| ensures ids[i].Some? {
            assert ids[i] in ids;
          }
        }
        Ok(seq(|ids|, i requires 0 <= i < |ids| => ids[i].value))
  }

  /** The size checks: as many ids as stations, and as many distinct ids. */
  predicate SizesAgree(stations: seq<(nat, RadioStation)>, desired: seq<int>)
  {
    |desired| == |stations| && |ValueSet(desired)| == |stations|
  }

  /** Station `s` with its SortOrder set to its id's position in `desired`. */
  function Placed(s: (nat, RadioStation), desired: seq<int>): (r: (nat, RadioStation))
    requires s.0 in desired
    ensures r.0 == s.0 && r.1.sortOrder.Some? && 0 <= r.1.sortOrder.value < |desired| && desired[r.1.sortOrder.value] == s.0
    ensures r.1 == s.1.(sortOrder := r.1.sortOrder)
  {
    (s.0, s.1.(sortOrder := Some(FirstIndex(desired, s.0))))
  }

  /**
   * The loop of the route as written: each station in turn takes its id's
   * position, and the first station missing from the list raises
   * ValueError, leaving the stations before it changed (the database
   * session commits on the way out all the same).
   */
  function PlaceAll(stations: seq<(nat, RadioStation)>, desired: seq<int>): (r: (seq<(nat, RadioStation)>, Option<Error>))
    ensures |r.0| == |stations|
    ensures r.1.None? <==> forall i :: 0 <= i < |stations| ==> stations[i].0 in desired
    ensures r.1.Some? ==> r.1.value == ValueError
    ensures forall i :: 0 <= i < |stations| ==> (r.0[i] == stations[i] || (stations[i].0 in desired && r.0[i] == Placed(stations[i], desired)))
    ensures r.1.None? ==> forall i :: 0 <= i < |stations| ==> r.0[i] == Placed(stations[i], desired)
  {
    if stations == [] then ([], None)
    else if stations[0].0 !in desired then (stations, Some(ValueError))
    else
      var rest := PlaceAll(stations[1..], desired);
      assert forall i :: 1 <= i < |stations| ==> stations[i] == stations[1..][i - 1];
      ([Placed(stations[0], desired)] + rest.0, rest.1)
  }

  /** The station ids, in the order of the list. */
  function Ids(stations: seq<(nat, RadioStation)>): (r: seq<int>)
    ensures |r| == |stations| && forall i :: 0 <= i < |stations| ==> r[i] == stations[i].0
  {
    seq(|stations|, i requires 0 <= i < |stations| => stations[i].0 as int)
  }

  /** The reorder route as written: the stations afterwards, and the failure, if any. */
  function ReorderAsWritten(stations: seq<(nat, RadioStation)>, body: Json): (r: (seq<(nat, RadioStation)>, Option<Error>))
    ensures DesiredOrder(body).Err? ==> r == (stations, Some(Abort(BadRequest)))
    ensures DesiredOrder(body).Ok? && !SizesAgree(stations, DesiredOrder(body).value) ==> r == (stations, Some(Abort(BadRequest)))
    ensures DesiredOrder(body).Ok? && SizesAgree(stations, DesiredOrder(body).value) ==> r == PlaceAll(stations, DesiredOrder(body).value)
  {
    match DesiredOrder(body)
    case Err(e) => (stations, Some(e))
    case Ok(desired) =>
      if !SizesAgree(stations, desired) then (stations, Some(Abort(BadRequest)))
      else PlaceAll(stations, desired)
  }

  /**
   * Two stations 1 and 2, ordered 0 and 1, and the list [3, 1]: the sizes
   * agree, station 1 is given position 1, station 2 raises ValueError, and
   * both stations are left at SortOrder 1.
   */
  lemma ReorderAsWrittenCorrupts(s1: RadioStation, s2: RadioStation)
    requires s1.sortOrder == Some(0) && s2.sortOrder == Some(1)
    ensures var r := ReorderAsWritten([(1, s1), (2, s2)], JList([JInt(3), JInt(1)]));
      r.1 == Some(ValueError) && r.0[0].1.sortOrder == Some(1) && r.0[1].1.sortOrder == Some(1)
  {
    var body := JList([JInt(3), JInt(1)]);
    assert ExtractIds(body.items) == [Some(3), Some(1)];
    var desired := DesiredOrder(body).value;
    assert desired == [3, 1];
    assert ValueSet(desired) == {1, 3};
    assert SizesAgree([(1, s1), (2, s2)], desired);
    assert FirstIndex(desired, 1) == 1;
    assert 2 !in desired;
    var tail := PlaceAll([(2, s2)], desired);
    assert tail == ([(2, s2)], Some(ValueError));
    assert PlaceAll([(1, s1), (2, s2)], desired) == ([Placed((1, s1), desired)] + tail.0, tail.1);
  }

  /**
   * The reorder with the missing station caught with the other checks: a
   * 400 that changes nothing; otherwise every station takes its id's
   * position.
   */
  function ReorderStations(stations: seq<(nat, RadioStation)>, body: Json): (r: Result<seq<(nat, RadioStation)>>)
    ensures r.Err? ==> r.error == Abort(BadRequest)
    ensures r.Ok? <==> DesiredOrder(body).Ok? && var d := DesiredOrder(body).value;
      |d| == |stations| && NoDuplicates(d) && forall i :: 0 <= i < |stations| ==> stations[i].0 in d
    ensures r.Ok? ==> var d := DesiredOrder(body).value;
      |r.value| == |stations| && forall i :: 0 <= i < |stations| ==> r.value[i] == Placed(stations[i], d)
    ensures r.Ok? ==> r.value == ReorderAsWritten(stations, body).0 && ReorderAsWritten(stations, body).1.None?
  {
    match DesiredOrder(body)
    case Err(e) => Err(e)
    case Ok(desired) =>
      ValueSetSize(desired);
      if !SizesAgree(stations, desired) then Err(Abort(BadRequest))
      else if exists i :: 0 <= i < |stations| && stations[i].0 !in desired then Err(Abort(BadRequest))
      else Ok(PlaceAll(stations, desired).0)
  }

  /**
   * With distinct station ids an accepted reorder is a permutation of the
   * positions: the station at position k of the request gets SortOrder k,
   * and no two stations share one.
   */
  lemma ReorderIsPermutation(stations: seq<(nat, RadioStation)>, body: Json, r: seq<(nat, RadioStation)>)
    requires NoDuplicates(Ids(stations))
    requires ReorderStations(stations, body) == Ok(r)
    ensures forall i, j :: 0 <= i < j < |r| ==> r[i].1.sortOrder != r[j].1.sortOrder
    ensures body.JList? && |body.items| == |r|
    ensures forall k :: 0 <= k < |r| ==> exists i :: 0 <= i < |r| && ExtractId(body.items[k]) == Some(r[i].0) && r[i].1.sortOrder == Some(k)
  {
    var d := AcceptedOrder(stations, body, r);
    PlacedPermutation(stations, d, r);
    RequestPositions(body, d, r);
  }

  /** The ids read from the body name the stations placed at their positions. */
  lemma RequestPositions(body: Json, d: seq<int>, r: seq<(nat, RadioStation)>)
    requires body.JList? && |d| == |body.items| && |r| == |d|
    requires forall k :: 0 <= k < |d| ==> ExtractId(body.items[k]) == Some(d[k])
    requires forall k :: 0 <= k < |d| ==> exists i :: 0 <= i < |r| && r[i].0 == d[k] && r[i].1.sortOrder == Some(k)
    ensures forall k :: 0 <= k < |r| ==> exists i :: 0 <= i < |r| && ExtractId(body.items[k]) == Some(r[i].0) && r[i].1.sortOrder == Some(k)
  {
    forall k | 0 <= k < |r| ensures exists i :: 0 <= i < |r| && ExtractId(body.items[k]) == Some(r[i].0) && r[i].1.sortOrder == Some(k) {
      var i :| 0 <= i < |r| && r[i].0 == d[k] && r[i].1.sortOrder == Some(k);
      assert ExtractId(body.items[k]) == Some(d[k]);
    }
    assert forall k :: 0 <= k < |r| ==> exists i :: 0 <= i < |r| && ExtractId(body.items[k]) == Some(r[i].0) && r[i].1.sortOrder == Some(k);
  }

  /** What an accepted reorder read from its body, and how it placed the stations. */
  lemma AcceptedOrder(stations: seq<(nat, RadioStation)>, body: Json, r: seq<(nat, RadioStation)>) returns (d: seq<int>)
    requires ReorderStations(stations, body) == Ok(r)
    ensures body.JList? && |d| == |body.items| && forall k :: 0 <= k < |d| ==> ExtractId(body.items[k]) == Some(d[k])
    ensures |d| == |stations| && NoDuplicates(d) && |r| == |stations|
    ensures forall i :: 0 <= i < |stations| ==> stations[i].0 in d && r[i] == Placed(stations[i], d)
  {
    d := DesiredOrder(body).value;
  }

  /** The placement of stations with distinct ids by a list naming each of them once. */
  lemma PlacedPermutation(stations: seq<(nat, RadioStation)>, d: seq<int>, r: seq<(nat, RadioStation)>)
    requires NoDuplicates(Ids(stations)) && NoDuplicates(d) && |d| == |stations|
    requires |r| == |stations| && forall i :: 0 <= i < |stations| ==> stations[i].0 in d && r[i] == Placed(stations[i], d)
    ensures forall i, j :: 0 <= i < j < |r| ==> r[i].1.sortOrder != r[j].1.sortOrder
    ensures forall k :: 0 <= k < |d| ==> exists i :: 0 <= i < |r| && r[i].0 == d[k] && r[i].1.sortOrder == Some(k)
  {
    PlacedDistinct(stations, d, r);
    RequestedAreStations(stations, d);
    forall k | 0 <= k < |d| ensures exists i :: 0 <= i < |r| && r[i].0 == d[k] && r[i].1.sortOrder == Some(k) {
      var i :| 0 <= i < |stations| && stations[i].0 == d[k];
      PlacedAt(stations[i], d, k);
      assert r[i].0 == d[k] && r[i].1.sortOrder == Some(k);
    }
  }

  /** Stations with distinct ids are placed at distinct positions. */
  lemma PlacedDistinct(stations: seq<(nat, RadioStation)>, d: seq<int>, r: seq<(nat, RadioStation)>)
    requires NoDuplicates(Ids(stations))
    requires |r| == |stations| && forall i :: 0 <= i < |stations| ==> stations[i].0 in d && r[i] == Placed(stations[i], d)
    ensures forall i, j :: 0 <= i < j < |r| ==> r[i].1.sortOrder != r[j].1.sortOrder
  {
    forall i, j | 0 <= i < j < |r| ensures r[i].1.sortOrder != r[j].1.sortOrder {
      assert Ids(stations)[i] != Ids(stations)[j];
    }
  }

  /** A station whose id is at position k of a list without repeats is placed at k. */
  lemma PlacedAt(s: (nat, RadioStation), d: seq<int>, k: int)
    requires NoDuplicates(d) && 0 <= k < |d| && d[k] == s.0
    ensures Placed(s, d).1.sortOrder == Some(k)
  {
    var p := Placed(s, d).1.sortOrder.value;
    assert d[p] == d[k];
  }

  /**
   * When as many distinct ids as stations are requested and every station
   * is among them, every requested id is a station's.
   */
  lemma RequestedAreStations(stations: seq<(nat, RadioStation)>, d: seq<int>)
    requires NoDuplicates(Ids(stations)) && NoDuplicates(d) && |d| == |stations|
    requires forall i :: 0 <= i < |stations| ==> stations[i].0 in d
    ensures forall k :: 0 <= k < |d| ==> exists i :: 0 <= i < |stations| && stations[i].0 == d[k]
  {
    var ids := Ids(stations);
    ValueSetSize(d);
    ValueSetSize(ids);
    assert ValueSet(ids) <= ValueSet(d) by {
      forall x | x in ValueSet(ids) ensures x in ValueSet(d) {
        var i :| 0 <= i < |ids| && ids[i] == x;
        assert stations[i].0 in d;
      }
    }
    SubsetOfSameSize(ValueSet(ids), ValueSet(d));
    forall k | 0 <= k < |d| ensures exists i :: 0 <= i < |stations| && stations[i].0 == d[k] {
      assert d[k] in ValueSet(ids);
      var i :| 0 <= i < |ids| && ids[i] == d[k];
      assert stations[i].0 == d[k];
    }
  }

  lemma SubsetOfSameSize(a: set<int>, b: set<int>)
    requires a <= b && |a| == |b|
    ensures a == b
  {
    assert |b - a| == |b| - |a|;
  }

  // ---------------------------------------------------------------------
  // GET /search/<search_string>
  // ---------------------------------------------------------------------

  /** Typographic quotes are read as the plain ones. */
  function NormalizeChar(c: char): char
  {
    if c == '‘' || c == '’' then '\''
    else if c == '“' || c == '”' then '"'
    else c
  }

  predicate CurlyQuote(c: char)
  {
    c == '‘' || c == '’' || c == '“' || c == '”'
  }

  /** `normalize_punctuation`: the four typographic quotes become ' and ", and nothing else changes. */
  function NormalizePunctuation(s: string): (r: string)
    ensures |r| == |s|
    ensures forall i :: 0 <= i < |s| ==> (!CurlyQuote(s[i]) ==> r[i] == s[i]) && (CurlyQuote(s[i]) ==> r[i] in "'\"")
    ensures forall i :: 0 <= i < |r| ==> !CurlyQuote(r[i])
  {
    seq(|s|, i requires 0 <= i < |s| => NormalizeChar(s[i]))
  }

  /**
   * A station built from a request and then listed with its URLs
   * (`json_radio_station(station, include_urls=True)`) shows the name, url,
   * artwork and now-playing fields the request gave.
   */
  lemma StationRoundTrip(data: Json, id: nat, url: (Route, int) -> string)
    requires BuildRadioStation(data).Ok?
    ensures data.JObj? && var f := data.fields;
      var o := StationObject(JsonRadioStation(id, BuildRadioStation(data).value, true, url));
      && o["name"] == Get(f, "name", JNull) && o["url"] == Get(f, "url", JNull)
      && o["artwork"] == Get(f, "artwork", JNull)
      && o["now_playing_url"] == Get(f, "now_playing_url", JNull)
      && o["now_playing_jq"] == Get(f, "now_playing_jq", JNull)
      && o["now_playing_artwork_url"] == Get(f, "now_playing_artwork_url", JNull)
      && o["now_playing_artwork_jq"] == Get(f, "now_playing_artwork_jq", JNull)
  {
    var s := BuildRadioStation(data).value;
    var f := data.fields;
    OptTextInverse(Get(f, "name", JNull), s.name);
    OptTextInverse(Get(f, "url", JNull), s.url);
    OptTextInverse(Get(f, "artwork", JNull), s.artworkUrl);
    OptTextInverse(Get(f, "now_playing_url", JNull), s.nowPlayingUrl);
    OptTextInverse(Get(f, "now_playing_jq", JNull), s.nowPlayingJq);
    OptTextInverse(Get(f, "now_playing_artwork_url", JNull), s.nowPlayingArtworkUrl);
    OptTextInverse(Get(f, "now_playing_artwork_jq", JNull), s.nowPlayingArtworkJq);
  }

  /** Normalising twice is normalising once, and text without typographic quotes is kept. */
  lemma NormalizeIdempotent(s: string)
    ensures NormalizePunctuation(NormalizePunctuation(s)) == NormalizePunctuation(s)
    ensures (forall i :: 0 <= i < |s| ==> !CurlyQuote(s[i])) ==> NormalizePunctuation(s) == s
  {
  }

  /** The words searched for: the normalised, stripped string split at whitespace. */
  function SearchWords(s: string): (r: seq<string>)
    ensures forall k :: 0 <= k < |r| ==> IsWord(r[k])
  {
    Words(Strip(NormalizePunctuation(s)))
  }

  /** No character of the string is a typographic quote. */
  predicate Plain(s: string)
  {
    forall i :: 0 <= i < |s| ==> !CurlyQuote(s[i])
  }

  /** Stripping and taking a piece keep a string plain. */
  lemma PlainPieces(s: string, w: string)
    requires Plain(s) && Contains(Strip(s), w)
    ensures Plain(w)
  {
    var t := Strip(s);
    assert Plain(StripLeft(s));
    assert Plain(t);
    var k :| 0 <= k <= |t| && OccursAt(t, w, k);
    forall i | 0 <= i < |w| ensures !CurlyQuote(w[i]) {
      assert w[i] == t[k + i];
    }
  }

  /** Plain words joined by spaces are searched for as given, each once, in order. */
  lemma SearchWordsOfJoin(ws: seq<string>)
    requires AllWords(ws)
    requires Plain(Join(ws, ' '))
    ensures SearchWords(Join(ws, ' ')) == ws
  {
    NormalizeIdempotent(Join(ws, ' '));
    StripJoin(ws);
    WordsJoin(ws);
  }

  /** The search words carry no typographic quote. */
  lemma SearchWordsPlain(s: string, w: string)
    requires w in SearchWords(s)
    ensures Plain(w)
  {
    WordsOccur(Strip(NormalizePunctuation(s)), w);
    PlainPieces(NormalizePunctuation(s), w);
  }

  // ---------------------------------------------------------------------
  // GET /tracks/
  // ---------------------------------------------------------------------

  /** The `limit` argument (absent reads as ""): a number when it is all digits, else no limit. */
  function TracksLimit(s: string): (r: Option<nat>)
    ensures r.Some? <==> IsDigits(s)
  {
    if s != "" && IsDigits(s) then Some(DigitsValue(s)) else None
  }

  /** A limit written as a number is read back as that number. */
  lemma TracksLimitRoundTrip(n: nat)
    ensures TracksLimit(NatStr(n)) == Some(n)
  {
    NatStrRoundTrip(n);
  }

  // ---------------------------------------------------------------------
  // DELETE /queue/
  // ---------------------------------------------------------------------

  /** Python's `int()` of a JSON value; None, lists and objects are a TypeError, a bad string a ValueError. */
  function PyIntOf(v: Json): (r: Result<int>)
    ensures v.JInt? ==> r == Ok(v.i)
    ensures (v.JNull? || v.JList? || v.JObj?) ==> r == Err(TypeError)
    ensures v.JStr? && IsDigits(v.s) ==> r == Ok(DigitsValue(v.s))
    ensures r.Err? ==> r.error in {TypeError, ValueError}
  {
    match v
    case JInt(i) => Ok(i)
    case JBool(b) => Ok(if b then 1 else 0)
    case JStr(s) => if PyInt(s).Some? then Ok(PyInt(s).value) else Err(ValueError)
    case _ => Err(TypeError)
  }

  /** `int(data[key])`: a missing key and a bad string are 400s. */
  function ReadInt(fields: map<string, Json>, key: string): (r: Result<int>)
    ensures key !in fields ==> r == Err(Abort(BadRequest))
    ensures key in fields && PyIntOf(fields[key]).Ok? ==> r == PyIntOf(fields[key])
    ensures r.Err? ==> r.error in {Abort(BadRequest), TypeError}
  {
    if key !in fields then Err(Abort(BadRequest))
    else match PyIntOf(fields[key])
      case Ok(n) => Ok(n)
      case Err(e) => if e == ValueError then Err(Abort(BadRequest)) else Err(e)
  }

  /**
   * The DELETE branch of the queue route: only on the file player, with a
   * body naming the index (relative to the entry playing) and the track id
   * that must be there.
   */
  function DeleteFromQueue(app: App, data: Json, starts: Option<string> -> bool): (r: Outcome)
    ensures app.current != Some(FileSide) ==> r == Outcome(app, Some(Abort(Conflict)))
    ensures r.failure.Some? ==> r.app == app
    ensures r.failure.None? <==> (app.current == Some(FileSide) && Truthy(data) && data.JObj?
      && ReadInt(data.fields, "index").Ok? && ReadInt(data.fields, "track").Ok?
      && FilePlayback.RemoveFromQueue(app.file, ReadInt(data.fields, "index").value, ReadInt(data.fields, "track").value, starts).1)
    ensures r.failure.None? ==> r.app == app.(file := FilePlayback.RemoveFromQueue(app.file, ReadInt(data.fields, "index").value, ReadInt(data.fields, "track").value, starts).0)
    ensures r.failure.Some? && app.current == Some(FileSide) && Truthy(data) && data.JObj? ==> r.failure.value in {Abort(BadRequest), TypeError}
  {
    if app.current != Some(FileSide) then Outcome(app, Some(Abort(Conflict)))
    else if !Truthy(data) then Outcome(app, Some(Abort(BadRequest)))
    else if !data.JObj? then Outcome(app, Some(TypeError))
    else match ReadInt(data.fields, "index")
      case Err(e) => Outcome(app, Some(e))
      case Ok(index) =>
        match ReadInt(data.fields, "track")
        case Err(e) => Outcome(app, Some(e))
        case Ok(trackid) =>
          var (p, removed) := FilePlayback.RemoveFromQueue(app.file, index, trackid, starts);
          if removed then Outcome(app.(file := p), None) else Outcome(app, Some(Abort(BadRequest)))
  }

  /** A successful delete removes exactly the named entry and nothing else. */
  lemma DeleteRemovesNamedEntry(app: App, index: int, trackid: int, starts: Option<string> -> bool)
    requires app.current == Some(FileSide)
    ensures var r := DeleteFromQueue(app, JObj(map["index" := JInt(index), "track" := JInt(trackid)]), starts);
      var k := if app.file.index.Some? then index + app.file.index.value else index;
      (r.failure.None? <==> 0 <= k < |app.file.queue| && app.file.queue[k].trackId == trackid)
      && (r.failure.None? ==> r.app.file.queue == app.file.queue[..k] + app.file.queue[k + 1..])
      && (r.failure.Some? ==> r == Outcome(app, Some(Abort(BadRequest))))
  {
    var data := JObj(map["index" := JInt(index), "track" := JInt(trackid)]);
    assert Truthy(data) by {
      assert "index" in data.fields;
    }
    assert ReadInt(data.fields, "index") == Ok(index);
    assert ReadInt(data.fields, "track") == Ok(trackid);
  }
}

=== FILE: scancommon.dfy ===
/**
 * Helpers shared by the file scanners: the tag date parser and the lookup
 * of a cover image file next to a music file.
 */
module ScanCommon {
  import opened Common
  import opened Schema

  // ---------------------------------------------------------------------
  // String pieces
  // ---------------------------------------------------------------------

  /** `s.split(c, 1)` when `c` occurs: the text before and after its first occurrence. */
  function SplitOnce(s: string, c: char): (r: (string, string))
    requires c in s
    ensures s == r.0 + [c] + r.1 && c !in r.0
  {
    var i := IndexOf(s, c);
    assert s == s[..i] + [c] + s[i + 1..];
    (s[..i], s[i + 1..])
  }

  /** The date and time halves: split at the first 'T', else the first ' ', else no time. */
  function DateAndTime(s: string): (r: (string, string))
    ensures 'T' in s ==> s == r.0 + "T" + r.1 && 'T' !in r.0
    ensures 'T' !in s && ' ' in s ==> s == r.0 + " " + r.1 && ' ' !in r.0
    ensures 'T' !in s && ' ' !in s ==> r == (s, "")
  {
    if 'T' in s then SplitOnce(s, 'T')
    else if ' ' in s then SplitOnce(s, ' ')
    else (s, "")
  }

  /** The text before the first `c`, or all of `s`. */
  function CutAt(s: string, c: char): (r: string)
    ensures c !in r && |r| <= |s| && r == s[..|r|]
    ensures c in s ==> |r| < |s| && s[|r|] == c
    ensures c !in s ==> r == s
  {
    if c in s then s[..IndexOf(s, c)] else s
  }

  /** Drops trailing characters that are not digits. */
  function TrimNonDigits(s: string): (r: string)
    ensures |r| <= |s| && r == s[..|r|]
    ensures |r| > 0 ==> IsDigit(r[|r| - 1])
    ensures forall i :: |r| <= i < |s| ==> !IsDigit(s[i])
  {
    if |s| > 0 && !IsDigit(s[|s| - 1]) then TrimNonDigits(s[..|s| - 1]) else s
  }

  /** The time half with any zone offset and trailing letters removed. */
  function TimeDigits(time: string): string
  {
    TrimNonDigits(CutAt(CutAt(time, '+'), '-'))
  }

  // ---------------------------------------------------------------------
  // Fields
  // ---------------------------------------------------------------------

  /** A date or time field that may be left empty. */
  predicate FieldOk(f: string)
  {
    f == "" || IsDigits(f)
  }

  function FieldValue(f: string, default: nat): nat
    requires FieldOk(f)
  {
    if f == "" then default else DigitsValue(f)
  }

  /**
   * Up to three fields, the missing and empty ones taking `default`; more
   * than three fields, or one that is neither empty nor digits, is a
   * ValueError.
   */
  function FieldValues(fields: seq<string>, default: nat): (r: Result<seq<nat>>)
    ensures r.Err? <==> |fields| > 3 || exists k :: 0 <= k < |fields| && !FieldOk(fields[k])
    ensures r.Err? ==> r.error == ValueError
    ensures r.Ok? ==> (|r.value| == 3
      && forall k :: 0 <= k < 3 ==> r.value[k] == if k < |fields| && fields[k] != "" then DigitsValue(fields[k]) else default)
  {
    if |fields| > 3 || exists k :: 0 <= k < |fields| && !FieldOk(fields[k]) then Err(ValueError)
    else Ok(seq(3, k requires 0 <= k < 3 => if k < |fields| then FieldValue(fields[k], default) else default))
  }

  // ---------------------------------------------------------------------
  // datetime()
  // ---------------------------------------------------------------------

  predicate IsLeapYear(y: int)
  {
    y % 4 == 0 && (y % 100 != 0 || y % 400 == 0)
  }

  function DaysInMonth(y: int, m: int): int
    requires 1 <= m <= 12
  {
    if m == 2 then (if IsLeapYear(y) then 29 else 28)
    else if m == 4 || m == 6 || m == 9 || m == 11 then 30
    else 31
  }

  /** The ranges Python's `datetime` constructor accepts. */
  predicate ValidDateTime(d: DateTime)
  {
    1 <= d.year <= 9999 && 1 <= d.month <= 12 && 1 <= d.day <= DaysInMonth(d.year, d.month)
    && 0 <= d.hour <= 23 && 0 <= d.minute <= 59 && 0 <= d.second <= 59
  }

  /** `datetime(*values)`: ValueError outside the accepted ranges. */
  function MakeDateTime(date: seq<nat>, time: seq<nat>): (r: Result<DateTime>)
    requires |date| == 3 && |time| == 3
    ensures r.Ok? ==> ValidDateTime(r.value)
    ensures r.Ok? ==> r.value == DateTime(date[0], date[1], date[2], time[0], time[1], time[2])
    ensures r.Err? <==> !ValidDateTime(DateTime(date[0], date[1], date[2], time[0], time[1], time[2]))
  {
    var d := DateTime(date[0], date[1], date[2], time[0], time[1], time[2]);
    if ValidDateTime(d) then Ok(d) else Err(ValueError)
  }

  // ---------------------------------------------------------------------
  // parse_datetime_str
  // ---------------------------------------------------------------------

  /**
   * `parse_datetime_str`: year-month-day with the month and day defaulting
   * to 1, then hour:minute:second defaulting to 0, a zone offset or
   * trailing letters ignored; every malformed input is a ValueError.
   */
  function ParseDateTime(s: string): (r: Result<DateTime>)
    ensures r.Ok? ==> ValidDateTime(r.value)
    ensures r.Err? ==> r.error == ValueError
    ensures |Split(DateAndTime(s).0, '-')| > 3 ==> r.Err?
    ensures (exists k :: 0 <= k < |Split(DateAndTime(s).0, '-')| && !FieldOk(Split(DateAndTime(s).0, '-')[k])) ==> r.Err?
    ensures DateAndTime(s).1 != "" && !HasDigit(DateAndTime(s).1) ==> r.Err?
  {
    ParseHalves(DateAndTime(s).0, DateAndTime(s).1)
  }

  /** The parse of the date half and the time half. */
  function ParseHalves(date: string, time: string): (r: Result<DateTime>)
    ensures r.Ok? ==> ValidDateTime(r.value)
    ensures r.Err? ==> r.error == ValueError
    ensures |Split(date, '-')| > 3 ==> r.Err?
    ensures (exists k :: 0 <= k < |Split(date, '-')| && !FieldOk(Split(date, '-')[k])) ==> r.Err?
    ensures time != "" && !HasDigit(time) ==> r.Err?
  {
    match FieldValues(Split(date, '-'), 1)
    case Err(e) => Err(e)
    case Ok(ymd) =>
      if time != "" && !HasDigit(time) then Err(ValueError)
      else
        match FieldValues(Split(TimeDigits(time), ':'), 0)
        case Err(e) => Err(e)
        case Ok(hms) => MakeDateTime(ymd, hms)
  }

  // ---------------------------------------------------------------------
  // What the parser accepts
  // ---------------------------------------------------------------------

  /** A date written as year-month-day in plain decimal. */
  function DateText(d: DateTime): string
    requires ValidDateTime(d)
  {
    NatStr(d.year) + "-" + NatStr(d.month) + "-" + NatStr(d.day)
  }

  /** A time written as hour:minute:second in plain decimal. */
  function TimeText(d: DateTime): string
    requires ValidDateTime(d)
  {
    NatStr(d.hour) + ":" + NatStr(d.minute) + ":" + NatStr(d.second)
  }

  /** Three pieces without `sep`, joined by it, split back into the pieces. */
  lemma ThreeFields(x: string, y: string, z: string, sep: char)
    requires sep !in x && sep !in y && sep !in z
    ensures Split(x + [sep] + y + [sep] + z, sep) == [x, y, z]
  {
    var parts := [x, y, z];
    assert Join([z], sep) == z;
    assert [x, y, z][1..] == [y, z] && [y, z][1..] == [z];
    assert Join([y, z], sep) == y + [sep] + z;
    assert Join(parts, sep) == x + [sep] + y + [sep] + z;
    JoinSplit(parts, sep);
  }

  lemma NoSepInDigits(s: string, sep: char)
    requires IsDigits(s) && !IsDigit(sep)
    ensures sep !in s
  {
    forall i | 0 <= i < |s|
      ensures s[i] != sep
    {
      assert IsDigit(s[i]);
    }
  }

  /** The fields of a written date or time read back as the numbers written. */
  lemma ThreeValues(a: nat, b: nat, c: nat, sep: char, default: nat)
    requires !IsDigit(sep)
    ensures FieldValues(Split(NatStr(a) + [sep] + NatStr(b) + [sep] + NatStr(c), sep), default) == Ok([a, b, c])
  {
    var x, y, z := NatStr(a), NatStr(b), NatStr(c);
    NoSepInDigits(x, sep);
    NoSepInDigits(y, sep);
    NoSepInDigits(z, sep);
    ThreeFields(x, y, z, sep);
    NatStrRoundTrip(a);
    NatStrRoundTrip(b);
    NatStrRoundTrip(c);
    DigitFieldValues([x, y, z], default);
  }

  lemma DigitFieldValues(fields: seq<string>, default: nat)
    requires |fields| == 3 && IsDigits(fields[0]) && IsDigits(fields[1]) && IsDigits(fields[2])
    ensures FieldValues(fields, default) == Ok([DigitsValue(fields[0]), DigitsValue(fields[1]), DigitsValue(fields[2])])
  {
    assert forall k :: 0 <= k < 3 ==> FieldOk(fields[k]) && fields[k] != "";
    var r := FieldValues(fields, default);
    assert r.value[0] == DigitsValue(fields[0]);
    assert r.value[1] == DigitsValue(fields[1]);
    assert r.value[2] == DigitsValue(fields[2]);
    assert r.value == [DigitsValue(fields[0]), DigitsValue(fields[1]), DigitsValue(fields[2])];
  }

  lemma TwoFieldValues(fields: seq<string>, default: nat)
    requires |fields| == 2 && IsDigits(fields[0]) && IsDigits(fields[1])
    ensures FieldValues(fields, default) == Ok([DigitsValue(fields[0]), DigitsValue(fields[1]), default])
  {
    assert forall k :: 0 <= k < 2 ==> FieldOk(fields[k]) && fields[k] != "";
    var r := FieldValues(fields, default);
    assert r.value[0] == DigitsValue(fields[0]);
    assert r.value[1] == DigitsValue(fields[1]);
    assert r.value[2] == default;
    assert r.value == [DigitsValue(fields[0]), DigitsValue(fields[1]), default];
  }

  /** A string with no 'T' before the first 'T' splits there. */
  lemma SplitAtT(date: string, time: string)
    requires 'T' !in date
    ensures DateAndTime(date + "T" + time) == (date, time)
  {
    var s := date + "T" + time;
    IndexOfAfterPrefix(date, 'T', time);
    assert s == date + ['T'] + time;
    assert s[..|date|] == date && s[|date| + 1..] == time;
  }

  /** Writing a valid date and time out and parsing it again gives it back. */
  lemma ParseWritten(d: DateTime)
    requires ValidDateTime(d)
    ensures ParseDateTime(DateText(d) + "T" + TimeText(d)) == Ok(d)
  {
    var date := DateText(d);
    var time := TimeText(d);
    NoSepInDigits(NatStr(d.year), 'T');
    NoSepInDigits(NatStr(d.month), 'T');
    NoSepInDigits(NatStr(d.day), 'T');
    assert 'T' !in date;
    SplitAtT(date, time);
    ThreeValues(d.year, d.month, d.day, '-', 1);
    TimeDigitsOfWritten(d);
    ThreeValues(d.hour, d.minute, d.second, ':', 0);
    assert time[0] == NatStr(d.hour)[0];
    assert HasDigit(time);
  }

  lemma TimeDigitsOfWritten(d: DateTime)
    requires ValidDateTime(d)
    ensures TimeDigits(TimeText(d)) == TimeText(d)
  {
    var time := TimeText(d);
    NoSepInDigits(NatStr(d.hour), '+');
    NoSepInDigits(NatStr(d.minute), '+');
    NoSepInDigits(NatStr(d.second), '+');
    NoSepInDigits(NatStr(d.hour), '-');
    NoSepInDigits(NatStr(d.minute), '-');
    NoSepInDigits(NatStr(d.second), '-');
    assert '+' !in time && '-' !in time;
    var sec := NatStr(d.second);
    assert time[|time| - 1] == sec[|sec| - 1];
  }

  /** A year alone is the first of January of that year, at midnight. */
  lemma ParseYear(y: nat)
    requires 1 <= y <= 9999
    ensures ParseDateTime(NatStr(y)) == Ok(DateTime(y, 1, 1, 0, 0, 0))
  {
    var s := NatStr(y);
    NoSepInDigits(s, 'T');
    NoSepInDigits(s, ' ');
    NoSepInDigits(s, '-');
    NatStrRoundTrip(y);
    assert Split(s, '-') == [s];
    assert Split("", ':') == [""];
  }

  /** A year and a month are the first of that month, at midnight. */
  lemma ParseYearMonth(y: nat, m: nat)
    requires 1 <= y <= 9999 && 1 <= m <= 12
    ensures ParseDateTime(NatStr(y) + "-" + NatStr(m)) == Ok(DateTime(y, m, 1, 0, 0, 0))
  {
    var a, b := NatStr(y), NatStr(m);
    var s := a + "-" + b;
    assert DateAndTime(s) == (s, "") by {
      NoSepInDigits(a, 'T');
      NoSepInDigits(b, 'T');
      NoSepInDigits(a, ' ');
      NoSepInDigits(b, ' ');
      assert 'T' !in s && ' ' !in s;
    }
    assert Split(s, '-') == [a, b] by {
      NoSepInDigits(a, '-');
      NoSepInDigits(b, '-');
      JoinSplit([a, b], '-');
      assert Join([a, b], '-') == s;
    }
    assert FieldValues([a, b], 1) == Ok([y, m, 1]) by {
      NatStrRoundTrip(y);
      NatStrRoundTrip(m);
      TwoFieldValues([a, b], 1);
    }
    NoTimeFields();
  }

  /** An empty time half reads as midnight. */
  lemma NoTimeFields()
    ensures FieldValues(Split(TimeDigits(""), ':'), 0) == Ok([0, 0, 0])
  {
    assert CutAt(CutAt("", '+'), '-') == "";
    assert TimeDigits("") == "";
    assert Split("", ':') == [""];
    var r := FieldValues([""], 0);
    assert r.value[0] == 0 && r.value[1] == 0 && r.value[2] == 0;
    assert r.value == [0, 0, 0];
  }

  /**
   * A zone offset after '+' or '-', or trailing letters such as 'Z', do
   * not change what a time with digits parses to.
   */
  lemma ZoneIgnored(date: string, time: string, zone: string)
    requires 'T' !in date && HasDigit(time) && '+' !in time && '-' !in time
    requires (|zone| > 0 && (zone[0] == '+' || zone[0] == '-')) || !HasDigit(zone)
    requires !HasDigit(zone) ==> '+' !in zone && '-' !in zone && IsDigit(time[|time| - 1])
    ensures ParseDateTime(date + "T" + time + zone) == ParseDateTime(date + "T" + time)
  {
    var s1 := date + "T" + time + zone;
    var s2 := date + "T" + time;
    assert DateAndTime(s1) == (date, time + zone) by {
      SplitAtT(date, time + zone);
      assert s1 == date + "T" + (time + zone);
    }
    assert DateAndTime(s2) == (date, time) by {
      SplitAtT(date, time);
    }
    assert HasDigit(time + zone) by {
      var i :| 0 <= i < |time| && IsDigit(time[i]);
      assert (time + zone)[i] == time[i];
    }
    assert TimeDigits(time + zone) == TimeDigits(time) by {
      TimeDigitsWithZone(time, zone);
    }
    SameDigitsSameParse(date, time + zone, time);
  }

  /** The parse depends only on the digits of a time half that has any. */
  lemma SameDigitsSameParse(date: string, t1: string, t2: string)
    requires HasDigit(t1) && HasDigit(t2) && TimeDigits(t1) == TimeDigits(t2)
    ensures ParseHalves(date, t1) == ParseHalves(date, t2)
  {
  }

  lemma TimeDigitsWithZone(time: string, zone: string)
    requires '+' !in time && '-' !in time
    requires (|zone| > 0 && (zone[0] == '+' || zone[0] == '-')) || !HasDigit(zone)
    requires !HasDigit(zone) ==> '+' !in zone && '-' !in zone && |time| > 0 && IsDigit(time[|time| - 1])
    ensures TimeDigits(time + zone) == TimeDigits(time)
  {
    assert CutAt(CutAt(time, '+'), '-') == time;
    if |zone| > 0 && (zone[0] == '+' || zone[0] == '-') {
      var z := zone[1..];
      assert time + zone == time + [zone[0]] + z;
      if zone[0] == '+' {
        CutAtAfterPrefix(time, '+', z);
        assert CutAt(time, '-') == time;
      } else {
        CutAtSkipsPrefix(time + ['-'], '+', z);
        assert time + ['-'] + z == (time + ['-']) + z;
        CutAtAfterPrefix(time, '-', CutAt(z, '+'));
      }
    } else {
      assert '+' !in time + zone && '-' !in time + zone;
      TrimNonDigitsLetters(time, zone);
    }
  }

  /** Cutting at `c` ends the text before the first `c`. */
  lemma CutAtAfterPrefix(a: string, c: char, b: string)
    requires c !in a
    ensures CutAt(a + [c] + b, c) == a
  {
    IndexOfAfterPrefix(a, c, b);
    assert (a + [c] + b)[..|a|] == a;
  }

  /** A prefix without `c` is kept whole by cutting at `c`. */
  lemma CutAtSkipsPrefix(pre: string, c: char, z: string)
    requires c !in pre
    ensures CutAt(pre + z, c) == pre + CutAt(z, c)
  {
    if c in z {
      var j := IndexOf(z, c);
      var front := pre + z[..j];
      assert c !in front;
      assert pre + z == front + [c] + z[j + 1..];
      CutAtAfterPrefix(front, c, z[j + 1..]);
    } else {
      assert c !in pre + z;
    }
  }

  lemma {:induction false} TrimNonDigitsLetters(time: string, zone: string)
    requires |time| > 0 && IsDigit(time[|time| - 1]) && !HasDigit(zone)
    ensures TrimNonDigits(time + zone) == time
    decreases |zone|
  {
    if |zone| == 0 {
      assert time + zone == time;
    } else {
      var t := time + zone;
      assert !IsDigit(zone[|zone| - 1]);
      assert t[..|t| - 1] == time + zone[..|zone| - 1];
      var shorter := zone[..|zone| - 1];
      forall i | 0 <= i < |shorter|
        ensures !IsDigit(shorter[i])
      {
        assert shorter[i] == zone[i];
      }
      TrimNonDigitsLetters(time, zone[..|zone| - 1]);
    }
  }

  /** More than three dash-separated date fields is malformed. */
  lemma TooManyDateFields(s: string)
    requires 'T' !in s && ' ' !in s && |Split(s, '-')| > 3
    ensures ParseDateTime(s) == Err(ValueError)
  {
  }

  // ---------------------------------------------------------------------
  // find_coverart_file
  // ---------------------------------------------------------------------

  /** The directory holding `path` (`Path.parent` of a file path). */
  function Parent(path: string): (r: string)
    ensures '/' !in path ==> r == "."
  {
    if '/' !in path then "."
    else
      var name := AfterLast(path, '/');
      var k := |path| - |name| - 1;
      if k == 0 then "/" else path[..k]
  }

  /** `directory / leaf`. */
  function JoinPath(directory: string, leaf: string): string
  {
    if directory == "." then leaf
    else if |directory| > 0 && directory[|directory| - 1] == '/' then directory + leaf
    else directory + "/" + leaf
  }

  /**
   * `find_coverart_file`: cover.jpg beside the music file if it is a file,
   * else cover.png, else nothing.
   */
  function FindCoverartFile(musicPath: string, isFile: string -> bool): (r: Option<string>)
    ensures var jpg := JoinPath(Parent(musicPath), "cover.jpg");
      var png := JoinPath(Parent(musicPath), "cover.png");
      (isFile(jpg) ==> r == Some(jpg))
      && (!isFile(jpg) && isFile(png) ==> r == Some(png))
      && (!isFile(jpg) && !isFile(png) ==> r.None?)
    ensures r.Some? ==> isFile(r.value)
  {
    var directory := Parent(musicPath);
    if isFile(JoinPath(directory, "cover.jpg")) then Some(JoinPath(directory, "cover.jpg"))
    else if isFile(JoinPath(directory, "cover.png")) then Some(JoinPath(directory, "cover.png"))
    else None
  }

  // ---------------------------------------------------------------------
  // Tag lookup
  // ---------------------------------------------------------------------

  /** Key `key` holds a value Python treats as true. */
  predicate TruthyAt<V>(tags: map<string, V>, truthy: V -> bool, key: string)
  {
    key in tags && truthy(tags[key])
  }

  /**
   * The `get_tag_value` loop of both scanners: the value of the first key,
   * in list order, whose value is truthy.
   */
  function FirstTruthy<V(==)>(tags: map<string, V>, keys: seq<string>, truthy: V -> bool): (r: Option<V>)
    ensures r.None? <==> forall i :: 0 <= i < |keys| ==> !TruthyAt(tags, truthy, keys[i])
    ensures r.Some? ==> exists i :: (0 <= i < |keys| && TruthyAt(tags, truthy, keys[i]) && r.value == tags[keys[i]]
      && forall j :: 0 <= j < i ==> !TruthyAt(tags, truthy, keys[j]))
  {
    if |keys| == 0 then None
    else if TruthyAt(tags, truthy, keys[0]) then
      Some(tags[keys[0]])
    else
      var r := FirstTruthy(tags, keys[1..], truthy);
      assert forall i :: 1 <= i < |keys| ==> keys[i] == keys[1..][i - 1];
      if r.Some? then
        var i :| (0 <= i < |keys[1..]| && TruthyAt(tags, truthy, keys[1..][i]) && r.value == tags[keys[1..][i]]
          && forall j :: 0 <= j < i ==> !TruthyAt(tags, truthy, keys[1..][j]));
        assert TruthyAt(tags, truthy, keys[i + 1]) && forall j :: 0 <= j < i + 1 ==> !TruthyAt(tags, truthy, keys[j]);
        r
      else r
  }

  /** With two keys the first truthy one wins. */
  lemma FirstOfTwo<V>(tags: map<string, V>, a: string, b: string, truthy: V -> bool)
    ensures TruthyAt(tags, truthy, a) ==> FirstTruthy(tags, [a, b], truthy) == Some(tags[a])
    ensures !TruthyAt(tags, truthy, a) && TruthyAt(tags, truthy, b) ==> FirstTruthy(tags, [a, b], truthy) == Some(tags[b])
    ensures !TruthyAt(tags, truthy, a) && !TruthyAt(tags, truthy, b) ==> FirstTruthy(tags, [a, b], truthy) == None
  {
    assert [a, b][1..] == [b];
  }
}

=== FILE: schema.dfy ===
/**
 * The music catalog: the rows of the Tracks, Albums, Genres, Artwork,
 * Playlists and RadioStations tables, the relations the ORM derives from
 * their foreign keys, and the deletion rules those relations imply.
 */
module Schema {
  import opened Common
  import opened Table

  type Bytes = seq<bv8>

  /** A Python `datetime` (no sub-second part, no time zone). */
  datatype DateTime = DateTime(year: int, month: int, day: int, hour: int, minute: int, second: int)

  /**
   * The Track.Genre column. Stored rows hold a Genre id; a reference built
   * by a scanner may carry the genre's name instead, which
   * ensure_track_exists resolves.
   */
  datatype GenreRef = NoGenre | GenreName(name: string) | GenreId(id: nat)

  datatype Track = Track(
    filepath: Option<string>,
    title: Option<string>,
    duration: Option<int>,
    composer: Option<string>,
    artist: Option<string>,
    genre: GenreRef,
    volumeNumber: Option<int>,
    trackCount: Option<int>,
    trackNumber: Option<int>,
    releaseDate: Option<DateTime>,
    musicBrainzTrackId: Option<string>,
    musicBrainzArtistId: Option<string>,
    album: Option<nat>,
    artwork: Option<nat>)

  /** A track that has not been stored yet (`id` None) or that edits row `id`. */
  datatype TrackRef = TrackRef(id: Option<nat>, row: Track)

  /** `genres` is the album's side of the album-genre association table. */
  datatype Album = Album(
    artist: Option<string>,
    title: Option<string>,
    volumeCount: Option<int>,
    musicBrainzAlbumId: Option<string>,
    musicBrainzAlbumArtistId: Option<string>,
    releaseYear: Option<int>,
    isCompilation: Option<bool>,
    genres: seq<nat>)

  datatype Genre = Genre(name: string)

  /** Either `path` or `blob` is populated. */
  datatype Artwork = Artwork(
    path: Option<string>,
    blob: Option<Bytes>,
    blobHash: Option<string>,
    width: Option<int>,
    height: Option<int>)

  datatype PlaylistEntry = PlaylistEntry(trackId: Option<nat>, index: int)

  datatype Playlist = Playlist(title: Option<string>, entries: seq<PlaylistEntry>, genres: seq<nat>)

  datatype RadioStation = RadioStation(
    name: Option<string>,
    url: Option<string>,
    artworkUrl: Option<string>,
    nowPlayingUrl: Option<string>,
    nowPlayingJq: Option<string>,
    nowPlayingArtworkUrl: Option<string>,
    nowPlayingArtworkJq: Option<string>,
    sortOrder: Option<int>)

  datatype Catalog = Catalog(
    tracks: Table<Track>,
    albums: Table<Album>,
    genres: Table<Genre>,
    artworks: Table<Artwork>,
    playlists: Table<Playlist>,
    stations: Table<RadioStation>)

  function EmptyCatalog(): (c: Catalog)
    ensures c.tracks.rows == map[] && c.albums.rows == map[] && c.genres.rows == map[]
    ensures c.artworks.rows == map[] && c.playlists.rows == map[] && c.stations.rows == map[]
  {
    Catalog(Empty(), Empty(), Empty(), Empty(), Empty(), Empty())
  }

  // ---------------------------------------------------------------------
  // Relations derived from foreign keys
  // ---------------------------------------------------------------------

  /** Album.Tracks: the tracks whose Album column holds the album's id, in rowid order (the relationship has no order_by; see README). */
  function AlbumTracks(c: Catalog, albumId: nat): (r: seq<nat>)
    ensures forall t :: t in r <==> t in c.tracks.rows && c.tracks.rows[t].album == Some(albumId)
    ensures r == [] <==> forall t :: t in c.tracks.rows ==> c.tracks.rows[t].album != Some(albumId)
    ensures Increasing(r)
  {
    Select(c.tracks, (id, t: Track) => t.album == Some(albumId))
  }

  /** Artwork.Tracks: the tracks whose Artwork column holds the artwork's id. */
  function ArtworkTracks(c: Catalog, artworkId: nat): (r: seq<nat>)
    ensures forall t :: t in r <==> t in c.tracks.rows && c.tracks.rows[t].artwork == Some(artworkId)
    ensures r == [] <==> forall t :: t in c.tracks.rows ==> c.tracks.rows[t].artwork != Some(artworkId)
  {
    Select(c.tracks, (id, t: Track) => t.artwork == Some(artworkId))
  }

  /** Genre.Albums: the other side of the album-genre association. */
  function GenreAlbums(c: Catalog, genreId: nat): (r: seq<nat>)
    ensures forall a :: a in r <==> a in c.albums.rows && genreId in c.albums.rows[a].genres
  {
    Select(c.albums, (id, a: Album) => genreId in a.genres)
  }

  /** Genre.Playlists: the other side of the playlist-genre association. */
  function GenrePlaylists(c: Catalog, genreId: nat): (r: seq<nat>)
    ensures forall p :: p in r <==> p in c.playlists.rows && genreId in c.playlists.rows[p].genres
  {
    Select(c.playlists, (id, p: Playlist) => genreId in p.genres)
  }

  /** The association is one relation seen from two sides. */
  lemma AlbumGenreSymmetric(c: Catalog, albumId: nat, genreId: nat)
    requires albumId in c.albums.rows
    ensures genreId in c.albums.rows[albumId].genres <==> albumId in GenreAlbums(c, genreId)
  {
  }

  lemma PlaylistGenreSymmetric(c: Catalog, playlistId: nat, genreId: nat)
    requires playlistId in c.playlists.rows
    ensures genreId in c.playlists.rows[playlistId].genres <==> playlistId in GenrePlaylists(c, genreId)
  {
  }

  /** A track belongs to at most one album: the Album.Tracks lists are disjoint. */
  lemma AlbumTracksDisjoint(c: Catalog, a1: nat, a2: nat, t: nat)
    requires a1 != a2
    ensures !(t in AlbumTracks(c, a1) && t in AlbumTracks(c, a2))
  {
  }

  // ---------------------------------------------------------------------
  // Playlist.Entries, ordered by PlaylistIndex
  // ---------------------------------------------------------------------

  /** Each entry's PlaylistIndex is at most the next one's. */
  predicate SortedByIndex(es: seq<PlaylistEntry>)
  {
    forall i :: 0 <= i < |es| - 1 ==> es[i].index <= es[i + 1].index
  }

  /** Inserts `e` after every entry whose index is not larger. */
  function InsertByIndex(sorted: seq<PlaylistEntry>, e: PlaylistEntry): (r: seq<PlaylistEntry>)
    requires SortedByIndex(sorted)
    ensures SortedByIndex(r)
    ensures multiset(r) == multiset(sorted) + multiset{e}
    ensures |r| == |sorted| + 1
    ensures r[0] == e || (|sorted| > 0 && r[0] == sorted[0])
    decreases |sorted|
  {
    if |sorted| == 0 then [e]
    else if e.index < sorted[0].index then [e] + sorted
    else
      var tail := sorted[1..];
      var rest := InsertByIndex(tail, e);
      assert sorted == [sorted[0]] + tail;
      [sorted[0]] + rest
  }

  /** Playlist.Entries as the relationship loads them: ordered by PlaylistIndex. */
  function OrderedEntries(es: seq<PlaylistEntry>): (r: seq<PlaylistEntry>)
    ensures SortedByIndex(r)
    ensures multiset(r) == multiset(es)
  {
    if |es| == 0 then []
    else
      assert es == es[..|es| - 1] + [es[|es| - 1]];
      InsertByIndex(OrderedEntries(es[..|es| - 1]), es[|es| - 1])
  }

  // ---------------------------------------------------------------------
  // Deletion as the ORM performs it
  // ---------------------------------------------------------------------

  /**
   * Deleting a track; afterwards its artwork is deleted as well when no
   * remaining track refers to it (the before_delete listener).
   */
  function DeleteTrackRow(c: Catalog, id: nat): (r: Catalog)
    ensures r.tracks.rows == c.tracks.rows - {id}
    ensures r.albums == c.albums && r.genres == c.genres && r.playlists == c.playlists && r.stations == c.stations
    ensures forall a :: a in r.artworks.rows <==>
      a in c.artworks.rows
      && !(id in c.tracks.rows && c.tracks.rows[id].artwork == Some(a) && ArtworkTracks(r, a) == [])
    ensures forall a :: a in r.artworks.rows ==> r.artworks.rows[a] == c.artworks.rows[a]
  {
    var c1 := c.(tracks := Remove(c.tracks, id));
    if id in c.tracks.rows && c.tracks.rows[id].artwork.Some? then
      var a := c.tracks.rows[id].artwork.value;
      if ArtworkTracks(c1, a) == [] then c1.(artworks := Remove(c.artworks, a)) else c1
    else c1
  }

  /**
   * Deleting an album: the one-to-many Album.Tracks has no delete cascade,
   * so the ORM sets the Album column of its tracks to NULL; the album's
   * association rows go with it.
   */
  function DeleteAlbumRow(c: Catalog, id: nat): (r: Catalog)
    ensures r.albums.rows == c.albums.rows - {id}
    ensures r.tracks.rows.Keys == c.tracks.rows.Keys
    ensures forall t :: t in c.tracks.rows ==>
      r.tracks.rows[t] == if c.tracks.rows[t].album == Some(id) then c.tracks.rows[t].(album := None) else c.tracks.rows[t]
    ensures r.genres == c.genres && r.artworks == c.artworks && r.playlists == c.playlists && r.stations == c.stations
  {
    var rows := map t | t in c.tracks.rows ::
      if c.tracks.rows[t].album == Some(id) then c.tracks.rows[t].(album := None) else c.tracks.rows[t];
    c.(albums := Remove(c.albums, id), tracks := RawTable(rows, c.tracks.bound))
  }

  /**
   * Deleting an artwork: Artwork.Tracks cascades "all, delete", so every
   * track showing the artwork is deleted with it.
   */
  function DeleteArtworkRow(c: Catalog, id: nat): (r: Catalog)
    ensures r.artworks.rows == c.artworks.rows - {id}
    ensures forall t :: t in r.tracks.rows <==> t in c.tracks.rows && c.tracks.rows[t].artwork != Some(id)
    ensures forall t :: t in r.tracks.rows ==> r.tracks.rows[t] == c.tracks.rows[t]
    ensures r.albums == c.albums && r.genres == c.genres && r.playlists == c.playlists && r.stations == c.stations
  {
    var rows := map t | t in c.tracks.rows && c.tracks.rows[t].artwork != Some(id) :: c.tracks.rows[t];
    c.(artworks := Remove(c.artworks, id), tracks := RawTable(rows, c.tracks.bound))
  }

  function Without(xs: seq<nat>, x: nat): (r: seq<nat>)
    ensures forall y :: y in r <==> y in xs && y != x
    ensures |r| <= |xs|
  {
    if |xs| == 0 then []
    else (if xs[0] == x then [] else [xs[0]]) + Without(xs[1..], x)
  }

  /**
   * Deleting a genre removes its association rows. Track.Genre has no
   * relationship behind it, so tracks keep the (now dangling) id.
   */
  function DeleteGenreRow(c: Catalog, id: nat): (r: Catalog)
    ensures r.genres.rows == c.genres.rows - {id}
    ensures r.albums.rows.Keys == c.albums.rows.Keys && r.playlists.rows.Keys == c.playlists.rows.Keys
    ensures forall a :: a in r.albums.rows ==> r.albums.rows[a] == c.albums.rows[a].(genres := Without(c.albums.rows[a].genres, id))
    ensures forall p :: p in r.playlists.rows ==> r.playlists.rows[p] == c.playlists.rows[p].(genres := Without(c.playlists.rows[p].genres, id))
    ensures r.tracks == c.tracks && r.artworks == c.artworks && r.stations == c.stations
  {
    var albums := map a | a in c.albums.rows :: c.albums.rows[a].(genres := Without(c.albums.rows[a].genres, id));
    var playlists := map p | p in c.playlists.rows :: c.playlists.rows[p].(genres := Without(c.playlists.rows[p].genres, id));
    c.(genres := Remove(c.genres, id),
       albums := RawTable(albums, c.albums.bound),
       playlists := RawTable(playlists, c.playlists.bound))
  }

  /** The artwork clean-up, as in the schema test: one artwork, one track, delete the track. */
  lemma DeleteOnlyTrackDeletesArtwork(c: Catalog, trackId: nat, artworkId: nat)
    requires c.tracks.rows.Keys == {trackId}
    requires c.tracks.rows[trackId].artwork == Some(artworkId)
    requires c.artworks.rows.Keys == {artworkId}
    ensures DeleteTrackRow(c, trackId).artworks.rows == map[]
    ensures DeleteTrackRow(c, trackId).tracks.rows == map[]
  {
    var r := DeleteTrackRow(c, trackId);
    assert r.tracks.rows.Keys == {};
    assert r.artworks.rows.Keys == {};
  }

  // ---------------------------------------------------------------------
  // Catalog integrity
  // ---------------------------------------------------------------------

  predicate UniqueAlbumKeys(c: Catalog)
  {
    DistinctAlbumKeys(c.albums.rows)
  }

  /** No two albums share (title, artist). */
  predicate DistinctAlbumKeys(rows: map<nat, Album>)
  {
    forall i, j :: i in rows && j in rows && i != j ==> (rows[i].title, rows[i].artist) != (rows[j].title, rows[j].artist)
  }

  predicate UniqueGenreNames(c: Catalog)
  {
    forall i, j :: i in c.genres.rows && j in c.genres.rows && i != j ==> c.genres.rows[i].name != c.genres.rows[j].name
  }

  predicate UniqueArtworkPaths(c: Catalog)
  {
    DistinctArtworkPaths(c.artworks.rows)
  }

  /** No two artworks share a non-empty path. */
  predicate DistinctArtworkPaths(rows: map<nat, Artwork>)
  {
    forall i, j :: i in rows && j in rows && i != j && NonEmpty(rows[i].path) ==> rows[i].path != rows[j].path
  }

  predicate HasImage(a: Artwork)
  {
    NonEmpty(a.path) || (a.blob.Some? && a.blob.value != [])
  }

  /** Every artwork row carries a path or an image. */
  predicate ArtworkHasImage(c: Catalog)
  {
    AllHaveImages(c.artworks.rows)
  }

  predicate AllHaveImages(rows: map<nat, Artwork>)
  {
    forall a :: a in rows ==> HasImage(rows[a])
  }

  /** Stored tracks refer to genres by id only. */
  predicate StoredGenresAreIds(c: Catalog)
  {
    forall t :: t in c.tracks.rows ==> !c.tracks.rows[t].genre.GenreName?
  }

  /** Paths compared the way SQLite's lower() compares them. */
  predicate SamePath(a: Option<string>, b: string)
  {
    a.Some? && Lower(a.value) == Lower(b)
  }

  /** No two tracks share a file path up to ASCII case. */
  predicate UniqueTrackPaths(c: Catalog)
  {
    forall i, j :: i in c.tracks.rows && j in c.tracks.rows && i != j && c.tracks.rows[i].filepath.Some? ==>
      !SamePath(c.tracks.rows[j].filepath, c.tracks.rows[i].filepath.value)
  }

  /** The key ensure_album_exists looks albums up by. */
  function AlbumKey(a: Album): (Option<string>, Option<string>)
  {
    (a.title, a.artist)
  }
}

=== FILE: search.dfy ===
/**
 * Track search (`search_for_tracks`): the SQL filter that selects the
 * candidates, the per-word score, and the stable sort that puts the best
 * matches first.
 */
module TrackSearch {
  import opened Common
  import opened Table
  import opened Schema

  // ---------------------------------------------------------------------
  // Candidate selection
  // ---------------------------------------------------------------------

  /**
   * SQL `LIKE` with no ESCAPE clause: '%' matches any run of characters,
   * '_' matches any one character, and every other character itself.
   */
  predicate LikeMatch(pattern: string, text: string)
    decreases |pattern| + |text|
  {
    if |pattern| == 0 then |text| == 0
    else if pattern[0] == '%' then LikeMatch(pattern[1..], text) || (|text| > 0 && LikeMatch(pattern, text[1..]))
    else |text| > 0 && (pattern[0] == '_' || pattern[0] == text[0]) && LikeMatch(pattern[1..], text[1..])
  }

  /**
   * `column.ilike('%' + word + '%')`, which SQLite runs as
   * `lower(column) LIKE lower(pattern)`: NULL never matches, and a '%' or
   * '_' inside the word is a wildcard too.
   */
  predicate ILike(column: Option<string>, word: string)
  {
    column.Some? && LikeMatch("%" + Lower(word) + "%", Lower(column.value))
  }

  /** A word without wildcard characters. */
  predicate Literal(w: string)
  {
    forall i :: 0 <= i < |w| ==> w[i] != '%' && w[i] != '_'
  }

  /** '%' alone matches every text. */
  lemma {:induction false} LikeAnything(t: string)
    ensures LikeMatch("%", t)
    decreases |t|
  {
    assert "%"[1..] == "";
    if |t| > 0 {
      LikeAnything(t[1..]);
    }
  }

  /** A literal followed by '%' matches exactly the texts that start with it. */
  lemma {:induction false} LikePrefix(w: string, t: string)
    requires Literal(w)
    ensures LikeMatch(w + "%", t) <==> |w| <= |t| && t[..|w|] == w
    decreases |w|
  {
    var p := w + "%";
    if |w| == 0 {
      assert p == "%";
      LikeAnything(t);
    } else {
      assert p[0] == w[0] && p[1..] == w[1..] + "%";
      assert w == [w[0]] + w[1..];
      if |t| > 0 {
        LikePrefix(w[1..], t[1..]);
        if |w| <= |t| {
          assert t[..|w|] == [t[0]] + t[1..][..|w| - 1];
        }
      }
    }
  }

  /** An occurrence is at the front or in the rest. */
  lemma ContainsStep(t: string, w: string)
    requires |t| > 0
    ensures Contains(t, w) <==> OccursAt(t, w, 0) || Contains(t[1..], w)
  {
    if Contains(t, w) {
      var i :| 0 <= i <= |t| && OccursAt(t, w, i);
      if i > 0 {
        assert t[1..][i - 1..i - 1 + |w|] == t[i..i + |w|];
        assert OccursAt(t[1..], w, i - 1);
      }
    }
    if Contains(t[1..], w) {
      ContainsInSuffix(t, 1, w);
    }
    if OccursAt(t, w, 0) {
      assert 0 <= 0 <= |t| && OccursAt(t, w, 0);
    }
  }

  /** For a word without wildcards, `'%' + word + '%'` is a substring test. */
  lemma {:induction false} LikeContains(w: string, t: string)
    requires Literal(w)
    ensures LikeMatch("%" + w + "%", t) <==> Contains(t, w)
    decreases |t|
  {
    var p := "%" + w + "%";
    assert p[0] == '%' && p[1..] == w + "%";
    LikePrefix(w, t);
    if |t| > 0 {
      LikeContains(w, t[1..]);
      ContainsStep(t, w);
    } else if |w| == 0 {
      assert OccursAt(t, w, 0);
    }
  }

  /** A search word without '%' or '_' matches a column exactly when it occurs in it, ignoring case. */
  lemma ILikeLiteral(column: Option<string>, word: string)
    requires Literal(word)
    ensures ILike(column, word) <==> column.Some? && Contains(Lower(column.value), Lower(word))
  {
    var w := Lower(word);
    assert Literal(w) by {
      forall i | 0 <= i < |w| ensures w[i] != '%' && w[i] != '_' {
        assert w[i] == LowerChar(word[i]);
      }
    }
    if column.Some? {
      LikeContains(w, Lower(column.value));
    }
  }

  /** The wildcards at work: 'a_c' matches "abc", which holds no "a_c", and '%' matches any title. */
  lemma ILikeWildcards(title: string)
    ensures ILike(Some("abc"), "a_c") && !Contains("abc", "a_c")
    ensures ILike(Some(title), "%")
  {
    var abc := Lower("abc");
    assert abc[0] == 'a' && abc[1] == 'b' && abc[2] == 'c';
    assert abc == "abc";
    var acw := Lower("a_c");
    assert acw[0] == 'a' && acw[1] == '_' && acw[2] == 'c';
    assert acw == "a_c";
    var p := "%" + acw + "%";
    assert p == "%a_c%";
    assert p[1..] == "a_c%" && "a_c%"[1..] == "_c%" && "_c%"[1..] == "c%" && "c%"[1..] == "%";
    assert "abc"[1..] == "bc" && "bc"[1..] == "c" && "c"[1..] == "";
    LikeAnything("");
    assert LikeMatch("c%", "c");
    assert LikeMatch("_c%", "bc");
    assert LikeMatch("a_c%", "abc");
    assert LikeMatch(p, "abc");
    forall i | 0 <= i <= 3 ensures !OccursAt("abc", "a_c", i) {
      if i == 0 {
        assert "abc"[0..3] == "abc" && "abc"[1] != "a_c"[1];
      }
    }
    var pct := "%" + Lower("%") + "%";
    assert Lower("%")[0] == '%' && Lower("%") == "%";
    assert pct == "%%%" && pct[1..] == "%%" && "%%"[1..] == "%";
    LikeAnything(Lower(title));
    assert LikeMatch("%%", Lower(title));
  }

  /** The title of the album the inner join pairs with `t`. */
  function JoinedAlbumTitle(c: Catalog, t: Track): Option<string>
  {
    if t.album.Some? && t.album.value in c.albums.rows then c.albums.rows[t.album.value].title else None
  }

  predicate WordMatches(c: Catalog, t: Track, word: string)
  {
    ILike(t.title, word) || ILike(JoinedAlbumTitle(c, t), word) || ILike(t.artist, word)
  }

  /** The join with Album plus one filter per search word. */
  predicate SearchMatch(c: Catalog, t: Track, words: seq<string>)
  {
    t.album.Some? && t.album.value in c.albums.rows
    && forall k :: 0 <= k < |words| ==> WordMatches(c, t, words[k])
  }

  /** The candidate ids, in primary-key order, cut to `queryLimit`. */
  function Candidates(c: Catalog, words: seq<string>, queryLimit: int): (r: seq<nat>)
    ensures forall id :: id in r ==> id in c.tracks.rows && SearchMatch(c, c.tracks.rows[id], words)
    ensures queryLimit < 0 ==> forall id :: id in c.tracks.rows && SearchMatch(c, c.tracks.rows[id], words) ==> id in r
    ensures Increasing(r)
  {
    var all := Select(c.tracks, (id: nat, t: Track) => SearchMatch(c, t, words));
    var r := SqlLimit(all, queryLimit);
    assert forall id :: id in r ==> id in all;
    r
  }

  // ---------------------------------------------------------------------
  // Scoring
  // ---------------------------------------------------------------------

  /**
   * The score one lower-cased word earns: 4 for a whole word of the title,
   * 3 for a part of the title, otherwise 2 when it is not in the artist's
   * name and 1 when it is. Reaching the artist test on a track without an
   * artist raises AttributeError (`None.lower()`).
   */
  function WordScore(title: string, artist: Option<string>, word: string): (r: Result<nat>)
  {
    var lowered := Lower(title);
    if word in Words(lowered) then Ok(4)
    else if Contains(lowered, word) then Ok(3)
    else if artist.None? then Err(AttributeError)
    else if !Contains(Lower(artist.value), word) then Ok(2)
    else Ok(1)
  }

  lemma WordScoreSpec(title: string, artist: Option<string>, word: string)
    ensures var r := WordScore(title, artist, word);
      && (r.Ok? ==> 1 <= r.value <= 4)
      && (r.Err? <==> !Contains(Lower(title), word) && artist.None?)
      && (r == Ok(4) <==> word in Words(Lower(title)))
      && (r == Ok(3) <==> Contains(Lower(title), word) && word !in Words(Lower(title)))
      && (r == Ok(1) <==> !Contains(Lower(title), word) && artist.Some? && Contains(Lower(artist.value), word))
  {
    if word in Words(Lower(title)) {
      WordsOccur(Lower(title), word);
    }
  }

  /** The total of per-word scores; the first failing word's error is the result. */
  function SumScores(scores: seq<Result<nat>>): Result<nat>
  {
    if |scores| == 0 then Ok(0)
    else
      match scores[0]
      case Err(e) => Err(e)
      case Ok(s) =>
        match SumScores(scores[1..])
        case Err(e) => Err(e)
        case Ok(rest) => Ok(s + rest)
  }

  predicate WordScoresInRange(scores: seq<Result<nat>>)
  {
    forall k :: 0 <= k < |scores| && scores[k].Ok? ==> 1 <= scores[k].value <= 4
  }

  lemma {:induction false} SumScoresBounds(scores: seq<Result<nat>>)
    requires WordScoresInRange(scores)
    ensures SumScores(scores).Ok? ==> |scores| <= SumScores(scores).value <= 4 * |scores|
    ensures SumScores(scores).Err? <==> exists k :: 0 <= k < |scores| && scores[k].Err?
  {
    if |scores| > 0 {
      var tail := scores[1..];
      assert forall k :: 1 <= k < |scores| ==> scores[k] == tail[k - 1];
      assert WordScoresInRange(tail);
      SumScoresBounds(tail);
    }
  }

  lemma {:induction false} SumScoresTop(scores: seq<Result<nat>>)
    requires WordScoresInRange(scores)
    ensures SumScores(scores) == Ok(4 * |scores|) <==> forall k :: 0 <= k < |scores| ==> scores[k] == Ok(4)
  {
    if |scores| > 0 {
      var tail := scores[1..];
      assert forall k :: 1 <= k < |scores| ==> scores[k] == tail[k - 1];
      assert WordScoresInRange(tail);
      SumScoresTop(tail);
      SumScoresBounds(tail);
    }
  }

  function WordScores(title: string, artist: Option<string>, words: seq<string>): (r: seq<Result<nat>>)
    ensures |r| == |words| && forall k :: 0 <= k < |words| ==> r[k] == WordScore(title, artist, words[k])
  {
    seq(|words|, k requires 0 <= k < |words| => WordScore(title, artist, words[k]))
  }

  function ScoreWords(title: string, artist: Option<string>, words: seq<string>): Result<nat>
  {
    SumScores(WordScores(title, artist, words))
  }

  /**
   * A title scores between one and four points per word; it fails exactly
   * when some word reaches the artist test on a track without an artist;
   * and it reaches the top, four points per word, exactly when every word
   * is a whole word of the title.
   */
  lemma ScoreWordsSpec(title: string, artist: Option<string>, words: seq<string>)
    ensures var r := ScoreWords(title, artist, words);
      && (r.Ok? ==> |words| <= r.value <= 4 * |words|)
      && (r.Err? <==> artist.None? && exists k :: 0 <= k < |words| && !Contains(Lower(title), words[k]))
      && (r == Ok(4 * |words|) <==> forall k :: 0 <= k < |words| ==> words[k] in Words(Lower(title)))
  {
    var scores := WordScores(title, artist, words);
    forall k | 0 <= k < |words| {
      WordScoreSpec(title, artist, words[k]);
    }
    SumScoresBounds(scores);
    SumScoresTop(scores);
  }

  /** `score_track`: a track without a title raises AttributeError. */
  function ScoreTrack(t: Track, lowerWords: seq<string>): (r: Result<nat>)
    ensures t.title.None? ==> r == Err(AttributeError)
    ensures t.title.Some? ==> r == ScoreWords(t.title.value, t.artist, lowerWords)
  {
    if t.title.None? then Err(AttributeError) else ScoreWords(t.title.value, t.artist, lowerWords)
  }

  // ---------------------------------------------------------------------
  // Ranking
  // ---------------------------------------------------------------------

  datatype Scored = Scored(score: nat, id: nat)

  /** Best score first; among equal scores, the lower id first. */
  predicate RankedBefore(a: Scored, b: Scored)
  {
    a.score > b.score || (a.score == b.score && a.id < b.id)
  }

  predicate Ranked(xs: seq<Scored>)
  {
    forall i :: 0 <= i < |xs| - 1 ==> RankedBefore(xs[i], xs[i + 1])
  }

  predicate IdsBelow(xs: seq<Scored>, id: nat)
  {
    forall i :: 0 <= i < |xs| ==> xs[i].id < id
  }

  predicate IdsIncreasing(xs: seq<Scored>)
  {
    forall i, j :: 0 <= i < j < |xs| ==> xs[i].id < xs[j].id
  }

  /**
   * One step of Python's stable descending sort: `x` goes after every
   * element whose score is at least its own.
   */
  function InsertRanked(xs: seq<Scored>, x: Scored): (r: seq<Scored>)
    ensures multiset(r) == multiset(xs) + multiset{x}
    ensures |r| > 0 && (r[0] == x || (|xs| > 0 && r[0] == xs[0]))
    ensures Ranked(xs) && IdsBelow(xs, x.id) ==> Ranked(r)
  {
    if |xs| == 0 then [x]
    else if xs[0].score >= x.score then
      var rest := InsertRanked(xs[1..], x);
      assert xs == [xs[0]] + xs[1..];
      RankedTail(xs, x.id);
      ConsRanked(xs[0], rest);
      [xs[0]] + rest
    else
      ConsRanked(x, xs);
      [x] + xs
  }

  /** The rest of a ranked list below an id is ranked and below it too. */
  lemma RankedTail(xs: seq<Scored>, id: nat)
    requires |xs| > 0
    ensures Ranked(xs) ==> Ranked(xs[1..])
    ensures IdsBelow(xs, id) ==> IdsBelow(xs[1..], id)
  {
  }

  /** An element ranked before the head of a ranked list extends it. */
  lemma ConsRanked(h: Scored, rest: seq<Scored>)
    ensures Ranked(rest) && (|rest| > 0 ==> RankedBefore(h, rest[0])) ==> Ranked([h] + rest)
  {
    if Ranked(rest) && (|rest| > 0 ==> RankedBefore(h, rest[0])) {
      var l := [h] + rest;
      forall i | 0 <= i < |l| - 1 ensures RankedBefore(l[i], l[i + 1]) {
        if i > 0 {
          assert l[i] == rest[i - 1] && l[i + 1] == rest[i];
        }
      }
    }
  }

  /** Inserts each element of `xs`, in order, into the ranked `acc`. */
  function InsertAll(acc: seq<Scored>, xs: seq<Scored>): (r: seq<Scored>)
    ensures multiset(r) == multiset(acc) + multiset(xs)
    decreases |xs|
  {
    if |xs| == 0 then acc
    else
      assert xs == [xs[0]] + xs[1..];
      InsertAll(InsertRanked(acc, xs[0]), xs[1..])
  }

  /**
   * When the input arrives in increasing id order, as the query returns it,
   * the stable sort yields the order "score descending, then id ascending".
   */
  lemma {:induction false} InsertAllRanked(acc: seq<Scored>, xs: seq<Scored>)
    requires Ranked(acc) && IdsIncreasing(xs)
    requires forall i, j :: 0 <= i < |acc| && 0 <= j < |xs| ==> acc[i].id < xs[j].id
    ensures Ranked(InsertAll(acc, xs))
    decreases |xs|
  {
    if |xs| > 0 {
      var next := InsertRanked(acc, xs[0]);
      assert IdsBelow(acc, xs[0].id);
      var tail := xs[1..];
      assert IdsIncreasing(tail);
      forall i, j | 0 <= i < |next| && 0 <= j < |tail|
        ensures next[i].id < tail[j].id
      {
        assert next[i] in multiset(next);
        assert tail[j] == xs[j + 1];
        if next[i] != xs[0] {
          assert next[i] in multiset(acc);
          var k :| 0 <= k < |acc| && acc[k] == next[i];
        }
      }
      InsertAllRanked(next, tail);
    }
  }

  function RankAll(xs: seq<Scored>): (r: seq<Scored>)
    ensures multiset(r) == multiset(xs)
  {
    InsertAll([], xs)
  }

  /** `tracks.sort(key=score, reverse=True)` on tracks listed in id order. */
  lemma RankAllRanked(xs: seq<Scored>)
    requires IdsIncreasing(xs)
    ensures Ranked(RankAll(xs))
    ensures multiset(RankAll(xs)) == multiset(xs)
  {
    InsertAllRanked([], xs);
  }

  // ---------------------------------------------------------------------
  // search_for_tracks
  // ---------------------------------------------------------------------

  function LowerAll(words: seq<string>): (r: seq<string>)
    ensures |r| == |words| && forall k :: 0 <= k < |words| ==> r[k] == Lower(words[k])
  {
    seq(|words|, k requires 0 <= k < |words| => Lower(words[k]))
  }

  /** Scores each listed track; the first failing track's error is the result. */
  function ScoreAll(c: Catalog, ids: seq<nat>, lowerWords: seq<string>): (r: Result<seq<Scored>>)
    requires forall k :: 0 <= k < |ids| ==> ids[k] in c.tracks.rows
    ensures r.Ok? ==> |r.value| == |ids|
    ensures r.Ok? ==> forall k :: 0 <= k < |ids| ==> r.value[k].id == ids[k] && ScoreTrack(c.tracks.rows[ids[k]], lowerWords) == Ok(r.value[k].score)
    ensures r.Err? <==> exists k :: 0 <= k < |ids| && ScoreTrack(c.tracks.rows[ids[k]], lowerWords).Err?
  {
    if |ids| == 0 then Ok([])
    else
      match ScoreTrack(c.tracks.rows[ids[0]], lowerWords)
      case Err(e) => Err(e)
      case Ok(s) =>
        match ScoreAll(c, ids[1..], lowerWords)
        case Err(e) =>
          assert forall k :: 1 <= k < |ids| ==> ids[k] == ids[1..][k - 1];
          Err(e)
        case Ok(rest) =>
          assert forall k :: 1 <= k < |ids| ==> ids[k] == ids[1..][k - 1];
          Ok([Scored(s, ids[0])] + rest)
  }

  function Ids(xs: seq<Scored>): (r: seq<nat>)
    ensures |r| == |xs| && forall k :: 0 <= k < |xs| ==> r[k] == xs[k].id
  {
    seq(|xs|, k requires 0 <= k < |xs| => xs[k].id)
  }

  /** The candidates, scored and ranked, before the `return_limit` cut. */
  function Ranking(c: Catalog, words: seq<string>, queryLimit: int): (r: Result<seq<Scored>>)
  {
    var ids := Candidates(c, words, queryLimit);
    match ScoreAll(c, ids, LowerAll(words))
    case Err(e) => Err(e)
    case Ok(scored) => Ok(RankAll(scored))
  }

  /**
   * `search_for_tracks`: the ranked candidates' ids, cut to `returnLimit`
   * with Python slice semantics.
   */
  function SearchForTracks(c: Catalog, words: seq<string>, queryLimit: int, returnLimit: int): (r: Result<seq<nat>>)
    ensures r.Ok? ==> forall id :: id in r.value ==> id in c.tracks.rows && SearchMatch(c, c.tracks.rows[id], words)
    ensures r.Err? <==> exists id :: id in Candidates(c, words, queryLimit) && ScoreTrack(c.tracks.rows[id], LowerAll(words)).Err?
    ensures r.Ok? ==> Ranking(c, words, queryLimit).Ok? && r.value == PyTake(Ids(Ranking(c, words, queryLimit).value), returnLimit)
  {
    var ids := Candidates(c, words, queryLimit);
    match Ranking(c, words, queryLimit)
    case Err(e) =>
      ScoreAllFails(c, ids, LowerAll(words));
      Err(e)
    case Ok(ranked) =>
      RankingSpec(c, words, queryLimit);
      var all := Ids(ranked);
      var r := PyTake(all, returnLimit);
      assert forall id :: id in r ==> id in all;
      ScoreAllFails(c, ids, LowerAll(words));
      Ok(r)
  }

  /** The score a stored track earns for the words, or -1 when scoring it fails. */
  function ScoreOf(c: Catalog, words: seq<string>, id: nat): int
  {
    if id in c.tracks.rows && ScoreTrack(c.tracks.rows[id], LowerAll(words)).Ok? then
      ScoreTrack(c.tracks.rows[id], LowerAll(words)).value
    else -1
  }

  /** Adjacent entries in rank order make every earlier entry rank before every later one. */
  lemma {:induction false} RankedChain(xs: seq<Scored>)
    requires Ranked(xs)
    ensures forall i, j :: 0 <= i < j < |xs| ==> RankedBefore(xs[i], xs[j])
  {
    if |xs| > 1 {
      var tail := xs[1..];
      assert Ranked(tail) by {
        forall i | 0 <= i < |tail| - 1 ensures RankedBefore(tail[i], tail[i + 1]) {
          assert tail[i] == xs[i + 1] && tail[i + 1] == xs[i + 2];
        }
      }
      RankedChain(tail);
      forall i, j | 0 <= i < j < |xs| ensures RankedBefore(xs[i], xs[j]) {
        if i > 0 {
          assert xs[i] == tail[i - 1] && xs[j] == tail[j - 1];
        } else if j > 1 {
          assert RankedBefore(xs[0], xs[1]);
          assert xs[1] == tail[0] && xs[j] == tail[j - 1];
        }
      }
    }
  }

  /**
   * The search's headline promise: the result is the best-scoring
   * candidates, best first and ties by id, as many as `return_limit`
   * allows, and no candidate left out scores above one that was kept.
   */
  lemma SearchBestFirst(c: Catalog, words: seq<string>, queryLimit: int, returnLimit: int)
    requires SearchForTracks(c, words, queryLimit, returnLimit).Ok?
    ensures var r := SearchForTracks(c, words, queryLimit, returnLimit).value;
      var cands := Candidates(c, words, queryLimit);
      && (0 <= returnLimit ==> |r| == if returnLimit < |cands| then returnLimit else |cands|)
      && (forall k :: 0 <= k < |r| ==> r[k] in cands && ScoreOf(c, words, r[k]) >= 0)
      && (forall i, j :: 0 <= i < j < |r| ==>
            ScoreOf(c, words, r[i]) > ScoreOf(c, words, r[j]) || (ScoreOf(c, words, r[i]) == ScoreOf(c, words, r[j]) && r[i] < r[j]))
      && (forall id, k :: id in cands && id !in r && 0 <= k < |r| ==> ScoreOf(c, words, id) <= ScoreOf(c, words, r[k]))
  {
    SearchIsPrefix(c, words, queryLimit, returnLimit);
    RankingSpec(c, words, queryLimit);
    BestFirstOf(c, words, Candidates(c, words, queryLimit), Ranking(c, words, queryLimit).value,
                SearchForTracks(c, words, queryLimit, returnLimit).value, returnLimit);
  }

  /** The search result is the ids of a prefix of the ranking, as long as `return_limit` allows. */
  lemma SearchIsPrefix(c: Catalog, words: seq<string>, queryLimit: int, returnLimit: int)
    requires SearchForTracks(c, words, queryLimit, returnLimit).Ok?
    ensures Ranking(c, words, queryLimit).Ok?
    ensures var r := SearchForTracks(c, words, queryLimit, returnLimit).value;
      var ranked := Ranking(c, words, queryLimit).value;
      && |r| <= |ranked|
      && (0 <= returnLimit ==> |r| == if returnLimit < |ranked| then returnLimit else |ranked|)
      && forall k :: 0 <= k < |r| ==> r[k] == ranked[k].id
  {
    var r := SearchForTracks(c, words, queryLimit, returnLimit).value;
    var ranked := Ranking(c, words, queryLimit).value;
    assert r == PyTake(Ids(ranked), returnLimit);
  }

  /** The best-first facts for a prefix of a ranking of the candidates. */
  lemma BestFirstOf(c: Catalog, words: seq<string>, cands: seq<nat>, ranked: seq<Scored>, r: seq<nat>, returnLimit: int)
    requires Ranked(ranked) && |ranked| == |cands|
    requires forall id :: id in cands <==> exists k :: 0 <= k < |ranked| && ranked[k].id == id
    requires forall k :: 0 <= k < |ranked| ==> ranked[k].id in c.tracks.rows && ScoreTrack(c.tracks.rows[ranked[k].id], LowerAll(words)) == Ok(ranked[k].score)
    requires |r| <= |ranked| && (0 <= returnLimit ==> |r| == if returnLimit < |ranked| then returnLimit else |ranked|)
    requires forall k :: 0 <= k < |r| ==> r[k] == ranked[k].id
    ensures 0 <= returnLimit ==> |r| == if returnLimit < |cands| then returnLimit else |cands|
    ensures forall k :: 0 <= k < |r| ==> r[k] in cands && ScoreOf(c, words, r[k]) >= 0
    ensures forall i, j :: 0 <= i < j < |r| ==>
      ScoreOf(c, words, r[i]) > ScoreOf(c, words, r[j]) || (ScoreOf(c, words, r[i]) == ScoreOf(c, words, r[j]) && r[i] < r[j])
    ensures forall id, k :: id in cands && id !in r && 0 <= k < |r| ==> ScoreOf(c, words, id) <= ScoreOf(c, words, r[k])
  {
    ScoresOfRanked(c, words, ranked);
    PrefixBestFirst(ranked, r);
    forall k | 0 <= k < |r| ensures r[k] in cands {
      assert ranked[k].id == r[k];
    }
    forall id, k | id in cands && id !in r && 0 <= k < |r|
      ensures ScoreOf(c, words, id) <= ScoreOf(c, words, r[k])
    {
      var m :| 0 <= m < |ranked| && ranked[m].id == id;
    }
  }

  /** Each ranked entry's score is what its track scores. */
  lemma ScoresOfRanked(c: Catalog, words: seq<string>, ranked: seq<Scored>)
    requires forall k :: 0 <= k < |ranked| ==> ranked[k].id in c.tracks.rows && ScoreTrack(c.tracks.rows[ranked[k].id], LowerAll(words)) == Ok(ranked[k].score)
    ensures forall k :: 0 <= k < |ranked| ==> ScoreOf(c, words, ranked[k].id) == ranked[k].score
  {
  }

  /** A prefix of a ranked list is ranked, and nothing after it ranks above anything in it. */
  lemma PrefixBestFirst(ranked: seq<Scored>, r: seq<nat>)
    requires Ranked(ranked) && |r| <= |ranked| && forall k :: 0 <= k < |r| ==> r[k] == ranked[k].id
    ensures forall i, j :: 0 <= i < j < |r| ==> RankedBefore(ranked[i], ranked[j])
    ensures forall m, k :: 0 <= m < |ranked| && ranked[m].id !in r && 0 <= k < |r| ==> ranked[m].score <= ranked[k].score
  {
    RankedChain(ranked);
    forall m, k | 0 <= m < |ranked| && ranked[m].id !in r && 0 <= k < |r|
      ensures ranked[m].score <= ranked[k].score
    {
      assert forall q :: 0 <= q < |r| ==> ranked[q].id == r[q] && r[q] in r;
      assert k < m;
      assert RankedBefore(ranked[k], ranked[m]);
    }
  }

  lemma ScoreAllFails(c: Catalog, ids: seq<nat>, lowerWords: seq<string>)
    requires forall k :: 0 <= k < |ids| ==> ids[k] in c.tracks.rows
    ensures ScoreAll(c, ids, lowerWords).Err? <==> exists id :: id in ids && ScoreTrack(c.tracks.rows[id], lowerWords).Err?
  {
    if ScoreAll(c, ids, lowerWords).Err? {
      var k :| 0 <= k < |ids| && ScoreTrack(c.tracks.rows[ids[k]], lowerWords).Err?;
      assert ids[k] in ids;
    }
  }

  /**
   * The ranking holds every candidate once, with its own score, ordered by
   * score descending and, among equal scores, by id.
   */
  lemma RankingSpec(c: Catalog, words: seq<string>, queryLimit: int)
    requires Ranking(c, words, queryLimit).Ok?
    ensures var ranked := Ranking(c, words, queryLimit).value;
      var ids := Candidates(c, words, queryLimit);
      && Ranked(ranked)
      && |ranked| == |ids|
      && (forall id :: id in ids <==> exists k :: 0 <= k < |ranked| && ranked[k].id == id)
      && forall k :: 0 <= k < |ranked| ==> ranked[k].id in c.tracks.rows && ScoreTrack(c.tracks.rows[ranked[k].id], LowerAll(words)) == Ok(ranked[k].score)
  {
    var ids := Candidates(c, words, queryLimit);
    var scored := ScoreAll(c, ids, LowerAll(words)).value;
    var ranked := RankAll(scored);
    assert Ranking(c, words, queryLimit).value == ranked;
    assert IdsIncreasing(scored);
    RankAllRanked(scored);
    RankedScores(c, ids, LowerAll(words), scored, ranked);
  }

  /** A reordering of the scored candidates keeps each candidate once, with its own score. */
  lemma RankedScores(c: Catalog, ids: seq<nat>, lowerWords: seq<string>, scored: seq<Scored>, ranked: seq<Scored>)
    requires forall k :: 0 <= k < |ids| ==> ids[k] in c.tracks.rows
    requires |scored| == |ids|
    requires forall k :: 0 <= k < |ids| ==> scored[k].id == ids[k] && ScoreTrack(c.tracks.rows[ids[k]], lowerWords) == Ok(scored[k].score)
    requires multiset(scored) == multiset(ranked)
    ensures |ranked| == |ids|
    ensures forall id :: id in ids <==> exists k :: 0 <= k < |ranked| && ranked[k].id == id
    ensures forall k :: 0 <= k < |ranked| ==> ranked[k].id in c.tracks.rows && ScoreTrack(c.tracks.rows[ranked[k].id], lowerWords) == Ok(ranked[k].score)
  {
    SameEntries(scored, ranked);
    forall k | 0 <= k < |ranked|
      ensures ranked[k].id in ids
      ensures ranked[k].id in c.tracks.rows && ScoreTrack(c.tracks.rows[ranked[k].id], lowerWords) == Ok(ranked[k].score)
    {
      var j :| 0 <= j < |scored| && scored[j] == ranked[k];
    }
    forall id | id in ids
      ensures exists k :: 0 <= k < |ranked| && ranked[k].id == id
    {
      var j :| 0 <= j < |ids| && ids[j] == id;
      var k :| 0 <= k < |ranked| && ranked[k] == scored[j];
    }
  }

  /** Two lists with the same multiset of entries have the same length and members. */
  lemma SameEntries(xs: seq<Scored>, ys: seq<Scored>)
    requires multiset(xs) == multiset(ys)
    ensures |xs| == |ys|
    ensures forall k :: 0 <= k < |ys| ==> ys[k] in xs
    ensures forall j :: 0 <= j < |xs| ==> xs[j] in ys
  {
    assert |xs| == |multiset(xs)| == |multiset(ys)| == |ys|;
    forall k | 0 <= k < |ys|
      ensures ys[k] in xs
    {
      assert ys[k] in multiset(xs);
    }
    forall j | 0 <= j < |xs|
      ensures xs[j] in ys
    {
      assert xs[j] in multiset(ys);
    }
  }
}

=== FILE: serialize.dfy ===
/**
 * The JSON records the web API returns for albums, tracks, queue entries
 * and radio stations, and the information level a request asks for. Links
 * are built by `url`, which stands for the route table's `url_for`.
 */
module Serialize {
  import opened Common
  import opened Table
  import opened Schema
  import opened Database
  import opened JsonValue
  import opened TrackOrder
  import FilePlayback

  // ---------------------------------------------------------------------
  // Information levels
  // ---------------------------------------------------------------------

  datatype InformationLevel = NoInfo | Links | AllInfo | DebugInfo

  /** The level's integer value. */
  function LevelValue(l: InformationLevel): int
  {
    match l
    case NoInfo => 0
    case Links => 1
    case AllInfo => 2
    case DebugInfo => 3
  }

  /** The word a query string uses for the level. */
  function LevelName(l: InformationLevel): string
  {
    match l
    case NoInfo => "none"
    case Links => "links"
    case AllInfo => "all"
    case DebugInfo => "debug"
  }

  /** `InformationLevel.from_string`: the level named, in any case, else the default. */
  function FromString(info: string, default: InformationLevel): (r: InformationLevel)
    ensures r == default || LevelName(r) == Lower(info)
    ensures (forall l :: LevelName(l) != Lower(info)) ==> r == default
  {
    var s := Lower(info);
    if s == "none" then NoInfo
    else if s == "links" then Links
    else if s == "all" then AllInfo
    else if s == "debug" then DebugInfo
    else default
  }

  lemma LevelNamesAreLower(l: InformationLevel)
    ensures Lower(LevelName(l)) == LevelName(l)
  {
    var n := LevelName(l);
    assert forall i :: 0 <= i < |n| ==> 'a' <= n[i] <= 'z';
  }

  /** Each level's name reads back as that level, whatever its case and the default. */
  lemma FromStringRoundTrip(l: InformationLevel, default: InformationLevel, s: string)
    ensures FromString(LevelName(l), default) == l
    ensures Lower(s) == LevelName(l) ==> FromString(s, default) == l
    ensures FromString(Lower(s), default) == FromString(s, default)
    ensures LevelValue(FromString(LevelName(l), default)) == LevelValue(l)
  {
    LevelNamesAreLower(l);
    LowerIdempotent(s);
  }

  // ---------------------------------------------------------------------
  // Links and file names
  // ---------------------------------------------------------------------

  datatype Route = GetAlbum | GetArtwork | GetArtworkInfo | GetGenre | GetTrack | GetOnePlaylist | GetOneRadioStation

  /**
   * `os.path.splitext(path)[1]`: from the last '.' of the last path
   * component, unless only dots precede it in that component.
   */
  function Extension(path: string): (r: string)
    ensures r == "" || (r[0] == '.' && '.' !in r[1..] && '/' !in r)
    ensures |r| <= |path| && r == path[|path| - |r|..]
  {
    ExtensionIn(path, AfterLast(path, '/'))
  }

  /** The extension found in `base`, the last component of `path`. */
  function ExtensionIn(path: string, base: string): (r: string)
    requires |base| <= |path| && base == path[|path| - |base|..] && '/' !in base
    ensures r == "" || (r[0] == '.' && '.' !in r[1..] && '/' !in r)
    ensures |r| <= |path| && r == path[|path| - |r|..]
  {
    if '.' !in base then ""
    else
      var ext := "." + AfterLast(base, '.');
      LastDotSuffix(path, base, AfterLast(base, '.'));
      if AllDots(base[..|base| - |ext|]) then "" else ext
  }

  predicate AllDots(s: string)
  {
    forall i :: 0 <= i < |s| ==> s[i] == '.'
  }

  /** A '.' and the text after it, inside a '/'-free suffix of the path, form a '/'-free suffix of the path. */
  lemma LastDotSuffix(path: string, base: string, a: string)
    requires |base| <= |path| && base == path[|path| - |base|..] && '/' !in base
    requires |a| < |base| && a == base[|base| - |a|..] && base[|base| - |a| - 1] == '.'
    ensures var ext := "." + a; ext == path[|path| - |ext|..] && '/' !in ext
  {
    var ext := "." + a;
    var j := |base| - |a| - 1;
    assert base[j..] == ext;
    assert path[|path| - |base|..][j..] == path[|path| - |ext|..];
    assert '/' !in ext by {
      forall k | 0 <= k < |ext| ensures ext[k] != '/' {
        assert ext[k] == base[j + k];
      }
    }
  }

  /** A file named `name.ext` in any directory has the extension `.ext`. */
  lemma ExtensionOfFile(dir: string, name: string, ext: string)
    requires '/' !in name && '.' !in name && name != ""
    requires '/' !in ext && '.' !in ext
    ensures Extension(dir + "/" + name + "." + ext) == "." + ext
  {
    var base := name + ['.'] + ext;
    var path := dir + ['/'] + base;
    assert '/' !in base;
    assert dir + "/" + name + "." + ext == path;
    AfterLastOfJoin(dir, base, '/');
    ExtensionOfComponent(path, name, ext);
  }

  /** The extension depends only on the last path component. */
  lemma ExtensionOfComponent(path: string, name: string, ext: string)
    requires '.' !in name && name != "" && '.' !in ext
    requires AfterLast(path, '/') == name + ['.'] + ext
    ensures Extension(path) == "." + ext
  {
    var base := name + ['.'] + ext;
    assert Extension(path) == ExtensionIn(path, base);
    ExtensionInComponent(path, name, ext);
  }

  lemma ExtensionInComponent(path: string, name: string, ext: string)
    requires '.' !in name && name != "" && '.' !in ext
    requires var base := name + ['.'] + ext; |base| <= |path| && base == path[|path| - |base|..] && '/' !in base
    ensures ExtensionIn(path, name + ['.'] + ext) == "." + ext
  {
    BaseExtension(name, ext);
    assert !AllDots(name) by {
      assert name[0] != '.';
    }
  }

  /** Within the last path component `name.ext`, the stem is `name` and the extension `.ext`. */
  lemma BaseExtension(name: string, ext: string)
    requires '.' !in name && name != "" && '.' !in ext
    ensures var base := name + ['.'] + ext;
      '.' in base && "." + AfterLast(base, '.') == "." + ext
      && base[..|base| - |"." + ext|] == name && name[0] != '.'
  {
    var base := name + ['.'] + ext;
    assert base[|name|] == '.';
    AfterLastOfJoin(name, ext, '.');
    assert base[..|base| - |"." + ext|] == name;
    assert name[0] in name;
  }

  // ---------------------------------------------------------------------
  // Tracks
  // ---------------------------------------------------------------------

  /** The fields of a track record; the file path is there only when debugging. */
  datatype TrackRecord = TrackRecord(
    link: Json, artist: Json, title: Json, genre: Json,
    disknumber: Json, tracknumber: Json, trackcount: Json, fileformat: Json,
    album: Json, artwork: Json, artworkinfo: Json, filepath: Option<Json>)

  const TrackKeys: set<string> := {"link", "artist", "title", "genre", "disknumber", "tracknumber", "trackcount", "fileformat", "album", "artwork", "artworkinfo"}

  /** The record as the JSON object the API returns: one key per field, each holding that field. */
  function TrackObject(t: TrackRecord): (r: map<string, Json>)
    ensures r.Keys == TrackKeys + (if t.filepath.Some? then {"filepath"} else {})
    ensures r["trackcount"] == t.trackcount && r["fileformat"] == t.fileformat && r["album"] == t.album
    ensures r["artwork"] == t.artwork && r["artworkinfo"] == t.artworkinfo
    ensures t.filepath.Some? ==> r["filepath"] == t.filepath.value
  {
    var base := TrackHead(t)["trackcount" := t.trackcount]["fileformat" := t.fileformat]["album" := t.album]
      ["artwork" := t.artwork]["artworkinfo" := t.artworkinfo];
    if t.filepath.Some? then base["filepath" := t.filepath.value] else base
  }

  /** The first six keys of a track object hold their fields too. */
  lemma TrackObjectHead(t: TrackRecord)
    ensures var r := TrackObject(t);
      r.Keys >= {"link", "artist", "title", "genre", "disknumber", "tracknumber"}
      && r["link"] == t.link && r["artist"] == t.artist && r["title"] == t.title && r["genre"] == t.genre
      && r["disknumber"] == t.disknumber && r["tracknumber"] == t.tracknumber
  {
  }

  /** The first six keys of a track object; the other five are added over it. */
  function TrackHead(t: TrackRecord): (r: map<string, Json>)
    ensures r.Keys == {"link", "artist", "title", "genre", "disknumber", "tracknumber"}
    ensures r["link"] == t.link && r["artist"] == t.artist && r["title"] == t.title && r["genre"] == t.genre
    ensures r["disknumber"] == t.disknumber && r["tracknumber"] == t.tracknumber
  {
    map["link" := t.link, "artist" := t.artist, "title" := t.title, "genre" := t.genre,
      "disknumber" := t.disknumber, "tracknumber" := t.tracknumber]
  }


  /** The Genre column as the API shows it. */
  function GenreJson(g: GenreRef): Json
  {
    match g
    case NoGenre => JNull
    case GenreId(id) => JInt(id)
    case GenreName(name) => JStr(name)
  }

  /** Python truthiness of the Album column. */
  predicate HasAlbum(t: Track)
  {
    t.album.Some? && t.album.value != 0
  }

  /**
   * `json_track` of a stored track: its fields and links, with the file
   * path only for debugging. A track without a file path has no
   * extension to show (TypeError).
   */
  function TrackRecordOf(id: nat, t: Track, debug: bool, url: (Route, int) -> string): (r: Result<TrackRecord>)
    ensures r.Err? <==> t.filepath.None?
    ensures r.Err? ==> r.error == TypeError
    ensures r.Ok? ==> (r.value.link == JStr(url(GetTrack, id))
      && r.value.artist == OptStr(t.artist) && r.value.title == OptStr(t.title) && r.value.genre == GenreJson(t.genre)
      && r.value.disknumber == OptInt(t.volumeNumber) && r.value.tracknumber == OptInt(t.trackNumber)
      && r.value.trackcount == OptInt(t.trackCount))
    ensures r.Ok? ==> (r.value.fileformat == JStr(Extension(t.filepath.value))
      && r.value.filepath == (if debug then Some(JStr(t.filepath.value)) else None))
    ensures r.Ok? ==> ((r.value.album == JStr("") <==> !HasAlbum(t) || url(GetAlbum, t.album.value) == "")
      && (HasAlbum(t) ==> r.value.album == JStr(url(GetAlbum, t.album.value))))
    ensures r.Ok? ==> ((HasArtwork(t) <==> r.value.artwork != JNull)
      && (HasArtwork(t) ==> r.value.artwork == JStr(url(GetArtwork, t.artwork.value)) && r.value.artworkinfo == JStr(url(GetArtworkInfo, t.artwork.value)))
      && (!HasArtwork(t) ==> r.value.artworkinfo == JNull))
  {
    if t.filepath.None? then Err(TypeError)
    else
      var hasArtwork := HasArtwork(t);
      Ok(TrackRecord(
        JStr(url(GetTrack, id)),
        OptStr(t.artist),
        OptStr(t.title),
        GenreJson(t.genre),
        OptInt(t.volumeNumber),
        OptInt(t.trackNumber),
        OptInt(t.trackCount),
        JStr(Extension(t.filepath.value)),
        if HasAlbum(t) then JStr(url(GetAlbum, t.album.value)) else JStr(""),
        if hasArtwork then JStr(url(GetArtwork, t.artwork.value)) else JNull,
        if hasArtwork then JStr(url(GetArtworkInfo, t.artwork.value)) else JNull,
        if debug then Some(JStr(t.filepath.value)) else None))
  }

  /** `json_track`: no track gives an empty object; a stored track gives its record. */
  function JsonTrack(row: Option<Row>, debug: bool, url: (Route, int) -> string): (r: Result<Json>)
    ensures row.None? ==> r == Ok(JObj(map[]))
    ensures row.Some? ==> (r.Err? <==> row.value.1.filepath.None?)
    ensures row.Some? && r.Ok? ==> r.value == JObj(TrackObject(TrackRecordOf(row.value.0, row.value.1, debug, url).value))
  {
    match row
    case None => Ok(JObj(map[]))
    case Some((id, t)) =>
      match TrackRecordOf(id, t, debug, url)
      case Err(e) => Err(e)
      case Ok(rec) => Ok(JObj(TrackObject(rec)))
  }

  /** `f` applied to each element in turn; the first failure fails them all. */
  function MapAll<A, B>(xs: seq<A>, f: A -> Result<B>): (r: Result<seq<B>>)
    ensures r.Ok? <==> forall i :: 0 <= i < |xs| ==> f(xs[i]).Ok?
    ensures r.Ok? ==> |r.value| == |xs| && forall i :: 0 <= i < |xs| ==> f(xs[i]) == Ok(r.value[i])
  {
    if xs == [] then Ok([])
    else
      match f(xs[0])
      case Err(e) => Err(e)
      case Ok(first) =>
        match MapAll(xs[1..], f)
        case Err(e) =>
          assert forall i :: 1 <= i < |xs| ==> xs[i] == xs[1..][i - 1];
          Err(e)
        case Ok(rest) =>
          assert forall i :: 1 <= i < |xs| ==> xs[i] == xs[1..][i - 1];
          Ok([first] + rest)
  }

  /** The records of several tracks, in order; one track that cannot be shown fails them all. */
  function JsonTracks(rows: seq<Row>, debug: bool, url: (Route, int) -> string): (r: Result<seq<Json>>)
    ensures r.Ok? <==> forall i :: 0 <= i < |rows| ==> rows[i].1.filepath.Some?
    ensures r.Ok? ==> |r.value| == |rows| && forall i :: 0 <= i < |rows| ==> Ok(r.value[i]) == JsonTrack(Some(rows[i]), debug, url)
  {
    MapAll(rows, row => JsonTrack(Some(row), debug, url))
  }

  // ---------------------------------------------------------------------
  // Albums
  // ---------------------------------------------------------------------

  /** The link of each track, in order. */
  function TrackLinks(rows: seq<Row>, url: (Route, int) -> string): (r: seq<Json>)
    ensures |r| == |rows| && forall i :: 0 <= i < |rows| ==> r[i] == JStr(url(GetTrack, rows[i].0))
  {
    seq(|rows|, i requires 0 <= i < |rows| => JStr(url(GetTrack, rows[i].0)))
  }

  /** The link of each genre, in order. */
  function GenreLinks(genres: seq<nat>, url: (Route, int) -> string): (r: seq<Json>)
    ensures |r| == |genres| && forall i :: 0 <= i < |genres| ==> r[i] == JStr(url(GetGenre, genres[i]))
  {
    seq(|genres|, i requires 0 <= i < |genres| => JStr(url(GetGenre, genres[i])))
  }

  function OptBool(b: Option<bool>): Json
  {
    if b.Some? then JBool(b.value) else JNull
  }

  /** The fields of an album record; the tracks are there unless the level is `NoInfo`. */
  datatype AlbumRecord = AlbumRecord(
    link: Json, artist: Json, title: Json, releasedate: Json, iscompilation: Json,
    numberdisks: Json, artwork: Json, genres: Json, tracks: Option<Json>)

  const AlbumKeys: set<string> := {"link", "artist", "title", "releasedate", "iscompilation", "numberdisks", "artwork", "genres"}

  /** The record as the JSON object the API returns: one key per field, each holding that field. */
  function AlbumObject(a: AlbumRecord): (r: map<string, Json>)
    ensures r.Keys == AlbumKeys + (if a.tracks.Some? then {"tracks"} else {})
    ensures r["link"] == a.link && r["artist"] == a.artist && r["title"] == a.title
    ensures r["releasedate"] == a.releasedate && r["iscompilation"] == a.iscompilation
    ensures r["numberdisks"] == a.numberdisks && r["artwork"] == a.artwork && r["genres"] == a.genres
    ensures a.tracks.Some? ==> r["tracks"] == a.tracks.value
  {
    var base := map[
      "link" := a.link, "artist" := a.artist, "title" := a.title, "releasedate" := a.releasedate,
      "iscompilation" := a.iscompilation, "numberdisks" := a.numberdisks, "artwork" := a.artwork, "genres" := a.genres];
    if a.tracks.Some? then base["tracks" := a.tracks.value] else base
  }

  /**
   * `json_album`: the album's fields, its genres' links, the artwork of the
   * first track in playing order that has any, and its tracks in playing
   * order as links or as full records, as `level` asks. Showing full
   * records fails when one of the tracks has no file path.
   */
  function JsonAlbum(c: Catalog, albumId: nat, level: InformationLevel, url: (Route, int) -> string): (r: Result<AlbumRecord>)
    requires albumId in c.albums.rows
    ensures r.Err? ==> level in {AllInfo, DebugInfo}
    ensures r.Ok? ==> r.value.(tracks := None) == AlbumBase(c, albumId, url)
    ensures r.Ok? ==> (r.value.tracks.None? <==> level == NoInfo)
    ensures r.Ok? && level == Links ==> r.value.tracks == Some(JList(TrackLinks(PlayingOrder(c, albumId), url)))
    ensures r.Ok? && level in {AllInfo, DebugInfo} ==>
      r.value.tracks.Some? && r.value.tracks.value.JList?
      && Ok(r.value.tracks.value.items) == JsonTracks(PlayingOrder(c, albumId), level == DebugInfo, url)
  {
    var ordered := PlayingOrder(c, albumId);
    var base := AlbumBase(c, albumId, url);
    if level == Links then Ok(base.(tracks := Some(JList(TrackLinks(ordered, url)))))
    else if level in {AllInfo, DebugInfo} then
      match JsonTracks(ordered, level == DebugInfo, url)
      case Err(e) => Err(e)
      case Ok(tracks) => Ok(base.(tracks := Some(JList(tracks))))
    else
      assert level.NoInfo?;
      Ok(base)
  }

  /** At the links level the album lists one link per track, in playing order. */
  lemma AlbumTrackLinks(c: Catalog, albumId: nat, url: (Route, int) -> string)
    requires albumId in c.albums.rows
    ensures var r := JsonAlbum(c, albumId, Links, url); var ordered := PlayingOrder(c, albumId);
      r.Ok? && r.value.tracks.Some? && r.value.tracks.value.JList?
      && |r.value.tracks.value.items| == |ordered|
      && forall i :: 0 <= i < |ordered| ==> r.value.tracks.value.items[i] == JStr(url(GetTrack, ordered[i].0))
  {
    var r := JsonAlbum(c, albumId, Links, url);
    assert r.Ok?;
    assert r.value.tracks.value.items == TrackLinks(PlayingOrder(c, albumId), url);
  }

  /** The album's fields without its tracks. */
  function AlbumBase(c: Catalog, albumId: nat, url: (Route, int) -> string): (r: AlbumRecord)
    requires albumId in c.albums.rows
    ensures var a := c.albums.rows[albumId]; var artwork := FirstArtwork(PlayingOrder(c, albumId));
      r.link == JStr(url(GetAlbum, albumId))
      && r.artist == OptStr(a.artist) && r.title == OptStr(a.title)
      && r.releasedate == OptInt(a.releaseYear) && r.iscompilation == OptBool(a.isCompilation)
      && r.numberdisks == OptInt(a.volumeCount)
      && r.artwork == JObj(map["link" := if artwork.Some? then JStr(url(GetArtwork, artwork.value)) else JNull])
      && r.genres == JList(GenreLinks(a.genres, url))
      && r.tracks.None?
  {
    var a := c.albums.rows[albumId];
    var artwork := FirstArtwork(PlayingOrder(c, albumId));
    AlbumRecord(
      JStr(url(GetAlbum, albumId)),
      OptStr(a.artist),
      OptStr(a.title),
      OptInt(a.releaseYear),
      OptBool(a.isCompilation),
      OptInt(a.volumeCount),
      JObj(map["link" := if artwork.Some? then JStr(url(GetArtwork, artwork.value)) else JNull]),
      JList(GenreLinks(a.genres, url)),
      None)
  }

  /** Every track in playing order has a file path exactly when every track of the album has one. */
  lemma AllPathsOrNot(c: Catalog, albumId: nat)
    ensures (forall i :: 0 <= i < |PlayingOrder(c, albumId)| ==> PlayingOrder(c, albumId)[i].1.filepath.Some?)
      <==> forall t :: t in c.tracks.rows && c.tracks.rows[t].album == Some(albumId) ==> c.tracks.rows[t].filepath.Some?
  {
    var ordered := PlayingOrder(c, albumId);
    PlayingOrderMembers(c, albumId);
    if forall i :: 0 <= i < |ordered| ==> ordered[i].1.filepath.Some? {
      forall t | t in c.tracks.rows && c.tracks.rows[t].album == Some(albumId) ensures c.tracks.rows[t].filepath.Some? {
        assert (t, c.tracks.rows[t]) in ordered;
      }
    } else {
      var i :| 0 <= i < |ordered| && ordered[i].1.filepath.None?;
      assert ordered[i] in ordered;
    }
  }

  /**
   * The full album fails exactly when one of its tracks has no file path;
   * links and the bare album always succeed.
   */
  lemma JsonAlbumFails(c: Catalog, albumId: nat, level: InformationLevel, url: (Route, int) -> string)
    requires albumId in c.albums.rows
    ensures JsonAlbum(c, albumId, level, url).Err? <==> (level in {AllInfo, DebugInfo}
      && exists t :: t in c.tracks.rows && c.tracks.rows[t].album == Some(albumId) && c.tracks.rows[t].filepath.None?)
  {
    AllPathsOrNot(c, albumId);
    var r := JsonAlbum(c, albumId, level, url);
    if level in {AllInfo, DebugInfo} {
      var tracks := JsonTracks(PlayingOrder(c, albumId), level == DebugInfo, url);
      assert r.Err? <==> tracks.Err?;
    } else {
      assert r.Ok?;
    }
  }

  // ---------------------------------------------------------------------
  // Queue entries
  // ---------------------------------------------------------------------

  /** The record of a queued file outside the catalog: what the queue knows of it, nothing more. */
  function FileRecord(q: FilePlayback.QueuedTrack, debug: bool, url: (Route, int) -> string): (r: TrackRecord)
    requires q.filepath.Some?
    ensures r.link == JStr(url(GetTrack, q.trackId)) && r.artist == OptStr(q.artist) && r.title == OptStr(q.title)
    ensures r.genre == JNull && r.disknumber == JNull && r.tracknumber == JNull && r.trackcount == JNull
    ensures r.album == JNull && r.artworkinfo == JNull && r.artwork == OptStr(q.artwork)
    ensures r.fileformat == JStr(Extension(q.filepath.value))
    ensures r.filepath == (if debug then Some(JStr(q.filepath.value)) else None)
  {
    TrackRecord(
      JStr(url(GetTrack, q.trackId)), OptStr(q.artist), OptStr(q.title),
      JNull, JNull, JNull, JNull,
      JStr(Extension(q.filepath.value)),
      JNull, OptStr(q.artwork), JNull,
      if debug then Some(JStr(q.filepath.value)) else None)
  }

  /**
   * `json_track_or_file`: a queue entry with a real track id shows that
   * track, which must exist; one with a negative id is a file outside the
   * catalog and gets the record of what the queue knows.
   */
  function JsonTrackOrFile(c: Catalog, q: FilePlayback.QueuedTrack, debug: bool, url: (Route, int) -> string): (r: Result<Json>)
    ensures q.trackId >= 0 && !HasId(c.tracks, q.trackId) ==> r == Err(NotFound)
    ensures q.trackId >= 0 && HasId(c.tracks, q.trackId) ==> r == JsonTrack(Some((q.trackId as nat, c.tracks.rows[q.trackId as nat])), debug, url)
    ensures q.trackId < 0 ==> (r.Err? <==> q.filepath.None?)
    ensures q.trackId < 0 && r.Ok? ==> r.value == JObj(TrackObject(FileRecord(q, debug, url)))
  {
    if q.trackId >= 0 then
      match GetById(c.tracks, q.trackId)
      case Err(e) => Err(e)
      case Ok(t) => JsonTrack(Some((q.trackId as nat, t)), debug, url)
    else if q.filepath.None? then Err(TypeError)
    else Ok(JObj(TrackObject(FileRecord(q, debug, url))))
  }

  /**
   * A queued catalog track is shown as the catalog shows it; a file
   * outside the catalog with the same path, artist and title shows the
   * same keys and agrees on everything the queue knows.
   */
  lemma QueueEntriesAgree(c: Catalog, id: nat, fakeId: int, debug: bool, url: (Route, int) -> string)
    requires id in c.tracks.rows && c.tracks.rows[id].filepath.Some? && fakeId < 0
    ensures var t := c.tracks.rows[id];
      JsonTrackOrFile(c, FilePlayback.QueuedFrom((id, t)), debug, url) == JsonTrack(Some((id, t)), debug, url)
    ensures var t := c.tracks.rows[id]; var q := FilePlayback.QueuedFrom((id, t)).(trackId := fakeId);
      var a := TrackRecordOf(id, t, debug, url).value; var b := FileRecord(q, debug, url);
      TrackObject(a).Keys == TrackObject(b).Keys
      && a.artist == b.artist && a.title == b.title && a.fileformat == b.fileformat && a.filepath == b.filepath
  {
  }

  // ---------------------------------------------------------------------
  // Radio stations
  // ---------------------------------------------------------------------

  /** The fields of a station record; the five URLs are there only on request. */
  datatype StationRecord = StationRecord(link: Json, name: Json, artwork: Json, urls: Option<StationUrls>)

  datatype StationUrls = StationUrls(url: Json, nowPlayingUrl: Json, nowPlayingJq: Json, nowPlayingArtworkUrl: Json, nowPlayingArtworkJq: Json)

  const StationKeys: set<string> := {"link", "name", "artwork"}

  const StationUrlKeys: set<string> := {"url", "now_playing_url", "now_playing_jq", "now_playing_artwork_url", "now_playing_artwork_jq"}

  /** The record as the JSON object the API returns: one key per field, each holding that field. */
  function StationObject(s: StationRecord): (r: map<string, Json>)
    ensures r.Keys == StationKeys + (if s.urls.Some? then StationUrlKeys else {})
    ensures r["link"] == s.link && r["name"] == s.name && r["artwork"] == s.artwork
    ensures s.urls.Some? ==> (r["url"] == s.urls.value.url && r["now_playing_url"] == s.urls.value.nowPlayingUrl
      && r["now_playing_jq"] == s.urls.value.nowPlayingJq && r["now_playing_artwork_url"] == s.urls.value.nowPlayingArtworkUrl
      && r["now_playing_artwork_jq"] == s.urls.value.nowPlayingArtworkJq)
  {
    var base := map["link" := s.link, "name" := s.name, "artwork" := s.artwork];
    match s.urls
    case None => base
    case Some(u) =>
      base["url" := u.url]["now_playing_url" := u.nowPlayingUrl]["now_playing_jq" := u.nowPlayingJq]
        ["now_playing_artwork_url" := u.nowPlayingArtworkUrl]["now_playing_artwork_jq" := u.nowPlayingArtworkJq]
  }

  /** `json_radio_station`: link, name and artwork, and the station's five URLs only on request. */
  function JsonRadioStation(id: nat, s: RadioStation, includeUrls: bool, url: (Route, int) -> string): (r: StationRecord)
    ensures r.link == JStr(url(GetOneRadioStation, id)) && r.name == OptStr(s.name) && r.artwork == OptStr(s.artworkUrl)
    ensures r.urls.Some? <==> includeUrls
    ensures includeUrls ==> (r.urls.value.url == OptStr(s.url) && r.urls.value.nowPlayingUrl == OptStr(s.nowPlayingUrl)
      && r.urls.value.nowPlayingJq == OptStr(s.nowPlayingJq) && r.urls.value.nowPlayingArtworkUrl == OptStr(s.nowPlayingArtworkUrl)
      && r.urls.value.nowPlayingArtworkJq == OptStr(s.nowPlayingArtworkJq))
  {
    var urls := StationUrls(OptStr(s.url), OptStr(s.nowPlayingUrl), OptStr(s.nowPlayingJq), OptStr(s.nowPlayingArtworkUrl), OptStr(s.nowPlayingArtworkJq));
    StationRecord(JStr(url(GetOneRadioStation, id)), OptStr(s.name), OptStr(s.artworkUrl), if includeUrls then Some(urls) else None)
  }
}

=== FILE: table.dfy ===
/**
 * A database table whose rows are keyed by an SQLite INTEGER PRIMARY KEY.
 *
 * `bound` is a model device: it exceeds every key in use, so that queries
 * can visit the keys in ascending order the way an index scan on the
 * primary key does.
 */
module Table {
  import opened Common

  datatype RawTable<T> = RawTable(rows: map<nat, T>, bound: nat)

  predicate WellFormed<T>(t: RawTable<T>)
  {
    forall k :: k in t.rows ==> 0 < k < t.bound
  }

  type Table<T> = t: RawTable<T> | WellFormed(t) witness RawTable(map[], 1)

  function Empty<T>(): (t: Table<T>)
    ensures t.rows == map[]
  {
    RawTable(map[], 1)
  }

  predicate Increasing(xs: seq<nat>)
  {
    forall i, j :: 0 <= i < j < |xs| ==> xs[i] < xs[j]
  }

  // ---------------------------------------------------------------------
  // Row id allocation
  // ---------------------------------------------------------------------

  /** The largest key below `hi`, if any (`SELECT max(Id)`). */
  function MaxKeyBelow<T>(rows: map<nat, T>, hi: nat): (r: Option<nat>)
    ensures r.Some? ==> r.value < hi && r.value in rows
    ensures r.Some? ==> forall k :: k in rows && k < hi ==> k <= r.value
    ensures r.None? ==> forall k :: k in rows ==> k >= hi
  {
    if hi == 0 then None
    else if hi - 1 in rows then Some(hi - 1)
    else MaxKeyBelow(rows, hi - 1)
  }

  /** The largest key of the table, None when the table is empty. */
  function MaxKey<T>(t: Table<T>): (r: Option<nat>)
    ensures r.None? <==> t.rows == map[]
    ensures r.Some? ==> r.value in t.rows && forall k :: k in t.rows ==> k <= r.value
  {
    var r := MaxKeyBelow(t.rows, t.bound);
    assert r.None? ==> t.rows.Keys == {};
    r
  }

  /**
   * The key SQLite gives a row inserted without one: one more than the
   * largest key in use, or 1 in an empty table.
   */
  function NextId<T>(t: Table<T>): (id: nat)
    ensures 0 < id && id !in t.rows
    ensures forall k :: k in t.rows ==> k < id
    ensures t.rows == map[] ==> id == 1
  {
    match MaxKey(t)
    case None => 1
    case Some(m) => m + 1
  }

  /** Adds `row` under a fresh key and returns the key. */
  function Insert<T>(t: Table<T>, row: T): (r: (Table<T>, nat))
    ensures r.1 == NextId(t) && r.1 !in t.rows
    ensures r.0.rows == t.rows[r.1 := row]
    ensures |r.0.rows| == |t.rows| + 1
  {
    var id := NextId(t);
    (RawTable(t.rows[id := row], if id + 1 > t.bound then id + 1 else t.bound), id)
  }

  function Update<T>(t: Table<T>, id: nat, row: T): (r: Table<T>)
    requires id in t.rows
    ensures r.rows == t.rows[id := row]
    ensures |r.rows| == |t.rows|
  {
    RawTable(t.rows[id := row], t.bound)
  }

  function Remove<T>(t: Table<T>, id: nat): (r: Table<T>)
    ensures r.rows == t.rows - {id}
  {
    RawTable(t.rows - {id}, t.bound)
  }

  // ---------------------------------------------------------------------
  // Queries
  // ---------------------------------------------------------------------

  /** The keys in [lo, hi) whose rows satisfy `p`, in ascending order. */
  function SelectRange<T>(rows: map<nat, T>, p: (nat, T) -> bool, lo: nat, hi: nat): seq<nat>
    decreases hi - lo
  {
    if lo >= hi then []
    else (if lo in rows && p(lo, rows[lo]) then [lo] else []) + SelectRange(rows, p, lo + 1, hi)
  }

  lemma {:induction false} SelectRangeSpec<T>(rows: map<nat, T>, p: (nat, T) -> bool, lo: nat, hi: nat)
    ensures forall k :: k in SelectRange(rows, p, lo, hi) <==> lo <= k < hi && k in rows && p(k, rows[k])
    ensures SelectRange(rows, p, lo, hi) == [] <==> forall k :: lo <= k < hi && k in rows ==> !p(k, rows[k])
    ensures Increasing(SelectRange(rows, p, lo, hi))
    decreases hi - lo
  {
    if lo < hi {
      SelectRangeSpec(rows, p, lo + 1, hi);
      var rest := SelectRange(rows, p, lo + 1, hi);
      assert SelectRange(rows, p, lo, hi) == (if lo in rows && p(lo, rows[lo]) then [lo] else []) + rest;
      ConsMembers(rows, p, lo, hi, rest);
      ConsEmpty(rows, p, lo, hi, rest);
      ConsIncreasing(lo, lo in rows && p(lo, rows[lo]), rest);
    }
  }

  /** One step of the scan: `lo` is selected exactly when it qualifies, and the keys above it as before. */
  lemma ConsMembers<T>(rows: map<nat, T>, p: (nat, T) -> bool, lo: nat, hi: nat, rest: seq<nat>)
    requires lo < hi
    requires forall k :: k in rest <==> lo + 1 <= k < hi && k in rows && p(k, rows[k])
    ensures var r := (if lo in rows && p(lo, rows[lo]) then [lo] else []) + rest;
      forall k :: k in r <==> lo <= k < hi && k in rows && p(k, rows[k])
  {
    var r := (if lo in rows && p(lo, rows[lo]) then [lo] else []) + rest;
    forall k ensures k in r <==> lo <= k < hi && k in rows && p(k, rows[k]) {
      assert k in r <==> (k == lo && lo in rows && p(lo, rows[lo])) || k in rest;
    }
  }

  /** One step of the scan: nothing is selected exactly when no key from `lo` on qualifies. */
  lemma ConsEmpty<T>(rows: map<nat, T>, p: (nat, T) -> bool, lo: nat, hi: nat, rest: seq<nat>)
    requires lo < hi
    requires rest == [] <==> forall k :: lo + 1 <= k < hi && k in rows ==> !p(k, rows[k])
    ensures var r := (if lo in rows && p(lo, rows[lo]) then [lo] else []) + rest;
      r == [] <==> forall k :: lo <= k < hi && k in rows ==> !p(k, rows[k])
  {
  }

  /** One step of the scan: `lo` goes before every key selected above it. */
  lemma ConsIncreasing(lo: nat, selected: bool, rest: seq<nat>)
    requires forall k :: k in rest ==> lo < k
    requires Increasing(rest)
    ensures Increasing((if selected then [lo] else []) + rest)
  {
    AllAbove(rest, lo);
    var r := (if selected then [lo] else []) + rest;
    if selected {
      forall i, j | 0 <= i < j < |r| ensures r[i] < r[j] {
        assert r[j] == rest[j - 1];
        if i > 0 {
          assert r[i] == rest[i - 1];
        }
      }
    } else {
      assert r == rest;
    }
  }

  lemma AllAbove(xs: seq<nat>, lo: nat)
    requires forall k :: k in xs ==> lo < k
    ensures forall j :: 0 <= j < |xs| ==> lo < xs[j]
  {
    forall j | 0 <= j < |xs|
      ensures lo < xs[j]
    {
      assert xs[j] in xs;
    }
  }

  /** `SELECT Id FROM t WHERE p ORDER BY Id`. */
  function Select<T>(t: Table<T>, p: (nat, T) -> bool): (r: seq<nat>)
    ensures forall k :: k in r <==> k in t.rows && p(k, t.rows[k])
    ensures r == [] <==> forall k :: k in t.rows ==> !p(k, t.rows[k])
    ensures Increasing(r)
  {
    SelectRangeSpec(t.rows, p, 0, t.bound);
    SelectRange(t.rows, p, 0, t.bound)
  }

  /** Adjacent windows of the key space compose. */
  lemma {:induction false} SelectRangeSplit<T>(rows: map<nat, T>, p: (nat, T) -> bool, lo: nat, mid: nat, hi: nat)
    requires lo <= mid <= hi
    ensures SelectRange(rows, p, lo, hi) == SelectRange(rows, p, lo, mid) + SelectRange(rows, p, mid, hi)
    decreases mid - lo
  {
    if lo < mid {
      SelectRangeSplit(rows, p, lo + 1, mid, hi);
    }
  }

  function Keys(xs: seq<nat>): set<nat>
  {
    set k | k in xs
  }

  /** An increasing key list has as many entries as distinct keys. */
  lemma {:induction false} IncreasingCard(xs: seq<nat>)
    requires Increasing(xs)
    ensures |Keys(xs)| == |xs|
  {
    if |xs| > 0 {
      var tail := xs[1..];
      assert Increasing(tail) by {
        forall i, j | 0 <= i < j < |tail|
          ensures tail[i] < tail[j]
        {
          assert tail[i] == xs[i + 1] && tail[j] == xs[j + 1];
        }
      }
      IncreasingCard(tail);
      assert xs[0] !in Keys(tail) by {
        forall j | 0 <= j < |tail|
          ensures tail[j] != xs[0]
        {
          assert tail[j] == xs[j + 1];
        }
      }
      assert Keys(xs) == Keys(tail) + {xs[0]};
    }
  }

  /** A query returns one key per matching row. */
  lemma SelectCount<T>(t: Table<T>, p: (nat, T) -> bool)
    ensures |Select(t, p)| == |t.rows.Keys * Keys(Select(t, p))|
    ensures Keys(Select(t, p)) == set k | k in t.rows && p(k, t.rows[k])
  {
    var r := Select(t, p);
    IncreasingCard(r);
    assert Keys(r) <= t.rows.Keys;
    assert t.rows.Keys * Keys(r) == Keys(r);
  }
}

=== FILE: tidy.dfy ===
/**
 * The library clean-up passes: tracks whose file has gone, albums left
 * without tracks, and the artwork and genre passes that delete whatever
 * their selection query returns.
 */
module Tidy {
  import opened Common
  import opened Table
  import opened Schema
  import opened Database

  const QuerySize: nat := 100

  /** A track the walk marks for deletion: its file is not there. */
  predicate Missing(t: Track, isFile: string -> bool)
  {
    t.filepath.Some? && !isFile(t.filepath.value)
  }

  /** Every track below `start` has been seen and has a file path. */
  predicate SeenBelow(c: Catalog, start: int)
  {
    forall id :: id in c.tracks.rows && id < start ==> c.tracks.rows[id].filepath.Some?
  }

  ghost predicate MarkedBelow(c: Catalog, isFile: string -> bool, start: int, marked: seq<nat>)
  {
    forall id :: id in marked <==> id in c.tracks.rows && id < start && Missing(c.tracks.rows[id], isFile)
  }

  predicate AllBelow(xs: seq<nat>, bound: int)
  {
    forall k :: 0 <= k < |xs| ==> xs[k] < bound
  }

  /**
   * The walk of `delete_missing_tracks`: pages of 100 ids from 0 until the
   * pager says the ids are exhausted, collecting the ids of tracks whose
   * file is missing. A track without a path makes `os.path.isfile` raise
   * TypeError. `isFile` stands for the file system.
   */
  method CollectMissing(c: Catalog, isFile: string -> bool) returns (r: Result<seq<nat>>)
    ensures r.Err? <==> exists id :: id in c.tracks.rows && c.tracks.rows[id].filepath.None?
    ensures r.Ok? ==> Increasing(r.value)
    ensures r.Ok? ==> forall id :: id in r.value <==> id in c.tracks.rows && Missing(c.tracks.rows[id], isFile)
  {
    var marked: seq<nat> := [];
    var start: nat := 0;
    while GetAllTracksPaged(c, start, QuerySize).Some?
      invariant SeenBelow(c, start)
      invariant MarkedBelow(c, isFile, start, marked)
      invariant Increasing(marked) && AllBelow(marked, start)
      decreases c.tracks.bound - start
    {
      var next := ScanPage(c, isFile, start, marked);
      if next.Err? {
        return next;
      }
      marked := next.value;
      NextStartBelowBound(c, start);
      start := start + QuerySize;
    }
    assert forall id :: id in c.tracks.rows ==> id < start;
    return Ok(marked);
  }

  /** The position of the next row to visit, or the window's end once all are visited. */
  function Reached(window: seq<nat>, i: nat, start: nat): nat
  {
    if i < |window| then window[i] else start + QuerySize
  }

  /** What the walk knows once it has visited every track below `bound`. */
  ghost predicate WalkedTo(c: Catalog, isFile: string -> bool, bound: nat, marked: seq<nat>)
  {
    SeenBelow(c, bound) && MarkedBelow(c, isFile, bound, marked) && Increasing(marked) && AllBelow(marked, bound)
  }

  /** One page of the walk, `for track in tracks:`. */
  method ScanPage(c: Catalog, isFile: string -> bool, start: nat, marked: seq<nat>) returns (r: Result<seq<nat>>)
    requires GetAllTracksPaged(c, start, QuerySize).Some?
    requires WalkedTo(c, isFile, start, marked)
    ensures r.Err? ==> exists id :: id in c.tracks.rows && c.tracks.rows[id].filepath.None?
    ensures r.Ok? ==> WalkedTo(c, isFile, start + QuerySize, r.value)
  {
    var page := GetAllTracksPaged(c, start, QuerySize).value;
    ghost var window := Window(c, start, QuerySize);
    EnterPage(c, isFile, start, marked);
    var acc := marked;
    var i := 0;
    while i < |page|
      invariant 0 <= i <= |page|
      invariant WalkedTo(c, isFile, Reached(window, i, start), acc)
    {
      var (id, track) := page[i];
      assert id == window[i] && id in c.tracks.rows && track == c.tracks.rows[id];
      if track.filepath.None? {
        return Err(TypeError);
      }
      var acc' := if !isFile(track.filepath.value) then acc + [id] else acc;
      AdvanceRow(c, isFile, start, i, acc, acc');
      acc := acc';
      i := i + 1;
    }
    return Ok(acc);
  }

  lemma EnterPage(c: Catalog, isFile: string -> bool, start: nat, marked: seq<nat>)
    requires WalkedTo(c, isFile, start, marked)
    ensures WalkedTo(c, isFile, Reached(Window(c, start, QuerySize), 0, start), marked)
  {
    var window := Window(c, start, QuerySize);
    WindowGaps(c, start, 0);
    var bound := Reached(window, 0, start);
    if 0 < |window| {
      assert window[0] in window;
    }
    assert start <= bound;
    forall k | k in c.tracks.rows && k < bound
      ensures k < start
    {
    }
  }

  lemma AdvanceRow(c: Catalog, isFile: string -> bool, start: nat, i: nat, acc: seq<nat>, acc': seq<nat>)
    requires i < |Window(c, start, QuerySize)|
    requires WalkedTo(c, isFile, Reached(Window(c, start, QuerySize), i, start), acc)
    requires var id := Window(c, start, QuerySize)[i];
      && id in c.tracks.rows && c.tracks.rows[id].filepath.Some?
      && acc' == if Missing(c.tracks.rows[id], isFile) then acc + [id] else acc
    ensures WalkedTo(c, isFile, Reached(Window(c, start, QuerySize), i + 1, start), acc')
  {
    var window := Window(c, start, QuerySize);
    var id := window[i];
    WindowGaps(c, start, i + 1);
    var bound := Reached(window, i + 1, start);
    assert id in window;
    if i + 1 < |window| {
      assert window[i + 1] in window;
    }
    WalkStep(c, isFile, id, bound, acc, acc');
  }

  /** Visiting track `id` with no track between it and `bound` carries the walk to `bound`. */
  lemma WalkStep(c: Catalog, isFile: string -> bool, id: nat, bound: nat, acc: seq<nat>, acc': seq<nat>)
    requires WalkedTo(c, isFile, id, acc)
    requires id in c.tracks.rows && c.tracks.rows[id].filepath.Some? && id < bound
    requires forall k :: id + 1 <= k < bound ==> k !in c.tracks.rows
    requires acc' == if Missing(c.tracks.rows[id], isFile) then acc + [id] else acc
    ensures WalkedTo(c, isFile, bound, acc')
  {
    forall k | k in c.tracks.rows && k < bound
      ensures k <= id
    {
    }
  }

  /**
   * Between two consecutive ids of a window, and before its first and after
   * its last, there is no track.
   */
  lemma WindowGaps(c: Catalog, start: nat, i: nat)
    requires i <= |Window(c, start, QuerySize)|
    ensures var window := Window(c, start, QuerySize);
      var from := if i == 0 then start else window[i - 1] + 1;
      forall k :: from <= k < Reached(window, i, start) ==> k !in c.tracks.rows
  {
    var window := Window(c, start, QuerySize);
    var from := if i == 0 then start else window[i - 1] + 1;
    forall k | from <= k < Reached(window, i, start)
      ensures k !in c.tracks.rows
    {
      if i > 0 {
        assert window[i - 1] in window;
      }
      if i < |window| {
        assert window[i] in window;
      }
      NotBetween(window, i, k);
    }
  }

  /** A value strictly between two neighbours of an increasing sequence is not in it. */
  lemma NotBetween(w: seq<nat>, i: nat, k: nat)
    requires Increasing(w) && i <= |w|
    requires i > 0 ==> w[i - 1] < k
    requires i < |w| ==> k < w[i]
    ensures k !in w
  {
    forall j | 0 <= j < |w|
      ensures w[j] != k
    {
      if j < i {
        assert w[j] <= w[i - 1];
      } else {
        assert w[i] <= w[j];
      }
    }
  }

  /** While the pager still returns a page, `start` is below the table's bound. */
  lemma NextStartBelowBound(c: Catalog, start: int)
    requires GetAllTracksPaged(c, start, QuerySize).Some?
    ensures start < c.tracks.bound
  {
    if start >= c.tracks.bound {
      assert forall k :: k in c.tracks.rows ==> !InWindow(k, start, QuerySize) && k < start;
    }
  }

  /** The tracks a sequence of deletions has removed so far. */
  predicate DeletedExactly(c: Catalog, d: Catalog, gone: set<nat>)
  {
    && d.tracks.rows.Keys == c.tracks.rows.Keys - gone
    && (forall t :: t in d.tracks.rows ==> d.tracks.rows[t] == c.tracks.rows[t])
    && d.albums == c.albums && d.genres == c.genres && d.playlists == c.playlists && d.stations == c.stations
    && d.artworks.rows.Keys <= c.artworks.rows.Keys
    && (forall a :: a in d.artworks.rows ==> d.artworks.rows[a] == c.artworks.rows[a])
  }

  /** An artwork still shown by a remaining track survives. */
  predicate ShownArtworkKept(c: Catalog, d: Catalog)
  {
    forall t :: t in d.tracks.rows && d.tracks.rows[t].artwork.Some? && d.tracks.rows[t].artwork.value in c.artworks.rows
      ==> d.tracks.rows[t].artwork.value in d.artworks.rows
  }

  /** Deletes the listed tracks one by one with `delete_track`. */
  method DeleteTracks(c: Catalog, ids: seq<nat>) returns (d: Catalog)
    requires Increasing(ids)
    requires forall id :: id in ids ==> id in c.tracks.rows
    ensures DeletedExactly(c, d, Keys(ids))
    ensures ShownArtworkKept(c, d)
  {
    d := c;
    var i := 0;
    while i < |ids|
      invariant 0 <= i <= |ids|
      invariant DeletedExactly(c, d, Keys(ids[..i]))
      invariant ShownArtworkKept(c, d)
    {
      var id := ids[i];
      assert id !in Keys(ids[..i]);
      assert HasId(d.tracks, id);
      var next := DeleteTrack(d, id).value;
      assert Keys(ids[..i + 1]) == Keys(ids[..i]) + {id};
      d := next;
      i := i + 1;
    }
    assert ids[..|ids|] == ids;
  }

  /**
   * `delete_missing_tracks`: exactly the tracks whose file is missing are
   * deleted, the rest keep their ids and rows, and an artwork goes only when
   * no remaining track shows it. The deletions follow the complete walk, so
   * every page is read from the unmodified catalog.
   */
  method DeleteMissingTracks(c: Catalog, isFile: string -> bool) returns (r: Result<Catalog>)
    ensures r.Err? <==> exists id :: id in c.tracks.rows && c.tracks.rows[id].filepath.None?
    ensures r.Ok? ==> forall id :: id in r.value.tracks.rows <==> id in c.tracks.rows && !Missing(c.tracks.rows[id], isFile)
    ensures r.Ok? ==> forall id :: id in r.value.tracks.rows ==> r.value.tracks.rows[id] == c.tracks.rows[id]
    ensures r.Ok? ==> r.value.albums == c.albums && r.value.genres == c.genres && r.value.playlists == c.playlists
    ensures r.Ok? ==> r.value.artworks.rows.Keys <= c.artworks.rows.Keys && ShownArtworkKept(c, r.value)
  {
    var marked := CollectMissing(c, isFile);
    if marked.Err? {
      return Err(marked.error);
    }
    var d := DeleteTracks(c, marked.value);
    return Ok(d);
  }

  // ---------------------------------------------------------------------
  // Albums, artwork and genres
  // ---------------------------------------------------------------------

  /**
   * `delete_albums_without_tracks`: exactly the albums without tracks are
   * deleted; since none of them has a track, no track changes.
   */
  method DeleteAlbumsWithoutTracks(c: Catalog) returns (d: Catalog)
    ensures forall a :: a in d.albums.rows <==> a in c.albums.rows && AlbumTracks(c, a) != []
    ensures forall a :: a in d.albums.rows ==> d.albums.rows[a] == c.albums.rows[a]
    ensures d.tracks == c.tracks && d.artworks == c.artworks && d.genres == c.genres
    ensures d.playlists == c.playlists && d.stations == c.stations
  {
    var empty := GetAlbumsWithoutTracks(c);
    d := c;
    var i := 0;
    while i < |empty|
      invariant 0 <= i <= |empty|
      invariant d.albums.rows.Keys == c.albums.rows.Keys - Keys(empty[..i])
      invariant forall a :: a in d.albums.rows ==> d.albums.rows[a] == c.albums.rows[a]
      invariant d.tracks == c.tracks && d.artworks == c.artworks && d.genres == c.genres
      invariant d.playlists == c.playlists && d.stations == c.stations
    {
      EmptyAlbumStep(c, d, empty, i);
      d := DeleteAlbum(d, empty[i]).value;
      i := i + 1;
    }
    EmptyAlbumsGone(c, d, empty);
  }

  /** Once every listed album is deleted, the albums left are exactly those with tracks. */
  lemma EmptyAlbumsGone(c: Catalog, d: Catalog, empty: seq<nat>)
    requires forall a :: a in empty <==> a in c.albums.rows && AlbumTracks(c, a) == []
    requires d.albums.rows.Keys == c.albums.rows.Keys - Keys(empty[..|empty|])
    ensures forall a :: a in d.albums.rows <==> a in c.albums.rows && AlbumTracks(c, a) != []
  {
    assert empty[..|empty|] == empty;
  }

  /** One step of the album pass: deleting the next listed album keeps the loop's invariants. */
  lemma EmptyAlbumStep(c: Catalog, d: Catalog, empty: seq<nat>, i: nat)
    requires i < |empty| && Increasing(empty)
    requires forall a :: a in empty ==> a in c.albums.rows && AlbumTracks(c, a) == []
    requires d.albums.rows.Keys == c.albums.rows.Keys - Keys(empty[..i])
    requires forall a :: a in d.albums.rows ==> d.albums.rows[a] == c.albums.rows[a]
    requires d.tracks == c.tracks && d.artworks == c.artworks && d.genres == c.genres
    requires d.playlists == c.playlists && d.stations == c.stations
    ensures var e := DeleteAlbum(d, empty[i]);
      e.Ok?
      && e.value.albums.rows.Keys == c.albums.rows.Keys - Keys(empty[..i + 1])
      && (forall a :: a in e.value.albums.rows ==> e.value.albums.rows[a] == c.albums.rows[a])
      && e.value.tracks == c.tracks && e.value.artworks == c.artworks && e.value.genres == c.genres
      && e.value.playlists == c.playlists && e.value.stations == c.stations
  {
    var id := empty[i];
    assert id in empty;
    assert id !in Keys(empty[..i]);
    assert AlbumTracks(d, id) == AlbumTracks(c, id);
    DeleteEmptyAlbum(d, id);
    assert empty[..i + 1] == empty[..i] + [id];
    assert Keys(empty[..i + 1]) == Keys(empty[..i]) + {id};
  }

  /** Deleting an album no track refers to removes its row and nothing else. */
  lemma DeleteEmptyAlbum(d: Catalog, id: nat)
    requires id in d.albums.rows && AlbumTracks(d, id) == []
    ensures DeleteAlbum(d, id) == Ok(d.(albums := Remove(d.albums, id)))
  {
    assert DeleteAlbumRow(d, id).tracks.rows == d.tracks.rows;
  }

  /**
   * `delete_artwork_without_tracks`, for the rows the selection returned:
   * each is deleted with its Artwork.Tracks cascade. A selected id that is
   * not (or no longer) in the table stops the pass with NotFound.
   */
  method DeleteSelectedArtwork(c: Catalog, selected: seq<nat>) returns (r: Result<Catalog>)
    ensures NoDuplicates(selected) && (forall a :: a in selected ==> a in c.artworks.rows) ==> r.Ok?
    ensures r.Ok? ==> forall a :: a in r.value.artworks.rows <==> a in c.artworks.rows && a !in selected
    ensures r.Ok? ==> forall t :: t in r.value.tracks.rows <==> t in c.tracks.rows && !ShowsOneOf(c.tracks.rows[t], selected)
    ensures r.Ok? ==> r.value.albums == c.albums && r.value.genres == c.genres && r.value.playlists == c.playlists
  {
    var d := c;
    var i := 0;
    while i < |selected|
      invariant 0 <= i <= |selected|
      invariant forall a :: a in d.artworks.rows <==> a in c.artworks.rows && a !in selected[..i]
      invariant forall t :: t in d.tracks.rows <==> t in c.tracks.rows && !ShowsOneOf(c.tracks.rows[t], selected[..i])
      invariant forall t :: t in d.tracks.rows ==> d.tracks.rows[t] == c.tracks.rows[t]
      invariant d.albums == c.albums && d.genres == c.genres && d.playlists == c.playlists
    {
      var id := selected[i];
      var next := DeleteArtwork(d, id);
      if next.Err? {
        return Err(next.error);
      }
      assert selected[..i + 1] == selected[..i] + [id];
      d := next.value;
      i := i + 1;
    }
    assert selected[..|selected|] == selected;
    return Ok(d);
  }

  predicate ShowsOneOf(t: Track, artworks: seq<nat>)
  {
    t.artwork.Some? && t.artwork.value in artworks
  }

  /** When the selection holds only artwork without tracks, no track is deleted. */
  lemma UnusedArtworkKeepsTracks(c: Catalog, selected: seq<nat>, t: nat)
    requires forall a :: a in selected ==> ArtworkTracks(c, a) == []
    requires t in c.tracks.rows
    ensures !ShowsOneOf(c.tracks.rows[t], selected)
  {
  }

  /**
   * `delete_empty_genres`, for the rows the selection returned: each genre
   * is deleted with its album and playlist associations.
   */
  method DeleteSelectedGenres(c: Catalog, selected: seq<nat>) returns (r: Result<Catalog>)
    ensures NoDuplicates(selected) && (forall g :: g in selected ==> g in c.genres.rows) ==> r.Ok?
    ensures r.Ok? ==> forall g :: g in r.value.genres.rows <==> g in c.genres.rows && g !in selected
    ensures r.Ok? ==> r.value.albums.rows.Keys == c.albums.rows.Keys && r.value.playlists.rows.Keys == c.playlists.rows.Keys
    ensures r.Ok? ==> forall a, g :: a in r.value.albums.rows && g in selected ==> g !in r.value.albums.rows[a].genres
    ensures r.Ok? ==> forall a, g :: a in r.value.albums.rows && g !in selected ==> (g in r.value.albums.rows[a].genres <==> g in c.albums.rows[a].genres)
    ensures r.Ok? ==> forall p, g :: p in r.value.playlists.rows && g in selected ==> g !in r.value.playlists.rows[p].genres
    ensures r.Ok? ==> forall p, g :: p in r.value.playlists.rows && g !in selected ==> (g in r.value.playlists.rows[p].genres <==> g in c.playlists.rows[p].genres)
    // apart from their genre lists, the remaining rows are untouched
    ensures r.Ok? ==> forall a :: a in r.value.albums.rows ==> r.value.albums.rows[a].(genres := []) == c.albums.rows[a].(genres := [])
    ensures r.Ok? ==> forall p :: p in r.value.playlists.rows ==> r.value.playlists.rows[p].(genres := []) == c.playlists.rows[p].(genres := [])
    ensures r.Ok? ==> forall g :: g in r.value.genres.rows ==> r.value.genres.rows[g] == c.genres.rows[g]
    ensures r.Ok? ==> r.value.tracks == c.tracks && r.value.artworks == c.artworks && r.value.stations == c.stations
  {
    r := DeleteGenresInTurn(c, selected);
    if r.Ok? {
      GenresDeletedMeans(c, r.value, selected);
    }
  }

  /** The loop of `delete_empty_genres`, one DeleteGenre per selected id, stopping at the first failure. */
  function DeleteGenresInTurn(c: Catalog, selected: seq<nat>): (r: Result<Catalog>)
    ensures NoDuplicates(selected) && (forall g :: g in selected ==> g in c.genres.rows) ==> r.Ok?
    ensures r.Ok? ==> GenresDeleted(c, r.value, selected)
    decreases |selected|
  {
    if selected == [] then Ok(c)
    else
      match DeleteGenre(c, selected[0])
      case Err(e) => Err(e)
      case Ok(d) =>
        var r := DeleteGenresInTurn(d, selected[1..]);
        OneGenreDeleted(c, selected[0]);
        RestStillPresent(c, selected);
        if r.Ok? then
          GenresDeletedCompose(c, d, r.value, [selected[0]], selected[1..]);
          assert [selected[0]] + selected[1..] == selected;
          r
        else r
  }

  /** Deleting one genre is a genre pass over `[id]`. */
  lemma OneGenreDeleted(c: Catalog, id: nat)
    requires DeleteGenre(c, id).Ok?
    ensures GenresDeleted(c, DeleteGenre(c, id).value, [id])
  {
    var d := DeleteGenreRow(c, id);
    forall a, g | a in d.albums.rows ensures g in d.albums.rows[a].genres <==> g in c.albums.rows[a].genres && g != id {
      assert d.albums.rows[a].genres == Without(c.albums.rows[a].genres, id);
    }
    forall p, g | p in d.playlists.rows ensures g in d.playlists.rows[p].genres <==> g in c.playlists.rows[p].genres && g != id {
      assert d.playlists.rows[p].genres == Without(c.playlists.rows[p].genres, id);
    }
  }

  /** Two genre passes in a row make one over both selections. */
  lemma GenresDeletedCompose(c: Catalog, d: Catalog, e: Catalog, xs: seq<nat>, ys: seq<nat>)
    requires GenresDeleted(c, d, xs) && GenresDeleted(d, e, ys)
    ensures GenresDeleted(c, e, xs + ys)
  {
    forall a, g | a in e.albums.rows && g in xs + ys ensures g !in e.albums.rows[a].genres {
      if g !in ys {
        assert g in xs;
      }
    }
    forall p, g | p in e.playlists.rows && g in xs + ys ensures g !in e.playlists.rows[p].genres {
      if g !in ys {
        assert g in xs;
      }
    }
  }

  /** When every selected genre exists once, the rest still exist after the first is deleted. */
  lemma RestStillPresent(c: Catalog, selected: seq<nat>)
    requires |selected| > 0 && DeleteGenre(c, selected[0]).Ok?
    ensures NoDuplicates(selected) && (forall g :: g in selected ==> g in c.genres.rows) ==>
      NoDuplicates(selected[1..]) && forall g :: g in selected[1..] ==> g in DeleteGenre(c, selected[0]).value.genres.rows
  {
    if NoDuplicates(selected) && (forall g :: g in selected ==> g in c.genres.rows) {
      forall g | g in selected[1..] ensures g in DeleteGenre(c, selected[0]).value.genres.rows {
        var k :| 1 <= k < |selected| && selected[k] == g;
        assert selected[k] != selected[0];
      }
    }
  }

  lemma GenresDeletedMeans(c: Catalog, d: Catalog, done: seq<nat>)
    requires GenresDeleted(c, d, done)
    ensures forall g :: g in d.genres.rows <==> g in c.genres.rows && g !in done
    ensures d.albums.rows.Keys == c.albums.rows.Keys && d.playlists.rows.Keys == c.playlists.rows.Keys
    ensures forall a, g :: a in d.albums.rows && g in done ==> g !in d.albums.rows[a].genres
    ensures forall a, g :: a in d.albums.rows && g !in done ==> (g in d.albums.rows[a].genres <==> g in c.albums.rows[a].genres)
    ensures forall p, g :: p in d.playlists.rows && g in done ==> g !in d.playlists.rows[p].genres
    ensures forall p, g :: p in d.playlists.rows && g !in done ==> (g in d.playlists.rows[p].genres <==> g in c.playlists.rows[p].genres)
    ensures forall a :: a in d.albums.rows ==> d.albums.rows[a].(genres := []) == c.albums.rows[a].(genres := [])
    ensures forall p :: p in d.playlists.rows ==> d.playlists.rows[p].(genres := []) == c.playlists.rows[p].(genres := [])
    ensures forall g :: g in d.genres.rows ==> d.genres.rows[g] == c.genres.rows[g]
    ensures d.tracks == c.tracks && d.artworks == c.artworks && d.stations == c.stations
  {
  }

  /** What deleting the genres `done` leaves of `c` in `d`. */
  ghost predicate GenresDeleted(c: Catalog, d: Catalog, done: seq<nat>)
  {
    (forall g :: g in d.genres.rows <==> g in c.genres.rows && g !in done)
    && d.albums.rows.Keys == c.albums.rows.Keys && d.playlists.rows.Keys == c.playlists.rows.Keys
    && (forall a, g :: a in d.albums.rows && g in done ==> g !in d.albums.rows[a].genres)
    && (forall a, g :: a in d.albums.rows && g !in done ==> (g in d.albums.rows[a].genres <==> g in c.albums.rows[a].genres))
    && (forall p, g :: p in d.playlists.rows && g in done ==> g !in d.playlists.rows[p].genres)
    && (forall p, g :: p in d.playlists.rows && g !in done ==> (g in d.playlists.rows[p].genres <==> g in c.playlists.rows[p].genres))
    && (forall a :: a in d.albums.rows ==> d.albums.rows[a].(genres := []) == c.albums.rows[a].(genres := []))
    && (forall p :: p in d.playlists.rows ==> d.playlists.rows[p].(genres := []) == c.playlists.rows[p].(genres := []))
    && (forall g :: g in d.genres.rows ==> d.genres.rows[g] == c.genres.rows[g])
    && d.tracks == c.tracks && d.artworks == c.artworks && d.stations == c.stations
  }
}

=== FILE: trackorder.dfy ===
/**
 * The order in which an album's tracks are listed and played: by
 * (VolumeNumber or 0, TrackNumber or 0), keeping the order of the tracks
 * that share a key, as Python's stable `sorted` does.
 */
module TrackOrder {
  import opened Common
  import opened Schema

  /** A stored track: its id and its row. */
  type Row = (nat, Track)

  /** Python's `n or 0`. */
  function OrZero(n: Option<int>): int
  {
    if n.Some? then n.value else 0
  }

  function Key(t: Track): (int, int)
  {
    (OrZero(t.volumeNumber), OrZero(t.trackNumber))
  }

  /** Tuple comparison. */
  predicate KeyLe(a: (int, int), b: (int, int))
  {
    a.0 < b.0 || (a.0 == b.0 && a.1 <= b.1)
  }

  /** Ordered by key, and by id among rows with the same key. */
  predicate RowLe(a: Row, b: Row)
  {
    KeyLe(Key(a.1), Key(b.1)) && (Key(a.1) == Key(b.1) ==> a.0 <= b.0)
  }

  predicate SortedByKey(rs: seq<Row>)
  {
    forall i, j :: 0 <= i < j < |rs| ==> KeyLe(Key(rs[i].1), Key(rs[j].1))
  }

  predicate SortedByKeyThenId(rs: seq<Row>)
  {
    forall i, j :: 0 <= i < j < |rs| ==> RowLe(rs[i], rs[j])
  }

  predicate IncreasingIds(rs: seq<Row>)
  {
    forall i, j :: 0 <= i < j < |rs| ==> rs[i].0 < rs[j].0
  }

  /** Places `x` after every row whose key is not greater than its own. */
  function Insert(s: seq<Row>, x: Row): (r: seq<Row>)
    ensures multiset(r) == multiset(s) + multiset{x}
    ensures |r| == |s| + 1
  {
    if s == [] then [x]
    else if KeyLe(Key(s[|s| - 1].1), Key(x.1)) then s + [x]
    else
      assert s == s[..|s| - 1] + [s[|s| - 1]];
      Insert(s[..|s| - 1], x) + [s[|s| - 1]]
  }

  /** `sorted(tracks, key=…)`: insertion of each row in turn. */
  function SortTracks(xs: seq<Row>): (r: seq<Row>)
    ensures multiset(r) == multiset(xs)
    ensures |r| == |xs|
  {
    if xs == [] then []
    else
      assert xs == xs[..|xs| - 1] + [xs[|xs| - 1]];
      Insert(SortTracks(xs[..|xs| - 1]), xs[|xs| - 1])
  }

  /** Inserting a row whose id is above every other keeps the order by key then id. */
  lemma {:induction false} InsertSorted(s: seq<Row>, x: Row)
    requires SortedByKeyThenId(s)
    requires forall y :: y in s ==> y.0 < x.0
    ensures SortedByKeyThenId(Insert(s, x))
  {
    if s == [] {
    } else if KeyLe(Key(s[|s| - 1].1), Key(x.1)) {
      var last := s[|s| - 1];
      forall i | 0 <= i < |s| ensures RowLe(s[i], x) {
        assert s[i] in s;
        if i < |s| - 1 {
          assert RowLe(s[i], last);
        }
      }
      AppendSorted(s, x);
      assert Insert(s, x) == s + [x];
    } else {
      var init := s[..|s| - 1];
      var last := s[|s| - 1];
      assert forall y :: y in init ==> y in s;
      InsertSorted(init, x);
      var r := Insert(init, x);
      forall k | 0 <= k < |init| ensures RowLe(init[k], last) {
        assert init[k] == s[k];
      }
      InsertBelow(init, x, last);
      AppendSorted(r, last);
      assert Insert(s, x) == r + [last];
    }
  }

  /** A bound on every row and on the inserted one bounds every row of the result. */
  lemma InsertBelow(s: seq<Row>, x: Row, last: Row)
    requires forall k :: 0 <= k < |s| ==> RowLe(s[k], last)
    requires RowLe(x, last)
    ensures forall i :: 0 <= i < |Insert(s, x)| ==> RowLe(Insert(s, x)[i], last)
  {
    var r := Insert(s, x);
    forall i | 0 <= i < |r| ensures RowLe(r[i], last) {
      assert r[i] in multiset(r);
      if r[i] != x {
        assert r[i] in multiset(s);
        var k :| 0 <= k < |s| && s[k] == r[i];
      }
    }
  }

  /** A row no smaller than every row of a sorted list can follow them. */
  lemma AppendSorted(r: seq<Row>, x: Row)
    requires SortedByKeyThenId(r)
    requires forall i :: 0 <= i < |r| ==> RowLe(r[i], x)
    ensures SortedByKeyThenId(r + [x])
  {
    var t := r + [x];
    forall i, j | 0 <= i < j < |t| ensures RowLe(t[i], t[j]) {
      assert t[i] == r[i];
      if j < |r| {
        assert t[j] == r[j];
      }
    }
  }

  /** Sorting rows listed in id order yields the order by key, then id. */
  lemma {:induction false} SortSorted(xs: seq<Row>)
    requires IncreasingIds(xs)
    ensures SortedByKeyThenId(SortTracks(xs))
  {
    if xs != [] {
      var init := xs[..|xs| - 1];
      var last := xs[|xs| - 1];
      SortSorted(init);
      forall y | y in SortTracks(init) ensures y.0 < last.0 {
        assert y in multiset(SortTracks(init));
        var k :| 0 <= k < |init| && init[k] == y;
      }
      InsertSorted(SortTracks(init), last);
    }
  }

  /** The result is ordered by key, holds the same rows, and equal keys keep id order. */
  lemma SortTracksSpec(xs: seq<Row>)
    requires IncreasingIds(xs)
    ensures var r := SortTracks(xs);
      multiset(r) == multiset(xs) && SortedByKey(r)
      && forall i, j :: 0 <= i < j < |r| && Key(r[i].1) == Key(r[j].1) ==> r[i].0 <= r[j].0
  {
    SortSorted(xs);
  }

  /** The rows of the album's tracks, in the rowid order assumed for the unordered load of Album.Tracks. */
  function AlbumRows(c: Catalog, albumId: nat): (r: seq<Row>)
    ensures IncreasingIds(r)
    ensures forall i :: 0 <= i < |r| ==> r[i].0 in c.tracks.rows && r[i].1 == c.tracks.rows[r[i].0] && r[i].1.album == Some(albumId)
    ensures forall t :: t in c.tracks.rows && c.tracks.rows[t].album == Some(albumId) ==> (t, c.tracks.rows[t]) in r
  {
    var ids := AlbumTracks(c, albumId);
    var r := seq(|ids|, i requires 0 <= i < |ids| => (ids[i], c.tracks.rows[ids[i]]));
    RowsCoverIds(c, ids, r);
    r
  }

  /** Pairing each listed id with its row lists the row of every listed id. */
  lemma RowsCoverIds(c: Catalog, ids: seq<nat>, r: seq<Row>)
    requires forall t :: t in ids ==> t in c.tracks.rows
    requires |r| == |ids| && forall i :: 0 <= i < |ids| ==> r[i] == (ids[i], c.tracks.rows[ids[i]])
    ensures forall t :: t in ids ==> (t, c.tracks.rows[t]) in r
  {
    forall t | t in ids ensures (t, c.tracks.rows[t]) in r {
      var i :| 0 <= i < |ids| && ids[i] == t;
      assert r[i] == (t, c.tracks.rows[t]);
    }
  }

  /** The album's tracks in playing order. */
  function PlayingOrder(c: Catalog, albumId: nat): (r: seq<Row>)
    ensures multiset(r) == multiset(AlbumRows(c, albumId))
  {
    SortTracks(AlbumRows(c, albumId))
  }

  /** The rows in playing order are exactly the album's stored tracks. */
  lemma PlayingOrderMembers(c: Catalog, albumId: nat)
    ensures forall x :: x in PlayingOrder(c, albumId) <==>
      x.0 in c.tracks.rows && x.1 == c.tracks.rows[x.0] && x.1.album == Some(albumId)
  {
    var rows := AlbumRows(c, albumId);
    var ordered := PlayingOrder(c, albumId);
    forall x ensures x in ordered <==> x in rows {
      assert x in ordered <==> x in multiset(ordered);
      assert x in rows <==> x in multiset(rows);
    }
    forall x | x in rows ensures x.0 in c.tracks.rows && x.1 == c.tracks.rows[x.0] && x.1.album == Some(albumId) {
      var i :| 0 <= i < |rows| && rows[i] == x;
    }
  }

  /** The tracks listed with an album are its tracks, by (disk, track) number, ties in id order. */
  lemma AlbumTracksInPlayingOrder(c: Catalog, albumId: nat)
    ensures var ordered := PlayingOrder(c, albumId);
      SortedByKey(ordered) && multiset(ordered) == multiset(AlbumRows(c, albumId))
      && forall i, j :: 0 <= i < j < |ordered| && Key(ordered[i].1) == Key(ordered[j].1) ==> ordered[i].0 < ordered[j].0
  {
    var rows := AlbumRows(c, albumId);
    SortTracksSpec(rows);
    var ordered := PlayingOrder(c, albumId);
    forall i, j | 0 <= i < j < |ordered| && Key(ordered[i].1) == Key(ordered[j].1) ensures ordered[i].0 < ordered[j].0 {
      assert ordered[i].0 <= ordered[j].0;
      DistinctIdsInOrder(rows, ordered, i, j);
    }
  }

  /** Two positions of a permutation of rows with distinct ids hold distinct ids. */
  lemma DistinctIdsInOrder(rows: seq<Row>, ordered: seq<Row>, i: int, j: int)
    requires IncreasingIds(rows) && multiset(ordered) == multiset(rows)
    requires 0 <= i < j < |ordered|
    ensures ordered[i].0 != ordered[j].0
  {
    assert ordered[i] in multiset(rows) && ordered[j] in multiset(rows);
    var a :| 0 <= a < |rows| && rows[a] == ordered[i];
    var b :| 0 <= b < |rows| && rows[b] == ordered[j];
    CountOfDistinct(rows, a);
    RepeatCounts(ordered, i, j);
    assert ordered[i] != ordered[j];
  }

  /** A value found at two positions occurs at least twice. */
  lemma RepeatCounts<T>(s: seq<T>, i: int, j: int)
    requires 0 <= i < j < |s|
    ensures s[i] == s[j] ==> multiset(s)[s[i]] >= 2
  {
    assert s == s[..j] + s[j..];
    assert s[i] == s[..j][i] && s[j] == s[j..][0];
    assert s[i] in multiset(s[..j]) && s[j] in multiset(s[j..]);
  }

  /** In rows with increasing ids each row occurs once. */
  lemma {:induction false} CountOfDistinct(rows: seq<Row>, a: int)
    requires IncreasingIds(rows) && 0 <= a < |rows|
    ensures multiset(rows)[rows[a]] == 1
  {
    if |rows| == 1 {
      assert rows == [rows[0]];
    } else if a == 0 {
      assert rows == [rows[0]] + rows[1..];
      assert rows[0] !in rows[1..];
    } else {
      assert rows == [rows[0]] + rows[1..];
      assert IncreasingIds(rows[1..]);
      CountOfDistinct(rows[1..], a - 1);
      assert rows[1..][a - 1] == rows[a];
    }
  }

  /** Python truthiness of the Artwork column: absent and 0 are false. */
  predicate HasArtwork(t: Track)
  {
    t.artwork.Some? && t.artwork.value != 0
  }

  /** The artwork of the first row that has any. */
  function FirstArtwork(rs: seq<Row>): (r: Option<nat>)
    ensures r.None? <==> forall i :: 0 <= i < |rs| ==> !HasArtwork(rs[i].1)
    ensures r.Some? ==> exists i :: (0 <= i < |rs| && HasArtwork(rs[i].1) && rs[i].1.artwork == r
      && forall j :: 0 <= j < i ==> !HasArtwork(rs[j].1))
  {
    if rs == [] then None
    else if HasArtwork(rs[0].1) then rs[0].1.artwork
    else
      var r := FirstArtwork(rs[1..]);
      assert forall j :: 0 <= j < |rs[1..]| ==> rs[1..][j] == rs[j + 1];
      r
  }
}
